=== FILE: README.md ===
# VoxelDynamics in Dafny

VoxelDynamics is a header-only C++ engine for collision detection and
rigid-body simulation in a sparse, chunked voxel world. Axis-aligned boxes
(bodies) and agent controllers move through a space of `VDGrid` chunks.
Each step, every agent and then every body is integrated from its queued
forces and impulses. Its voxel membership is re-registered. It is pushed
apart from the boxes it overlaps and then out of the occupied voxels it
overlaps, with one aggregated contact per direction. Under all of this is
a pooled allocator and an intrusive singly linked list. The samples add a
text format that saves a chunk's occupancy and reads it back.

This project models that engine and proves properties of the model.

| file | models |
|---|---|
| `wrappers.dfy` | `Option` and `Result` |
| `math.dfy` | `VDAbs`, `VDSign`, `VDAnd`, `VDMin`/`VDMax`, `VDVector3`/`VDVector3i` arithmetic, dot, cross, normal and tangential components, C++ truncation |
| `listspec.dfy` | what the `VDList` operations do to the sequence of items |
| `allocator.dfy` | `VDObjectPool` and `VDAllocator`, with LIFO reuse of slots |
| `list.dfy` | `VDList` as a chain of nodes in pool slots, and `VDHashList` bucket routing |
| `collider.dfy` | `VDDirection` and its conversions, and `VDAABB` |
| `collision.dfy` | `VDPenetrationField`, `VDManifold`, `VDAABBContact`, `collisionAABB`/`resolveAABBContact`, and the inside-origin case of `VDRayCastAABB` |
| `lattice.dfy` | the dense index arithmetic that `VDGrid` and `VDSpace` share |
| `grid.dfy` | `VDVoxel` and `VDGrid`: indices, occupancy, neighbour steps, sampling and collider registration |
| `space.dfy` | `VDSpace`: chunk slots, chunk sampling, collider registration across chunks, and `moveIndex` |
| `body.dfy` | `VDBody` (with its `VDCollider` part) and `VDAgentController` |
| `simulation.dfy` | `VDSimulation`: body creation, the agent and body passes, multi-voxel contact resolution, and static and dynamic contact resolution |
| `serializer.dfy` | `serializeChunk`, `split` and `deserializeChunk` from `samples/Common/Utils.h` |

Modelling choices:

- Vectors are triples of `real` and integer vectors are triples of `int`. Arithmetic is exact.
- `VDAABB` is copied by value everywhere in the source, so it is a datatype. Its setters return the updated box. A body holds its box in a `var` field that its methods reassign.
- Everything the source updates in place is a class: the object pool, the list, the grid, the space, the penetration field, the manifold, the contact, the body, the agent and the simulation. Fixed arrays stay arrays.
- A body's `forces` and `deltaMomentums` are pool-backed `VDList`s in the source and sequences here. Only their sums are used, and the order of prepending is kept.
- Pointers are integer identities.
  - A collider or body is named by its `id`.
  - A voxel is named by its chunk slot and index.
  - List items are `int`, compared as the source compares pointers and ids.
- A pool's memory is a map from slot to object, and a list's nodes live in pool slots. The process-wide `gAllocator` becomes an explicit pool passed to each list.
- `VDVector3::length` and `normalize` take a square root. They are function-valued fields of the simulation, and nothing proved depends on what they compute.
- A file is its sequence of lines. A file that cannot be opened is `None`.

Three behaviours a reader might not expect are modelled as the source has them:

- `simulate` applies the impulses before the forces (`include/VoxelDynamicsBody.h:83-91`).
- A dynamic contact scales both bodies' impulses by the first body's mass and restitution (`include/VoxelDynamicsSimulation.h:187-196`), not by the other body's mass.
- `updateAgent` queues gravity even on a sleeping agent (`include/VoxelDynamicsSimulation.h:104`). Only `simulateBodies` tests `sleeping`.

The neighbour test of multi-voxel resolution is modelled as the code evidently means it. The code as written is a finding below.

## Model

| member | source | states |
|---|---|---|
| VectorMath.Abs | include/VoxelDynamicsMath.h:272-277 | `VDAbs` is non-negative and equals `f` or `-f` |
| VectorMath.Sign | include/VoxelDynamicsMath.h:279-286 | `VDSign` is -1, 0 or 1, is 0 exactly for 0, and times `f` gives `VDAbs(f)` |
| VectorMath.And | include/VoxelDynamicsMath.h:289-294 | `VDAnd` is 0 when the signs differ and otherwise the common sign |
| VectorMath.Max | include/VoxelDynamicsMath.h:312-317 | `VDMax` returns one of its arguments and bounds both from above |
| VectorMath.Min | include/VoxelDynamicsMath.h:331-336 | `VDMin` returns one of its arguments and bounds both from below |
| VectorMath.MaxI | include/VoxelDynamicsMath.h:324-355 | the integer `VDMax` returns one of its arguments and bounds both |
| VectorMath.MinI | include/VoxelDynamicsMath.h:338-362 | the integer `VDMin` returns one of its arguments and bounds both |
| VectorMath.MaxV | include/VoxelDynamicsMath.h:319-322 | the vector `VDMax` bounds both componentwise and takes each component from one argument |
| VectorMath.MinV | include/VoxelDynamicsMath.h:345-348 | the vector `VDMin` is below both componentwise and takes each component from one argument |
| VectorMath.MaxVi | include/VoxelDynamicsMath.h:369-372 | the int-vector `VDMax`, componentwise |
| VectorMath.MinVi | include/VoxelDynamicsMath.h:364-367 | the int-vector `VDMin`, componentwise |
| VectorMath.ComponentsRecompose | include/VoxelDynamicsMath.h:430-438 | `VDTangentialComponent(v, n) + VDNormalComponent(v, n) == v` |
| VectorMath.TangentialOrthogonal | include/VoxelDynamicsMath.h:430-438 | for a unit normal the tangential part is orthogonal to it and the normal part keeps `v . n` |
| VectorMath.DotScale | include/VoxelDynamicsMath.h:425-428 | a factor comes out of `VDDot` |
| VectorMath.CrossOrthogonal | include/VoxelDynamicsMath.h:405-428 | `VDDot(VDCross(a, b), a) == 0` and `VDDot(VDCross(a, b), b) == 0` |
| VectorMath.TruncDiv | include/VoxelDynamicsMath.h:250-253 | C++ `int` division: the quotient truncates toward zero, so the remainder has the sign of the dividend and is smaller than the divisor |
| VectorMath.TruncToInt | include/VoxelDynamicsMath.h:214 | the `(int)` cast of a float truncates toward zero |
| VectorMath.TruncToIntBounds | include/VoxelDynamicsMath.h:214 | the cast never moves a value away from zero and moves it by less than 1 |
| VectorMath.TruncDivNegative | include/VoxelDynamicsMath.h:250-253 | `VDVector3i(7, -7, 6) / 2` is `(3, -3, 3)`: truncation, not Euclidean division |
| Allocation.FreshSlots | include/VoxelDynamicsAllocator.h:118-122 | the slots `addPool` pushes for slab `slab`: exactly `n` of them, offset `i` at position `i` |
| Allocation.ObjectPool.constructor | include/VoxelDynamicsAllocator.h:125-130 | a new pool has one slab of default objects, all of it available in slot order |
| Allocation.ObjectPool.AddPool | include/VoxelDynamicsAllocator.h:106-123 | one more slab of `capacity` default objects; its slots are pushed in order on top of the stack; old objects are unchanged |
| Allocation.ObjectPool.FillSlab | include/VoxelDynamicsAllocator.h:108-116 | the new slab holds exactly `capacity` default objects and no other object changes |
| Allocation.ObjectPool.PushSlab | include/VoxelDynamicsAllocator.h:118-122 | the stack grows by the new slab's slots in order, and the pool invariant (distinct, owned slots on the stack) is re-established |
| Allocation.ObjectPool.Allocate | include/VoxelDynamicsAllocator.h:137-146 | the top of the stack is handed out (after adding a slab when the stack was empty); the slot is in use afterwards and no object changes |
| Allocation.ObjectPool.Free | include/VoxelDynamicsAllocator.h:149-152 | the slot goes back on top of the stack; nothing else changes |
| Allocation.ObjectPool.Store | include/VoxelDynamicsAllocator.h:137-146 | a write through a handed-out slot changes that object only |
| Allocation.FreeThenAllocate | include/VoxelDynamicsAllocator.h:137-152 | last-in first-out reuse: freeing a slot and allocating again returns that slot and restores the stack |
| Allocation.Allocator.constructor | include/VoxelDynamicsAllocator.h:162-164 | a new allocator has no pools |
| Allocation.Allocator.CreatePool | include/VoxelDynamicsAllocator.h:166-170 | a fresh pool of the given capacity replaces the entry for that array size; other sizes keep their pools |
| Allocation.Allocator.AllocateFrom | include/VoxelDynamicsAllocator.h:195 | allocation from the existing pool of that size behaves as the pool's `allocate`; other pools are unchanged |
| Allocation.Allocator.Allocate | include/VoxelDynamicsAllocator.h:178-196 | a pool for the size is created only when missing, with the given capacity; existing pools are kept; the slot comes from that size's pool |
| Allocation.Allocator.AllocateDefault | include/VoxelDynamicsAllocator.h:172-176 | as `Allocate` with capacity `ALLOCATOR_INITIAL_CAPACITY` (100) |
| Allocation.Allocator.Free | include/VoxelDynamicsAllocator.h:198-209 | the slot is pushed back on the pool of that size; an unknown size changes nothing; other pools are unchanged |
| ListSpec.StrictlySortedDistinct | include/VoxelDynamicsAllocator.h:338-379 | a strictly increasing list holds no item twice |
| ListSpec.InsertSorted | include/VoxelDynamicsAllocator.h:309-336 | the items after `insertSorted`: one longer than before |
| ListSpec.InsertAfterSmaller | include/VoxelDynamicsAllocator.h:323-333 | the walk after the head links `x` in before the first item not smaller than it; one longer |
| ListSpec.InsertAfterSmallerProps | include/VoxelDynamicsAllocator.h:323-333 | on a sorted tail with a lower bound, the walk keeps the tail sorted and the bound |
| ListSpec.InsertSortedProps | include/VoxelDynamicsAllocator.h:309-336 | `insertSorted` adds exactly one copy of `x` (multiset) and keeps a sorted list sorted |
| ListSpec.InsertAfterSmallerMultiset | include/VoxelDynamicsAllocator.h:323-333 | the walk after the head adds exactly one copy of `x` |
| ListSpec.InsertSortedAt | include/VoxelDynamicsAllocator.h:309-336 | linking in after the node where the walk stops is `InsertSorted` |
| ListSpec.InsertSortedUnique | include/VoxelDynamicsAllocator.h:338-379 | when nothing is linked in the list is unchanged; otherwise it is one longer |
| ListSpec.InsertUniqueAfterSmallerProps | include/VoxelDynamicsAllocator.h:358-377 | on a strictly sorted tail above a bound, the walk links in exactly when `x` is absent and keeps the tail strictly sorted above the bound |
| ListSpec.InsertSortedUniqueMultiset | include/VoxelDynamicsAllocator.h:338-379 | on any list, `insertSortedUnique` either adds exactly one copy of `x` or changes nothing because `x` is present |
| ListSpec.InsertSortedUniqueStrict | include/VoxelDynamicsAllocator.h:338-379 | on a strictly sorted list it inserts exactly when `x` is absent, keeps the list strictly sorted, and the set becomes `old + {x}` |
| ListSpec.InsertSortedUniqueIdempotent | include/VoxelDynamicsAllocator.h:338-379 | a second `insertSortedUnique` of the same item links nothing in and changes nothing |
| ListSpec.InsertSortedUniqueAt | include/VoxelDynamicsAllocator.h:361-377 | after the walk, linking in when the next item is missing or larger, and nothing otherwise, is `InsertSortedUnique` |
| ListSpec.FirstIndex | include/VoxelDynamicsAllocator.h:394-406 | the position of the first item equal to `x` |
| ListSpec.RemoveFirst | include/VoxelDynamicsAllocator.h:381-407 | `remove` leaves an absent item's list unchanged and otherwise removes one item |
| ListSpec.RemoveFirstAt | include/VoxelDynamicsAllocator.h:381-407 | `remove` takes out exactly the item at the first match |
| ListSpec.RemoveSorted | include/VoxelDynamicsAllocator.h:409-439 | `removeSorted` either changes nothing or is `RemoveFirst` |
| ListSpec.RemoveSortedIsRemoveFirst | include/VoxelDynamicsAllocator.h:432-436 | on a sorted list the early exit loses nothing: `removeSorted` is `remove` |
| ListSpec.RemoveFirstProps | include/VoxelDynamicsAllocator.h:381-407 | `remove` keeps a sorted list sorted and above its bound |
| ListSpec.RemoveFirstStrict | include/VoxelDynamicsAllocator.h:381-407 | on a strictly sorted list `remove` leaves no copy of `x` and keeps it strictly sorted |
| ListSpec.RemoveFirstMultiset | include/VoxelDynamicsAllocator.h:381-407 | `remove` takes exactly one copy of `x` out of the multiset of items |
| ListSpec.RemoveFirstKeepsOrder | include/VoxelDynamicsAllocator.h:381-407 | `remove` takes one copy out and keeps sorted and strictly sorted lists so |
| ListSpec.RemoveSortedStrictSet | include/VoxelDynamicsAllocator.h:409-439 | on a strictly sorted list `removeSorted` leaves the set `old - {x}`, strictly sorted |
| Lists.List.constructor | include/VoxelDynamicsAllocator.h:251-256 | a new list is empty: no nodes, count 0, null head |
| Lists.List.AllocatedIsFresh | include/VoxelDynamicsAllocator.h:137-146 | a slot the pool hands out is not a node of any well-formed list whose nodes are in use |
| Lists.List.Insert | include/VoxelDynamicsAllocator.h:258-273 | `insert` prepends: the items become `[x] + old`, the new node heads the chain, the count grows by one and no object outside the list and the free stack changes |
| Lists.List.WriteFirst | include/VoxelDynamicsAllocator.h:260-271 | the single write of `insert` links the new node to the old head and keeps the chain well formed |
| Lists.List.LinkAfter | include/VoxelDynamicsAllocator.h:330-333 | a new node is spliced in after node `k`: the items become `old[..k+1] + [x] + old[k+1..]` |
| Lists.List.WriteLink | include/VoxelDynamicsAllocator.h:331-333 | the two writes of the splice leave a well-formed chain holding the spliced items |
| Lists.List.WalkSmaller | include/VoxelDynamicsAllocator.h:323-327 | the walk stops at the last node before the first item after the head that is not smaller than `x` |
| Lists.List.InsertSorted | include/VoxelDynamicsAllocator.h:309-336 | the items become `ListSpec.InsertSorted(old, x)` (sorted and a permutation of `old + [x]`, by the ListSpec lemmas) |
| Lists.List.InsertSortedUnique | include/VoxelDynamicsAllocator.h:338-379 | the items become `ListSpec.InsertSortedUnique(old, x)`; the result is non-null exactly when a node was added; nothing is allocated otherwise |
| Lists.List.UnlinkFirst | include/VoxelDynamicsAllocator.h:385-392 | the head node is unlinked and pushed back on the free stack |
| Lists.List.UnlinkAfter | include/VoxelDynamicsAllocator.h:397-404 | node `k+1` is unlinked and pushed back on the free stack; the items lose position `k+1` |
| Lists.List.WriteUnlink | include/VoxelDynamicsAllocator.h:399-400 | the one write of the unlink leaves a well-formed chain without node `k+1` |
| Lists.List.FindBefore | include/VoxelDynamicsAllocator.h:394-406 | the walk of `remove` finds the node before the first one holding `x`, or reports that no node holds it |
| Lists.List.Remove | include/VoxelDynamicsAllocator.h:381-407 | the items become `RemoveFirst(old, x)`; exactly the removed node is freed; an absent item changes nothing |
| Lists.List.RemoveSorted | include/VoxelDynamicsAllocator.h:409-439 | the items become `ListSpec.RemoveSorted(old, x)`, which on a sorted list is `RemoveFirst` (lemma `RemoveSortedIsRemoveFirst`) |
| Lists.List.Free | include/VoxelDynamicsAllocator.h:441-449 | every node goes back to the pool in chain order and the list is empty |
| Lists.List.ToVector | include/VoxelDynamicsAllocator.h:451-460 | the result is the items in chain order |
| Lists.List.Contains | include/VoxelDynamicsAllocator.h:287-295 | as intended: true exactly when some node holds `x` |
| Lists.List.InsertUnique | include/VoxelDynamicsAllocator.h:297-307 | as intended: `x` is prepended exactly when it was absent, and the result says whether it was |
| Lists.ContainsAsWritten | include/VoxelDynamicsAllocator.h:287-295 | `contains` as written: defined only on a non-empty list, and then true exactly when the head holds `x` |
| Lists.ContainsAsWrittenMisses | include/VoxelDynamicsAllocator.h:287-295 | `contains` as written answers false for 2 in `[1, 2]` |
| Lists.InsertUniqueAsWritten | include/VoxelDynamicsAllocator.h:297-307 | `insertUnique` as written: prepends unless the head holds `x`; undefined on an empty list |
| Lists.InsertUniqueAsWrittenDuplicates | include/VoxelDynamicsAllocator.h:297-307 | `insertUnique` as written turns `[1, 2]` into `[2, 1, 2]`, holding 2 twice |
| Lists.RemoveFirstAtIndex | include/VoxelDynamicsAllocator.h:394-406 | unlinking at the first match found by the walk is `RemoveFirst` |
| Lists.RemoveSortedWalk | include/VoxelDynamicsAllocator.h:422-438 | each way the walk of `removeSorted` ends (match, larger item, end of list) gives `ListSpec.RemoveSorted` |
| Lists.Hash | include/VoxelDynamicsAllocator.h:85-88 | a pointer's hash is its value cut to 32 bits: below 2^32, and the value itself when it fits |
| Lists.Bucket | include/VoxelDynamicsAllocator.h:521-525 | the bucket `hashValue() % arraySize` is a valid bucket index |
| Lists.FlattenMembers | include/VoxelDynamicsAllocator.h:571-582 | an item is among all items exactly when some bucket holds it |
| Lists.RoutedMembership | include/VoxelDynamicsAllocator.h:521-549 | when every item sits in its hash's bucket, an item is held exactly when its own bucket holds it |
| Lists.FindByHash | include/VoxelDynamicsAllocator.h:554-560 | a found item is in the bucket and has the hash; none is found only when no item of the bucket has it |
| Lists.HashList.constructor | include/VoxelDynamicsAllocator.h:502-510 | `arraySize` empty buckets |
| Lists.HashList.Rerouted | include/VoxelDynamicsAllocator.h:521-549 | replacing a bucket by one holding only its old items and `x` keeps every item in its hash's bucket |
| Lists.HashList.Insert | include/VoxelDynamicsAllocator.h:521-525 | only the item's bucket changes, by `insert`; items stay routed |
| Lists.HashList.InsertSorted | include/VoxelDynamicsAllocator.h:527-531 | only the item's bucket changes, by `insertSorted`; items stay routed |
| Lists.HashList.InsertSortedUnique | include/VoxelDynamicsAllocator.h:533-537 | only the item's bucket changes, by `insertSortedUnique`; items stay routed |
| Lists.HashList.Remove | include/VoxelDynamicsAllocator.h:539-543 | only the item's bucket changes, by `remove`; items stay routed |
| Lists.HashList.RemoveSorted | include/VoxelDynamicsAllocator.h:545-549 | only the item's bucket changes, by `removeSorted`; items stay routed |
| Lists.HashList.GetItemByHashValueAsWritten | include/VoxelDynamicsAllocator.h:551-562 | as written: searches the bucket for an item whose hash equals the bucket index, not the given hash |
| Lists.HashList.GetItemByHashValue | include/VoxelDynamicsAllocator.h:551-562 | as intended: the first item of the hash's bucket whose hash is the given one |
| Lists.HashList.ToList | include/VoxelDynamicsAllocator.h:571-582 | the result is all items, bucket by bucket, reversed (each one is inserted at the front) |
| Lists.PrependEach | include/VoxelDynamicsAllocator.h:576-579 | inserting each item of a bucket at the front prepends the bucket reversed |
| Lists.ReversedAppend | include/VoxelDynamicsAllocator.h:571-582 | reversal turns concatenation around, which carries `toList` from bucket to bucket |
| Lists.FindFirstWithHash | include/VoxelDynamicsAllocator.h:554-560 | the scan of one bucket returns `FindByHash` |
| Lists.LookupFindsHeldItem | include/VoxelDynamicsAllocator.h:551-562 | with the intended lookup, every held item is found by its own hash |
| Lists.LookupAsWrittenMisses | include/VoxelDynamicsAllocator.h:551-562 | the lookup as written misses item 13 in a 10-bucket list, which the intended one finds |
| Collider.Index | include/VoxelDynamicsCollider.h:10-18 | the enum value of a direction is below 6 |
| Collider.IndexInjective | include/VoxelDynamicsCollider.h:10-18 | distinct directions have distinct enum values |
| Collider.AlongAxis | include/VoxelDynamicsCollider.h:10-18 | the direction along an axis and side |
| Collider.Opposite | include/VoxelDynamicsCollider.h:20-43 | `VDDirectionOpposite` keeps the axis and flips the side |
| Collider.OppositeInvolution | include/VoxelDynamicsCollider.h:20-43 | `VDDirectionOpposite` is an involution with no fixed point |
| Collider.ToVector | include/VoxelDynamicsCollider.h:45-68 | `VDDirectionToVector` is the unit vector along the direction's axis, signed by its side |
| Collider.ToVectorOpposite | include/VoxelDynamicsCollider.h:20-68 | the opposite direction's vector is the negated vector, and every such vector has unit length |
| Collider.VectorToDirection | include/VoxelDynamicsCollider.h:96-137 | `VDVectorToDirection` picks an axis of largest magnitude, ties going X over Y over Z, and the positive side exactly when that component is >= 0 |
| Collider.VectorToDirectionInverse | include/VoxelDynamicsCollider.h:45-137 | `VDVectorToDirection(VDDirectionToVector(d)) == d` |
| Collider.AABB.SetMidPointAndHalfExtents | include/VoxelDynamicsCollider.h:427-431 | the corners stay; the centre is their midpoint and the box becomes consistent |
| Collider.AABB.SetLowAndHigh | include/VoxelDynamicsCollider.h:433-437 | the centre and half extents stay; the corners become `position -/+ halfExtents` |
| Collider.AABB.SetPosition | include/VoxelDynamicsCollider.h:473-477 | the new centre, the half extents kept, `low == position - halfExtents`, `high == position + halfExtents` |
| Collider.AABB.Translate | include/VoxelDynamicsCollider.h:479-483 | the centre moves by the translation, the half extents stay, the corners follow |
| Collider.AABB.SetHalfExtents | include/VoxelDynamicsCollider.h:485-489 | the new half extents, the centre kept, the corners follow |
| Collider.AABB.ExpandToInclude | include/VoxelDynamicsCollider.h:496-501 | the result's corners are the componentwise min of the lows and max of the highs, so it contains both boxes |
| Collider.AABB.IntersectionRegion | include/VoxelDynamicsCollider.h:522-528 | the region is `max(lows)` to `min(highs)`; for proper boxes the result is true exactly when `isIntersecting` holds |
| Collider.AABB.SkinnedAABB | include/VoxelDynamicsCollider.h:534-542 | a copy widened by the skin on every side, half extents grown by it, centre kept; a consistent box stays consistent |
| Collider.AABB.CrossSection | include/VoxelDynamicsCollider.h:544-568 | twice the product of the two half extents across the direction's axis |
| Collider.FromLowHigh | include/VoxelDynamicsCollider.h:439-446 | `VDAABB(low, high)` keeps the corners and is consistent |
| Collider.FromMidPointAndHalfExtents | include/VoxelDynamicsCollider.h:491-494 | the box with that centre and those half extents |
| Collider.DefaultBox | include/VoxelDynamicsCollider.h:448-451 | the unit box from the origin the default constructor evidently means |
| Collider.DefaultAsWritten | include/VoxelDynamicsCollider.h:448-451 | the default constructor as written: every member keeps the (0, 0, 0) of `VDVector3()` (include/VoxelDynamicsMath.h:60), so the box is degenerate, low equal to high |
| Collider.DefaultAsWrittenIsNotUnitBox | include/VoxelDynamicsCollider.h:448-451 | as written the default box is not the unit box: its high corner is not (1, 1, 1), it misses the point (0.5, 0.5, 0.5), and it holds the origin and no other point |
| Collider.IntersectionRegionContents | include/VoxelDynamicsCollider.h:515-528 | a point is in the overlap region exactly when it is in both boxes |
| Collider.ExpandContains | include/VoxelDynamicsCollider.h:496-520 | every point of either box is in the expanded box |
| Collider.CrossSectionOpposite | include/VoxelDynamicsCollider.h:544-568 | opposite directions have the same cross section |
| Collision.MaxMagnitude | include/VoxelDynamicsCollisionDetection.h:12-25 | the value a field entry holds after a run of insertions: at least 0, at least every inserted magnitude for its direction, and 0 or one of them |
| Collision.FieldAfterInsert | include/VoxelDynamicsCollisionDetection.h:18-25 | replacing an entry only when the new magnitude is strictly larger keeps every entry the maximum so far |
| Collision.PenetrationField.constructor | include/VoxelDynamicsCollisionDetection.h:12-16 | every entry zero, no voxel |
| Collision.PenetrationField.InsertPenetration | include/VoxelDynamicsCollisionDetection.h:18-25 | the direction's entry and voxel are replaced only when the magnitude is strictly larger; the other directions are untouched |
| Collision.Deepest | include/VoxelDynamicsCollisionDetection.h:249-253 | the deepest distance among the contacts, or 0: bounds every distance and is 0 or one of them |
| Collision.DeepestAtAppend | include/VoxelDynamicsCollisionDetection.h:245-256 | appending a contact keeps `deepestPenetration` the maximum (or 0) and its index the first entry that deep |
| Collision.Manifold.constructor | include/VoxelDynamicsCollisionDetection.h:236-242 | empty, with depth 0 |
| Collision.Manifold.InsertContact | include/VoxelDynamicsCollisionDetection.h:245-256 | with room, the contact is appended and the deepest entry tracked; a full manifold (8 contacts) is unchanged; never more than 8 |
| Collision.Manifold.ContactClosestToDirection | include/VoxelDynamicsCollisionDetection.h:264-279 | the index of the first contact reaching furthest along `dir`, starting from `-FLT_MAX` and index 0 |
| Collision.MinDirectionsUnique | include/VoxelDynamicsCollisionDetection.h:135-226 | the ordering rule of `setPenetrations` admits only one triple of directions |
| Collision.AABBContact.SetParameters | include/VoxelDynamicsCollisionDetection.h:84-90 | the four fields take the given values |
| Collision.AABBContact.AssignAsWritten | include/VoxelDynamicsCollisionDetection.h:97-107 | `operator=` as written: `pOtherContact` takes the source's `pContact` |
| Collision.AABBContact.Assign | include/VoxelDynamicsCollisionDetection.h:97-107 | `operator=` as intended: every field is copied from its counterpart |
| Collision.AssignAsWrittenExample | include/VoxelDynamicsCollisionDetection.h:97-107 | copying a contact between colliders 1 and 2 as written gives other collider 1; the intended copy gives 2 |
| Collision.AABBContact.GetPenetrationByDirection | include/VoxelDynamicsCollisionDetection.h:110-133 | twice the overlap half extent on the direction's axis, the same for opposite directions, which is the region's width on that axis |
| Collision.AABBContact.SetPenetrations | include/VoxelDynamicsCollisionDetection.h:135-226 | `minDirections` holds the three axes once each, ordered by non-decreasing overlap half extent with ties X, Y, Z, each on the positive side exactly when the quadrant component is > 0 |
| Collision.QuadrantSide | include/VoxelDynamicsCollisionDetection.h:140-224 | the direction along the axis that is positive only when the quadrant component is > 0; zero selects the negative side |
| Collision.EscapeOrder | include/VoxelDynamicsCollisionDetection.h:135-226 | the branches of `setPenetrations` produce a triple obeying the ordering rule |
| Collision.CollisionAABB | include/VoxelDynamicsCollisionDetection.h:283-294 | true exactly when the overlap region is proper; then the contact holds both colliders, the region, the sign of the centre offset and the ordered directions; otherwise it is unchanged |
| Collision.HitPenetrationNonNegative | include/VoxelDynamicsCollisionDetection.h:283-294 | a hit reports non-negative penetrations |
| Collision.ResolveAABBContact | include/VoxelDynamicsCollisionDetection.h:297-301 | the box is translated by the first direction's unit vector times its penetration; its size is kept |
| Collision.ResolveMovesAlongOneAxis | include/VoxelDynamicsCollisionDetection.h:297-301 | resolution moves the box along the escape axis only, by the penetration on that axis's side |
| Collision.RayCastAABBInside | include/VoxelDynamicsCollisionDetection.h:348-354 | a ray starting inside the box hits at its origin with distance 0 as an INTERNAL contact; `None` exactly for an origin outside |
| Lattice.CellIndexNonNegative | include/VoxelDynamicsSpace.h:88-91 | non-negative coordinates have a non-negative index |
| Lattice.Step | include/VoxelDynamicsSpace.h:216-243 | the one-cell step of a direction is that direction's unit vector |
| Lattice.CoordinatesOfIndex | include/VoxelDynamicsSpace.h:88-107 | `getCoordinates(getIndex(c)) == c` for coordinates within the first two extents |
| Lattice.IndexOfCoordinates | include/VoxelDynamicsSpace.h:88-107 | `getIndex(getCoordinates(i)) == i` for every index |
| Lattice.IndexBounds | include/VoxelDynamicsSpace.h:88-91 | a cell of the box has an index in [0, nx * ny * nz) |
| Lattice.CoordinatesInBox | include/VoxelDynamicsSpace.h:101-107 | an index in [0, nx * ny * nz) has coordinates inside the box |
| Lattice.CellIndexInjective | include/VoxelDynamicsSpace.h:88-91 | two cells of the box with the same index are the same cell |
| Lattice.DivModUnique | include/VoxelDynamicsSpace.h:101-107 | quotient and remainder are the unique pair with `a == q * n + r`, `0 <= r < n` |
| Lattice.DivBelow | include/VoxelDynamicsSpace.h:101-107 | a value below `m * n` has a quotient by `n` below `m` |
| Grids.Voxel.ToAABB | include/VoxelDynamicsSpace.h:63-66 | the unit cube at the voxel's low corner, centred on its midpoint |
| Grids.FillVoxels | include/VoxelDynamicsSpace.h:114-126 | the constructor's triple loop stores at every index the unoccupied voxel whose offsets are that index's coordinates |
| Grids.PositionIndexAsWritten | include/VoxelDynamicsSpace.h:138-143 | `getIndex(position)` as written: truncated coordinates converted to `VDuint` and combined modulo 2^32 |
| Grids.PositionIndexAsWrittenAliases | include/VoxelDynamicsSpace.h:138-143 | as written, a position one voxel left of a 2-grid maps to voxel (1, 0, 0) on the grid |
| Grids.PositionIndexAsWrittenShifts | include/VoxelDynamicsSpace.h:138-143 | integer coordinates given to the position overload on a grid with an integer low corner read the voxel at the coordinates minus the low corner, which is never the voxel at the coordinates themselves unless the low corner is the origin |
| Grids.SentinelReadsFarCorner | include/VoxelDynamicsSpace.h:138-143 | on a grid of size 20 with low corner (-20, -20, -20), the position overload reads the sentinel (-1, -1, -1) as voxel 7999, which is (19, 19, 19) |
| Grids.PositionIndex | include/VoxelDynamicsSpace.h:138-143 | as intended: the index of the voxel of the truncated coordinates, or -1 (as `VDuint`) exactly when those lie off the grid |
| Grids.PositionIndexFindsCell | include/VoxelDynamicsSpace.h:138-143 | with the correction, any position in a voxel's unit cell finds that voxel |
| Grids.VoxelContact | include/VoxelDynamicsSpace.h:68-75 | the contact of a box with a voxel: the box and the voxel as colliders, their overlap region, the sign of the centre offset |
| Grids.RemoveSortedTwice | include/VoxelDynamicsSpace.h:364-372 | on a strictly increasing list a second `removeSorted` of the same item changes nothing |
| Grids.MergeUnique | include/VoxelDynamicsSpace.h:337-343 | `insertSortedUnique` of each of a voxel's colliders keeps the list strictly increasing and adds exactly those colliders |
| Grids.Grid.constructor | include/VoxelDynamicsSpace.h:110-131 | a grid of `size`^3 voxels, each unoccupied, with no colliders, in place; no occupied voxels |
| Grids.Grid.GetIndex | include/VoxelDynamicsSpace.h:88-91 | for coordinates on the grid the index is below N^3 and leads back to the coordinates |
| Grids.Grid.GetCoordinates | include/VoxelDynamicsSpace.h:100-107 | for an index below N^3 the coordinates are on the grid and lead back to the index |
| Grids.Grid.ValidateCoordsIsRoundTrip | include/VoxelDynamicsSpace.h:88-107 | `validateCoords` holds exactly for the coordinates that survive `getCoordinates(getIndex(c))` |
| Grids.Grid.MoveIndex | include/VoxelDynamicsSpace.h:216-243 | the index of the neighbour one step away in the direction, or -1 (as `VDuint`) exactly when the step leaves the grid |
| Grids.Grid.MoveIndexBack | include/VoxelDynamicsSpace.h:216-243 | a step that stays on the grid is undone by a step in the opposite direction |
| Grids.Grid.GetOccupiedAsWritten | include/VoxelDynamicsSpace.h:159-163 | `getOccupied(index)` as written has no result off the grid |
| Grids.Grid.GetOccupiedAsWrittenFallsOff | include/VoxelDynamicsSpace.h:159-163 | as written, the index just past the grid has no answer; as intended it is unoccupied |
| Grids.Grid.GetOccupied | include/VoxelDynamicsSpace.h:159-163 | as intended: true exactly when the voxel is among the occupied ones, which are all on the grid |
| Grids.Grid.GetOccupiedAt | include/VoxelDynamicsSpace.h:152-157 | for coordinates on the grid, true exactly when an occupied voxel has those coordinates; off the grid, the occupancy of the voxel the flattened index aliases, which has other coordinates |
| Grids.Grid.GetVoxel | include/VoxelDynamicsSpace.h:179-183 | the voxel at the index, exactly when the index is on the grid |
| Grids.Grid.SetOccupied | include/VoxelDynamicsSpace.h:187-194 | idempotent marking: an unoccupied voxel on the grid is marked and prepended to the occupied voxels; an occupied or off-grid index changes nothing |
| Grids.Grid.SetOccupiedAt | include/VoxelDynamicsSpace.h:202-206 | coordinates on the grid end occupied; no other voxel changes |
| Grids.Grid.SetOccupiedAtPosition | include/VoxelDynamicsSpace.h:196-200 | a position whose truncated coordinates lie on the grid marks that voxel; one whose truncated coordinates lie off the grid changes nothing |
| Grids.Grid.Sample | include/VoxelDynamicsSpace.h:245-311 | the walk of the samplers: nothing when the box lies beyond the grid, otherwise exactly the (occupied) voxels between the truncated corners, each once |
| Grids.Grid.SampleSlice | include/VoxelDynamicsSpace.h:261-274 | the middle loop collects the voxels of one x-slice |
| Grids.Grid.SampleRow | include/VoxelDynamicsSpace.h:263-273 | the inner loop collects the voxels of one row |
| Grids.Grid.SampleStep | include/VoxelDynamicsSpace.h:265-272 | the loop body takes the cell's voxel exactly when it is on the grid (and occupied) |
| Grids.Grid.CollectedStep | include/VoxelDynamicsSpace.h:265-272 | one more cell keeps what is collected equal to the cells visited so far |
| Grids.Grid.SampleRegion | include/VoxelDynamicsSpace.h:279-311 | `sampleRegion`: every voxel of the grid between the truncated corners, each once; nothing for a box outside |
| Grids.Grid.SampleOccupiedRegion | include/VoxelDynamicsSpace.h:245-277 | `sampleOccupiedRegion`: exactly the occupied voxels between the truncated corners, each once; nothing for a box outside |
| Grids.Grid.SetColliders | include/VoxelDynamicsSpace.h:353-372 | one voxel's colliders are replaced; every other voxel is unchanged |
| Grids.Grid.SampleWithColliders | include/VoxelDynamicsSpace.h:313-351 | the occupied voxels of the region are prepended to the list and the colliders of every voxel of the region merged, strictly increasing, into the unique list |
| Grids.Grid.InsertCollider | include/VoxelDynamicsSpace.h:353-362 | the collider joins, once, the colliders of every voxel of the region and no other; the membership list becomes strictly increasing with exactly those voxels added |
| Grids.Grid.Register | include/VoxelDynamicsSpace.h:355-360 | the loop of `insertCollider` over the sampled voxels |
| Grids.Grid.RegisterOne | include/VoxelDynamicsSpace.h:357-358 | one voxel gains the collider and the membership list gains the voxel |
| Grids.Grid.RemoveCollider | include/VoxelDynamicsSpace.h:364-372 | the collider leaves every listed voxel's colliders, other voxels are unchanged, and the list ends empty |
| Grids.Grid.UpdateCollider | include/VoxelDynamicsSpace.h:374-378 | remove then insert: the collider is in exactly the voxels of the new region and the list is exactly those voxels |
| Spaces.UpdatedColliders | include/VoxelDynamicsSpace.h:584-588 | after `updateCollider` a voxel's colliders stay strictly increasing and hold the collider exactly when the voxel is in the new region (or held it without being listed); other colliders are untouched |
| Spaces.WrapAxis | include/VoxelDynamicsSpace.h:620-650 | a one-cell step that leaves [0, N) wraps to the opposite face and moves the chunk coordinate by the step; the global position advances by the step |
| Spaces.Space.Chunk | include/VoxelDynamicsSpace.h:384-392 | an occupied slot's chunk is a valid grid of the space's chunk size whose `chunkIndex` is the slot |
| Spaces.Space.constructor | include/VoxelDynamicsSpace.h:421-439 | H*H*V slots, all empty |
| Spaces.Space.GetIndex | include/VoxelDynamicsSpace.h:456-459 | a coordinate passing `validateChunkCoord` has a slot index on the array that leads back to it |
| Spaces.Space.GetCoordinates | include/VoxelDynamicsSpace.h:652-659 | an index on the slot array has valid coordinates that lead back to it |
| Spaces.Space.ChunkCoordRoundTrip | include/VoxelDynamicsSpace.h:441-459 | `validateChunkCoord` holds exactly for the coordinates that survive `getCoordinates(getIndex(c))` |
| Spaces.Space.SetChunkOccupied | include/VoxelDynamicsSpace.h:466-474 | a valid coordinate's slot gets a fresh empty chunk; every other slot, and everything for an invalid coordinate, is unchanged |
| Spaces.Space.SampleChunks | include/VoxelDynamicsSpace.h:520-550 | exactly the occupied slots whose coordinates lie between the box corners' chunk coordinates (truncated, then divided by the chunk size), each once; nothing for a box outside |
| Spaces.Space.SampleChunkRow | include/VoxelDynamicsSpace.h:538-547 | the inner loop of `sampleChunks` collects one row of slots |
| Spaces.Space.SampleChunkStep | include/VoxelDynamicsSpace.h:539-546 | the loop body takes a slot exactly when its coordinate is valid and it is occupied |
| Spaces.Space.ChunksCollectedStep | include/VoxelDynamicsSpace.h:539-546 | one more slot keeps what is collected equal to the slots visited so far |
| Spaces.Space.SampleOccupiedRegion | include/VoxelDynamicsSpace.h:552-560 | the occupied voxels of the region in every sampled chunk are prepended and the colliders registered there merged, strictly increasing, into the unique list |
| Spaces.Space.SampleOneChunk | include/VoxelDynamicsSpace.h:555-558 | one chunk's walk extends what has been sampled by that chunk's part of the region |
| Spaces.Space.InsertCollider | include/VoxelDynamicsSpace.h:562-572 | one membership list per sampled chunk, named by the chunk's index and holding exactly the chunk's voxels in the region, is prepended; the collider joins those voxels and no others |
| Spaces.Space.RegisterAll | include/VoxelDynamicsSpace.h:565-570 | the loop of `insertCollider` over the sampled chunks |
| Spaces.Space.RegisterStep | include/VoxelDynamicsSpace.h:567-569 | one chunk: a new membership list is prepended and the chunk registers the collider |
| Spaces.Space.RegisterInChunk | include/VoxelDynamicsSpace.h:569 | the chunk's `insertCollider` on an empty membership list |
| Spaces.Space.MembershipsCons | include/VoxelDynamicsSpace.h:567-569 | prepending a list for a new chunk keeps the lists describing the registration |
| Spaces.Space.MembershipsListed | include/VoxelDynamicsSpace.h:574-582 | lists that describe a registration name only voxels that exist, as `removeCollider` needs |
| Spaces.Space.RemoveCollider | include/VoxelDynamicsSpace.h:574-582 | the collider leaves every voxel on its membership lists, other voxels are unchanged, and the lists end empty |
| Spaces.Space.NothingRemovedYet | include/VoxelDynamicsSpace.h:574-582 | before the loop nothing has been removed |
| Spaces.Space.UnregisterAll | include/VoxelDynamicsSpace.h:576-580 | the loop of `removeCollider` over the membership lists |
| Spaces.Space.UnregisterStep | include/VoxelDynamicsSpace.h:578-579 | one list: its chunk drops the collider from the listed voxels |
| Spaces.Space.UnregisterInChunk | include/VoxelDynamicsSpace.h:579 | the chunk's `removeCollider` on one list |
| Spaces.Space.UpdateCollider | include/VoxelDynamicsSpace.h:584-588 | remove then insert: the lists describe exactly the chunks and voxels of the current box and every voxel holds the collider exactly when it is in that region |
| Spaces.Space.MoveIndexAsWritten | include/VoxelDynamicsSpace.h:590-596 | `moveIndex` as written returns the sentinel (-1, -1, -1) for every slot on the array |
| Spaces.Space.MoveIndexAsWrittenNeverMoves | include/VoxelDynamicsSpace.h:590-596 | as written, no valid chunk coordinate ever gets past the first guard |
| Spaces.Space.MoveIndexSteps | include/VoxelDynamicsSpace.h:590-650 | with the guard corrected, from every occupied slot the step lands on a voxel of the same or the neighbouring chunk, one step further in the global voxel grid |
| Bodies.SumScaledIsScaledSum | include/VoxelDynamicsBody.h:44-63 | adding each queued vector times a factor is adding the factor times their sum |
| Bodies.SumPrepend | include/VoxelDynamicsAllocator.h:258-273 | a vector queued at the front of a list adds itself to the sum |
| Bodies.Body.constructor | include/VoxelDynamicsBody.h:31-42 | a body at rest, awake, with gravity, restitution and friction 0.5, empty queues, its box built from centre and half extents |
| Bodies.Body.Translate | include/VoxelDynamicsCollider.h:479-483 | the box translates; nothing else about the body changes |
| Bodies.Body.ApplyDeltaMomentums | include/VoxelDynamicsBody.h:44-52 | velocity gains (sum of impulses) / mass and the impulse queue ends empty; nothing else changes |
| Bodies.Body.ApplyForces | include/VoxelDynamicsBody.h:55-63 | velocity gains (sum of forces) * dt / mass and the force queue ends empty; nothing else changes |
| Bodies.Body.ClearForces | include/VoxelDynamicsBody.h:65-69 | both queues end empty; nothing else changes |
| Bodies.Body.SetSleeping | include/VoxelDynamicsBody.h:72-80 | the flag is set; falling asleep empties both queues, waking leaves them |
| Bodies.Body.Simulate | include/VoxelDynamicsBody.h:83-91 | a sleeping body is unchanged; an awake one applies impulses, then forces, then translates by velocity * dt |
| Bodies.Agent.constructor | include/VoxelDynamicsBody.h:104-109 | a body of mass 1 at rest, not grounded |
| Bodies.Agent.Move | include/VoxelDynamicsBody.h:111-114 | translation by direction * dt * speed; velocity and queues untouched |
| Bodies.Agent.Jump | include/VoxelDynamicsBody.h:117-124 | when grounded, an upward impulse of the given size is queued first and the agent leaves the ground; otherwise nothing changes |
| Bodies.JumpImpulse | include/VoxelDynamicsBody.h:117-124 | the queued jump adds exactly (0, force, 0) to the impulse sum |
| Dynamics.DirectionOf | include/VoxelDynamicsSimulation.h:96-97 | the cast `(VDDirection)i` is the direction whose enum value is `i` |
| Dynamics.NormalsDistinct | include/VoxelDynamicsSimulation.h:92-99 | distinct field entries push along distinct unit normals |
| Dynamics.PositiveEntriesExact | include/VoxelDynamicsSimulation.h:92-99 | the entries the closing loop turns into contacts are exactly the positive ones below `n`, each once, highest first |
| Dynamics.EntriesStep | include/VoxelDynamicsSimulation.h:92-99 | entry `n - 1` is listed first when positive and left out otherwise |
| Dynamics.EntriesBelow | include/VoxelDynamicsSimulation.h:92-99 | every listed entry is below `n` and positive |
| Dynamics.EntriesMembership | include/VoxelDynamicsSimulation.h:92-99 | an entry below `n` is listed if and only if it is positive |
| Dynamics.EntriesDescending | include/VoxelDynamicsSimulation.h:92-99 | the listed entries strictly decrease, since each contact is prepended |
| Dynamics.FieldContactsEntries | include/VoxelDynamicsSimulation.h:92-99 | contact `k` is the contact of the `k`-th listed positive entry |
| Dynamics.ContactWithVoxel | include/VoxelDynamicsSimulation.h:66-68 | the contact with a voxel holds the overlap region and its three escape directions by increasing overlap |
| Dynamics.CollectContacts | include/VoxelDynamicsSimulation.h:92-99 | the loop builds the field's contacts: one per positive entry, prepended in entry order |
| Dynamics.FieldContactsComplete | include/VoxelDynamicsSimulation.h:92-99 | entry `i` gives a contact if and only if its maximum penetration is positive |
| Dynamics.FieldContactsDistinct | include/VoxelDynamicsSimulation.h:92-99 | every contact has a positive depth and no two contacts share a normal |
| Dynamics.FieldContactsLanded | include/VoxelDynamicsSimulation.h:130-134 | some contact pushes up if and only if the upward entry is positive, so the contact list and the grounding test agree |
| Dynamics.Pushes | include/VoxelDynamicsSimulation.h:126-129 | one displacement per contact |
| Dynamics.PushesStep | include/VoxelDynamicsSimulation.h:126-129 | translating by the pushes of the first `k` contacts and then the next is translating by the pushes of the first `k + 1` |
| Dynamics.Neighbour | include/VoxelDynamicsSimulation.h:69-71 | the neighbour a step reaches, when there is one, is an existing voxel, found in the neighbour's chunk through the coordinate overload of `getIndex` as intended |
| Dynamics.BlockedAsWrittenMissesNeighbours | include/VoxelDynamicsSimulation.h:70-72 | the `!valid` inversion of the test, isolated on the corrected `moveIndex` from the voxel's own chunk coordinate, with the index read through the position overload as written: a step onto an occupied neighbour is never seen as blocked |
| Dynamics.OccupiedAsWrittenIgnoresVoxel | include/VoxelDynamicsSimulation.h:69-72 | as written, the first occupancy test of a voxel gives the occupancy of the one voxel that the sentinel (-1, -1, -1) names in the voxel's chunk once the chunk's low corner is subtracted, whatever the voxel and the direction |
| Dynamics.SampleSceneTestsFarCorner | include/VoxelDynamicsSimulation.h:69-72 | as written, with chunks of 20 voxels and anchor (-20, -20, -20), as in samples/HelloVoxelDynamics/main.cpp, every voxel of chunk 0 tests voxel 7999, which is (19, 19, 19) |
| Dynamics.NeighbourIsAdjacent | include/VoxelDynamicsSimulation.h:69-71 | with the corrections, the neighbour a step reaches is the voxel one step away in the space's global voxel grid, also across a chunk face |
| Dynamics.MoveFromDriftedAsWrittenIsAChunkOff | include/VoxelDynamicsSimulation.h:60-77 | with the guard of `moveIndex` corrected, once a step has crossed into the next chunk, the later `moveIndex` from the moved `chunkCoords` (the second direction, or a later voxel of the same chunk) lands a whole chunk away, in the first step's direction, from the voxel next door |
| Dynamics.Escape | include/VoxelDynamicsSimulation.h:66-68 | three escape directions per voxel |
| Dynamics.Contribution | include/VoxelDynamicsSimulation.h:68-90 | as intended: a voxel inserts its cheapest unblocked escape direction with the overlap along it, the second only when the first is blocked, nothing if and only if both are blocked |
| Dynamics.ContributionsSnoc | include/VoxelDynamicsSimulation.h:59-91 | walking one more voxel appends its contribution |
| Dynamics.GatherContributions | include/VoxelDynamicsSimulation.h:59-91 | the voxels' contributions in list order, each with the voxel it came from |
| Dynamics.QueuedGravity | include/VoxelDynamicsSimulation.h:205-207 | queuing gravity times the mass adds gravity times `dt` to the integrated velocity, whatever the mass |
| Dynamics.NormalImpulseDamps | include/VoxelDynamicsSimulation.h:148-149 | against a face of the grid the normal impulse has no tangential part and leaves (1 - restitution) of the velocity along the normal |
| Dynamics.UnitNormalImpulse | include/VoxelDynamicsSimulation.h:148-149 | the same for any unit normal |
| Dynamics.DampsAlong | include/VoxelDynamicsSimulation.h:148-149 | a vector along a unit normal, scaled to minus `r` times the approach speed, leaves (1 - r) of that speed |
| Dynamics.ImpulseAlongNormal | include/VoxelDynamicsSimulation.h:148-149 | the normal impulse is the normal times the reversed projection, mass and restitution |
| Dynamics.PairImpulsesCancel | include/VoxelDynamicsSimulation.h:187-196 | impulses that are opposite entry by entry add up to nothing |
| Dynamics.HalvesCancel | include/VoxelDynamicsSimulation.h:165-166 | the two half corrections are opposite and part the bodies by the whole penetration |
| Dynamics.AgentPush | include/VoxelDynamicsSimulation.h:113-115 | a push exists if and only if the boxes overlap; it is never negative and never points into the other box's half of space |
| Dynamics.AgentPushIs | include/VoxelDynamicsSimulation.h:113-115 | the push is the first escape direction of the overlap, as deep as the overlap is wide along it |
| Dynamics.Find | include/VoxelDynamicsSimulation.h:217 | a body found has the identity; none found means no body has it |
| Dynamics.Simulation.constructor | include/VoxelDynamicsSimulation.h:29-37 | the space as given with every grid empty, no bodies or agents, gravity (0, -9.81, 0), `dtCap` 1/60 and `frictionFactor` 0.15 |
| Dynamics.Simulation.CreateAABBBody | include/VoxelDynamicsSimulation.h:41-47 | a fresh body at rest on the box with the mass is put at the head of the bodies and registered in exactly the chunks its box samples |
| Dynamics.Simulation.RegisteredBody | include/VoxelDynamicsSimulation.h:43-44 | the new body is registered in exactly the chunks its box samples |
| Dynamics.Simulation.CreateAgentController | include/VoxelDynamicsSimulation.h:49-53 | a fresh agent with the speed, at rest on the box, not grounded, at the head of the agents; the bodies are unchanged |
| Dynamics.Simulation.Partner | include/VoxelDynamicsSimulation.h:214-219 | the collider a registered identity names, never the body itself |
| Dynamics.Simulation.MultiVoxelContactResolution | include/VoxelDynamicsSimulation.h:55-100 | the field receives the voxels' contributions in list order and the contacts are those of its positive entries |
| Dynamics.Simulation.InsertContributions | include/VoxelDynamicsSimulation.h:59-91 | the field receives the voxels' contributions in list order |
| Dynamics.Simulation.SimulateAgents | include/VoxelDynamicsSimulation.h:139-143 | every agent is updated; the simulation stays consistent |
| Dynamics.Simulation.UpdateAgent | include/VoxelDynamicsSimulation.h:102-135 | the agent gains the integrated velocity with gravity; `sampled` and `unique` are the occupied voxels and the colliders of the integrated box's region; the box is pushed through `unique` in order and then by the contacts of the field of the contributions of `sampled`; it lands, with vertical velocity zeroed, exactly when a box push or a voxel contact pushes it up; the simulation stays consistent |
| Dynamics.Simulation.StepAgent | include/VoxelDynamicsSimulation.h:102-135 | the same effect on the agent as `UpdateAgent`, with the space left valid and the agent's body usable |
| Dynamics.Simulation.ResolveAgent | include/VoxelDynamicsSimulation.h:107-134 | from the box it has, the agent is pushed through the colliders of its region in order and then by the voxel contacts of its region, and lands exactly when one of those pushes is up; its queues and sleep are untouched |
| Dynamics.Simulation.SampleRegion | include/VoxelDynamicsSimulation.h:107-109 | the sampled voxels are exactly the occupied voxels of the box's region, all of them existing, and the unique colliders, strictly increasing, exactly those registered there |
| Dynamics.Simulation.PushAgent | include/VoxelDynamicsSimulation.h:110-134 | the agent is pushed through `unique` in order, then by the contacts of the field of the contributions of `sampled` at the box those pushes left, and lands exactly when one push is up |
| Dynamics.Simulation.LandAgent | include/VoxelDynamicsSimulation.h:126-134 | the box moves by the sum of the contacts' pushes; an upward push grounds the agent and zeroes its vertical velocity, and nothing else changes |
| Dynamics.Simulation.PushedThroughSnoc | include/VoxelDynamicsSimulation.h:110-122 | one more collider in the loop is one more push at the end, and lands the agent exactly when the earlier ones did or it pushes up |
| Dynamics.Simulation.LandsOnSomePush | include/VoxelDynamicsSimulation.h:110-122 | the loop lands the agent exactly when some collider, at the box the earlier ones pushed it to, pushes it up |
| Dynamics.Simulation.ColliderTurn | include/VoxelDynamicsSimulation.h:112-121 | one collider moves the agent's box by its push, when it names a body the box overlaps, and grounds the agent, with vertical velocity zeroed, exactly when that push is up |
| Dynamics.Simulation.IntegrateAgent | include/VoxelDynamicsSimulation.h:104-105 | gravity is queued; an awake agent integrates it with its queues and moves by velocity * dt, a sleeping one keeps it queued |
| Dynamics.Simulation.ResolveAgentVoxels | include/VoxelDynamicsSimulation.h:123-134 | the contacts are those of the field of the contributions of the sampled voxels against the agent's box; the agent moves by the sum of their pushes and lands, with vertical velocity zeroed, exactly when one pushes up |
| Dynamics.Simulation.VoxelContacts | include/VoxelDynamicsSimulation.h:123-130 | the contacts are those of the maxima of the voxels' contributions against the box; they have positive depths and distinct normals, and the upward entry is positive exactly when one pushes up |
| Dynamics.MaximaContacts | include/VoxelDynamicsSimulation.h:92-99 | the contacts of a field's maxima are positive, push along distinct normals and include an upward one exactly when the upward maximum is positive |
| Dynamics.MaximaOfField | include/VoxelDynamicsCollisionDetection.h:18-25 | a field holds, per direction, the maximum of the magnitudes inserted along it |
| Dynamics.FieldOfContributions | include/VoxelDynamicsSimulation.h:92-99 | the contacts read off a field are those of the maxima of its insertions, positive and with distinct normals, and its upward entry is positive exactly when one pushes up |
| Dynamics.Simulation.SampledExist | include/VoxelDynamicsSpace.h:552-560 | every voxel the region sampling returns exists |
| Dynamics.Simulation.ResolveAgentColliders | include/VoxelDynamicsSimulation.h:110-122 | the agent's box is pushed by each collider of `unique` in list order, and the agent lands, with vertical velocity zeroed, exactly when one of those pushes is up |
| Dynamics.Simulation.AgentContact | include/VoxelDynamicsSimulation.h:112-121 | the agent moves by the push out of the other box and reports whether it pushed up |
| Dynamics.Simulation.ApplyContacts | include/VoxelDynamicsSimulation.h:126-129 | the body moves by the sum of the contacts' pushes and nothing else changes |
| Dynamics.Simulation.SimulateBodies | include/VoxelDynamicsSimulation.h:201-241 | every body takes its turn; the simulation stays consistent |
| Dynamics.Simulation.StepBody | include/VoxelDynamicsSimulation.h:203-240 | an awake body gains the free integration plus gravity * dt when it uses gravity and is registered in exactly the chunks of the box moved by velocity * dt; a sleeping one keeps its velocity and its registration follows its box |
| Dynamics.Simulation.MoveBody | include/VoxelDynamicsSimulation.h:205-208 | an awake body is integrated, with gravity * dt when it uses gravity, moves by velocity * dt and empties its queues; a sleeping one keeps its motion; either way it is registered in exactly the chunks its new box samples |
| Dynamics.Simulation.ResolveBody | include/VoxelDynamicsSimulation.h:211-239 | the pushes change no registration |
| Dynamics.Simulation.IntegrateBody | include/VoxelDynamicsSimulation.h:205-207 | an awake body under gravity gains gravity * dt on top of its free integration and moves by velocity * dt; a sleeping one keeps its motion |
| Dynamics.Simulation.ResolveBodyPairs | include/VoxelDynamicsSimulation.h:215-232 | every body stays consistent and keeps its registration |
| Dynamics.Simulation.PairContact | include/VoxelDynamicsSimulation.h:217-230 | overlapping bodies move half the depth each, in opposite directions along the first escape direction; a slow contact sleeps the body on an upward normal and queues nothing, a fast one wakes the other body and queues the paired impulses; without an overlap neither moves |
| Dynamics.Simulation.DynamicImpulsesCancel | include/VoxelDynamicsSimulation.h:187-196 | the impulses of a dynamic contact are opposite one by one and sum to nothing |
| Dynamics.Simulation.ResolveDynamic | include/VoxelDynamicsSimulation.h:162-199 | equal and opposite half corrections; a slow contact sleeps the first body on an upward normal and queues nothing, a fast one wakes the other body and queues the paired impulses |
| Dynamics.Simulation.QueueDynamicImpulses | include/VoxelDynamicsSimulation.h:181-197 | the other body wakes; the impulses are queued in front of each queue and nothing else changes |
| Dynamics.Simulation.ResolveStaticContacts | include/VoxelDynamicsSimulation.h:236-239 | the body moves by the sum of the contacts' pushes; its velocity is untouched |
| Dynamics.Simulation.ResolveStatic | include/VoxelDynamicsSimulation.h:145-160 | the body moves by the push and queues the normal then the friction impulse, or, slow on an upward normal, falls asleep with empty queues |
| Dynamics.Simulation.Simulate | include/VoxelDynamicsSimulation.h:243-249 | the step is `dt` capped at `dtCap`, and agents are updated before bodies |
| Serializer.Decimal | samples/Common/Utils.h:737 | `operator<<` on an unsigned value writes a non-empty run of digits with no leading zero |
| Serializer.DecimalValue | samples/Common/Utils.h:737 | the digits written are worth the value |
| Serializer.LeadingSpaces | samples/Common/Utils.h:774 | the white space at the front of the text, and no more |
| Serializer.LeadingDigits | samples/Common/Utils.h:792-801 | the digits at the front of the text, and no more |
| Serializer.ParseUnsigned | samples/Common/Utils.h:792-806 | `stoul` yields a value that fits in `unsigned long`, or fails |
| Serializer.ParseDecimal | samples/Common/Utils.h:792 | what `operator<<` writes for a value below 2^64, `stoul` reads back |
| Serializer.LeadingWord | samples/Common/Utils.h:774 | the word at the front of the text: all of its characters, up to white space |
| Serializer.TokensAreWords | samples/Common/Utils.h:769-778 | every token `split` returns is non-empty and holds no white space |
| Serializer.WordLength | samples/Common/Utils.h:774 | a word followed by white space or the end is read whole |
| Serializer.TokensPrefix | samples/Common/Utils.h:769-778 | such a word is the first token and the rest is split on |
| Serializer.TokensSpace | samples/Common/Utils.h:774 | leading white space is skipped |
| Serializer.TokensWordSpace | samples/Common/Utils.h:769-778 | a word, a space and more text split into the word and the split of the rest |
| Serializer.TokensUnwords | samples/Common/Utils.h:769-778 | splitting words joined by single spaces gives the words back |
| Serializer.TokensOfThree | samples/Common/Utils.h:794-795 | the anchor line written as three words splits into those three words |
| Serializer.ScanWordEnd | samples/Common/Utils.h:774-776 | white space ends the word being read, which is pushed |
| Serializer.ScanSkip | samples/Common/Utils.h:774 | white space with no word being read is skipped |
| Serializer.ScanWord | samples/Common/Utils.h:774 | any other character extends the word |
| Serializer.Split | samples/Common/Utils.h:769-778 | the loop returns exactly the tokens of the text |
| Serializer.OccupiedInRow | samples/Common/Utils.h:748 | `getOccupied(x, y, z)` on the grid is true exactly when voxel x of row (y, z) is occupied |
| Serializer.RowOf | samples/Common/Utils.h:744-757 | the row holds '1' at `x` exactly where voxel (x, y, z) is occupied, and `rowEmpty` says it holds no '1' |
| Serializer.Serialize | samples/Common/Utils.h:727-767 | the file is the size, the anchor line and a "y z row" line for every non-empty row, z outer and y inner; no file when it cannot be opened |
| Serializer.ErrSticks | samples/Common/Utils.h:797-813 | a row that fails makes the whole file fail |
| Serializer.Mark | include/VoxelDynamicsSpace.h:187-206 | `setOccupied` adds the index to the occupied voxels when it is on the grid, and nothing else |
| Serializer.RowCellsStep | samples/Common/Utils.h:802-811 | reading character `x` adds voxel `x` of the row exactly when the character is not '0' and its wrapped index lies on the grid, as `setOccupied` does |
| Serializer.ReadRow | samples/Common/Utils.h:802-811 | the row reads if and only if its first `gridSize` characters are digits, and then marks the voxels whose character is not '0' |
| Serializer.ReadLine | samples/Common/Utils.h:799-811 | one line reads exactly when `DecodeRow` succeeds, and marks what it decodes |
| Serializer.Deserialize | samples/Common/Utils.h:780-817 | the grid read has the size, anchor and occupied voxels `Decode` gives the file, and fails exactly when `Decode` does |
| Serializer.ReadRows | samples/Common/Utils.h:797-813 | the loop reads exactly when `DecodeRows` succeeds, and marks what it decodes |
| Serializer.RowFits | samples/Common/Utils.h:740-757 | every row lies on the grid |
| Serializer.SideFits | include/VoxelDynamicsMath.h:9 | a side whose voxel count fits in a `VDuint` is below 2^32 |
| Serializer.RowUnwrapped | samples/Common/Utils.h:809 | the indices of a row on such a grid do not wrap |
| Serializer.RowTokens | samples/Common/Utils.h:760-801 | a written row line splits into its coordinates and row, and the coordinates read back |
| Serializer.DecimalIsWord | samples/Common/Utils.h:760 | written digits are a word |
| Serializer.RowTextIsWord | samples/Common/Utils.h:744-757 | a row of a grid of positive size is a word |
| Serializer.DecodeRowLine | samples/Common/Utils.h:760-811 | reading the line of a row marks exactly the occupied voxels of that row |
| Serializer.EmptyRow | samples/Common/Utils.h:758 | a row that is not written holds no occupied voxel |
| Serializer.DecodeSnoc | samples/Common/Utils.h:797-813 | one more line that reads adds its voxels |
| Serializer.CellsBelowSplit | samples/Common/Utils.h:740-763 | the voxels below a row's end are those below its start and those on it |
| Serializer.DecodeEmittedStep | samples/Common/Utils.h:742-762 | one more row along a z-layer reads back its voxels |
| Serializer.DecodeLayerStep | samples/Common/Utils.h:740-763 | the end of one z-layer is the start of the next |
| Serializer.RowNext | samples/Common/Utils.h:742 | the next row along a z-layer starts a side further on |
| Serializer.LayerEnd | samples/Common/Utils.h:740 | the end of one z-layer is where the next begins |
| Serializer.DecodeEmitted | samples/Common/Utils.h:740-763 | the lines written for the rows before row (y, z) read back as exactly the occupied voxels before it |
| Serializer.RoundTrip | samples/Common/Utils.h:727-817 | reading what `serializeChunk` writes gives back the size, the occupied voxels and the anchor as `stof` of what was written |
| Serializer.RowsRead | samples/Common/Utils.h:740-763 | the rows of a whole grid read back as its occupied voxels |
| Serializer.GridRoundTrip | samples/Common/Utils.h:727-817 | saving a grid and reading the file back gives a grid of the same size with the same occupied voxels |
| Serializer.UnopenableIsEmpty | samples/Common/Utils.h:784-787 | a file that cannot be opened reads as an empty grid of size 0 |

## Left out

- Rendering, windowing, input, the demo scenes and the noise terrain generator: graphics calls, interactive loops and a foreign noise library.
- Quaternions, matrices, `VDOBB`, `VDImplicitPlane`, `VDEdge`, the plane raycasts, the box-against-plane manifold and all but the inside-origin branch of `VDRayCastAABB`: floating point and trigonometry with square roots. Some of them call helpers that are not part of this model.
- `VDVector3::length` and `normalize`, and with them the friction direction: they are parameters, uninterpreted, because they take a square root.
- `operator+=` and `normalize` change their receiver. Vectors are values here, so each use is a new value.
- Floating point: all arithmetic is exact `real` arithmetic, with no rounding, NaN or infinity.
- `VDBody` has a default constructor, which nothing in the core calls; only the constructor from centre, half extents and mass is modelled. Mass 0, where the source divides by zero, is excluded by a precondition.
- `agent.momentum` is not a field of `VDBody`. The vertical velocity `body.velocity.y` stands for it.
- `VDContactPoint` is not defined in any source file of this model. It is a datatype with the fields the simulation uses.
- `VDGrid` needs N³ ≤ 2^32 - 1 so that its indices fit in a `VDuint`. Larger grids wrap their 32-bit indices, and the model does not follow them. Chunk slot indices of `VDSpace` are unbounded integers.
- Grids.Grid.GetIndex: 32-bit wrap-around is not modelled, because the bound above keeps every index of a grid below 2^32.
- `VDSpace::insertChunk`, `sampleChunkOccupations` and `setVoxelOccupied` (`include/VoxelDynamicsSpace.h:476-518, 662-675`) are terrain-editing entry points outside the modelled operations.
- `VDHashList` buckets are sequences of item values, not pool-backed `VDList` objects. The routing, the insertions, the removals and the lookup are modelled on those values.
- `VDList::hashValue` and the `VDList` comparison operators (include/VoxelDynamicsAllocator.h:468-486) return and compare the list's `id`. No hash list of lists is built in the core, and the model's hash lists hold item values, so these one-line members have no caller in the model and are left out.
- Allocation.ObjectPool.Allocate: requires an available slot or a positive capacity. With neither, the source reads an empty vector, which is undefined behaviour.
- Allocation.Allocator.Allocate: does not state that the other pools are unchanged. Allocation.Allocator.AllocateFrom states it for an existing pool.
- ListSpec.InsertAfterSmallerProps: states sortedness and membership only. ListSpec.InsertAfterSmallerMultiset carries the multiset part.
- Dynamics.Simulation.MultiVoxelContactResolution: the source takes the field and contact list by reference. The model keeps the field as an object and returns the contact list as a value.
- Dynamics.Simulation.SimulateAgents: states that the simulation stays consistent and records the pass. The effect on each agent is stated by Dynamics.Simulation.UpdateAgent.
- Dynamics.Simulation.SimulateBodies: states that the simulation stays consistent and records the pass. The effect on each body is stated by Dynamics.Simulation.StepBody, Dynamics.Simulation.MoveBody, Dynamics.Simulation.PairContact and Dynamics.Simulation.ResolveStatic.
- Dynamics.MoveFromDriftedAsWrittenIsAChunkOff: shows the `chunkCoords` drift of lines 60-64 and 77 on the corrected `moveIndex`. As written, the guard at include/VoxelDynamicsSpace.h:594 returns (-1, -1, -1) before `chunkCoords` moves (Spaces.Space.MoveIndexAsWrittenNeverMoves), so the drift appears only once that guard is corrected, and for the second direction only once line 72 is corrected too.
- Grids.Grid.Sample: states which voxels the result holds, each once, but not their order. The source prepends each voxel, so the result is the reverse of the x, y, z visit order. The order decides which voxel a contact names on a tie of penetrations, and the model does not fix it.
- BlockedAsWrittenMissesNeighbours: states only the `!valid` inversion of lines 70-72 and 78-80, on the corrected `moveIndex` started from the voxel's own chunk coordinate. The whole test as written is Dynamics.OccupiedAsWritten: `moveIndex` returns (-1, -1, -1) for every valid slot (Spaces.Space.MoveIndexAsWrittenNeverMoves), and the position overload of `getIndex` subtracts the chunk's low corner from it, so every voxel of a chunk tests the same voxel (Dynamics.OccupiedAsWrittenIgnoresVoxel). That index can lie on the grid: in the shipped scene it is voxel 7999 of chunk 0 (Dynamics.SampleSceneTestsFarCorner). The drifting `chunkCoords` is stated apart by Dynamics.MoveFromDriftedAsWrittenIsAChunkOff.
- Dynamics.Contribution: tests every escape step from the voxel's own chunk coordinate, the evidently intended behaviour, not the drifting `chunkCoords` of the loop as written.
- Dynamics.Simulation.Simulate: states the capped step and the order of the two passes, not the combined effect on every body.
- Dynamics.Simulation.ResolveBodyPairs: states that every body stays consistent and keeps its registration. Each pair's effect is stated by Dynamics.Simulation.PairContact.
- Dynamics.Simulation.ResolveBody: states only that no registration changes. The pushes are stated by Dynamics.Simulation.PairContact and Dynamics.Simulation.ResolveStaticContacts.
- Agents are not registered in the space, as in the source, which never inserts them. A collider identity that names no body is skipped.
- Serializer: `ofstream` and `ifstream` become the line sequence.
  - A write that cannot be opened gives no file.
  - `stof` is a function parameter `read`, and its failure is not modelled.
  - `operator<<` on a `float` is a parameter `show`, assumed to write one word.
  - `stoul` is modelled, including its failures and its 64-bit range.
- Serializer.Decode: refuses a size whose voxel count does not fit in a `VDuint`, and reports each undefined read (a missing token, a short row) as an error rather than following the undefined behaviour.

## Findings

| source | as written | input that shows it | evidently intended | confidence | as-written member | corrected member |
|---|---|---|---|---|---|---|
| include/VoxelDynamicsAllocator.h:287-295 | `contains` returns after comparing the head | 2 in `[1, 2]` gives false | scan the whole list | not executed | Lists.ContainsAsWrittenMisses | Lists.List.Contains |
| include/VoxelDynamicsAllocator.h:297-307 | `insertUnique` tests only the head and has no false return | inserting 2 into `[1, 2]` gives `[2, 1, 2]` | prepend exactly when absent and say whether it did | not executed | Lists.InsertUniqueAsWrittenDuplicates | Lists.List.InsertUnique |
| include/VoxelDynamicsAllocator.h:551-562 | `getItemByHashValue` compares each item's hash with the bucket index | hash 13 in a 10-bucket list holding 13 finds nothing | compare with the given hash | not executed | Lists.LookupAsWrittenMisses | Lists.LookupFindsHeldItem |
| include/VoxelDynamicsSpace.h:138-143 | `getIndex(position)` converts negative coordinates to `VDuint` and wraps | a position one voxel left of a 2-grid gives voxel (1, 0, 0) | -1 (as `VDuint`) for a position whose truncated coordinates lie off the grid | not executed | Grids.PositionIndexAsWrittenAliases | Grids.PositionIndexFindsCell |
| include/VoxelDynamicsSpace.h:159-163 | `getOccupied(index)` has no return off the grid | index N³ | unoccupied | not executed | Grids.Grid.GetOccupiedAsWrittenFallsOff | Grids.Grid.GetOccupied |
| include/VoxelDynamicsSpace.h:594 | the guard returns the sentinel when the slot index is on the array | any valid chunk coordinate | return the sentinel only off the array | not executed | Spaces.Space.MoveIndexAsWrittenNeverMoves | Spaces.Space.MoveIndexSteps |
| include/VoxelDynamicsSimulation.h:72, 80 | `occupied = !valid && getOccupied(...)` | a voxel whose neighbour in the escape direction is occupied | `valid && getOccupied(...)` in the neighbour's chunk, at the index the coordinate overload `getIndex(x, y, z)` gives | not executed | Dynamics.BlockedAsWrittenMissesNeighbours | Dynamics.Contribution |
| include/VoxelDynamicsSimulation.h:71, 79 | `getIndex(newVoxCoord)` takes the `VDVector3i` through its conversion to `VDVector3` to the position overload, which subtracts the chunk's low corner from what are already grid coordinates | chunks of 20 voxels with anchor (-20, -20, -20), as in samples/HelloVoxelDynamics/main.cpp: the sentinel (-1, -1, -1) becomes voxel 7999, (19, 19, 19), of chunk 0, so when that voxel is occupied no voxel of the chunk contributes its first escape direction | the coordinate overload `getIndex(x, y, z)` of the voxel coordinates | not executed | Dynamics.SampleSceneTestsFarCorner | Dynamics.NeighbourIsAdjacent |
| include/VoxelDynamicsSimulation.h:60-64, 77 | `moveIndex` moves `chunkCoords` by reference and the loop resets it only when the chunk index changes, so the second direction and every later voxel of the chunk step from a moved chunk coordinate; the fault is latent: as written the guard at include/VoxelDynamicsSpace.h:594 returns before `chunkCoords` moves, and the `!valid` test of line 72 never sends a valid step on to the second direction | with the guard at include/VoxelDynamicsSpace.h:594 corrected, a later voxel of the same chunk after a voxel on the +x face whose first escape is +x into an occupied chunk steps from one chunk too far along +x; with line 72 corrected as well, so does that voxel's second direction when its +x neighbour is occupied | every step from the voxel's own chunk coordinate | not executed | Dynamics.MoveFromDriftedAsWrittenIsAChunkOff | Dynamics.NeighbourIsAdjacent |
| include/VoxelDynamicsCollider.h:448-451 | `VDAABB()` builds the box from (0, 0, 0) to (1, 1, 1) in a discarded temporary, so its own members stay as `VDVector3()` makes them, all (0, 0, 0) | any default-constructed box: high is (0, 0, 0) | the box from (0, 0, 0) to (1, 1, 1) | not executed | Collider.DefaultAsWrittenIsNotUnitBox | Collider.DefaultBox |
| include/VoxelDynamicsCollisionDetection.h:102 | `operator=` copies `pContact` into `pOtherContact` | copying a contact between colliders 1 and 2 | copy `pOtherContact` | not executed | Collision.AssignAsWrittenExample | Collision.AABBContact.Assign |

=== FILE: allocator.dfy ===
/** `VDObjectPool` and `VDAllocator`: fixed-capacity slabs of objects handed
    out and taken back in last-in first-out order.

    A pointer into a pool is a `Slot`: slot `offset` of slab `slab`, i.e.
    `&pools[slab][offset][0]`.  The objects the pool owns are the map
    `contents`; writing through a pointer is `Store`. */
module Allocation {

  /** `ALLOCATOR_INITIAL_CAPACITY`: slots per slab when none is given. */
  const InitialCapacity: nat := 100

  /** `ALLOCATOR_HASH_DEFUALT_CAPACITY`: slots per slab for hash-list arrays. */
  const HashDefaultCapacity: nat := 10

  datatype Slot = Slot(slab: nat, offset: nat)

  /** The slots of slab `slab` in the order `addPool` makes them available. */
  function FreshSlots(slab: nat, n: nat): (r: seq<Slot>)
    ensures |r| == n
    ensures forall i :: 0 <= i < n ==> r[i] == Slot(slab, i)
  {
    if n == 0 then [] else FreshSlots(slab, n - 1) + [Slot(slab, n - 1)]
  }

  class ObjectPool<T> {
    /** Every object of every slab, addressed by slot. */
    var contents: map<Slot, T>
    /** `pools.size()`: the number of slabs. */
    var slabCount: nat
    /** The `available` stack; its last element is handed out next. */
    var available: seq<Slot>
    const capacity: nat
    const arraySize: nat
    /** The value a default-constructed `T` holds. */
    const blank: T

    ghost predicate Valid()
      reads this
    {
      (forall s :: s in contents <==> s.slab < slabCount && s.offset < capacity)
      && (forall i :: 0 <= i < |available| ==> available[i] in contents)
      && (forall i, j :: 0 <= i < j < |available| ==> available[i] != available[j])
    }

    /** `VDObjectPool(capacity, arraySize)`: one slab, all of it available. */
    constructor (capacity: nat, arraySize: nat, blank: T)
      ensures Valid()
      ensures this.capacity == capacity && this.arraySize == arraySize && this.blank == blank
      ensures slabCount == 1 && available == FreshSlots(0, capacity)
      ensures forall s :: s in contents ==> contents[s] == blank
    {
      this.capacity := capacity;
      this.arraySize := arraySize;
      this.blank := blank;
      contents := map[];
      slabCount := 0;
      available := [];
      new;
      AddPool();
    }

    /** `addPool`: append a slab of `capacity` default objects and push its
        slots, in order, onto `available`. */
    method AddPool()
      requires Valid()
      modifies this
      ensures Valid()
      ensures slabCount == old(slabCount) + 1
      ensures available == old(available) + FreshSlots(old(slabCount), capacity)
      ensures forall s :: s in old(contents) ==> s in contents && contents[s] == old(contents[s])
      ensures forall i :: 0 <= i < capacity ==> Slot(old(slabCount), i) in contents && contents[Slot(old(slabCount), i)] == blank
    {
      FillSlab();
      slabCount := slabCount + 1;
      PushSlab(slabCount - 1);
    }

    /** `new T[capacity]`: the objects of the slab numbered `slabCount`, each
        default-constructed. */
    method FillSlab()
      requires Valid()
      modifies this
      ensures slabCount == old(slabCount) && available == old(available)
      ensures forall s :: s in contents <==> s in old(contents) || (s.slab == slabCount && s.offset < capacity)
      ensures forall s :: s in old(contents) ==> contents[s] == old(contents[s])
      ensures forall j :: 0 <= j < capacity ==> contents[Slot(slabCount, j)] == blank
    {
      var i := 0;
      while i < capacity
        invariant 0 <= i <= capacity && slabCount == old(slabCount) && available == old(available)
        invariant forall s :: s in contents <==> s in old(contents) || (s.slab == slabCount && s.offset < i)
        invariant forall s :: s in old(contents) ==> contents[s] == old(contents[s])
        invariant forall j :: 0 <= j < i ==> contents[Slot(slabCount, j)] == blank
      {
        contents := contents[Slot(slabCount, i) := blank];
        i := i + 1;
      }
    }

    /** The pushes of `addPool`: every slot of slab `last`, in order. */
    method PushSlab(last: nat)
      requires slabCount == last + 1
      requires forall s :: s in contents <==> s.slab < slabCount && s.offset < capacity
      requires forall j :: 0 <= j < |available| ==> available[j] in contents && available[j].slab < last
      requires forall j, k :: 0 <= j < k < |available| ==> available[j] != available[k]
      modifies this
      ensures Valid()
      ensures available == old(available) + FreshSlots(last, capacity)
      ensures contents == old(contents) && slabCount == old(slabCount)
    {
      var i := 0;
      while i < capacity
        invariant 0 <= i <= capacity && contents == old(contents) && slabCount == old(slabCount)
        invariant available == old(available) + FreshSlots(last, i)
        invariant forall j :: 0 <= j < |available| ==> available[j] in contents
        invariant forall j, k :: 0 <= j < k < |available| ==> available[j] != available[k]
      {
        available := available + [Slot(last, i)];
        i := i + 1;
      }
    }

    /** The slot belongs to the pool and is in use (not on the stack). */
    ghost predicate InUse(s: Slot)
      reads this
    {
      s in contents && s !in available
    }

    /** What `allocate` does to the stack: pop its top, or, when it was empty,
        add a slab first and pop that slab's last slot. */
    ghost predicate Popped(available0: seq<Slot>, slabCount0: nat, s: Slot)
      reads this
    {
      if |available0| > 0 then
        s == available0[|available0| - 1] && available == available0[..|available0| - 1]
        && slabCount == slabCount0
      else
        capacity > 0 && s == Slot(slabCount0, capacity - 1)
        && available == FreshSlots(slabCount0, capacity - 1) && slabCount == slabCount0 + 1
    }

    /** `allocate`: hand out the most recently freed (or added) slot. */
    method Allocate() returns (s: Slot)
      requires Valid() && (|available| > 0 || capacity > 0)
      modifies this
      ensures Valid()
      ensures Popped(old(available), old(slabCount), s)
      ensures InUse(s)
      ensures forall t :: t in old(contents) ==> t in contents && contents[t] == old(contents[t])
    {
      if |available| == 0 {
        AddPool();
      }
      s := available[|available| - 1];
      available := available[..|available| - 1];
    }

    /** `free`: push the slot back onto the stack.  The slot must belong to
        this pool and must not be free already. */
    method Free(s: Slot)
      requires Valid() && s in contents && s !in available
      modifies this
      ensures Valid()
      ensures available == old(available) + [s]
      ensures contents == old(contents) && slabCount == old(slabCount)
    {
      available := available + [s];
    }

    /** A write through a pointer the pool handed out. */
    method Store(s: Slot, v: T)
      requires Valid() && s in contents
      modifies this
      ensures Valid()
      ensures contents == old(contents)[s := v]
      ensures available == old(available) && slabCount == old(slabCount)
    {
      contents := contents[s := v];
    }
  }

  /** Last-in first-out reuse: a slot freed and then allocated again is the
      one handed back, and the stack is as it was. */
  method FreeThenAllocate<T>(pool: ObjectPool<T>, p: Slot) returns (q: Slot)
    requires pool.Valid() && p in pool.contents && p !in pool.available
    modifies pool
    ensures q == p
    ensures pool.Valid() && pool.available == old(pool.available)
    ensures pool.contents == old(pool.contents)
  {
    pool.Free(p);
    q := pool.Allocate();
  }

  /** `VDAllocator`, for one element type `T`: one pool per array size. */
  class Allocator<T> {
    var pools: map<nat, ObjectPool<T>>
    ghost var Repr: set<object>
    /** The value a default-constructed `T` holds. */
    const blank: T

    ghost predicate Valid()
      reads this, Repr
    {
      this !in Repr
      && (forall k :: k in pools ==> pools[k] in Repr)
      && (forall k :: k in pools ==> pools[k].Valid() && pools[k].arraySize == k)
      && (forall k1, k2 :: k1 in pools && k2 in pools && k1 != k2 ==> pools[k1] != pools[k2])
    }

    constructor (blank: T)
      ensures Valid() && pools == map[] && Repr == {} && this.blank == blank
    {
      this.blank := blank;
      pools := map[];
      Repr := {};
    }

    /** `createPool`: a new pool for the array size, replacing any old one. */
    method CreatePool(capacity: nat, arraySize: nat)
      requires Valid()
      modifies this
      ensures Valid() && fresh(Repr - old(Repr))
      ensures pools.Keys == old(pools.Keys) + {arraySize}
      ensures fresh(pools[arraySize]) && pools[arraySize].capacity == capacity
      ensures pools[arraySize].slabCount == 1 && pools[arraySize].available == FreshSlots(0, capacity)
      ensures forall k :: k in old(pools) && k != arraySize ==> pools[k] == old(pools[k])
    {
      var p := new ObjectPool<T>(capacity, arraySize, blank);
      pools := pools[arraySize := p];
      Repr := Repr + {p};
    }

    /** Allocation from the existing pool for an array size. */
    method AllocateFrom(arraySize: nat) returns (s: Slot)
      requires Valid() && arraySize in pools
      requires |pools[arraySize].available| > 0 || pools[arraySize].capacity > 0
      modifies Repr
      ensures Valid()
      ensures forall k :: k in pools && k != arraySize ==> unchanged(pools[k])
      ensures pools[arraySize].InUse(s)
      ensures pools[arraySize].Popped(old(pools[arraySize].available), old(pools[arraySize].slabCount), s)
    {
      var p := pools[arraySize];
      s := p.Allocate();
      assert forall k :: k in pools && k != arraySize ==> pools[k] != p;
    }

    /** `allocate<T>(arraySize, allocatorCapacity)`: create exactly the missing
        pool, if any, then allocate from the pool for that array size. */
    method Allocate(arraySize: nat, capacity: nat) returns (s: Slot)
      requires Valid()
      requires arraySize in pools ==> |pools[arraySize].available| > 0 || pools[arraySize].capacity > 0
      requires arraySize !in pools ==> capacity > 0
      modifies this, Repr
      ensures Valid() && fresh(Repr - old(Repr))
      ensures pools.Keys == old(pools.Keys) + {arraySize}
      ensures forall k :: k in old(pools) ==> pools[k] == old(pools[k])
      ensures pools[arraySize].InUse(s)
      ensures arraySize in old(pools) ==>
        pools[arraySize].Popped(old(pools[arraySize].available), old(pools[arraySize].slabCount), s)
      ensures arraySize !in old(pools) ==>
        fresh(pools[arraySize]) && pools[arraySize].capacity == capacity
        && s == Slot(0, capacity - 1) && pools[arraySize].available == FreshSlots(0, capacity - 1)
    {
      if arraySize !in pools {
        CreatePool(capacity, arraySize);
      }
      s := AllocateFrom(arraySize);
    }

    /** `allocate<T>(arraySize)`: the default capacity. */
    method AllocateDefault(arraySize: nat) returns (s: Slot)
      requires Valid()
      requires arraySize in pools ==> |pools[arraySize].available| > 0 || pools[arraySize].capacity > 0
      modifies this, Repr
      ensures Valid() && fresh(Repr - old(Repr))
      ensures pools.Keys == old(pools.Keys) + {arraySize}
      ensures forall k :: k in old(pools) ==> pools[k] == old(pools[k])
      ensures pools[arraySize].InUse(s)
      ensures arraySize in old(pools) ==>
        pools[arraySize].Popped(old(pools[arraySize].available), old(pools[arraySize].slabCount), s)
      ensures arraySize !in old(pools) ==>
        fresh(pools[arraySize]) && pools[arraySize].capacity == InitialCapacity
        && s == Slot(0, InitialCapacity - 1) && pools[arraySize].available == FreshSlots(0, InitialCapacity - 1)
    {
      s := Allocate(arraySize, InitialCapacity);
    }

    /** `free<T>(obj, size)`: give the slot back to the pool for that array
        size; with no such pool nothing happens. */
    method Free(s: Slot, size: nat)
      requires Valid()
      requires size in pools ==> s in pools[size].contents && s !in pools[size].available
      modifies Repr
      ensures Valid()
      ensures size !in pools ==> unchanged(Repr)
      ensures size in pools ==> pools[size].available == old(pools[size].available) + [s]
      ensures size in pools ==> pools[size].contents == old(pools[size].contents)
      ensures forall k :: k in pools && k != size ==> unchanged(pools[k])
    {
      if size in pools {
        var p := pools[size];
        p.Free(s);
      }
    }
  }
}

=== FILE: body.dfy ===
/** `VDBody` and `VDAgentController`: a box collider with mass, velocity and
    two queues, of impulses (`deltaMomentums`) and of forces, that `simulate`
    drains into the velocity before moving the box.  `VDList::insert`
    prepends, so the head of each queue is the latest entry. */
module Bodies {
  import opened VectorMath
  import opened Collider

  /** One entry of `VDCollider::occupiedChunks`: a list whose `id` is the
      chunk's index and whose items are the voxels of that chunk the
      collider is registered in. */
  datatype ChunkMembership = ChunkMembership(id: nat, voxels: seq<int>)

  /** The sum of the vectors. */
  function Sum(q: seq<Vec3>): Vec3
  {
    if |q| == 0 then Zero() else Add(Sum(q[..|q| - 1]), q[|q| - 1])
  }

  /** The sum of the vectors each scaled by `f`, in list order: what the
      draining loops add to the velocity. */
  function SumScaled(q: seq<Vec3>, f: real): Vec3
  {
    if |q| == 0 then Zero() else Add(SumScaled(q[..|q| - 1], f), Scale(q[|q| - 1], f))
  }

  /** Scaling each entry and then summing is scaling the sum. */
  lemma {:induction false} SumScaledIsScaledSum(q: seq<Vec3>, f: real)
    ensures SumScaled(q, f) == Scale(Sum(q), f)
  {
    if |q| > 0 {
      SumScaledIsScaledSum(q[..|q| - 1], f);
      ScaleAdd(Sum(q[..|q| - 1]), q[|q| - 1], f);
    }
  }

  lemma ScaleAdd(a: Vec3, b: Vec3, f: real)
    ensures Scale(Add(a, b), f) == Add(Scale(a, f), Scale(b, f))
  {
    assert (a.x + b.x) * f == a.x * f + b.x * f;
    assert (a.y + b.y) * f == a.y * f + b.y * f;
    assert (a.z + b.z) * f == a.z * f + b.z * f;
  }

  /** The sum does not depend on the order the queue is walked in:
      prepending an entry adds it. */
  lemma {:induction false} SumPrepend(v: Vec3, q: seq<Vec3>)
    ensures Sum([v] + q) == Add(v, Sum(q))
    decreases |q|
  {
    if |q| > 0 {
      var p := [v] + q;
      assert p[..|p| - 1] == [v] + q[..|q| - 1];
      SumPrepend(v, q[..|q| - 1]);
    }
  }

  /** `VDBody`, with its `VDCollider` part: the box, the identity other
      colliders see it by, and the chunks it is registered in. */
  class Body {
    const id: int
    var box: AABB
    var occupiedChunks: seq<ChunkMembership>
    const mass: real
    var velocity: Vec3
    /** The queued impulses and forces, most recent first: the source's
        `VDList`s, whose pool slots are not modelled since only their sums
        are read. */
    var deltaMomentums: seq<Vec3>
    var forces: seq<Vec3>
    const restitution: real
    var sleeping: bool
    const friction: real
    var useGravity: bool

    ghost predicate Valid()
      reads this
    {
      mass != 0.0 && box.Consistent()
    }

    /** Everything about the body that moves it: all its state but the
        chunks it is registered in. */
    function Motion(): (AABB, Vec3, seq<Vec3>, seq<Vec3>, bool, bool)
      reads this
    {
      (box, velocity, deltaMomentums, forces, sleeping, useGravity)
    }

    /** `VDBody(position, halfExtents, mass)`: at rest, awake, under
        gravity, with empty queues. */
    constructor (position: Vec3, halfExtents: Vec3, mass: real, id: int)
      requires mass != 0.0
      ensures Valid() && this.id == id && this.mass == mass
      ensures box == FromMidPointAndHalfExtents(halfExtents, position)
      ensures velocity == Zero() && deltaMomentums == [] && forces == [] && occupiedChunks == []
      ensures restitution == 0.5 && friction == 0.5 && !sleeping && useGravity
    {
      this.id := id;
      box := FromMidPointAndHalfExtents(halfExtents, position);
      occupiedChunks := [];
      this.mass := mass;
      velocity := Zero();
      deltaMomentums := [];
      forces := [];
      restitution := 0.5;
      sleeping := false;
      friction := 0.5;
      useGravity := true;
    }

    /** `translate`, inherited from the box. */
    method Translate(t: Vec3)
      requires Valid()
      modifies this
      ensures Valid() && box == old(box).Translate(t)
      ensures velocity == old(velocity) && deltaMomentums == old(deltaMomentums) && forces == old(forces)
      ensures sleeping == old(sleeping) && occupiedChunks == old(occupiedChunks) && useGravity == old(useGravity)
    {
      box := box.Translate(t);
    }

    /** `applyDeltaMomentums`: add every queued impulse divided by the mass
        to the velocity and empty the queue. */
    method ApplyDeltaMomentums()
      requires Valid()
      modifies this
      ensures Valid() && deltaMomentums == []
      ensures velocity == Add(old(velocity), Scale(Sum(old(deltaMomentums)), 1.0 / mass))
      ensures box == old(box) && forces == old(forces) && sleeping == old(sleeping)
      ensures occupiedChunks == old(occupiedChunks) && useGravity == old(useGravity)
    {
      var q := deltaMomentums;
      var v := velocity;
      var k := 0;
      while k < |q|
        invariant 0 <= k <= |q|
        invariant v == Add(velocity, SumScaled(q[..k], 1.0 / mass))
      {
        assert q[..k + 1][..k] == q[..k];
        v := Add(v, Scale(q[k], 1.0 / mass));
        k := k + 1;
      }
      assert q[..k] == q;
      SumScaledIsScaledSum(q, 1.0 / mass);
      velocity := v;
      deltaMomentums := [];
    }

    /** `applyForces(dt)`: add every queued force times `dt` over the mass
        to the velocity and empty the queue. */
    method ApplyForces(dt: real)
      requires Valid()
      modifies this
      ensures Valid() && forces == []
      ensures velocity == Add(old(velocity), Scale(Sum(old(forces)), dt / mass))
      ensures box == old(box) && deltaMomentums == old(deltaMomentums) && sleeping == old(sleeping)
      ensures occupiedChunks == old(occupiedChunks) && useGravity == old(useGravity)
    {
      var q := forces;
      var v := velocity;
      var k := 0;
      while k < |q|
        invariant 0 <= k <= |q|
        invariant v == Add(velocity, SumScaled(q[..k], dt / mass))
      {
        assert q[..k + 1][..k] == q[..k];
        v := Add(v, Scale(q[k], dt / mass));
        k := k + 1;
      }
      assert q[..k] == q;
      SumScaledIsScaledSum(q, dt / mass);
      velocity := v;
      forces := [];
    }

    /** `clearForces`: both queues emptied, nothing else touched. */
    method ClearForces()
      modifies this
      ensures forces == [] && deltaMomentums == []
      ensures box == old(box) && velocity == old(velocity) && sleeping == old(sleeping)
      ensures occupiedChunks == old(occupiedChunks) && useGravity == old(useGravity)
    {
      forces := [];
      deltaMomentums := [];
    }

    /** `setSleeping`: falling asleep empties both queues; waking only
        clears the flag. */
    method SetSleeping(s: bool)
      modifies this
      ensures sleeping == s
      ensures s ==> forces == [] && deltaMomentums == []
      ensures !s ==> forces == old(forces) && deltaMomentums == old(deltaMomentums)
      ensures box == old(box) && velocity == old(velocity)
      ensures occupiedChunks == old(occupiedChunks) && useGravity == old(useGravity)
    {
      sleeping := s;
      if sleeping {
        forces := [];
        deltaMomentums := [];
      }
    }

    /** `simulate(dt)`: a sleeping body is left exactly as it is; an awake
        one takes its impulses, then its forces, into the velocity and moves
        by velocity times `dt`. */
    method Simulate(dt: real)
      requires Valid()
      modifies this
      ensures Valid()
      ensures old(sleeping) ==>
        box == old(box) && velocity == old(velocity)
        && deltaMomentums == old(deltaMomentums) && forces == old(forces)
      ensures !old(sleeping) ==>
        velocity == Add(Add(old(velocity), Scale(Sum(old(deltaMomentums)), 1.0 / mass)),
                        Scale(Sum(old(forces)), dt / mass))
        && box == old(box).Translate(Scale(velocity, dt))
        && deltaMomentums == [] && forces == []
      ensures sleeping == old(sleeping) && occupiedChunks == old(occupiedChunks) && useGravity == old(useGravity)
    {
      if !sleeping {
        ApplyDeltaMomentums();
        ApplyForces(dt);
        Translate(Scale(velocity, dt));
      }
    }
  }

  /** `VDAgentController`: a body of mass 1 that the player moves directly,
      and that jumps only from the ground.  The `VDBody` it derives from is
      the `body` field. */
  class Agent {
    const body: Body
    const speed: real
    var isGrounded: bool

    ghost predicate Valid()
      reads this, body
    {
      body.Valid() && body.mass == 1.0
    }

    /** `VDAgentController(position, halfExtents, speed)`: in the air. */
    constructor (position: Vec3, halfExtents: Vec3, speed: real, id: int)
      ensures Valid() && fresh(body) && this.speed == speed && !isGrounded
      ensures body.id == id && body.box == FromMidPointAndHalfExtents(halfExtents, position)
      ensures body.velocity == Zero() && body.deltaMomentums == [] && body.forces == []
      ensures !body.sleeping && body.useGravity && body.occupiedChunks == []
    {
      body := new Body(position, halfExtents, 1.0, id);
      this.speed := speed;
      isGrounded := false;
    }

    /** `move`: a translation by direction times `dt` times the speed, with
        the velocity and the queues left alone. */
    method Move(direction: Vec3, dt: real)
      requires Valid()
      modifies body
      ensures Valid() && body.box == old(body.box).Translate(Scale(Scale(direction, dt), speed))
      ensures body.velocity == old(body.velocity)
      ensures body.deltaMomentums == old(body.deltaMomentums) && body.forces == old(body.forces)
      ensures body.sleeping == old(body.sleeping) && body.occupiedChunks == old(body.occupiedChunks)
      ensures body.useGravity == old(body.useGravity)
    {
      body.Translate(Scale(Scale(direction, dt), speed));
    }

    /** `jump`: from the ground, queue an upward impulse of the given size
        and leave the ground; in the air, nothing happens. */
    method Jump(force: real)
      requires Valid()
      modifies this, body
      ensures Valid()
      ensures old(isGrounded) ==>
        body.deltaMomentums == [Scale(ToVector(Up), force)] + old(body.deltaMomentums) && !isGrounded
      ensures !old(isGrounded) ==> body.deltaMomentums == old(body.deltaMomentums) && !isGrounded
      ensures body.box == old(body.box) && body.velocity == old(body.velocity) && body.forces == old(body.forces)
      ensures body.sleeping == old(body.sleeping) && body.occupiedChunks == old(body.occupiedChunks)
      ensures body.useGravity == old(body.useGravity)
    {
      if isGrounded {
        body.deltaMomentums := [Scale(ToVector(Up), force)] + body.deltaMomentums;
        isGrounded := false;
      }
    }
  }

  /** A jump adds the jump impulse to what the next `simulate` of an awake
      agent adds to its velocity: the queue's sum grows by exactly
      (0, force, 0). */
  lemma JumpImpulse(q: seq<Vec3>, force: real)
    ensures Sum([Scale(ToVector(Up), force)] + q) == Add(Vec3(0.0, force, 0.0), Sum(q))
  {
    SumPrepend(Scale(ToVector(Up), force), q);
  }
}

=== FILE: collider.dfy ===
/** `VDDirection` and `VDAABB`: the six axis directions and axis-aligned
    boxes.  A box is a value (C++ copies it everywhere), so its setters are
    functions returning the updated box; an owner that keeps a box in a field
    reassigns the field. */
module Collider {
  import opened VectorMath

  /** `VDDirection`, in enum order (RIGHT = 0 ... BACK = 5). */
  datatype Direction = Right | Up | Forward | Left | Down | Back

  /** The enum value. */
  function Index(d: Direction): (i: nat)
    ensures i < 6
  {
    match d
    case Right => 0
    case Up => 1
    case Forward => 2
    case Left => 3
    case Down => 4
    case Back => 5
  }

  /** Distinct directions have distinct enum values. */
  lemma IndexInjective(d: Direction, e: Direction)
    ensures Index(d) == Index(e) ==> d == e
  {
  }

  /** The axis a direction runs along. */
  function AxisOf(d: Direction): Axis
  {
    match d
    case Right => X
    case Left => X
    case Up => Y
    case Down => Y
    case Forward => Z
    case Back => Z
  }

  /** RIGHT, UP and FORWARD point along their axis; the others against it. */
  predicate Positive(d: Direction)
  {
    d.Right? || d.Up? || d.Forward?
  }

  /** The direction along an axis, positive or negative. */
  function AlongAxis(a: Axis, positive: bool): (d: Direction)
    ensures AxisOf(d) == a && Positive(d) == positive
  {
    match a
    case X => if positive then Right else Left
    case Y => if positive then Up else Down
    case Z => if positive then Forward else Back
  }

  /** `VDDirectionOpposite`. */
  function Opposite(d: Direction): (r: Direction)
    ensures AxisOf(r) == AxisOf(d) && Positive(r) == !Positive(d)
  {
    match d
    case Right => Left
    case Left => Right
    case Up => Down
    case Down => Up
    case Forward => Back
    case Back => Forward
  }

  /** `VDDirectionOpposite` is an involution without fixed points. */
  lemma OppositeInvolution(d: Direction)
    ensures Opposite(Opposite(d)) == d && Opposite(d) != d
  {
  }

  /** `VDDirectionToVector`: the unit vector of the direction. */
  function ToVector(d: Direction): (v: Vec3)
    ensures Component(v, AxisOf(d)) == (if Positive(d) then 1.0 else -1.0)
    ensures forall a :: a != AxisOf(d) ==> Component(v, a) == 0.0
  {
    match d
    case Right => Vec3(1.0, 0.0, 0.0)
    case Left => Vec3(-1.0, 0.0, 0.0)
    case Up => Vec3(0.0, 1.0, 0.0)
    case Down => Vec3(0.0, -1.0, 0.0)
    case Forward => Vec3(0.0, 0.0, 1.0)
    case Back => Vec3(0.0, 0.0, -1.0)
  }

  /** Opposite directions have opposite unit vectors. */
  lemma {:induction false} ToVectorOpposite(d: Direction)
    ensures ToVector(Opposite(d)) == Neg(ToVector(d))
    ensures Dot(ToVector(d), ToVector(d)) == 1.0
  {
    var v := ToVector(d);
    match d
    case Right => assert v == Vec3(1.0, 0.0, 0.0);
    case Left => assert v == Vec3(-1.0, 0.0, 0.0);
    case Up => assert v == Vec3(0.0, 1.0, 0.0);
    case Down => assert v == Vec3(0.0, -1.0, 0.0);
    case Forward => assert v == Vec3(0.0, 0.0, 1.0);
    case Back => assert v == Vec3(0.0, 0.0, -1.0);
  }

  /** `VDVectorToDirection`: the axis of largest magnitude, ties going to
      X before Y before Z; a component >= 0 selects the positive side. */
  function VectorToDirection(v: Vec3): (d: Direction)
    ensures forall a :: Abs(Component(v, a)) <= Abs(Component(v, AxisOf(d)))
    ensures AxisOf(d) == Y ==> Abs(v.x) < Abs(v.y)
    ensures AxisOf(d) == Z ==> Abs(v.x) < Abs(v.z) && Abs(v.y) < Abs(v.z)
    ensures Positive(d) <==> Component(v, AxisOf(d)) >= 0.0
  {
    // The dot products with the unit vectors RIGHT, UP and FORWARD.
    var xDir := v.x;
    var yDir := v.y;
    var zDir := v.z;
    if Abs(xDir) >= Abs(yDir) && Abs(xDir) >= Abs(zDir) then
      (if xDir >= 0.0 then Right else Left)
    else if Abs(yDir) >= Abs(zDir) then
      (if yDir >= 0.0 then Up else Down)
    else
      (if zDir >= 0.0 then Forward else Back)
  }

  /** A direction's own vector converts back to it. */
  lemma {:induction false} VectorToDirectionInverse(d: Direction)
    ensures VectorToDirection(ToVector(d)) == d
  {
    var v := ToVector(d);
    match d
    case Right => assert v == Vec3(1.0, 0.0, 0.0);
    case Left => assert v == Vec3(-1.0, 0.0, 0.0);
    case Up => assert v == Vec3(0.0, 1.0, 0.0);
    case Down => assert v == Vec3(0.0, -1.0, 0.0);
    case Forward => assert v == Vec3(0.0, 0.0, 1.0);
    case Back => assert v == Vec3(0.0, 0.0, -1.0);
  }

  /** `VDAABB`: the corners `low`/`high` and the centre `position` with the
      `halfExtents`, kept consistent by the setters. */
  datatype AABB = AABB(low: Vec3, high: Vec3, halfExtents: Vec3, position: Vec3)
  {
    /** The two descriptions of the box agree. */
    predicate Consistent()
    {
      low == Sub(position, halfExtents) && high == Add(position, halfExtents)
    }

    /** `setMidPointAndHalfExtents`: centre and half extents from the corners. */
    function SetMidPointAndHalfExtents(): (r: AABB)
      ensures r.low == low && r.high == high && r.Consistent()
      ensures Add(r.position, r.position) == Add(low, high)
    {
      var p := Scale(Add(low, high), 0.5);
      this.(position := p, halfExtents := Sub(high, p))
    }

    /** `setLowAndHigh`: corners from the centre and half extents. */
    function SetLowAndHigh(): (r: AABB)
      ensures r.position == position && r.halfExtents == halfExtents && r.Consistent()
    {
      this.(low := Sub(position, halfExtents), high := Add(position, halfExtents))
    }

    /** `setPosition`. */
    function SetPosition(p: Vec3): (r: AABB)
      ensures r.position == p && r.halfExtents == halfExtents && r.Consistent()
    {
      this.(position := p).SetLowAndHigh()
    }

    /** `translate`. */
    function Translate(t: Vec3): (r: AABB)
      ensures r.position == Add(position, t) && r.halfExtents == halfExtents && r.Consistent()
    {
      this.(position := Add(position, t)).SetLowAndHigh()
    }

    /** `setHalfExtents`. */
    function SetHalfExtents(h: Vec3): (r: AABB)
      ensures r.halfExtents == h && r.position == position && r.Consistent()
    {
      this.(halfExtents := h).SetLowAndHigh()
    }

    /** `expandToInclide`: the smallest box holding both boxes. */
    function ExpandToInclude(other: AABB): (r: AABB)
      ensures LessEq(r.low, low) && LessEq(r.low, other.low)
      ensures LessEq(high, r.high) && LessEq(other.high, r.high)
      ensures r.low == MinV(low, other.low) && r.high == MaxV(high, other.high)
      ensures r.Consistent()
    {
      var hi := Vec3(Max(high.x, other.high.x), Max(high.y, other.high.y), Max(high.z, other.high.z));
      var lo := Vec3(Min(low.x, other.low.x), Min(low.y, other.low.y), Min(low.z, other.low.z));
      this.(high := hi, low := lo).SetMidPointAndHalfExtents()
    }

    /** `validate`: `low <= high` on every axis. */
    predicate Validate()
    {
      high.x >= low.x && high.y >= low.y && high.z >= low.z
    }

    /** `isIntersecting`: the closed boxes overlap on every axis. */
    predicate IsIntersecting(other: AABB)
    {
      (low.x <= other.high.x && high.x >= other.low.x)
      && (low.y <= other.high.y && high.y >= other.low.y)
      && (low.z <= other.high.z && high.z >= other.low.z)
    }

    /** `isPointInAABB`: the point lies in the closed box. */
    predicate IsPointInAABB(p: Vec3)
    {
      LessEq(low, p) && LessEq(p, high)
    }

    /** `intersectionRegion`: the overlap box (the out-parameter) and whether
        it is a proper box. */
    function IntersectionRegion(other: AABB): (r: (bool, AABB))
      ensures r.1.low == MaxV(low, other.low) && r.1.high == MinV(high, other.high)
      ensures r.1.Consistent()
      ensures Validate() && other.Validate() ==> (r.0 <==> IsIntersecting(other))
    {
      var region := AABB(MaxV(low, other.low), MinV(high, other.high), Zero(), Zero());
      var region' := region.SetMidPointAndHalfExtents();
      (region'.Validate(), region')
    }

    /** `skinnedAABB`: a copy widened by `skinWidth` on every side. */
    function SkinnedAABB(skinWidth: real): (r: AABB)
      ensures r.low == Sub(low, Uniform(skinWidth)) && r.high == Add(high, Uniform(skinWidth))
      ensures r.halfExtents == Add(halfExtents, Uniform(skinWidth)) && r.position == position
      ensures skinWidth >= 0.0 ==> LessEq(r.low, low) && LessEq(high, r.high)
      ensures Consistent() ==> r.Consistent()
    {
      var skin := Uniform(skinWidth);
      this.(high := Add(high, skin), low := Add(low, Scale(skin, -1.0)), halfExtents := Add(halfExtents, skin))
    }

    /** `crossSection`: the product of the two half extents across the
        direction's axis, times two. */
    function CrossSection(d: Direction): (a: real)
      ensures AxisOf(d) == X ==> a == halfExtents.y * halfExtents.z * 2.0
      ensures AxisOf(d) == Y ==> a == halfExtents.x * halfExtents.z * 2.0
      ensures AxisOf(d) == Z ==> a == halfExtents.x * halfExtents.y * 2.0
    {
      match d
      case Right => halfExtents.y * halfExtents.z * 2.0
      case Left => halfExtents.y * halfExtents.z * 2.0
      case Up => halfExtents.x * halfExtents.z * 2.0
      case Down => halfExtents.x * halfExtents.z * 2.0
      case Forward => halfExtents.x * halfExtents.y * 2.0
      case Back => halfExtents.x * halfExtents.y * 2.0
    }
  }

  /** `VDAABB(low, high)`. */
  function FromLowHigh(low: Vec3, high: Vec3): (r: AABB)
    ensures r.low == low && r.high == high && r.Consistent()
  {
    AABB(low, high, Zero(), Zero()).SetMidPointAndHalfExtents()
  }

  /** `fromMidPointAndHalfExtents`. */
  function FromMidPointAndHalfExtents(halfExtents: Vec3, midPoint: Vec3): (r: AABB)
    ensures r.low == Sub(midPoint, halfExtents) && r.high == Add(midPoint, halfExtents)
    ensures r.Consistent() && r.position == midPoint && r.halfExtents == halfExtents
  {
    FromLowHigh(Sub(midPoint, halfExtents), Add(midPoint, halfExtents))
  }

  /** The unit box from the origin the default constructor evidently means. */
  function DefaultBox(): (r: AABB)
    ensures r.low == Zero() && r.high == One() && r.position == Half() && r.halfExtents == Half()
  {
    var b := AABB(Zero(), One(), Zero(), Zero());
    assert Scale(Add(b.low, b.high), 0.5) == Half();
    FromLowHigh(Zero(), One())
  }

  /** `VDAABB()` as written: the unit box is built as a discarded temporary,
      so the four members keep what `VDVector3()` gives them, (0, 0, 0). */
  function DefaultAsWritten(): (r: AABB)
    ensures r.low == r.high
  {
    AABB(Zero(), Zero(), Zero(), Zero())
  }

  /** As written, the default box is a single point: its high corner is the
      origin, not (1, 1, 1), so it holds neither the unit box's centre nor any
      point but the origin. */
  lemma DefaultAsWrittenIsNotUnitBox()
    ensures DefaultAsWritten().high != One()
    ensures !DefaultAsWritten().IsPointInAABB(Half())
    ensures forall p :: DefaultAsWritten().IsPointInAABB(p) <==> p == Zero()
  {
    var z := DefaultAsWritten();
    assert z == AABB(Zero(), Zero(), Zero(), Zero());
    forall p
      ensures z.IsPointInAABB(p) <==> p == Zero()
    {
      if z.IsPointInAABB(p) {
        assert p.x == 0.0 && p.y == 0.0 && p.z == 0.0;
      }
    }
  }

  /** A point is in the overlap region exactly when it is in both boxes. */
  lemma {:induction false} IntersectionRegionContents(a: AABB, b: AABB, p: Vec3)
    ensures a.IntersectionRegion(b).1.IsPointInAABB(p) <==> a.IsPointInAABB(p) && b.IsPointInAABB(p)
  {
    var r := a.IntersectionRegion(b).1;
    assert r.low == MaxV(a.low, b.low) && r.high == MinV(a.high, b.high);
  }

  /** Each box lies inside the expanded box, so every point of either box is
      a point of it. */
  lemma {:induction false} ExpandContains(a: AABB, b: AABB, p: Vec3)
    requires a.IsPointInAABB(p) || b.IsPointInAABB(p)
    ensures a.ExpandToInclude(b).IsPointInAABB(p)
  {
    var r := a.ExpandToInclude(b);
    assert LessEq(r.low, a.low) && LessEq(r.low, b.low) && LessEq(a.high, r.high) && LessEq(b.high, r.high);
  }

  /** Boxes facing each other along opposite directions have the same cross
      section. */
  lemma CrossSectionOpposite(b: AABB, d: Direction)
    ensures b.CrossSection(Opposite(d)) == b.CrossSection(d)
  {
  }
}

=== FILE: collision.dfy ===
/** Contact bookkeeping: the per-direction penetration field, the
    eight-contact manifold, and the box-versus-box contact with its ordering
    of escape directions. */
module Collision {
  import opened VectorMath
  import opened Collider
  import opened Wrappers

  // ---- VDPenetrationField ----

  /** The largest magnitude inserted for direction index `i`, or 0. */
  function MaxMagnitude(ins: seq<(Direction, real)>, i: nat): (m: real)
    ensures m >= 0.0
    ensures forall j :: 0 <= j < |ins| && Index(ins[j].0) == i ==> ins[j].1 <= m
    ensures m == 0.0 || exists j :: 0 <= j < |ins| && Index(ins[j].0) == i && ins[j].1 == m
  {
    if |ins| == 0 then 0.0
    else
      var last := ins[|ins| - 1];
      var m0 := MaxMagnitude(ins[..|ins| - 1], i);
      assert forall j :: 0 <= j < |ins| - 1 ==> ins[..|ins| - 1][j] == ins[j];
      if Index(last.0) == i && last.1 > m0 then last.1 else m0
  }

  lemma {:induction false} MaxMagnitudeSnoc(ins: seq<(Direction, real)>, e: (Direction, real), i: nat)
    ensures MaxMagnitude(ins + [e], i)
            == if Index(e.0) == i && e.1 > MaxMagnitude(ins, i) then e.1 else MaxMagnitude(ins, i)
  {
    assert (ins + [e])[..|ins|] == ins;
  }

  /** The six maxima after one more insertion, as `insertPenetration`
      updates them. */
  lemma FieldAfterInsert(m0: seq<real>, ins: seq<(Direction, real)>, dir: Direction, magnitude: real, m1: seq<real>)
    requires |m0| == 6 && forall i :: 0 <= i < 6 ==> m0[i] == MaxMagnitude(ins, i)
    requires m1 == if magnitude > m0[Index(dir)] then m0[Index(dir) := magnitude] else m0
    ensures forall i :: 0 <= i < 6 ==> m1[i] == MaxMagnitude(ins + [(dir, magnitude)], i)
  {
    forall i | 0 <= i < 6 ensures m1[i] == MaxMagnitude(ins + [(dir, magnitude)], i) {
      MaxMagnitudeSnoc(ins, (dir, magnitude), i);
    }
  }

  /** `VDPenetrationField`: for each direction the deepest penetration seen
      and the voxel that produced it.  `Inserted` records every insertion. */
  class PenetrationField {
    const maxPenetrations: array<real>
    const voxels: array<int>
    ghost var Inserted: seq<(Direction, real)>

    ghost predicate Valid()
      reads this, maxPenetrations
    {
      maxPenetrations.Length == 6 && voxels.Length == 6
      && forall i :: 0 <= i < 6 ==> maxPenetrations[i] == MaxMagnitude(Inserted, i)
    }

    /** `VDPenetrationField()`: every entry zero, no voxel. */
    constructor ()
      ensures Valid() && Inserted == []
      ensures fresh(maxPenetrations) && fresh(voxels)
      ensures forall i :: 0 <= i < 6 ==> maxPenetrations[i] == 0.0 && voxels[i] == 0
    {
      maxPenetrations := new real[6](_ => 0.0);
      voxels := new int[6](_ => 0);
      Inserted := [];
    }

    /** `insertPenetration`: keep the new magnitude and voxel only when the
        magnitude is strictly larger than the stored one. */
    method InsertPenetration(dir: Direction, magnitude: real, voxel: int)
      requires Valid()
      modifies this, maxPenetrations, voxels
      ensures Valid() && Inserted == old(Inserted) + [(dir, magnitude)]
      ensures magnitude > old(maxPenetrations[Index(dir)]) ==>
        maxPenetrations[..] == old(maxPenetrations[..])[Index(dir) := magnitude]
        && voxels[..] == old(voxels[..])[Index(dir) := voxel]
      ensures magnitude <= old(maxPenetrations[Index(dir)]) ==>
        maxPenetrations[..] == old(maxPenetrations[..]) && voxels[..] == old(voxels[..])
    {
      var d := Index(dir);
      ghost var m0 := maxPenetrations[..];
      if magnitude > maxPenetrations[d] {
        maxPenetrations[d] := magnitude;
        voxels[d] := voxel;
        assert maxPenetrations[..] == m0[d := magnitude];
      }
      FieldAfterInsert(m0, Inserted, dir, magnitude, maxPenetrations[..]);
      Inserted := Inserted + [(dir, magnitude)];
    }
  }

  // ---- contacts ----

  /** `VDContactType`. */
  datatype ContactType = Face | Edge | Point | Internal

  /** `VDContactInfo`. */
  datatype ContactInfo = ContactInfo(point: Vec3, normal: Vec3, distance: real, kind: ContactType)

  /** `VDContactInfo()`: zero vectors and distance.  (The source leaves the
      type unset; here it is `Face`.) */
  function DefaultContact(): ContactInfo
  {
    ContactInfo(Zero(), Zero(), 0.0, Face)
  }

  /** The deepest distance among the contacts, or 0. */
  function Deepest(s: seq<ContactInfo>): (m: real)
    ensures m >= 0.0
    ensures forall j :: 0 <= j < |s| ==> s[j].distance <= m
    ensures m == 0.0 || exists j :: 0 <= j < |s| && s[j].distance == m
  {
    if |s| == 0 then 0.0
    else
      var m0 := Deepest(s[..|s| - 1]);
      assert forall j :: 0 <= j < |s| - 1 ==> s[..|s| - 1][j] == s[j];
      if s[|s| - 1].distance > m0 then s[|s| - 1].distance else m0
  }

  /** `m` is the deepest distance of `s` (or 0), and when positive entry
      `idx` is the first that deep. */
  predicate DeepestAt(s: seq<ContactInfo>, m: real, idx: nat)
  {
    m == Deepest(s)
    && (m > 0.0 ==> idx < |s| && s[idx].distance == m && forall j :: 0 <= j < idx ==> s[j].distance < m)
  }

  /** Appending a contact: it becomes the deepest exactly when it is deeper
      than every earlier one. */
  lemma DeepestAtAppend(s: seq<ContactInfo>, info: ContactInfo, m: real, idx: nat, t: seq<ContactInfo>, m': real, idx': nat)
    requires DeepestAt(s, m, idx) && t == s + [info]
    requires m' == (if info.distance > m then info.distance else m)
    requires idx' == (if info.distance > m then |s| else idx)
    ensures DeepestAt(t, m', idx')
  {
    assert t[..|t| - 1] == s;
    assert forall j :: 0 <= j < |s| ==> t[j] == s[j];
  }

  /** `VDManifold`'s fixed capacity. */
  const ManifoldCapacity: nat := 8

  /** `-FLT_MAX`, the start of the search in `contactClosestToDirection`. */
  const MinusFltMax: real := -340282346638528859811704183484516925440.0

  /** `VDManifold`: up to eight contacts with another collider, and the
      deepest of them. */
  class Manifold {
    var other: int
    const infos: array<ContactInfo>
    var deepestPenetrationIndex: nat
    var count: nat
    var deepestPenetration: real

    /** `deepestPenetration` is the deepest stored distance (or 0), and when
        positive it is held by entry `deepestPenetrationIndex`, the first
        entry that deep. */
    ghost predicate Valid()
      reads this, infos
    {
      infos.Length == ManifoldCapacity && count <= ManifoldCapacity
      && DeepestAt(infos[..count], deepestPenetration, deepestPenetrationIndex)
    }

    /** `VDManifold()`: empty. */
    constructor ()
      ensures Valid() && count == 0 && other == 0 && deepestPenetration == 0.0 && deepestPenetrationIndex == 0
    {
      other := 0;
      infos := new ContactInfo[ManifoldCapacity](_ => DefaultContact());
      deepestPenetrationIndex := 0;
      count := 0;
      deepestPenetration := 0.0;
    }

    /** `insertContact`: append when there is room, tracking the deepest;
        a full manifold is left as it is. */
    method InsertContact(info: ContactInfo)
      requires Valid()
      modifies this, infos
      ensures Valid() && other == old(other)
      ensures old(count) < ManifoldCapacity ==>
        count == old(count) + 1 && infos[..count] == old(infos[..count]) + [info]
        && infos[..] == old(infos[..])[old(count) := info]
      ensures old(count) == ManifoldCapacity ==>
        count == old(count) && infos[..] == old(infos[..])
        && deepestPenetration == old(deepestPenetration) && deepestPenetrationIndex == old(deepestPenetrationIndex)
    {
      if count < ManifoldCapacity {
        ghost var before, m, idx := infos[..count], deepestPenetration, deepestPenetrationIndex;
        if info.distance > deepestPenetration {
          deepestPenetrationIndex := count;
          deepestPenetration := info.distance;
        }
        infos[count] := info;
        count := count + 1;
        assert infos[..count] == before + [info];
        DeepestAtAppend(before, info, m, idx, infos[..count], deepestPenetration, deepestPenetrationIndex);
      }
    }

    /** The distance along `dir` of contact `i` from `position`. */
    function Reach(i: nat, dir: Vec3, position: Vec3): real
      requires i < infos.Length
      reads infos
    {
      Dot(dir, Sub(infos[i].point, position))
    }

    /** `contactClosestToDirection`: the index of the first contact that
        reaches furthest along `dir` from `position`; 0 when no contact
        reaches beyond `-FLT_MAX` (in particular when there is none). */
    method ContactClosestToDirection(dir: Vec3, position: Vec3) returns (idx: nat)
      requires Valid()
      ensures idx < ManifoldCapacity && (count > 0 ==> idx < count)
      ensures forall j :: 0 <= j < count ==> Reach(j, dir, position) <= MaxR(Reach(idx, dir, position), MinusFltMax)
      ensures idx == 0 || Reach(idx, dir, position) > MinusFltMax
      ensures forall j :: 0 <= j < idx ==> Reach(j, dir, position) < Reach(idx, dir, position)
    {
      var maxDistance := MinusFltMax;
      idx := 0;
      var i := 0;
      while i < count
        invariant 0 <= i <= count && idx < ManifoldCapacity && (i > 0 ==> idx < i) && (i == 0 ==> idx == 0)
        invariant (idx == 0 && maxDistance == MinusFltMax)
                  || (maxDistance == Reach(idx, dir, position) && maxDistance > MinusFltMax)
        invariant forall j :: 0 <= j < i ==> Reach(j, dir, position) <= maxDistance
        invariant forall j :: 0 <= j < idx ==> Reach(j, dir, position) < Reach(idx, dir, position)
      {
        var distance := Dot(dir, Sub(infos[i].point, position));
        if distance > maxDistance {
          maxDistance := distance;
          idx := i;
        }
        i := i + 1;
      }
    }
  }

  function MaxR(a: real, b: real): real { if a > b then a else b }

  // ---- VDAABBContact ----

  /** The tie-breaking rank of an axis: X before Y before Z. */
  function Rank(a: Axis): nat
  {
    match a
    case X => 0
    case Y => 1
    case Z => 2
  }

  /** Axis `a` comes before axis `b` for half extents `h`: smaller half
      extent first, equal ones in X, Y, Z order. */
  predicate AxisBefore(h: Vec3, a: Axis, b: Axis)
  {
    Component(h, a) < Component(h, b) || (Component(h, a) == Component(h, b) && Rank(a) < Rank(b))
  }

  /** What `setPenetrations` puts in `minDirections`: the three axes once
      each, ordered by half extent with ties X, Y, Z, each on the side the
      quadrant direction points to (positive only when its component is
      greater than 0). */
  predicate MinDirectionsFor(md: seq<Direction>, h: Vec3, q: Vec3)
  {
    |md| == 3
    && AxisBefore(h, AxisOf(md[0]), AxisOf(md[1])) && AxisBefore(h, AxisOf(md[1]), AxisOf(md[2]))
    && OnQuadrantSide(md[0], q) && OnQuadrantSide(md[1], q) && OnQuadrantSide(md[2], q)
  }

  /** The direction is positive exactly when the quadrant component on its
      axis is greater than 0. */
  predicate OnQuadrantSide(d: Direction, q: Vec3)
  {
    Positive(d) <==> Component(q, AxisOf(d)) > 0.0
  }

  /** The ordering rule fixes the directions: at most one triple obeys it. */
  lemma {:induction false} MinDirectionsUnique(a: seq<Direction>, b: seq<Direction>, h: Vec3, q: Vec3)
    requires MinDirectionsFor(a, h, q) && MinDirectionsFor(b, h, q)
    ensures a == b
  {
    assert AxisOf(a[0]) == AxisOf(b[0]) && AxisOf(a[1]) == AxisOf(b[1]) && AxisOf(a[2]) == AxisOf(b[2]);
    SameAxisAndSide(a[0], b[0]);
    SameAxisAndSide(a[1], b[1]);
    SameAxisAndSide(a[2], b[2]);
  }

  lemma SameAxisAndSide(d: Direction, e: Direction)
    requires AxisOf(d) == AxisOf(e) && Positive(d) == Positive(e)
    ensures d == e
  {
  }

  /** `VDAABBContact`: the two colliders, their overlap region, the sign of
      the offset between their centres, and the escape directions ordered
      by penetration. */
  class AABBContact {
    var contact: int
    var otherContact: int
    var intersectionRegion: AABB
    var quadrantDir: Vec3
    const minDirections: array<Direction>

    ghost predicate Valid()
      reads this
    {
      minDirections.Length == 3
    }

    /** `VDAABBContact()`: the fields are left unset by the source; here they
        start at zero, with the directions RIGHT. */
    constructor ()
      ensures Valid() && fresh(minDirections)
    {
      contact := 0;
      otherContact := 0;
      intersectionRegion := AABB(Zero(), Zero(), Zero(), Zero());
      quadrantDir := Zero();
      minDirections := new Direction[3](_ => Right);
    }

    /** `setParameters`. */
    method SetParameters(c: int, o: int, region: AABB, q: Vec3)
      requires Valid()
      modifies this
      ensures Valid() && contact == c && otherContact == o && intersectionRegion == region && quadrantDir == q
    {
      contact := c;
      otherContact := o;
      intersectionRegion := region;
      quadrantDir := q;
    }

    /** `getPenetrationByDirection`: the overlap width along the direction's
        axis, the same for both directions of an axis. */
    function GetPenetrationByDirection(dir: Direction): (p: real)
      reads this
      ensures p == 2.0 * Component(intersectionRegion.halfExtents, AxisOf(dir))
      ensures intersectionRegion.Consistent() ==>
        p == Component(intersectionRegion.high, AxisOf(dir)) - Component(intersectionRegion.low, AxisOf(dir))
    {
      var h := intersectionRegion.halfExtents;
      match dir
      case Right => 2.0 * h.x
      case Left => 2.0 * h.x
      case Up => 2.0 * h.y
      case Down => 2.0 * h.y
      case Forward => 2.0 * h.z
      case Back => 2.0 * h.z
    }

    /** `setPenetrations`: order the escape directions. */
    method SetPenetrations()
      requires Valid()
      modifies minDirections
      ensures MinDirectionsFor(minDirections[..], intersectionRegion.halfExtents, quadrantDir)
    {
      var md := EscapeOrder(intersectionRegion.halfExtents, quadrantDir);
      minDirections[0], minDirections[1], minDirections[2] := md[0], md[1], md[2];
      assert minDirections[..] == md;
    }

    /** `operator=` as written: the other collider is taken from the
        source's `pContact`, not from its `pOtherContact`. */
    method AssignAsWritten(from: AABBContact)
      requires Valid() && from.Valid()
      modifies this, minDirections
      ensures Valid()
      ensures contact == old(from.contact)
      ensures otherContact == if this == from then old(otherContact) else old(from.contact)
      ensures intersectionRegion == old(from.intersectionRegion) && quadrantDir == old(from.quadrantDir)
      ensures minDirections[..] == old(from.minDirections[..])
    {
      if this != from {
        contact := from.contact;
        otherContact := from.contact;
        intersectionRegion := from.intersectionRegion;
        quadrantDir := from.quadrantDir;
        minDirections[0], minDirections[1], minDirections[2] := from.minDirections[0], from.minDirections[1], from.minDirections[2];
      }
    }

    /** `operator=` as evidently intended: a field-by-field copy. */
    method Assign(from: AABBContact)
      requires Valid() && from.Valid()
      modifies this, minDirections
      ensures Valid()
      ensures contact == old(from.contact) && otherContact == old(from.otherContact)
      ensures intersectionRegion == old(from.intersectionRegion) && quadrantDir == old(from.quadrantDir)
      ensures minDirections[..] == old(from.minDirections[..])
    {
      if this != from {
        contact := from.contact;
        otherContact := from.otherContact;
        intersectionRegion := from.intersectionRegion;
        quadrantDir := from.quadrantDir;
        minDirections[0], minDirections[1], minDirections[2] := from.minDirections[0], from.minDirections[1], from.minDirections[2];
      }
    }
  }

  /** A contact between colliders 1 and 2 copied with the assignment as
      written names collider 1 twice; the intended copy keeps collider 2. */
  method AssignAsWrittenExample() returns (asWritten: int, intended: int)
    ensures asWritten == 1 && intended == 2
  {
    var src := new AABBContact();
    src.SetParameters(1, 2, src.intersectionRegion, src.quadrantDir);
    var a := new AABBContact();
    a.AssignAsWritten(src);
    var b := new AABBContact();
    b.Assign(src);
    return a.otherContact, b.otherContact;
  }

  /** The direction along the axis on the quadrant's side: positive only
      when the quadrant component is greater than 0. */
  function QuadrantSide(a: Axis, q: Vec3): (d: Direction)
    ensures AxisOf(d) == a && OnQuadrantSide(d, q)
  {
    match a
    case X => if q.x > 0.0 then Right else Left
    case Y => if q.y > 0.0 then Up else Down
    case Z => if q.z > 0.0 then Forward else Back
  }

  /** The branches of `setPenetrations`: the three axes by increasing half
      extent (the first test to pass wins a tie), each on the quadrant's
      side. */
  function EscapeOrder(h: Vec3, q: Vec3): (md: seq<Direction>)
    ensures MinDirectionsFor(md, h, q)
  {
    var right := QuadrantSide(X, q);
    var up := QuadrantSide(Y, q);
    var forward := QuadrantSide(Z, q);
    if h.x <= h.y && h.x <= h.z then
      if h.y <= h.z then [right, up, forward] else [right, forward, up]
    else if h.y <= h.z then
      if h.x <= h.z then [up, right, forward] else [up, forward, right]
    else
      if h.x <= h.y then [forward, right, up] else [forward, up, right]
  }

  /** `VDAABB::collisionAABB`: on overlap, fill the contact with the overlap
      region, the sign of the centre offset and the ordered directions. */
  method CollisionAABB(box: AABB, self: int, other: AABB, otherId: int, contact: AABBContact) returns (hit: bool)
    requires contact.Valid()
    modifies contact, contact.minDirections
    ensures contact.Valid()
    ensures hit == box.IntersectionRegion(other).0
    ensures hit ==>
      contact.intersectionRegion == box.IntersectionRegion(other).1
      && contact.quadrantDir == SignV(Sub(box.position, other.position))
      && contact.contact == self && contact.otherContact == otherId
      && MinDirectionsFor(contact.minDirections[..], contact.intersectionRegion.halfExtents, contact.quadrantDir)
    ensures !hit ==> unchanged(contact) && unchanged(contact.minDirections)
  {
    var (ok, region) := box.IntersectionRegion(other);
    if ok {
      var quadrantDir := SignV(Sub(box.position, other.position));
      contact.SetParameters(self, otherId, region, quadrantDir);
      contact.SetPenetrations();
      return true;
    }
    return false;
  }

  /** A hit leaves a proper overlap region, so every penetration it reports
      is non-negative. */
  lemma {:induction false} HitPenetrationNonNegative(box: AABB, other: AABB, d: Direction)
    requires box.IntersectionRegion(other).0
    ensures 2.0 * Component(box.IntersectionRegion(other).1.halfExtents, AxisOf(d)) >= 0.0
  {
    var r := box.IntersectionRegion(other).1;
    assert r.Consistent() && r.Validate();
  }

  /** `VDAABB::resolveAABBContact`: translate the box out along the first
      escape direction by the penetration on it. */
  function ResolveAABBContact(box: AABB, contact: AABBContact): (r: AABB)
    requires contact.Valid()
    reads contact, contact.minDirections
    ensures r.halfExtents == box.halfExtents && r.Consistent()
    ensures r.position == Add(box.position,
      Scale(ToVector(contact.minDirections[0]), contact.GetPenetrationByDirection(contact.minDirections[0])))
  {
    var d := contact.minDirections[0];
    box.Translate(Scale(ToVector(d), contact.GetPenetrationByDirection(d)))
  }

  /** Resolving moves the box along the escape direction's axis only, by the
      overlap width, and leaves the other two coordinates alone. */
  lemma {:induction false} ResolveMovesAlongOneAxis(box: AABB, contact: AABBContact, a: Axis)
    requires contact.Valid()
    ensures var d := contact.minDirections[0];
      var moved := Component(ResolveAABBContact(box, contact).position, a) - Component(box.position, a);
      if a == AxisOf(d) then
        moved == (if Positive(d) then 1.0 else -1.0) * contact.GetPenetrationByDirection(d)
      else moved == 0.0
  {
    var d := contact.minDirections[0];
    var v := ToVector(d);
    var p := contact.GetPenetrationByDirection(d);
    assert Component(Scale(v, p), a) == Component(v, a) * p by {
      match a
      case X =>
      case Y =>
      case Z =>
    }
  }

  /** The inside-origin branch of `VDRayCastAABB`: a ray starting in the box
      hits it at its origin, with distance 0, as an INTERNAL contact whose
      normal is the ray direction.  `None` is a ray from outside the box,
      which the plane casts handle. */
  function RayCastAABBInside(from: Vec3, dir: Vec3, box: AABB): (r: Option<ContactInfo>)
    ensures r.Some? <==> box.IsPointInAABB(from)
    ensures r.Some? ==>
      r.value.point == from && r.value.distance == 0.0 && r.value.kind == Internal && r.value.normal == dir
  {
    if box.IsPointInAABB(from) then Some(ContactInfo(from, dir, 0.0, Internal)) else None
  }
}

=== FILE: grid.dfy ===
/** `VDVoxel` and `VDGrid`: one chunk, a cube of `gridSize`^3 unit voxels
    whose corner is `low`.  A voxel is a value stored in the grid's `voxels`
    array; the grid updates it in place.  A pointer to a voxel is its index
    in that array (the array is contiguous, so pointer order is index
    order), and a collider is its address, an `int`. */
module Grids {
  import opened VectorMath
  import opened Collider
  import opened Collision
  import opened Lattice
  import opened ListSpec
  import opened Wrappers

  /** `-1` stored in a `VDuint`: what `moveIndex` returns for a step off the
      grid, and the index of a default-constructed voxel. */
  const InvalidIndex: nat := 0xFFFF_FFFF

  /** 2^32, the modulus of `VDuint` arithmetic. */
  const Modulus: nat := 0x1_0000_0000

  /** `VDVoxel`.  `colliders` holds the addresses of the colliders that
      overlap the voxel, kept increasing by `insertSortedUnique`. */
  datatype Voxel = Voxel(offsets: Vec3i, occupied: bool, lowPosition: Vec3, pointer: int,
                         index: nat, chunkIndex: nat, colliders: seq<int>)
  {
    /** `midPoint`. */
    function MidPoint(): Vec3 { Add(lowPosition, Half()) }

    /** `toAABB`: the unit cube at the voxel, centred on its midpoint. */
    function ToAABB(): (b: AABB)
      ensures b.low == lowPosition && b.high == Add(lowPosition, One())
      ensures b.Consistent() && b.position == MidPoint() && b.halfExtents == Half()
    {
      var b := FromLowHigh(lowPosition, Add(lowPosition, One()));
      assert Scale(Add(lowPosition, Add(lowPosition, One())), 0.5) == MidPoint();
      b
    }
  }

  /** `VDVoxel()`: unoccupied, at the origin, with index -1. */
  function DefaultVoxel(): Voxel
  {
    Voxel(Vec3i(0, 0, 0), false, Zero(), 0, InvalidIndex, 0, [])
  }

  /** A pointer to voxel `index` of chunk `chunk`. */
  datatype VoxelRef = VoxelRef(chunk: nat, index: nat)

  /** The voxel the grid constructor stores at index `i`. */
  function FreshVoxel(i: nat, n: nat, low: Vec3, chunkIndex: nat): Voxel
    requires n > 0
  {
    var c := Coordinates(i, n, n);
    Voxel(c, false, Add(low, ToVec3(c)), 0, i, chunkIndex, [])
  }

  /** Cell `c` comes before cell (x, y, z) in the order the triple loops
      visit cells: x outermost, then y, then z. */
  predicate Visited(c: Vec3i, x: int, y: int, z: int)
  {
    c.x < x || (c.x == x && (c.y < y || (c.y == y && c.z < z)))
  }

  /** The loops of the `VDGrid` constructor: every voxel gets its offsets,
      its low corner and its own index, unoccupied and with no colliders. */
  method FillVoxels(vs: array<Voxel>, n: nat, low: Vec3, chunkIndex: nat)
    requires n > 0 && vs.Length == n * n * n
    modifies vs
    ensures forall i :: 0 <= i < vs.Length ==> vs[i] == FreshVoxel(i, n, low, chunkIndex)
  {
    forall i | 0 <= i < vs.Length
      ensures InBox(Coordinates(i, n, n), n, n, n) && CellIndex(Coordinates(i, n, n), n, n) == i
    {
      CoordinatesInBox(i, n, n, n);
      IndexOfCoordinates(i, n, n);
    }
    var x := 0;
    while x < n
      invariant 0 <= x <= n
      invariant forall i :: 0 <= i < vs.Length && Visited(Coordinates(i, n, n), x, 0, 0) ==>
        vs[i] == FreshVoxel(i, n, low, chunkIndex)
    {
      var y := 0;
      while y < n
        invariant 0 <= y <= n
        invariant forall i :: 0 <= i < vs.Length && Visited(Coordinates(i, n, n), x, y, 0) ==>
          vs[i] == FreshVoxel(i, n, low, chunkIndex)
      {
        var z := 0;
        while z < n
          invariant 0 <= z <= n
          invariant forall i :: 0 <= i < vs.Length && Visited(Coordinates(i, n, n), x, y, z) ==>
            vs[i] == FreshVoxel(i, n, low, chunkIndex)
        {
          var offsets := Vec3i(x, y, z);
          var index := CellIndex(offsets, n, n);
          CoordinatesOfIndex(offsets, n, n);
          IndexBounds(offsets, n, n, n);
          vs[index] := Voxel(offsets, false, Add(low, ToVec3(offsets)), 0, index, chunkIndex, []);
          z := z + 1;
        }
        y := y + 1;
      }
      x := x + 1;
    }
  }

  /** `getIndex(position)` as written: the position relative to `low` is
      truncated toward zero, each coordinate is converted to `VDuint` (so -1
      becomes 2^32 - 1) and the index is computed modulo 2^32. */
  function PositionIndexAsWritten(n: nat, low: Vec3, p: Vec3): (i: nat)
    ensures i < Modulus
  {
    var c := ToVec3i(Sub(p, low));
    (c.x % Modulus + (c.y % Modulus) * n + (c.z % Modulus) * n * n) % Modulus
  }

  /** A position left of the grid is taken for a voxel inside it: in a grid
      of size 2 at the origin, (-1, 1, 0) lands on voxel 1, which is (1, 0, 0). */
  lemma PositionIndexAsWrittenAliases()
    ensures PositionIndexAsWritten(2, Zero(), Vec3(-1.0, 1.0, 0.0)) == 1
    ensures Coordinates(1, 2, 2) == Vec3i(1, 0, 0)
  {
    assert ToVec3i(Sub(Vec3(-1.0, 1.0, 0.0), Zero())) == Vec3i(-1, 1, 0);
  }

  /** An integer vector taken to a position and back is itself. */
  lemma ToVec3iOfToVec3(v: Vec3i)
    ensures ToVec3i(ToVec3(v)) == v
  {
    assert TruncToInt(v.x as real) == v.x;
    assert TruncToInt(v.y as real) == v.y;
    assert TruncToInt(v.z as real) == v.z;
  }

  /** Integer coordinates `v` handed to the position overload on a grid
      whose low corner is `l` read the voxel at `v - l`, not the voxel at
      `v`: the two differ whenever the low corner is not the origin. */
  lemma {:induction false} PositionIndexAsWrittenShifts(n: nat, l: Vec3i, v: Vec3i)
    requires n > 0 && n * n * n <= InvalidIndex
    requires InBox(SubI(v, l), n, n, n)
    ensures PositionIndexAsWritten(n, ToVec3(l), ToVec3(v)) == CellIndex(SubI(v, l), n, n)
    ensures InBox(v, n, n, n) && l != Vec3i(0, 0, 0) ==>
      PositionIndexAsWritten(n, ToVec3(l), ToVec3(v)) != CellIndex(v, n, n)
  {
    var c := SubI(v, l);
    assert Sub(ToVec3(v), ToVec3(l)) == ToVec3(c);
    ToVec3iOfToVec3(c);
    IndexBounds(c, n, n, n);
    MulAtLeast(n, n);
    MulAtLeast(n * n, n);
    assert c.x % Modulus == c.x && c.y % Modulus == c.y && c.z % Modulus == c.z;
    if InBox(v, n, n, n) && CellIndex(c, n, n) == CellIndex(v, n, n) {
      CellIndexInjective(c, v, n, n);
    }
  }

  /** The sentinel (-1, -1, -1) on a grid of size 20 whose low corner is
      (-20, -20, -20) reads voxel 7999, the far corner (19, 19, 19). */
  lemma SentinelReadsFarCorner()
    ensures PositionIndexAsWritten(20, Vec3(-20.0, -20.0, -20.0), ToVec3(Vec3i(-1, -1, -1))) == 7999
    ensures Coordinates(7999, 20, 20) == Vec3i(19, 19, 19)
  {
    assert ToVec3(Vec3i(-20, -20, -20)) == Vec3(-20.0, -20.0, -20.0);
    PositionIndexAsWrittenShifts(20, Vec3i(-20, -20, -20), Vec3i(-1, -1, -1));
  }

  /** `getIndex(position)` as evidently intended: the voxel whose truncated
      coordinates the position has, or `InvalidIndex` when those coordinates
      lie outside the grid. */
  function PositionIndex(n: nat, low: Vec3, p: Vec3): (i: nat)
    ensures i == InvalidIndex || (n > 0 && i < n * n * n && Coordinates(i, n, n) == ToVec3i(Sub(p, low)))
    ensures n * n * n <= InvalidIndex ==> (i < n * n * n <==> InBox(ToVec3i(Sub(p, low)), n, n, n))
  {
    var c := ToVec3i(Sub(p, low));
    if InBox(c, n, n, n) then
      CoordinatesOfIndex(c, n, n);
      IndexBounds(c, n, n, n);
      CellIndex(c, n, n)
    else InvalidIndex
  }

  /** With the correction, a position in a voxel's unit cell, the cell
      inside the grid, selects that voxel: its offsets are the position's
      whole coordinates. */
  lemma {:induction false} PositionIndexFindsCell(n: nat, low: Vec3, c: Vec3i, p: Vec3)
    requires n > 0 && n * n * n <= InvalidIndex && InBox(c, n, n, n)
    requires LessEq(Add(low, ToVec3(c)), p)
    requires p.x < low.x + c.x as real + 1.0 && p.y < low.y + c.y as real + 1.0 && p.z < low.z + c.z as real + 1.0
    ensures PositionIndex(n, low, p) == CellIndex(c, n, n)
  {
    var l := Sub(p, low);
    assert ToVec3i(l) == c;
    CoordinatesOfIndex(c, n, n);
    IndexBounds(c, n, n, n);
  }

  /** `VDVoxel::voxelContact`: the contact of the box (address `boxId`) with
      the voxel (address `voxelId`): their overlap region and the sign of
      the offset from the voxel's centre to the box's. */
  method VoxelContact(v: Voxel, voxelId: int, box: AABB, boxId: int) returns (c: AABBContact)
    ensures fresh(c) && fresh(c.minDirections) && c.Valid()
    ensures c.contact == boxId && c.otherContact == voxelId
    ensures c.intersectionRegion == box.IntersectionRegion(v.ToAABB()).1
    ensures c.quadrantDir == SignV(Sub(box.position, v.MidPoint()))
  {
    var voxelBox := v.ToAABB();
    var (_, intersection) := box.IntersectionRegion(voxelBox);
    var quadrantDir := SignV(Sub(box.position, voxelBox.position));
    c := new AABBContact();
    c.SetParameters(boxId, voxelId, intersection, quadrantDir);
  }

  /** The voxel after `colliders.insertSortedUnique(collider)`. */
  function WithCollider(v: Voxel, id: int): Voxel
  {
    v.(colliders := InsertSortedUnique(v.colliders, id).list)
  }

  /** The voxel after `colliders.removeSorted(collider)`. */
  function WithoutCollider(v: Voxel, id: int): Voxel
  {
    v.(colliders := RemoveSorted(v.colliders, id))
  }

  /** On a strictly increasing list a second `removeSorted` of the same
      item changes nothing. */
  lemma {:induction false} RemoveSortedTwice(s: seq<int>, x: int)
    requires StrictlySorted(s)
    ensures RemoveSorted(RemoveSorted(s, x), x) == RemoveSorted(s, x)
  {
    var t := RemoveSorted(s, x);
    RemoveSortedStrictSet(s, x);
    assert x !in t;
  }

  /** Merge a voxel's colliders into `unique` one at a time with
      `insertSortedUnique`: a strictly increasing list stays so and gains
      exactly the merged items. */
  method MergeUnique(unique: seq<int>, cs: seq<int>) returns (r: seq<int>)
    ensures StrictlySorted(unique) ==> StrictlySorted(r) && forall c :: c in r <==> (c in unique || c in cs)
  {
    r := unique;
    var k := 0;
    while k < |cs|
      invariant 0 <= k <= |cs|
      invariant StrictlySorted(unique) ==> StrictlySorted(r) && Elems(r) == Elems(unique) + Elems(cs[..k])
    {
      assert cs[..k + 1] == cs[..k] + [cs[k]];
      if StrictlySorted(r) {
        InsertSortedUniqueStrict(r, cs[k]);
      }
      r := InsertSortedUnique(r, cs[k]).list;
      k := k + 1;
    }
    assert cs[..k] == cs;
    assert StrictlySorted(unique) ==> forall c :: c in r <==> c in Elems(r);
  }

  /** `VDGrid`. */
  class Grid {
    const gridSize: nat
    const voxels: array<Voxel>
    const low: Vec3
    const indexCount: nat
    /** `occupiedVoxels`: the indices of the occupied voxels, most recently
        marked first. */
    var occupiedVoxels: seq<nat>
    const chunkIndex: nat

    /** Voxel `i` is where the constructor put it: its offsets are its
        coordinates, its index is `i`, and its colliders are increasing. */
    ghost predicate Placed(i: int)
      reads this, voxels
      requires 0 <= i < voxels.Length
    {
      gridSize > 0
      && voxels[i].offsets == Coordinates(i, gridSize, gridSize)
      && InBox(voxels[i].offsets, gridSize, gridSize, gridSize)
      && CellIndex(voxels[i].offsets, gridSize, gridSize) == i
      && voxels[i].index == i && voxels[i].chunkIndex == chunkIndex
      && voxels[i].lowPosition == Add(low, ToVec3(voxels[i].offsets))
      && StrictlySorted(voxels[i].colliders)
    }

    ghost predicate Valid()
      reads this, voxels
    {
      indexCount == gridSize * gridSize * gridSize && indexCount <= InvalidIndex
      && voxels.Length == indexCount
      && (forall i :: 0 <= i < indexCount ==> Placed(i))
      && (forall k :: 0 <= k < |occupiedVoxels| ==>
            occupiedVoxels[k] < indexCount && voxels[occupiedVoxels[k]].occupied)
      && (forall i :: 0 <= i < indexCount && voxels[i].occupied ==> i in occupiedVoxels)
      && (forall k, l :: 0 <= k < l < |occupiedVoxels| ==> occupiedVoxels[k] != occupiedVoxels[l])
    }

    /** `VDGrid(chunkSize, low, chunkIndex)`: every voxel empty and in place.
        The size is such that `gridSize`^3 fits in a `VDuint`. */
    constructor (size: nat, low: Vec3, chunkIndex: nat)
      requires size * size * size <= InvalidIndex
      ensures Valid() && fresh(voxels)
      ensures gridSize == size && this.low == low && this.chunkIndex == chunkIndex
      ensures occupiedVoxels == []
      ensures forall i :: 0 <= i < indexCount ==> !voxels[i].occupied && voxels[i].colliders == []
    {
      gridSize := size;
      indexCount := size * size * size;
      var vs := new Voxel[size * size * size](_ => DefaultVoxel());
      if size > 0 {
        FillVoxels(vs, size, low, chunkIndex);
      }
      voxels := vs;
      this.low := low;
      this.chunkIndex := chunkIndex;
      occupiedVoxels := [];
      new;
      forall i | 0 <= i < indexCount
        ensures Placed(i)
      {
        CoordinatesInBox(i, size, size, size);
        IndexOfCoordinates(i, size, size);
      }
    }

    /** `getIndex(lvx, lvy, lvz)`: on the grid, the index leads back to the
        coordinates. */
    function GetIndex(c: Vec3i): (i: int)
      ensures gridSize > 0 && InBox(c, gridSize, gridSize, gridSize) ==>
        0 <= i < gridSize * gridSize * gridSize && Coordinates(i, gridSize, gridSize) == c
    {
      if gridSize > 0 && InBox(c, gridSize, gridSize, gridSize) then
        CoordinatesOfIndex(c, gridSize, gridSize);
        IndexBounds(c, gridSize, gridSize, gridSize);
        CellIndex(c, gridSize, gridSize)
      else CellIndex(c, gridSize, gridSize)
    }

    /** `getCoordinates`: for an index on the grid, coordinates on the grid
        that lead back to the index. */
    function GetCoordinates(i: int): (c: Vec3i)
      requires gridSize > 0
      ensures 0 <= i < gridSize * gridSize * gridSize ==>
        InBox(c, gridSize, gridSize, gridSize) && GetIndex(c) == i
    {
      if 0 <= i < gridSize * gridSize * gridSize then
        CoordinatesInBox(i, gridSize, gridSize, gridSize);
        IndexOfCoordinates(i, gridSize, gridSize);
        Coordinates(i, gridSize, gridSize)
      else Coordinates(i, gridSize, gridSize)
    }

    /** `validateCoords`. */
    predicate ValidateCoords(c: Vec3i)
    {
      c.x >= 0 && c.x < gridSize && c.y >= 0 && c.y < gridSize && c.z >= 0 && c.z < gridSize
    }

    /** Valid coordinates are exactly those that survive the trip through
        an index on the grid. */
    lemma {:induction false} ValidateCoordsIsRoundTrip(c: Vec3i)
      requires gridSize > 0
      ensures ValidateCoords(c) <==>
        0 <= GetIndex(c) < gridSize * gridSize * gridSize && GetCoordinates(GetIndex(c)) == c
    {
      var n := gridSize;
      var i := GetIndex(c);
      if 0 <= i < n * n * n && GetCoordinates(i) == c {
        CoordinatesInBox(i, n, n, n);
      }
    }

    /** `moveIndex`: the neighbour one step away in the direction, or
        `InvalidIndex` when the step leaves the grid. */
    function MoveIndex(index: nat, d: Direction): (r: nat)
      requires gridSize > 0
      ensures var c := AddI(Coordinates(index, gridSize, gridSize), Step(d));
        if ValidateCoords(c) then r < gridSize * gridSize * gridSize && Coordinates(r, gridSize, gridSize) == c
        else r == InvalidIndex
    {
      var c := AddI(GetCoordinates(index), Step(d));
      if !ValidateCoords(c) then InvalidIndex
      else
        CoordinatesOfIndex(c, gridSize, gridSize);
        IndexBounds(c, gridSize, gridSize, gridSize);
        CellIndex(c, gridSize, gridSize)
    }

    /** Stepping back undoes a step that stayed on the grid. */
    lemma {:induction false} MoveIndexBack(index: nat, d: Direction)
      requires gridSize > 0 && index < gridSize * gridSize * gridSize && gridSize * gridSize * gridSize <= InvalidIndex
      requires MoveIndex(index, d) != InvalidIndex
      ensures MoveIndex(MoveIndex(index, d), Opposite(d)) == index
    {
      var r := MoveIndex(index, d);
      var c := GetCoordinates(index);
      assert AddI(GetCoordinates(r), Step(Opposite(d))) == c;
      assert ValidateCoords(c);
    }

    /** `getOccupied(index)` as written: out of range the function ends
        without returning, shown as `None`. */
    function GetOccupiedAsWritten(index: nat): (r: Option<bool>)
      requires Valid()
      reads this, voxels
      ensures r.None? <==> index >= indexCount
      ensures r.Some? ==> r.value == (index in occupiedVoxels)
    {
      if index < indexCount then Some(voxels[index].occupied) else None
    }

    /** As written, asking about the index just past the grid has no answer. */
    lemma GetOccupiedAsWrittenFallsOff()
      requires Valid()
      ensures GetOccupiedAsWritten(indexCount).None?
      ensures !GetOccupied(indexCount)
    {
    }

    /** `getOccupied(index)` as evidently intended: false out of range.  A
        voxel is occupied exactly when it is on the `occupiedVoxels` list. */
    function GetOccupied(index: nat): (b: bool)
      requires Valid()
      reads this, voxels
      ensures b <==> index in occupiedVoxels
      ensures b ==> index < indexCount
    {
      index < indexCount && voxels[index].occupied
    }

    /** `getOccupied(lvx, lvy, lvz)`: off the grid the flattened index
        aliases another voxel, whose occupancy is read instead. */
    function GetOccupiedAt(c: Vec3i): (b: bool)
      requires Valid() && c.x >= 0 && c.y >= 0 && c.z >= 0
      reads this, voxels
      ensures !ValidateCoords(c) ==>
        (b <==> GetIndex(c) in occupiedVoxels) && (b ==> gridSize > 0 && GetCoordinates(GetIndex(c)) != c)
      ensures ValidateCoords(c) ==> (b <==> exists k :: 0 <= k < |occupiedVoxels| && GetCoordinates(occupiedVoxels[k]) == c)
    {
      var i := GetIndex(c);
      if ValidateCoords(c) then
        assert forall k :: 0 <= k < |occupiedVoxels| && GetCoordinates(occupiedVoxels[k]) == c ==> occupiedVoxels[k] == i;
        i >= 0 && GetOccupied(i)
      else i >= 0 && GetOccupied(i)
    }

    /** `getVoxel(index)`: the voxel, or `None` out of range, where the
        source ends without returning. */
    function GetVoxel(index: nat): (r: Option<Voxel>)
      requires Valid()
      reads this, voxels
      ensures r.Some? <==> index < indexCount
      ensures r.Some? ==> r.value.index == index && r.value.offsets == Coordinates(index, gridSize, gridSize)
    {
      if index < indexCount then
        assert Placed(index);
        Some(voxels[index])
      else None
    }

    /** `setOccupied(index)`: mark an unoccupied voxel on the grid and put it
        at the head of `occupiedVoxels`; an occupied voxel or an index off
        the grid leaves everything as it was, so marking twice is marking
        once. */
    method SetOccupied(index: nat)
      requires Valid()
      modifies this, voxels
      ensures Valid()
      ensures GetOccupied(index) <==> index < indexCount
      ensures if index < indexCount && !old(voxels[index].occupied) then
          voxels[..] == old(voxels[..])[index := old(voxels[index]).(occupied := true)]
          && occupiedVoxels == [index] + old(occupiedVoxels)
        else
          voxels[..] == old(voxels[..]) && occupiedVoxels == old(occupiedVoxels)
    {
      if index < indexCount && !voxels[index].occupied {
        voxels[index] := voxels[index].(occupied := true);
        occupiedVoxels := [index] + occupiedVoxels;
        assert forall i :: 0 <= i < indexCount && i != index ==> voxels[i] == old(voxels[i]);
      }
    }

    /** `setOccupied(lvx, lvy, lvz)`. */
    method SetOccupiedAt(c: Vec3i)
      requires Valid() && c.x >= 0 && c.y >= 0 && c.z >= 0
      modifies this, voxels
      ensures Valid()
      ensures ValidateCoords(c) ==> GetOccupied(GetIndex(c)) && GetIndex(c) < indexCount
      ensures forall i :: 0 <= i < indexCount && i != GetIndex(c) ==> voxels[i] == old(voxels[i])
    {
      CellIndexNonNegative(c, gridSize, gridSize);
      var index := GetIndex(c);
      SetOccupied(index);
    }

    /** `setOccupied(position)`, with the position converted as intended. */
    method SetOccupiedAtPosition(p: Vec3)
      requires Valid()
      modifies this, voxels
      ensures Valid()
      ensures InBox(ToVec3i(Sub(p, low)), gridSize, gridSize, gridSize) ==>
        GetOccupied(PositionIndex(gridSize, low, p))
      ensures !InBox(ToVec3i(Sub(p, low)), gridSize, gridSize, gridSize) ==>
        voxels[..] == old(voxels[..]) && occupiedVoxels == old(occupiedVoxels)
    {
      var index := PositionIndex(gridSize, low, p);
      SetOccupied(index);
    }

    // ---- sampling ----

    /** The early returns of the samplers: the box starts beyond the far
        faces of the grid or ends before its near faces. */
    predicate OutsideGrid(box: AABB)
    {
      var l := Sub(box.low, low);
      var h := Sub(box.high, low);
      l.x > gridSize as real || l.y > gridSize as real || l.z > gridSize as real
      || h.x < 0.0 || h.y < 0.0 || h.z < 0.0
    }

    /** The truncated corners of the box relative to the grid. */
    function RegionLow(box: AABB): Vec3i { ToVec3i(Sub(box.low, low)) }
    function RegionHigh(box: AABB): Vec3i { ToVec3i(Sub(box.high, low)) }

    /** Voxel `i` is on the grid and its coordinates lie between `lo` and `hi`. */
    predicate InRegion(i: int, lo: Vec3i, hi: Vec3i)
    {
      gridSize > 0 && 0 <= i < indexCount && Between(lo, Coordinates(i, gridSize, gridSize), hi)
    }

    /** What the walk has collected on reaching cell (x, y, z): each voxel of
        the region visited so far (only the occupied ones if `onlyOccupied`),
        once. */
    ghost predicate Collected(r: seq<nat>, lo: Vec3i, hi: Vec3i, onlyOccupied: bool, x: int, y: int, z: int)
      reads this, voxels
    {
      voxels.Length == indexCount
      && (forall i :: i in r <==> (InRegion(i, lo, hi) && (onlyOccupied ==> voxels[i].occupied)
          && Visited(Coordinates(i, gridSize, gridSize), x, y, z)))
      && (forall k :: 0 <= k < |r| ==> r[k] < indexCount)
      && (forall k, l :: 0 <= k < l < |r| ==> r[k] != r[l])
    }

    /** Two positions of the walk that have visited the same cells of the
        region have collected the same voxels. */
    lemma {:induction false} CollectedShift(r: seq<nat>, lo: Vec3i, hi: Vec3i, onlyOccupied: bool,
                                            x: int, y: int, z: int, x': int, y': int, z': int)
      requires Collected(r, lo, hi, onlyOccupied, x, y, z)
      requires forall c :: Between(lo, c, hi) ==> (Visited(c, x, y, z) <==> Visited(c, x', y', z'))
      ensures Collected(r, lo, hi, onlyOccupied, x', y', z')
    {
    }

    /** The walk `sampleRegion` and `sampleOccupiedRegion` share: every voxel
        whose coordinates lie between the truncated corners of the box, only
        the occupied ones if `onlyOccupied`, each once; nothing when the box
        misses the grid. */
    method Sample(box: AABB, onlyOccupied: bool) returns (r: seq<nat>)
      requires Valid()
      ensures OutsideGrid(box) ==> r == []
      ensures !OutsideGrid(box) ==> forall i :: i in r <==>
        (InRegion(i, RegionLow(box), RegionHigh(box)) && (onlyOccupied ==> voxels[i].occupied))
      ensures forall k :: 0 <= k < |r| ==> r[k] < indexCount
      ensures forall k, l :: 0 <= k < l < |r| ==> r[k] != r[l]
    {
      var l := Sub(box.low, low);
      if l.x > gridSize as real || l.y > gridSize as real || l.z > gridSize as real {
        return [];
      }
      var h := Sub(box.high, low);
      if h.x < 0.0 || h.y < 0.0 || h.z < 0.0 {
        return [];
      }
      var lo := ToVec3i(l);
      var hi := ToVec3i(h);
      r := [];
      var x := lo.x;
      while x <= hi.x
        invariant lo.x <= x && (x <= hi.x + 1 || x == lo.x)
        invariant Collected(r, lo, hi, onlyOccupied, x, lo.y, lo.z)
      {
        r := SampleSlice(lo, hi, x, onlyOccupied, r);
        x := x + 1;
      }
      CollectedShift(r, lo, hi, onlyOccupied, x, lo.y, lo.z, hi.x + 1, lo.y, lo.z);
    }

    /** The middle loop of the walk: the cells with first coordinate `x`. */
    method SampleSlice(lo: Vec3i, hi: Vec3i, x: int, onlyOccupied: bool, r0: seq<nat>) returns (r: seq<nat>)
      requires Valid() && lo.x <= x <= hi.x
      requires Collected(r0, lo, hi, onlyOccupied, x, lo.y, lo.z)
      ensures Collected(r, lo, hi, onlyOccupied, x + 1, lo.y, lo.z)
    {
      r := r0;
      var y := lo.y;
      while y <= hi.y
        invariant lo.y <= y && (y <= hi.y + 1 || y == lo.y)
        invariant Collected(r, lo, hi, onlyOccupied, x, y, lo.z)
      {
        r := SampleRow(lo, hi, x, y, onlyOccupied, r);
        y := y + 1;
      }
      CollectedShift(r, lo, hi, onlyOccupied, x, y, lo.z, x + 1, lo.y, lo.z);
    }

    /** The inner loop of the walk: the cells with first coordinates `x`, `y`. */
    method SampleRow(lo: Vec3i, hi: Vec3i, x: int, y: int, onlyOccupied: bool, r0: seq<nat>) returns (r: seq<nat>)
      requires Valid() && lo.x <= x <= hi.x && lo.y <= y <= hi.y
      requires Collected(r0, lo, hi, onlyOccupied, x, y, lo.z)
      ensures Collected(r, lo, hi, onlyOccupied, x, y + 1, lo.z)
    {
      r := r0;
      var z := lo.z;
      while z <= hi.z
        invariant lo.z <= z && (z <= hi.z + 1 || z == lo.z)
        invariant Collected(r, lo, hi, onlyOccupied, x, y, z)
      {
        r := SampleStep(lo, hi, x, y, z, onlyOccupied, r);
        z := z + 1;
      }
      CollectedShift(r, lo, hi, onlyOccupied, x, y, z, x, y + 1, lo.z);
    }

    /** The body of the inner loop: cell (x, y, z), when it is on the grid. */
    method SampleStep(lo: Vec3i, hi: Vec3i, x: int, y: int, z: int, onlyOccupied: bool, r0: seq<nat>) returns (r: seq<nat>)
      requires Valid() && lo.x <= x <= hi.x && lo.y <= y <= hi.y && lo.z <= z <= hi.z
      requires Collected(r0, lo, hi, onlyOccupied, x, y, z)
      ensures Collected(r, lo, hi, onlyOccupied, x, y, z + 1)
    {
      r := r0;
      SampleCell(lo, hi, x, y, z, onlyOccupied, r);
      var taken := false;
      var index := 0;
      if x >= 0 && y >= 0 && z >= 0 && x < gridSize && y < gridSize && z < gridSize {
        index := GetIndex(Vec3i(x, y, z));
        if index < indexCount && (!onlyOccupied || voxels[index].occupied) {
          r := [index] + r;
          taken := true;
        }
      } else {
        forall i | InRegion(i, lo, hi)
          ensures Coordinates(i, gridSize, gridSize) != Vec3i(x, y, z)
        {
          assert Placed(i);
        }
      }
      CollectedStep(lo, hi, x, y, z, onlyOccupied, r0, r, index, taken);
    }

    /** One cell of the walk: the voxel at (x, y, z), if taken, joins what
        was collected before it. */
    lemma {:induction false} CollectedStep(lo: Vec3i, hi: Vec3i, x: int, y: int, z: int, onlyOccupied: bool,
                                           r0: seq<nat>, r: seq<nat>, index: int, taken: bool)
      requires Collected(r0, lo, hi, onlyOccupied, x, y, z)
      requires forall i :: InRegion(i, lo, hi) && Coordinates(i, gridSize, gridSize) == Vec3i(x, y, z) ==>
        i == index && i !in r0
      requires taken ==> (InRegion(index, lo, hi) && Coordinates(index, gridSize, gridSize) == Vec3i(x, y, z)
        && (onlyOccupied ==> voxels[index].occupied))
      requires !taken ==> forall i :: InRegion(i, lo, hi) && Coordinates(i, gridSize, gridSize) == Vec3i(x, y, z) ==>
        onlyOccupied && !voxels[i].occupied
      requires r == if taken then [index] + r0 else r0
      ensures Collected(r, lo, hi, onlyOccupied, x, y, z + 1)
    {
      forall i
        ensures i in r <==> (InRegion(i, lo, hi) && (onlyOccupied ==> voxels[i].occupied)
          && Visited(Coordinates(i, gridSize, gridSize), x, y, z + 1))
      {
        if InRegion(i, lo, hi) {
          var c := Coordinates(i, gridSize, gridSize);
          assert Visited(c, x, y, z + 1) <==> Visited(c, x, y, z) || c == Vec3i(x, y, z);
        }
      }
    }

    /** The facts one step of the walk needs: the cell's voxel is the only
        one with those coordinates, and it has not been collected yet. */
    lemma {:induction false} SampleCell(lo: Vec3i, hi: Vec3i, x: int, y: int, z: int, onlyOccupied: bool, r: seq<nat>)
      requires Valid() && lo.x <= x <= hi.x && lo.y <= y <= hi.y && lo.z <= z <= hi.z
      requires Collected(r, lo, hi, onlyOccupied, x, y, z)
      ensures forall i :: InRegion(i, lo, hi) && Coordinates(i, gridSize, gridSize) == Vec3i(x, y, z) ==>
        i == GetIndex(Vec3i(x, y, z)) && i !in r
    {
      forall i | InRegion(i, lo, hi) && Coordinates(i, gridSize, gridSize) == Vec3i(x, y, z)
        ensures i == GetIndex(Vec3i(x, y, z)) && i !in r
      {
        assert Placed(i);
      }
    }

    /** `sampleRegion`. */
    method SampleRegion(box: AABB) returns (r: seq<nat>)
      requires Valid()
      ensures OutsideGrid(box) ==> r == []
      ensures !OutsideGrid(box) ==> forall i :: i in r <==> InRegion(i, RegionLow(box), RegionHigh(box))
      ensures forall k :: 0 <= k < |r| ==> r[k] < indexCount
      ensures forall k, l :: 0 <= k < l < |r| ==> r[k] != r[l]
    {
      r := Sample(box, false);
    }

    /** `sampleOccupiedRegion(aabb)`. */
    method SampleOccupiedRegion(box: AABB) returns (r: seq<nat>)
      requires Valid()
      ensures OutsideGrid(box) ==> r == []
      ensures !OutsideGrid(box) ==> forall i :: i in r <==>
        InRegion(i, RegionLow(box), RegionHigh(box)) && voxels[i].occupied
      ensures forall k :: 0 <= k < |r| ==> r[k] < indexCount && voxels[r[k]].occupied
      ensures forall k, l :: 0 <= k < l < |r| ==> r[k] != r[l]
    {
      r := Sample(box, true);
    }

    // ---- colliders ----

    /** Replace one voxel's colliders by a strictly increasing list. */
    method SetColliders(index: nat, cs: seq<int>)
      requires Valid() && index < indexCount && StrictlySorted(cs)
      modifies voxels
      ensures Valid()
      ensures forall i :: 0 <= i < indexCount ==>
        voxels[i] == if i == index then old(voxels[i]).(colliders := cs) else old(voxels[i])
    {
      voxels[index] := voxels[index].(colliders := cs);
      forall i | 0 <= i < indexCount
        ensures Placed(i) && voxels[i].occupied == old(voxels[i].occupied)
      {
        assert old(Placed(i));
      }
    }

    /** The voxels `sampleRegion` returns for the box, as a set. */
    ghost function RegionVoxels(box: AABB): set<nat>
    {
      if OutsideGrid(box) then {}
      else set i: nat | i < indexCount && InRegion(i, RegionLow(box), RegionHigh(box))
    }

    /** The three-argument `sampleOccupiedRegion`: walk the region in the
        order of the loops, merge every voxel's colliders into `unique`
        with `insertSortedUnique`, and put every occupied voxel at the head
        of `sampled`.  What was in `sampled` stays behind the new entries;
        a strictly increasing `unique` stays so and gains exactly the
        colliders of the region's voxels. */
    method SampleWithColliders(box: AABB, sampled: seq<VoxelRef>, unique: seq<int>)
      returns (sampled': seq<VoxelRef>, unique': seq<int>)
      requires Valid()
      ensures |sampled'| >= |sampled| && sampled'[|sampled'| - |sampled|..] == sampled
      ensures forall v :: v in sampled'[..|sampled'| - |sampled|] <==>
        (v.chunk == chunkIndex && v.index in RegionVoxels(box) && voxels[v.index].occupied)
      ensures StrictlySorted(unique) ==> (StrictlySorted(unique')
        && forall c :: c in unique' <==> (c in unique || exists i :: i in RegionVoxels(box) && c in voxels[i].colliders))
    {
      var cells := Sample(box, false);
      assert forall i :: i in cells <==> i in RegionVoxels(box);
      sampled', unique' := sampled, unique;
      var k := |cells|;
      while k > 0
        invariant 0 <= k <= |cells|
        invariant |sampled'| >= |sampled| && sampled'[|sampled'| - |sampled|..] == sampled
        invariant OccupiedAmong(sampled'[..|sampled'| - |sampled|], cells[k..])
        invariant StrictlySorted(unique) ==> (StrictlySorted(unique')
          && forall c :: c in unique' <==> (c in unique || exists i :: i in cells[k..] && c in voxels[i].colliders))
      {
        k := k - 1;
        var index := cells[k];
        assert cells[k..] == [index] + cells[k + 1..];
        unique' := MergeUnique(unique', voxels[index].colliders);
        ghost var before := sampled'[..|sampled'| - |sampled|];
        CollectStep(before, cells[k + 1..], index);
        if voxels[index].occupied {
          sampled' := [VoxelRef(chunkIndex, index)] + sampled';
          assert sampled'[..|sampled'| - |sampled|] == [VoxelRef(chunkIndex, index)] + before;
        }
      }
      assert cells[0..] == cells;
    }

    /** `s` holds exactly the occupied voxels of this chunk among `cs`. */
    ghost predicate OccupiedAmong(s: seq<VoxelRef>, cs: seq<nat>)
      reads this, voxels
    {
      forall v :: v in s <==> (v.chunk == chunkIndex && v.index in cs && v.index < voxels.Length && voxels[v.index].occupied)
    }

    /** One voxel more of the walk: it joins the collected voxels when occupied. */
    lemma CollectStep(s: seq<VoxelRef>, cs: seq<nat>, index: nat)
      requires index < voxels.Length && OccupiedAmong(s, cs)
      ensures voxels[index].occupied ==> OccupiedAmong([VoxelRef(chunkIndex, index)] + s, [index] + cs)
      ensures !voxels[index].occupied ==> OccupiedAmong(s, [index] + cs)
    {
    }

    /** `insertCollider`: the collider joins the colliders of every voxel of
        the region, and every such voxel joins the membership list `occ`;
        both with `insertSortedUnique`, so neither gains a duplicate. */
    method InsertCollider(id: int, box: AABB, occ: seq<int>) returns (r: seq<int>)
      requires Valid() && StrictlySorted(occ)
      modifies voxels
      ensures Valid()
      ensures StrictlySorted(r) && Elems(r) == Elems(occ) + RegionVoxels(box)
      ensures forall i :: 0 <= i < indexCount ==>
        voxels[i] == if i in RegionVoxels(box) then WithCollider(old(voxels[i]), id) else old(voxels[i])
    {
      var cells := SampleRegion(box);
      assert forall i :: i in cells <==> i in RegionVoxels(box);
      r := Register(id, cells, occ);
      assert Elems(cells) == RegionVoxels(box);
    }

    /** The loop of `insertCollider` over the sampled voxels. */
    method Register(id: int, cells: seq<nat>, occ: seq<int>) returns (r: seq<int>)
      requires Valid() && StrictlySorted(occ)
      requires forall k :: 0 <= k < |cells| ==> cells[k] < indexCount
      requires forall k, l :: 0 <= k < l < |cells| ==> cells[k] != cells[l]
      modifies voxels
      ensures Valid()
      ensures StrictlySorted(r) && Elems(r) == Elems(occ) + Elems(cells)
      ensures forall i :: 0 <= i < indexCount ==>
        voxels[i] == if i in cells then WithCollider(old(voxels[i]), id) else old(voxels[i])
    {
      r := occ;
      ghost var done: set<int> := {};
      var k := 0;
      while k < |cells|
        invariant 0 <= k <= |cells| && Valid()
        invariant done == Elems(cells[..k])
        invariant StrictlySorted(r) && Elems(r) == Elems(occ) + done
        invariant forall i :: 0 <= i < indexCount ==>
          voxels[i] == if i in done then WithCollider(old(voxels[i]), id) else old(voxels[i])
      {
        var index := cells[k];
        assert cells[..k + 1] == cells[..k] + [index];
        assert index !in done;
        r := RegisterOne(id, index, r);
        done := done + {index};
        k := k + 1;
      }
      assert cells[..k] == cells;
    }

    /** One step of `insertCollider`: the collider joins voxel `index`, and
        the voxel joins the membership list. */
    method RegisterOne(id: int, index: nat, occ: seq<int>) returns (r: seq<int>)
      requires Valid() && index < indexCount && StrictlySorted(occ)
      modifies voxels
      ensures Valid()
      ensures StrictlySorted(r) && Elems(r) == Elems(occ) + {index}
      ensures forall i :: 0 <= i < indexCount ==>
        voxels[i] == if i == index then WithCollider(old(voxels[i]), id) else old(voxels[i])
    {
      assert Placed(index);
      InsertSortedUniqueStrict(voxels[index].colliders, id);
      SetColliders(index, WithCollider(voxels[index], id).colliders);
      InsertSortedUniqueStrict(occ, index);
      r := InsertSortedUnique(occ, index).list;
    }

    /** `removeCollider`: the collider leaves the colliders of every voxel on
        the membership list, and the list is freed. */
    method RemoveCollider(id: int, occ: seq<int>) returns (r: seq<int>)
      requires Valid() && forall k :: 0 <= k < |occ| ==> 0 <= occ[k] < indexCount
      modifies voxels
      ensures Valid() && r == []
      ensures forall i :: 0 <= i < indexCount ==>
        voxels[i] == if i in occ then WithoutCollider(old(voxels[i]), id) else old(voxels[i])
    {
      ghost var done: set<int> := {};
      var k := 0;
      while k < |occ|
        invariant 0 <= k <= |occ| && Valid()
        invariant done == Elems(occ[..k])
        invariant forall i :: 0 <= i < indexCount ==>
          voxels[i] == if i in done then WithoutCollider(old(voxels[i]), id) else old(voxels[i])
      {
        var index := occ[k];
        assert occ[..k + 1] == occ[..k] + [index];
        assert Placed(index) && old(Placed(index));
        RemoveSortedStrictSet(voxels[index].colliders, id);
        RemoveSortedTwice(old(voxels[index]).colliders, id);
        SetColliders(index, WithoutCollider(voxels[index], id).colliders);
        done := done + {index};
        k := k + 1;
      }
      assert occ[..k] == occ;
      r := [];
    }

    /** `updateCollider`: remove, then insert into the emptied list.  The
        collider ends up registered in exactly the voxels of its new
        region, and the list names exactly those voxels. */
    method UpdateCollider(id: int, box: AABB, occ: seq<int>) returns (r: seq<int>)
      requires Valid() && forall k :: 0 <= k < |occ| ==> 0 <= occ[k] < indexCount
      modifies voxels
      ensures Valid()
      ensures StrictlySorted(r) && Elems(r) == RegionVoxels(box)
      ensures forall i :: 0 <= i < indexCount ==>
        voxels[i] == if i in RegionVoxels(box)
          then WithCollider(if i in occ then WithoutCollider(old(voxels[i]), id) else old(voxels[i]), id)
          else if i in occ then WithoutCollider(old(voxels[i]), id) else old(voxels[i])
    {
      var emptied := RemoveCollider(id, occ);
      r := InsertCollider(id, box, emptied);
    }
  }
}

=== FILE: lattice.dfy ===
/** The dense index arithmetic shared by `VDGrid` (a cube of voxels) and
    `VDSpace` (a box of chunks): cell (x, y, z) of a box `nx` cells wide and
    `ny` cells tall has index x + y*nx + z*nx*ny, and the index is taken
    apart again with `%` and `/`. */
module Lattice {
  import opened VectorMath
  import opened Collider

  /** `getIndex`. */
  function CellIndex(c: Vec3i, nx: int, ny: int): int
  {
    c.x + c.y * nx + c.z * nx * ny
  }

  /** Non-negative coordinates on a lattice of non-negative extents have a
      non-negative index. */
  lemma CellIndexNonNegative(c: Vec3i, nx: int, ny: int)
    requires c.x >= 0 && c.y >= 0 && c.z >= 0 && nx >= 0 && ny >= 0
    ensures CellIndex(c, nx, ny) >= 0
  {
    assert c.y * nx >= 0;
    assert c.z * nx >= 0;
    assert c.z * nx * ny >= 0;
  }

  /** `getCoordinates`. */
  function Coordinates(i: int, nx: int, ny: int): Vec3i
    requires nx > 0 && ny > 0
  {
    Vec3i(i % nx, (i % (nx * ny)) / nx, i / (nx * ny))
  }

  /** The cell lies inside the `nx` by `ny` by `nz` box. */
  predicate InBox(c: Vec3i, nx: int, ny: int, nz: int)
  {
    0 <= c.x < nx && 0 <= c.y < ny && 0 <= c.z < nz
  }

  /** `lo <= c <= hi` on every axis. */
  predicate Between(lo: Vec3i, c: Vec3i, hi: Vec3i)
  {
    lo.x <= c.x <= hi.x && lo.y <= c.y <= hi.y && lo.z <= c.z <= hi.z
  }

  /** The one-cell step the direction names (the `switch` in `moveIndex`). */
  function Step(d: Direction): (s: Vec3i)
    ensures ToVec3(s) == ToVector(d)
  {
    match d
    case Right => Vec3i(1, 0, 0)
    case Up => Vec3i(0, 1, 0)
    case Forward => Vec3i(0, 0, 1)
    case Left => Vec3i(-1, 0, 0)
    case Down => Vec3i(0, -1, 0)
    case Back => Vec3i(0, 0, -1)
  }

  // ---- arithmetic facts ----

  lemma {:induction false} MulAtLeast(d: int, n: int)
    requires d >= 1 && n > 0
    ensures d * n >= n
  {
  }

  lemma {:induction false} MulMonotone(a: int, b: int, n: int)
    requires a <= b && n >= 0
    ensures a * n <= b * n
  {
    assert b * n - a * n == (b - a) * n;
  }

  /** Quotient and remainder are determined by `a == q * n + r`, `0 <= r < n`. */
  lemma {:induction false} DivModUnique(a: int, n: int, q: int, r: int)
    requires n > 0 && 0 <= r < n && a == q * n + r
    ensures a / n == q && a % n == r
  {
    var q', r' := a / n, a % n;
    assert a == q' * n + r';
    if q' > q {
      MulAtLeast(q' - q, n);
    } else if q' < q {
      MulAtLeast(q - q', n);
    }
  }

  /** A value below `m * n` has a quotient by `n` below `m`. */
  lemma {:induction false} DivBelow(a: int, n: int, m: int)
    requires n > 0 && 0 <= a < m * n
    ensures 0 <= a / n < m
  {
    if a / n >= m {
      MulMonotone(m, a / n, n);
      assert false;
    }
  }

  // ---- the round trips ----

  /** Coordinates inside the box survive the trip through the index. */
  lemma {:induction false} CoordinatesOfIndex(c: Vec3i, nx: int, ny: int)
    requires nx > 0 && ny > 0 && 0 <= c.x < nx && 0 <= c.y < ny
    ensures Coordinates(CellIndex(c, nx, ny), nx, ny) == c
  {
    var m := nx * ny;
    var low := c.x + c.y * nx;
    MulMonotone(c.y, ny - 1, nx);
    assert (ny - 1) * nx == m - nx;
    assert 0 <= low < m;
    var i := CellIndex(c, nx, ny);
    assert i == c.z * m + low;
    DivModUnique(i, m, c.z, low);
    DivModUnique(low, nx, c.y, c.x);
    assert i == (c.z * ny + c.y) * nx + c.x;
    DivModUnique(i, nx, c.z * ny + c.y, c.x);
  }

  /** Every index survives the trip through its coordinates. */
  lemma {:induction false} IndexOfCoordinates(i: int, nx: int, ny: int)
    requires nx > 0 && ny > 0
    ensures CellIndex(Coordinates(i, nx, ny), nx, ny) == i
  {
    var m := nx * ny;
    var q, r := i / m, i % m;
    assert i == q * m + r;
    assert r == (r / nx) * nx + r % nx;
    assert i == (q * ny + r / nx) * nx + r % nx;
    DivModUnique(i, nx, q * ny + r / nx, r % nx);
    assert i % nx == r % nx;
    assert q * m == q * nx * ny;
  }

  /** Cells of an `nx` by `ny` by `nz` box have indices below `nx * ny * nz`. */
  lemma {:induction false} IndexBounds(c: Vec3i, nx: int, ny: int, nz: int)
    requires nx > 0 && ny > 0 && InBox(c, nx, ny, nz)
    ensures 0 <= CellIndex(c, nx, ny) < nx * ny * nz
  {
    var m := nx * ny;
    MulMonotone(c.y, ny - 1, nx);
    assert (ny - 1) * nx == m - nx;
    MulMonotone(c.z, nz - 1, m);
    assert (nz - 1) * m == nx * ny * nz - m;
    assert CellIndex(c, nx, ny) == c.z * m + c.x + c.y * nx;
    assert 0 <= c.z * m;
    assert 0 <= c.y * nx;
  }

  /** The coordinates of an index below `nx * ny * nz` lie in that box. */
  lemma {:induction false} CoordinatesInBox(i: int, nx: int, ny: int, nz: int)
    requires nx > 0 && ny > 0 && 0 <= i < nx * ny * nz
    ensures InBox(Coordinates(i, nx, ny), nx, ny, nz)
  {
    var m := nx * ny;
    assert nx * ny * nz == nz * m;
    DivBelow(i, m, nz);
    DivBelow(i % m, nx, ny);
  }

  /** Two cells of the box share an index only if they are the same cell. */
  lemma {:induction false} CellIndexInjective(c: Vec3i, d: Vec3i, nx: int, ny: int)
    requires nx > 0 && ny > 0 && 0 <= c.x < nx && 0 <= c.y < ny && 0 <= d.x < nx && 0 <= d.y < ny
    requires CellIndex(c, nx, ny) == CellIndex(d, nx, ny)
    ensures c == d
  {
    CoordinatesOfIndex(c, nx, ny);
    CoordinatesOfIndex(d, nx, ny);
  }
}

=== FILE: list.dfy ===
/** `VDList`: a singly linked list whose nodes live in an object pool, and
    `VDHashList`, an array of such lists indexed by hash.

    A list reads its nodes through the pool (`pool.contents`); the ghost
    `Nodes` are the slots along the `next` chain from `first` and `Items` the
    items they hold.  `ListSpec` states what each operation does to `Items`.
    The process-wide `gAllocator` becomes the pool passed to each operation:
    the pool the allocator keeps for list nodes (array size 1). */
module Lists {
  import opened Allocation
  import opened ListSpec
  import opened Wrappers

  /** A node pointer; `Null` is `nullptr`. */
  datatype Ptr = Null | At(slot: Slot)

  /** `VDListData`. */
  datatype Node = Node(item: int, next: Ptr)

  function Head(nodes: seq<Slot>): Ptr
  {
    if |nodes| == 0 then Null else At(nodes[0])
  }

  /** The `next` pointer node `i` of a chain must hold. */
  function Next(nodes: seq<Slot>, i: int): Ptr
  {
    if 0 <= i && i + 1 < |nodes| then At(nodes[i + 1]) else Null
  }

  /** `nodes` are distinct slots that hold `items` in order, each linked to
      the next and the last to `Null`. */
  ghost predicate Chain(contents: map<Slot, Node>, nodes: seq<Slot>, items: seq<int>)
  {
    |nodes| == |items|
    && (forall i :: 0 <= i < |nodes| ==> nodes[i] in contents)
    && (forall i {:trigger contents[nodes[i]]} :: 0 <= i < |nodes| ==> contents[nodes[i]] == Node(items[i], Next(nodes, i)))
    && (forall i, j :: 0 <= i < j < |nodes| ==> nodes[i] != nodes[j])
  }

  /** Slots outside `mine` and `avail0` keep their objects. */
  ghost predicate Untouched(c0: map<Slot, Node>, c1: map<Slot, Node>, mine: seq<Slot>, avail0: seq<Slot>)
  {
    forall t :: t in c0 && t !in mine && t !in avail0 ==> t in c1 && c1[t] == c0[t]
  }

  /** One write to a slot that is the list's own, on the free stack, or
      new keeps every other slot as it was. */
  lemma WriteUntouched(c0: map<Slot, Node>, c1: map<Slot, Node>, s: Slot, v: Node, mine: seq<Slot>, avail0: seq<Slot>)
    requires Untouched(c0, c1, mine, avail0)
    requires s in mine || s in avail0 || s !in c0
    ensures Untouched(c0, c1[s := v], mine, avail0)
  {
  }

  /** Splicing a slot that is off a stack into a chain that is off it keeps
      the chain off it. */
  lemma {:induction false} SpliceAvoids(nodes: seq<Slot>, k: int, loc: Slot, avail: seq<Slot>, spliced: seq<Slot>)
    requires 0 <= k < |nodes| && loc !in avail && spliced == nodes[..k + 1] + [loc] + nodes[k + 1..]
    requires forall i :: 0 <= i < |nodes| ==> nodes[i] !in avail
    ensures forall i :: 0 <= i < |spliced| ==> spliced[i] !in avail
  {
    SpliceIndex(nodes, k, loc);
  }

  /** Cutting node `k + 1` out of a chain of distinct slots that are off a
      stack leaves the rest off the stack with that node pushed on it. */
  lemma {:induction false} CutAvoids(nodes: seq<Slot>, k: int, avail: seq<Slot>, cut: seq<Slot>, avail1: seq<Slot>)
    requires 0 <= k && k + 1 < |nodes| && cut == nodes[..k + 1] + nodes[k + 2..] && avail1 == avail + [nodes[k + 1]]
    requires forall i :: 0 <= i < |nodes| ==> nodes[i] !in avail
    requires forall i, j :: 0 <= i < j < |nodes| ==> nodes[i] != nodes[j]
    ensures forall i :: 0 <= i < |cut| ==> cut[i] !in avail1
  {
    CutIndex(nodes, k);
    forall i | 0 <= i < |cut| ensures cut[i] !in avail1 {
      var j := if i <= k then i else i + 1;
      assert cut[i] == nodes[j] && j != k + 1;
    }
  }

  lemma ChainFrame(c0: map<Slot, Node>, c1: map<Slot, Node>, nodes: seq<Slot>, items: seq<int>)
    requires Chain(c0, nodes, items)
    requires forall t :: t in c0 ==> t in c1 && c1[t] == c0[t]
    ensures Chain(c1, nodes, items)
  {
  }

  lemma {:induction false} ChainPrepend(c: map<Slot, Node>, nodes: seq<Slot>, items: seq<int>, loc: Slot, x: int)
    requires Chain(c, nodes, items) && loc !in nodes
    ensures Chain(c[loc := Node(x, Head(nodes))], [loc] + nodes, [x] + items)
  {
    var c1 := c[loc := Node(x, Head(nodes))];
    var n1 := [loc] + nodes;
    forall i | 0 <= i < |n1| ensures n1[i] in c1 && c1[n1[i]] == Node(([x] + items)[i], Next(n1, i)) {
      if i > 0 {
        assert n1[i] == nodes[i - 1] && Next(n1, i) == Next(nodes, i - 1);
      }
    }
  }

  lemma {:induction false} ChainTail(c: map<Slot, Node>, nodes: seq<Slot>, items: seq<int>)
    requires Chain(c, nodes, items) && |nodes| > 0
    ensures Chain(c, nodes[1..], items[1..])
    ensures c[nodes[0]].next == Head(nodes[1..])
  {
    var n1 := nodes[1..];
    forall i | 0 <= i < |n1| ensures Next(n1, i) == Next(nodes, i + 1) {
    }
  }

  /** Indexing into a sequence with `v` spliced in after position `k`. */
  lemma SpliceIndex<T>(s: seq<T>, k: int, v: T)
    requires 0 <= k < |s|
    ensures |s[..k + 1] + [v] + s[k + 1..]| == |s| + 1
    ensures forall i :: 0 <= i < |s| + 1 ==>
      (s[..k + 1] + [v] + s[k + 1..])[i] == if i <= k then s[i] else if i == k + 1 then v else s[i - 1]
  {
  }

  /** Indexing into a sequence with position `k + 1` cut out. */
  lemma CutIndex<T>(s: seq<T>, k: int)
    requires 0 <= k && k + 1 < |s|
    ensures |s[..k + 1] + s[k + 2..]| == |s| - 1
    ensures forall i :: 0 <= i < |s| - 1 ==> (s[..k + 1] + s[k + 2..])[i] == if i <= k then s[i] else s[i + 1]
  {
  }

  /** Splicing an element that is not in a sequence of distinct elements
      into it leaves them distinct. */
  lemma SpliceDistinct<T>(s: seq<T>, k: int, v: T, spliced: seq<T>)
    requires 0 <= k < |s| && v !in s && spliced == s[..k + 1] + [v] + s[k + 1..]
    requires forall i, j :: 0 <= i < j < |s| ==> s[i] != s[j]
    ensures forall i, j :: 0 <= i < j < |spliced| ==> spliced[i] != spliced[j]
  {
    SpliceIndex(s, k, v);
    forall i, j | 0 <= i < j < |spliced| ensures spliced[i] != spliced[j] {
      if i == k + 1 {
        assert spliced[j] == s[j - 1];
      } else if j == k + 1 {
        assert spliced[i] == s[i];
      } else {
        var fi := if i <= k then i else i - 1;
        var fj := if j <= k then j else j - 1;
        assert spliced[i] == s[fi] && spliced[j] == s[fj] && fi < fj;
      }
    }
  }

  lemma {:induction false} ChainLinkAfter(c: map<Slot, Node>, nodes: seq<Slot>, items: seq<int>, k: int, loc: Slot, x: int)
    requires Chain(c, nodes, items) && 0 <= k < |nodes| && loc !in nodes
    ensures Chain(c[loc := Node(x, Next(nodes, k))][nodes[k] := Node(items[k], At(loc))],
                  nodes[..k + 1] + [loc] + nodes[k + 1..], items[..k + 1] + [x] + items[k + 1..])
  {
    var c1 := c[loc := Node(x, Next(nodes, k))][nodes[k] := Node(items[k], At(loc))];
    var n1 := nodes[..k + 1] + [loc] + nodes[k + 1..];
    var i1 := items[..k + 1] + [x] + items[k + 1..];
    SpliceIndex(nodes, k, loc);
    forall i | 0 <= i < |n1| ensures n1[i] in c1 && c1[n1[i]] == Node(i1[i], Next(n1, i)) {
      LinkedAfterNode(c, nodes, items, k, loc, x, i);
    }
    SpliceDistinct(nodes, k, loc, n1);
  }

  lemma LinkedAfterNode(c: map<Slot, Node>, nodes: seq<Slot>, items: seq<int>, k: int, loc: Slot, x: int, i: int)
    requires Chain(c, nodes, items) && 0 <= k < |nodes| && loc !in nodes && 0 <= i <= |nodes|
    ensures var c1 := c[loc := Node(x, Next(nodes, k))][nodes[k] := Node(items[k], At(loc))];
      var n1 := nodes[..k + 1] + [loc] + nodes[k + 1..];
      var i1 := items[..k + 1] + [x] + items[k + 1..];
      n1[i] in c1 && c1[n1[i]] == Node(i1[i], Next(n1, i))
  {
    var n1 := nodes[..k + 1] + [loc] + nodes[k + 1..];
    var i1 := items[..k + 1] + [x] + items[k + 1..];
    if i < k {
      assert n1[i] == nodes[i] && n1[i + 1] == nodes[i + 1] && i1[i] == items[i];
      assert nodes[i] != nodes[k] && nodes[i] in nodes;
      assert c[nodes[i]] == Node(items[i], Next(nodes, i));
    } else if i == k {
      assert n1[k] == nodes[k] && n1[k + 1] == loc && i1[k] == items[k];
    } else if i == k + 1 {
      assert n1[i] == loc && i1[i] == x && loc != nodes[k] && nodes[k] in nodes;
      if k + 2 < |n1| {
        assert n1[k + 2] == nodes[k + 1];
      }
    } else {
      assert n1[i] == nodes[i - 1] && i1[i] == items[i - 1];
      assert nodes[i - 1] != nodes[k] && nodes[i - 1] in nodes;
      assert c[nodes[i - 1]] == Node(items[i - 1], Next(nodes, i - 1));
      if i + 1 < |n1| {
        assert n1[i + 1] == nodes[i];
      }
    }
  }

  /** Cutting an element out of a sequence of distinct elements leaves
      them distinct. */
  lemma CutDistinct<T>(s: seq<T>, k: int, cut: seq<T>)
    requires 0 <= k && k + 1 < |s| && cut == s[..k + 1] + s[k + 2..]
    requires forall i, j :: 0 <= i < j < |s| ==> s[i] != s[j]
    ensures forall i, j :: 0 <= i < j < |cut| ==> cut[i] != cut[j]
  {
    CutIndex(s, k);
    forall i, j | 0 <= i < j < |cut| ensures cut[i] != cut[j] {
      var fi := if i <= k then i else i + 1;
      var fj := if j <= k then j else j + 1;
      assert cut[i] == s[fi] && cut[j] == s[fj] && fi < fj;
    }
  }

  lemma {:induction false} ChainUnlinkAfter(c: map<Slot, Node>, nodes: seq<Slot>, items: seq<int>, k: int)
    requires Chain(c, nodes, items) && 0 <= k && k + 1 < |nodes|
    ensures Chain(c[nodes[k] := Node(items[k], Next(nodes, k + 1))],
                  nodes[..k + 1] + nodes[k + 2..], items[..k + 1] + items[k + 2..])
  {
    var c1 := c[nodes[k] := Node(items[k], Next(nodes, k + 1))];
    var n1 := nodes[..k + 1] + nodes[k + 2..];
    var i1 := items[..k + 1] + items[k + 2..];
    CutIndex(nodes, k);
    forall i | 0 <= i < |n1| ensures n1[i] in c1 && c1[n1[i]] == Node(i1[i], Next(n1, i)) {
      UnlinkedAfterNode(c, nodes, items, k, i);
    }
    CutDistinct(nodes, k, n1);
  }

  lemma UnlinkedAfterNode(c: map<Slot, Node>, nodes: seq<Slot>, items: seq<int>, k: int, i: int)
    requires Chain(c, nodes, items) && 0 <= k && k + 1 < |nodes| && 0 <= i < |nodes| - 1
    ensures var c1 := c[nodes[k] := Node(items[k], Next(nodes, k + 1))];
      var n1 := nodes[..k + 1] + nodes[k + 2..];
      var i1 := items[..k + 1] + items[k + 2..];
      n1[i] in c1 && c1[n1[i]] == Node(i1[i], Next(n1, i))
  {
    var n1 := nodes[..k + 1] + nodes[k + 2..];
    var i1 := items[..k + 1] + items[k + 2..];
    if i < k {
      assert n1[i] == nodes[i] && n1[i + 1] == nodes[i + 1] && i1[i] == items[i] && nodes[i] != nodes[k];
      assert c[nodes[i]] == Node(items[i], Next(nodes, i));
    } else if i == k {
      assert n1[k] == nodes[k] && i1[k] == items[k];
      if k + 1 < |n1| {
        assert n1[k + 1] == nodes[k + 2];
      }
    } else {
      assert n1[i] == nodes[i + 1] && i1[i] == items[i + 1] && nodes[i + 1] != nodes[k];
      assert c[nodes[i + 1]] == Node(items[i + 1], Next(nodes, i + 1));
      if i + 1 < |n1| {
        assert n1[i + 1] == nodes[i + 2];
      }
    }
  }

  /** Node `k` of a chain, as the pool holds it. */
  lemma NodeAt(c: map<Slot, Node>, nodes: seq<Slot>, items: seq<int>, k: int)
    requires Chain(c, nodes, items) && 0 <= k < |nodes|
    ensures nodes[k] in c && c[nodes[k]] == Node(items[k], Next(nodes, k))
  {
  }

  /** Freeing the nodes of a chain one by one from the head never frees a
      slot twice. */
  lemma FreeNext(nodes: seq<Slot>, avail: seq<Slot>, k: int)
    requires 0 <= k < |nodes|
    requires forall i :: 0 <= i < |nodes| ==> nodes[i] !in avail
    requires forall i, j :: 0 <= i < j < |nodes| ==> nodes[i] != nodes[j]
    ensures nodes[k] !in avail + nodes[..k]
    ensures avail + nodes[..k + 1] == avail + nodes[..k] + [nodes[k]]
  {
    assert nodes[..k + 1] == nodes[..k] + [nodes[k]];
  }

  /** The pointer to node `k` of a chain, or `Null` past its end. */
  lemma {:induction false} HeadOfSuffix(nodes: seq<Slot>, k: int)
    requires 0 <= k < |nodes|
    ensures Head(nodes[k + 1..]) == Next(nodes, k)
  {
  }

  class List {
    var count: nat
    var first: Ptr
    var id: nat
    var autoFree: bool
    ghost var Nodes: seq<Slot>
    ghost var Items: seq<int>

    /** The chain from `first` is well formed in the pool, `count` is its
        length, and none of its nodes is on the pool's free stack. */
    ghost predicate Valid(pool: ObjectPool<Node>)
      reads this, pool
    {
      pool.Valid() && pool.capacity > 0
      && Chain(pool.contents, Nodes, Items)
      && count == |Items|
      && first == Head(Nodes)
      && (forall i :: 0 <= i < |Nodes| ==> Nodes[i] !in pool.available)
    }

    /** `VDList(autoFree)`: empty.  (`id` is left unset by the source; here
        it starts at 0.) */
    constructor (autoFree: bool)
      ensures count == 0 && first == Null && Nodes == [] && Items == []
      ensures this.autoFree == autoFree
    {
      count := 0;
      first := Null;
      id := 0;
      this.autoFree := autoFree;
      Nodes := [];
      Items := [];
    }

    lemma EmptyIsValid(pool: ObjectPool<Node>)
      requires pool.Valid() && pool.capacity > 0
      requires count == 0 && first == Null && Nodes == [] && Items == []
      ensures Valid(pool)
    {
    }

    /** The slot `Allocate` hands out is outside every valid chain. */
    lemma AllocatedIsFresh(pool: ObjectPool<Node>, avail0: seq<Slot>, count0: nat, contents0: map<Slot, Node>, loc: Slot)
      requires Chain(contents0, Nodes, Items)
      requires forall i :: 0 <= i < |Nodes| ==> Nodes[i] !in avail0
      requires forall s :: s in contents0 ==> s.slab < count0
      requires pool.Popped(avail0, count0, loc)
      ensures loc !in Nodes && (loc in avail0 || loc !in contents0)
      ensures forall i :: 0 <= i < |Nodes| ==> Nodes[i] !in pool.available
    {
      if |avail0| > 0 {
        assert loc in avail0;
        assert forall j :: 0 <= j < |pool.available| ==> pool.available[j] in avail0;
      } else {
        assert forall j :: 0 <= j < |pool.available| ==> pool.available[j].slab == count0;
        assert forall i :: 0 <= i < |Nodes| ==> Nodes[i].slab < count0;
      }
    }

    /** `insert`: prepend a node holding the item; the old nodes follow it
        unchanged.  Returns the new node. */
    method Insert(x: int, pool: ObjectPool<Node>) returns (loc: Slot)
      requires Valid(pool)
      modifies this, pool
      ensures Valid(pool)
      ensures Items == [x] + old(Items) && Nodes == [loc] + old(Nodes)
      ensures count == old(count) + 1 && first == At(loc)
      ensures pool.Popped(old(pool.available), old(pool.slabCount), loc)
      ensures Untouched(old(pool.contents), pool.contents, old(Nodes), old(pool.available))
      ensures id == old(id) && autoFree == old(autoFree)
    {
      ghost var c0 := pool.contents;
      loc := pool.Allocate();
      AllocatedIsFresh(pool, old(pool.available), old(pool.slabCount), c0, loc);
      ChainFrame(c0, pool.contents, Nodes, Items);
      ghost var cA := pool.contents;
      WriteFirst(loc, x, pool);
      WriteUntouched(c0, cA, loc, Node(x, Head(old(Nodes))), old(Nodes), old(pool.available));
    }

    /** The write of `Insert`: the new node points to the old head and
        becomes the head. */
    method WriteFirst(loc: Slot, x: int, pool: ObjectPool<Node>)
      requires pool.Valid() && Chain(pool.contents, Nodes, Items) && first == Head(Nodes)
      requires loc !in Nodes && loc in pool.contents
      requires forall i :: 0 <= i < |Nodes| ==> Nodes[i] !in pool.available
      requires loc !in pool.available && count == |Items|
      modifies this, pool
      ensures pool.Valid() && pool.available == old(pool.available) && pool.slabCount == old(pool.slabCount)
      ensures pool.contents == old(pool.contents)[loc := Node(x, Head(old(Nodes)))]
      ensures Chain(pool.contents, Nodes, Items) && first == Head(Nodes) && count == |Items|
      ensures forall i :: 0 <= i < |Nodes| ==> Nodes[i] !in pool.available
      ensures Items == [x] + old(Items) && Nodes == [loc] + old(Nodes)
      ensures count == old(count) + 1 && first == At(loc) && id == old(id) && autoFree == old(autoFree)
    {
      ChainPrepend(pool.contents, Nodes, Items, loc, x);
      pool.Store(loc, Node(x, first));
      first := At(loc);
      count := count + 1;
      Nodes := [loc] + Nodes;
      Items := [x] + Items;
    }

    /** Link a new node holding `x` in after node `k` (`cur`). */
    method LinkAfter(cur: Slot, ghost k: int, x: int, pool: ObjectPool<Node>) returns (loc: Slot)
      requires Valid(pool) && 0 <= k < |Nodes| && cur == Nodes[k]
      modifies this, pool
      ensures Valid(pool)
      ensures Items == old(Items)[..k + 1] + [x] + old(Items)[k + 1..]
      ensures Nodes == old(Nodes)[..k + 1] + [loc] + old(Nodes)[k + 1..]
      ensures count == old(count) + 1
      ensures pool.Popped(old(pool.available), old(pool.slabCount), loc)
      ensures Untouched(old(pool.contents), pool.contents, old(Nodes), old(pool.available))
      ensures id == old(id) && autoFree == old(autoFree)
    {
      ghost var c0 := pool.contents;
      loc := pool.Allocate();
      AllocatedIsFresh(pool, old(pool.available), old(pool.slabCount), c0, loc);
      ChainFrame(c0, pool.contents, Nodes, Items);
      ghost var cA := pool.contents;
      WriteLink(cur, k, loc, x, pool);
      SpliceAvoids(old(Nodes), k, loc, pool.available, Nodes);
      WriteUntouched(c0, cA, loc, Node(x, Next(old(Nodes), k)), old(Nodes), old(pool.available));
      WriteUntouched(c0, cA[loc := Node(x, Next(old(Nodes), k))], cur, Node(old(Items)[k], At(loc)), old(Nodes), old(pool.available));
    }

    /** The two writes of `LinkAfter`: the new node takes over the `next`
        of node `k`, which then points to it. */
    method WriteLink(cur: Slot, ghost k: int, loc: Slot, x: int, pool: ObjectPool<Node>)
      requires pool.Valid() && Chain(pool.contents, Nodes, Items)
      requires 0 <= k < |Nodes| && cur == Nodes[k] && loc !in Nodes && loc in pool.contents
      modifies this, pool
      ensures pool.Valid() && pool.available == old(pool.available) && pool.slabCount == old(pool.slabCount)
      ensures pool.contents == old(pool.contents)[loc := Node(x, Next(old(Nodes), k))][cur := Node(old(Items)[k], At(loc))]
      ensures Chain(pool.contents, Nodes, Items)
      ensures Items == old(Items)[..k + 1] + [x] + old(Items)[k + 1..]
      ensures Nodes == old(Nodes)[..k + 1] + [loc] + old(Nodes)[k + 1..]
      ensures count == old(count) + 1 && first == old(first) && id == old(id) && autoFree == old(autoFree)
    {
      ChainLinkAfter(pool.contents, Nodes, Items, k, loc, x);
      var curNode := pool.contents[cur];
      pool.Store(loc, Node(x, curNode.next));
      pool.Store(cur, curNode.(next := At(loc)));
      count := count + 1;
      Nodes := Nodes[..k + 1] + [loc] + Nodes[k + 1..];
      Items := Items[..k + 1] + [x] + Items[k + 1..];
    }

    /** The walk shared by `insertSorted` and `insertSortedUnique`: from the
        head, step on while the next node holds an item smaller than `x`. */
    method WalkSmaller(x: int, pool: ObjectPool<Node>) returns (cur: Slot, ghost k: int)
      requires Chain(pool.contents, Nodes, Items) && first == Head(Nodes) && |Nodes| > 0
      ensures 0 <= k < |Nodes| && cur == Nodes[k]
      ensures forall j :: 1 <= j <= k ==> Items[j] < x
      ensures k + 1 == |Nodes| || !(Items[k + 1] < x)
    {
      cur := first.slot;
      k := 0;
      while pool.contents[cur].next != Null && pool.contents[pool.contents[cur].next.slot].item < x
        invariant 0 <= k < |Nodes| && cur == Nodes[k]
        invariant forall j :: 1 <= j <= k ==> Items[j] < x
        decreases |Nodes| - k
      {
        cur := pool.contents[cur].next.slot;
        k := k + 1;
      }
    }

    /** `insertSorted`: on a non-decreasing list the result is non-decreasing
        and holds the old items plus `x` (see `InsertSortedProps`). */
    method InsertSorted(x: int, pool: ObjectPool<Node>) returns (loc: Slot)
      requires Valid(pool)
      modifies this, pool
      ensures Valid(pool)
      ensures Items == ListSpec.InsertSorted(old(Items), x)
      ensures count == old(count) + 1
      ensures pool.Popped(old(pool.available), old(pool.slabCount), loc)
      ensures Untouched(old(pool.contents), pool.contents, old(Nodes), old(pool.available))
    {
      if first == Null || x < pool.contents[first.slot].item {
        loc := Insert(x, pool);
      } else {
        var cur, k := WalkSmaller(x, pool);
        InsertSortedAt(Items, x, k);
        loc := LinkAfter(cur, k, x, pool);
      }
    }

    /** `insertSortedUnique`: returns the new node, or `Null` (and changes
        nothing) when the walk meets an equal item. */
    method InsertSortedUnique(x: int, pool: ObjectPool<Node>) returns (loc: Ptr)
      requires Valid(pool)
      modifies this, pool
      ensures Valid(pool)
      ensures Items == ListSpec.InsertSortedUnique(old(Items), x).list
      ensures (loc != Null) == ListSpec.InsertSortedUnique(old(Items), x).inserted
      ensures count == |Items|
      ensures loc == Null ==>
        Nodes == old(Nodes) && pool.contents == old(pool.contents) && pool.available == old(pool.available)
      ensures loc != Null ==> pool.Popped(old(pool.available), old(pool.slabCount), loc.slot)
      ensures Untouched(old(pool.contents), pool.contents, old(Nodes), old(pool.available))
    {
      if first == Null || x < pool.contents[first.slot].item {
        var s := Insert(x, pool);
        loc := At(s);
      } else if x == pool.contents[first.slot].item {
        loc := Null;
      } else {
        var cur, k := WalkSmaller(x, pool);
        InsertSortedUniqueAt(Items, x, k);
        var nxt := pool.contents[cur].next;
        if nxt == Null || pool.contents[nxt.slot].item > x {
          var s := LinkAfter(cur, k, x, pool);
          loc := At(s);
        } else {
          loc := Null;
        }
      }
    }

    /** Unlink the head node and give it back to the pool. */
    method UnlinkFirst(pool: ObjectPool<Node>)
      requires Valid(pool) && |Nodes| > 0
      modifies this, pool
      ensures Valid(pool)
      ensures Items == old(Items)[1..] && Nodes == old(Nodes)[1..] && count == old(count) - 1
      ensures pool.available == old(pool.available) + [old(Nodes)[0]]
      ensures pool.contents == old(pool.contents)
      ensures id == old(id) && autoFree == old(autoFree)
    {
      ChainTail(pool.contents, Nodes, Items);
      var temp := first.slot;
      first := pool.contents[temp].next;
      pool.Free(temp);
      count := count - 1;
      Nodes := Nodes[1..];
      Items := Items[1..];
      forall i | 0 <= i < |Nodes| ensures Nodes[i] !in pool.available {
        assert Nodes[i] == old(Nodes)[i + 1];
      }
    }

    /** Unlink node `k + 1` (the one after `cur`) and give it back to the pool. */
    method UnlinkAfter(cur: Slot, ghost k: int, pool: ObjectPool<Node>)
      requires Valid(pool) && 0 <= k && k + 1 < |Nodes| && cur == Nodes[k]
      modifies this, pool
      ensures Valid(pool)
      ensures Items == old(Items)[..k + 1] + old(Items)[k + 2..]
      ensures Nodes == old(Nodes)[..k + 1] + old(Nodes)[k + 2..]
      ensures count == old(count) - 1
      ensures pool.available == old(pool.available) + [old(Nodes)[k + 1]]
      ensures Untouched(old(pool.contents), pool.contents, old(Nodes), old(pool.available))
      ensures id == old(id) && autoFree == old(autoFree)
    {
      var temp := WriteUnlink(cur, k, pool);
      pool.Free(temp);
      CutAvoids(old(Nodes), k, old(pool.available), Nodes, pool.available);
      WriteUntouched(old(pool.contents), old(pool.contents), cur, Node(old(Items)[k], Next(old(Nodes), k + 1)), old(Nodes), old(pool.available));
    }

    /** The write of `UnlinkAfter`: node `k` takes over the `next` of node
        `k + 1`, which is returned. */
    method WriteUnlink(cur: Slot, ghost k: int, pool: ObjectPool<Node>) returns (temp: Slot)
      requires pool.Valid() && Chain(pool.contents, Nodes, Items)
      requires 0 <= k && k + 1 < |Nodes| && cur == Nodes[k] && count == |Items|
      modifies this, pool
      ensures temp == old(Nodes)[k + 1] && temp in pool.contents
      ensures pool.Valid() && pool.available == old(pool.available) && pool.slabCount == old(pool.slabCount)
      ensures pool.contents == old(pool.contents)[cur := Node(old(Items)[k], Next(old(Nodes), k + 1))]
      ensures Chain(pool.contents, Nodes, Items)
      ensures Items == old(Items)[..k + 1] + old(Items)[k + 2..]
      ensures Nodes == old(Nodes)[..k + 1] + old(Nodes)[k + 2..]
      ensures count == old(count) - 1 && first == old(first) && id == old(id) && autoFree == old(autoFree)
    {
      ChainUnlinkAfter(pool.contents, Nodes, Items, k);
      temp := pool.contents[cur].next.slot;
      var curNode := pool.contents[cur];
      pool.Store(cur, curNode.(next := pool.contents[temp].next));
      count := count - 1;
      Nodes := Nodes[..k + 1] + Nodes[k + 2..];
      Items := Items[..k + 1] + Items[k + 2..];
    }

    /** The walk of `remove` past the head: the node before the first one
        holding `x`, or `found == false` when no later node holds it. */
    method FindBefore(x: int, pool: ObjectPool<Node>) returns (found: bool, cur: Slot, ghost k: int)
      requires Chain(pool.contents, Nodes, Items) && first == Head(Nodes) && |Items| > 0 && Items[0] != x
      ensures found ==> 0 <= k && k + 1 < |Nodes| && cur == Nodes[k] && Items[k + 1] == x
      ensures found ==> forall j :: 0 <= j <= k ==> Items[j] != x
      ensures !found ==> x !in Items
    {
      cur := first.slot;
      k := 0;
      while pool.contents[cur].next != Null
        invariant 0 <= k < |Nodes| && cur == Nodes[k]
        invariant forall j :: 0 <= j <= k ==> Items[j] != x
        decreases |Nodes| - k
      {
        var nxt := pool.contents[cur].next.slot;
        if pool.contents[nxt].item == x {
          return true, cur, k;
        }
        cur := nxt;
        k := k + 1;
      }
      assert forall j :: 0 <= j < |Items| ==> Items[j] != x;
      found := false;
    }

    /** `remove`: unlink the first node holding `x` and free it; an absent
        item leaves the list and the pool alone. */
    method Remove(x: int, pool: ObjectPool<Node>)
      requires Valid(pool)
      modifies this, pool
      ensures Valid(pool)
      ensures Items == RemoveFirst(old(Items), x) && count == |Items|
      ensures x !in old(Items) ==>
        Nodes == old(Nodes) && pool.contents == old(pool.contents) && pool.available == old(pool.available)
      ensures x in old(Items) ==> pool.available == old(pool.available) + [old(Nodes)[FirstIndex(old(Items), x)]]
      ensures Untouched(old(pool.contents), pool.contents, old(Nodes), old(pool.available))
    {
      if first == Null {
        return;
      }
      if pool.contents[first.slot].item == x {
        RemoveFirstAtIndex(Items, x, 0);
        UnlinkFirst(pool);
        return;
      }
      var found, cur, k := FindBefore(x, pool);
      if found {
        RemoveFirstAtIndex(Items, x, k + 1);
        UnlinkAfter(cur, k, pool);
      }
    }

    /** `removeSorted`: as `remove`, but the walk after the head stops at the
        first item greater than `x`; on a sorted list this is `remove`
        (`RemoveSortedIsRemoveFirst`). */
    method RemoveSorted(x: int, pool: ObjectPool<Node>)
      requires Valid(pool)
      modifies this, pool
      ensures Valid(pool)
      ensures Items == ListSpec.RemoveSorted(old(Items), x) && count == |Items|
      ensures Items == old(Items) ==>
        Nodes == old(Nodes) && pool.contents == old(pool.contents) && pool.available == old(pool.available)
      ensures Items != old(Items) ==>
        x in old(Items) && pool.available == old(pool.available) + [old(Nodes)[FirstIndex(old(Items), x)]]
      ensures Untouched(old(pool.contents), pool.contents, old(Nodes), old(pool.available))
    {
      if first == Null {
        return;
      }
      if pool.contents[first.slot].item == x {
        UnlinkFirst(pool);
        return;
      }
      var cur := first.slot;
      ghost var k := 0;
      while pool.contents[cur].next != Null
        invariant Items == old(Items) && Nodes == old(Nodes)
        invariant pool.contents == old(pool.contents) && pool.available == old(pool.available)
        invariant 0 <= k < |Nodes| && cur == Nodes[k]
        invariant Items[0] != x && forall j :: 1 <= j <= k ==> Items[j] < x
        decreases |Nodes| - k
      {
        var nxt := pool.contents[cur].next.slot;
        if pool.contents[nxt].item == x {
          RemoveSortedWalk(Items, x, k);
          RemoveFirstAtIndex(Items, x, k + 1);
          UnlinkAfter(cur, k, pool);
          return;
        }
        if pool.contents[nxt].item > x {
          RemoveSortedWalk(Items, x, k);
          return;
        }
        cur := nxt;
        k := k + 1;
      }
      RemoveSortedWalk(Items, x, k);
    }

    /** `free`: every node goes back to the pool, in chain order, and the list
        is empty. */
    method Free(pool: ObjectPool<Node>)
      requires Valid(pool)
      modifies this, pool
      ensures Valid(pool)
      ensures Items == [] && Nodes == [] && count == 0 && first == Null
      ensures pool.available == old(pool.available) + old(Nodes)
      ensures pool.contents == old(pool.contents)
    {
      var p := first;
      ghost var k := 0;
      while p != Null
        invariant 0 <= k <= |Nodes| && p == Head(Nodes[k..])
        invariant pool.Valid() && pool.contents == old(pool.contents) && Chain(pool.contents, Nodes, Items)
        invariant pool.available == old(pool.available) + Nodes[..k]
        invariant Items == old(Items) && Nodes == old(Nodes)
        decreases |Nodes| - k
      {
        FreeNext(Nodes, old(pool.available), k);
        pool.Free(p.slot);
        HeadOfSuffix(Nodes, k);
        NodeAt(pool.contents, Nodes, Items, k);
        p := pool.contents[p.slot].next;
        k := k + 1;
      }
      first := Null;
      count := 0;
      Nodes := [];
      Items := [];
    }

    /** `toVector`: the items in chain order. */
    method ToVector(pool: ObjectPool<Node>) returns (v: seq<int>)
      requires Chain(pool.contents, Nodes, Items) && first == Head(Nodes)
      ensures v == Items
    {
      v := [];
      var p := first;
      ghost var k := 0;
      while p != Null
        invariant 0 <= k <= |Nodes| && p == Head(Nodes[k..])
        invariant v == Items[..k]
        decreases |Nodes| - k
      {
        v := v + [pool.contents[p.slot].item];
        HeadOfSuffix(Nodes, k);
        p := pool.contents[p.slot].next;
        assert Items[..k + 1] == Items[..k] + [Items[k]];
        k := k + 1;
      }
    }

    /** `contains`, as evidently intended: whether some node holds `x`. */
    method Contains(x: int, pool: ObjectPool<Node>) returns (b: bool)
      requires Chain(pool.contents, Nodes, Items) && first == Head(Nodes)
      ensures b == (x in Items)
    {
      var p := first;
      ghost var k := 0;
      while p != Null
        invariant 0 <= k <= |Nodes| && p == Head(Nodes[k..])
        invariant forall j :: 0 <= j < k ==> Items[j] != x
        decreases |Nodes| - k
      {
        if pool.contents[p.slot].item == x {
          return true;
        }
        HeadOfSuffix(Nodes, k);
        p := pool.contents[p.slot].next;
        k := k + 1;
      }
      return false;
    }

    /** `insertUnique`, as evidently intended: prepend `x` unless the list
        already holds it, and say whether it did. */
    method InsertUnique(x: int, pool: ObjectPool<Node>) returns (inserted: bool)
      requires Valid(pool)
      modifies this, pool
      ensures Valid(pool)
      ensures inserted == (x !in old(Items))
      ensures Items == if inserted then [x] + old(Items) else old(Items)
      ensures count == |Items|
    {
      var present := Contains(x, pool);
      if !present {
        var _ := Insert(x, pool);
        inserted := true;
      } else {
        inserted := false;
      }
    }
  }

  /** `contains` as written: the loop body returns on the first node, so
      only the head is compared, and an empty list falls off the end of the
      function (`None`, no defined result). */
  function ContainsAsWritten(s: seq<int>, x: int): (r: Option<bool>)
    ensures r.None? <==> |s| == 0
    ensures r.Some? ==> (r.value <==> s[0] == x)
  {
    if |s| == 0 then None else Some(x == s[0])
  }

  /** `contains` as written misses an item that is not at the head. */
  lemma ContainsAsWrittenMisses()
    ensures 2 in [1, 2] && ContainsAsWritten([1, 2], 2) == Some(false)
  {
  }

  /** `insertUnique` as written: the items after the call, `None` where the
      call is undefined (its `contains` on an empty list). */
  function InsertUniqueAsWritten(s: seq<int>, x: int): (r: Option<seq<int>>)
    ensures r.None? <==> |s| == 0
    ensures r.Some? && s[0] != x ==> r.value == [x] + s
    ensures r.Some? && s[0] == x ==> r.value == s
  {
    match ContainsAsWritten(s, x)
    case None => None
    case Some(present) => Some(if present then s else [x] + s)
  }

  /** `insertUnique` as written duplicates an item that is not at the head. */
  lemma InsertUniqueAsWrittenDuplicates()
    ensures InsertUniqueAsWritten([1, 2], 2) == Some([2, 1, 2])
    ensures multiset([2, 1, 2])[2] == 2
  {
    assert [2] + [1, 2] == [2, 1, 2];
  }

  /** Removing at the first match found by a walk. */
  lemma {:induction false} RemoveFirstAtIndex(s: seq<int>, x: int, i: int)
    requires 0 <= i < |s| && s[i] == x && forall j :: 0 <= j < i ==> s[j] != x
    ensures x in s && FirstIndex(s, x) == i
    ensures RemoveFirst(s, x) == s[..i] + s[i + 1..]
  {
    var f := FirstIndex(s, x);
    assert f <= i by {
      assert s[i] == x;
    }
    RemoveFirstAt(s, x);
  }

  /** Where the walk of `removeSorted` ends: at node `k`, the head and every
      node up to `k` being other than `x` and not greater than it after the
      head. */
  lemma {:induction false} RemoveSortedWalk(s: seq<int>, x: int, k: int)
    requires 0 <= k < |s| && s[0] != x && forall j :: 1 <= j <= k ==> s[j] < x
    ensures k + 1 < |s| && s[k + 1] == x ==> ListSpec.RemoveSorted(s, x) == RemoveFirst(s, x)
    ensures k + 1 < |s| && s[k + 1] != x && s[k + 1] > x ==> ListSpec.RemoveSorted(s, x) == s
    ensures k + 1 == |s| ==> ListSpec.RemoveSorted(s, x) == s
  {
    RemoveSortedAfterHeadWalk(s[1..], x, k);
    assert s == [s[0]] + s[1..];
  }

  lemma {:induction false} RemoveSortedAfterHeadWalk(t: seq<int>, x: int, k: nat)
    requires k <= |t| && forall j :: 0 <= j < k ==> t[j] < x
    ensures k < |t| && t[k] == x ==> RemoveSortedAfterHead(t, x) == RemoveFirst(t, x)
    ensures k < |t| && t[k] != x && t[k] > x ==> RemoveSortedAfterHead(t, x) == t
    ensures k == |t| ==> RemoveSortedAfterHead(t, x) == t
    decreases k
  {
    if k == 0 {
    } else {
      RemoveSortedAfterHeadWalk(t[1..], x, k - 1);
      assert t == [t[0]] + t[1..];
    }
  }

  // ---- VDHashList ----

  /** `VDPointer::hashValue`: the pointer value cast to a 32-bit `VDuint`. */
  function Hash(x: int): (h: nat)
    ensures h < 0x1_0000_0000
    ensures 0 <= x < 0x1_0000_0000 ==> h == x
  {
    x % 0x1_0000_0000
  }

  /** The bucket an item goes to: `hashValue() % arraySize`. */
  function Bucket(x: int, n: nat): (b: nat)
    requires n > 0
    ensures b < n
  {
    Hash(x) % n
  }

  /** Every item sits in the bucket its hash selects. */
  ghost predicate Routed(buckets: seq<seq<int>>)
  {
    forall i, j :: 0 <= i < |buckets| && 0 <= j < |buckets[i]| ==> Bucket(buckets[i][j], |buckets|) == i
  }

  /** The items of all buckets, bucket by bucket. */
  function Flatten(buckets: seq<seq<int>>): seq<int>
  {
    if |buckets| == 0 then [] else Flatten(buckets[..|buckets| - 1]) + buckets[|buckets| - 1]
  }

  lemma {:induction false} FlattenMembers(buckets: seq<seq<int>>, x: int)
    ensures x in Flatten(buckets) <==> exists i :: 0 <= i < |buckets| && x in buckets[i]
    decreases |buckets|
  {
    if |buckets| > 0 {
      var init := buckets[..|buckets| - 1];
      FlattenMembers(init, x);
      assert forall i :: 0 <= i < |init| ==> init[i] == buckets[i];
    }
  }

  function Reversed(s: seq<int>): (r: seq<int>)
    ensures |r| == |s|
    ensures forall i :: 0 <= i < |s| ==> r[i] == s[|s| - 1 - i]
  {
    if |s| == 0 then [] else [s[|s| - 1]] + Reversed(s[..|s| - 1])
  }

  /** In routed buckets an item is held iff its own bucket holds it: the
      lookup of every hash-list operation is complete. */
  lemma {:induction false} RoutedMembership(buckets: seq<seq<int>>, x: int)
    requires Routed(buckets) && |buckets| > 0
    ensures x in Flatten(buckets) <==> x in buckets[Bucket(x, |buckets|)]
  {
    FlattenMembers(buckets, x);
    if x in Flatten(buckets) {
      var i :| 0 <= i < |buckets| && x in buckets[i];
      var j :| 0 <= j < |buckets[i]| && buckets[i][j] == x;
      assert Bucket(buckets[i][j], |buckets|) == i;
    }
  }

  /** The first item of a bucket whose hash is `h`. */
  function FindByHash(s: seq<int>, h: nat): (r: Option<int>)
    ensures r.Some? ==> r.value in s && Hash(r.value) == h
    ensures r.None? ==> forall y :: y in s ==> Hash(y) != h
  {
    if |s| == 0 then None
    else if Hash(s[0]) == h then Some(s[0])
    else FindByHash(s[1..], h)
  }

  /** `VDHashList`: `arraySize` lists; an item goes to the list its hash
      selects.  Each bucket is modelled by its items, on which the list
      operations act as `ListSpec` and `List` state. */
  class HashList {
    const arraySize: nat
    var buckets: seq<seq<int>>

    ghost predicate Valid()
      reads this
    {
      |buckets| == arraySize && Routed(buckets)
    }

    /** `VDHashList(arraySize)`: empty buckets. */
    constructor (arraySize: nat)
      ensures Valid() && this.arraySize == arraySize
      ensures forall i :: 0 <= i < arraySize ==> buckets[i] == []
    {
      this.arraySize := arraySize;
      buckets := seq(arraySize, _ => []);
    }

    /** A bucket operation keeps every item in its own bucket when the new
        bucket `b` holds only items of the old one and `x`, which hashes to `b`. */
    lemma Rerouted(b: nat, x: int, nb: seq<int>)
      requires Valid() && arraySize > 0 && b == Bucket(x, arraySize)
      requires forall y :: y in nb ==> y in buckets[b] || y == x
      ensures Routed(buckets[b := nb])
    {
      var bs := buckets[b := nb];
      forall i, j | 0 <= i < |bs| && 0 <= j < |bs[i]| ensures Bucket(bs[i][j], |bs|) == i {
        if i == b {
          var y := bs[i][j];
          assert y in nb;
          if y != x {
            var j' :| 0 <= j' < |buckets[b]| && buckets[b][j'] == y;
            assert Bucket(buckets[b][j'], |buckets|) == b;
          }
        }
      }
    }

    /** `insert`: prepend to the item's bucket. */
    method Insert(x: int)
      requires Valid() && arraySize > 0
      modifies this
      ensures Valid()
      ensures buckets == old(buckets)[Bucket(x, arraySize) := [x] + old(buckets)[Bucket(x, arraySize)]]
    {
      var b := Bucket(x, arraySize);
      Rerouted(b, x, [x] + buckets[b]);
      buckets := buckets[b := [x] + buckets[b]];
    }

    /** `insertSorted` on the item's bucket. */
    method InsertSorted(x: int)
      requires Valid() && arraySize > 0
      modifies this
      ensures Valid()
      ensures buckets == old(buckets)[Bucket(x, arraySize) := ListSpec.InsertSorted(old(buckets)[Bucket(x, arraySize)], x)]
    {
      var b := Bucket(x, arraySize);
      InsertSortedProps(buckets[b], x);
      var r := ListSpec.InsertSorted(buckets[b], x);
      assert forall y :: y in r ==> y in multiset(r);
      Rerouted(b, x, r);
      buckets := buckets[b := r];
    }

    /** `insertSortedUnique` on the item's bucket. */
    method InsertSortedUnique(x: int)
      requires Valid() && arraySize > 0
      modifies this
      ensures Valid()
      ensures buckets == old(buckets)[Bucket(x, arraySize) := ListSpec.InsertSortedUnique(old(buckets)[Bucket(x, arraySize)], x).list]
    {
      var b := Bucket(x, arraySize);
      InsertSortedUniqueMultiset(buckets[b], x);
      var r := ListSpec.InsertSortedUnique(buckets[b], x);
      assert forall y :: y in r.list ==> y in multiset(r.list);
      Rerouted(b, x, r.list);
      buckets := buckets[b := r.list];
    }

    /** `remove` on the item's bucket. */
    method Remove(x: int)
      requires Valid() && arraySize > 0
      modifies this
      ensures Valid()
      ensures buckets == old(buckets)[Bucket(x, arraySize) := RemoveFirst(old(buckets)[Bucket(x, arraySize)], x)]
    {
      var b := Bucket(x, arraySize);
      RemoveFirstMultiset(buckets[b], x);
      var r := RemoveFirst(buckets[b], x);
      forall y | y in r
        ensures y in buckets[b]
      {
        assert y in multiset(r);
        assert y in multiset(buckets[b]);
      }
      Rerouted(b, x, r);
      buckets := buckets[b := r];
    }

    /** `removeSorted` on the item's bucket. */
    method RemoveSorted(x: int)
      requires Valid() && arraySize > 0
      modifies this
      ensures Valid()
      ensures buckets == old(buckets)[Bucket(x, arraySize) := ListSpec.RemoveSorted(old(buckets)[Bucket(x, arraySize)], x)]
    {
      var b := Bucket(x, arraySize);
      RemoveFirstMultiset(buckets[b], x);
      var r := ListSpec.RemoveSorted(buckets[b], x);
      forall y | y in r
        ensures y in buckets[b]
      {
        assert y in multiset(r);
        assert y in multiset(buckets[b]);
      }
      Rerouted(b, x, r);
      buckets := buckets[b := r];
    }

    /** `getItemByHashValue` as written: the hash is reduced to a bucket
        index first, and that index, not the hash, is compared with the
        items' hashes. */
    method GetItemByHashValueAsWritten(hashValue: nat) returns (r: Option<int>)
      requires Valid() && arraySize > 0
      ensures r == FindByHash(buckets[hashValue % arraySize], hashValue % arraySize)
    {
      var h := hashValue % arraySize;
      r := FindFirstWithHash(buckets[h], h);
    }

    /** `getItemByHashValue` as evidently intended: the first item of the
        hash's bucket whose hash is `hashValue`. */
    method GetItemByHashValue(hashValue: nat) returns (r: Option<int>)
      requires Valid() && arraySize > 0
      ensures r == FindByHash(buckets[hashValue % arraySize], hashValue)
    {
      r := FindFirstWithHash(buckets[hashValue % arraySize], hashValue);
    }

    /** `toList`: every item, each one inserted at the front of the result
        as the buckets are scanned in order. */
    method ToList() returns (r: seq<int>)
      requires Valid()
      ensures r == Reversed(Flatten(buckets))
    {
      r := [];
      var i := 0;
      while i < arraySize
        invariant 0 <= i <= arraySize
        invariant r == Reversed(Flatten(buckets[..i]))
      {
        r := PrependEach(buckets[i], r);
        ReversedAppend(Flatten(buckets[..i]), buckets[i]);
        assert buckets[..i + 1][..i] == buckets[..i];
        i := i + 1;
      }
      assert buckets[..i] == buckets;
    }
  }

  /** The inner loop of `toList`: `list.insert` of each item in turn. */
  method PrependEach(s: seq<int>, r0: seq<int>) returns (r: seq<int>)
    ensures r == Reversed(s) + r0
  {
    r := r0;
    var j := 0;
    while j < |s|
      invariant 0 <= j <= |s| && r == Reversed(s[..j]) + r0
    {
      ReversedSnoc(s[..j], s[j]);
      assert s[..j + 1] == s[..j] + [s[j]];
      r := [s[j]] + r;
      j := j + 1;
    }
    assert s[..j] == s;
  }

  lemma ReversedAppend(a: seq<int>, b: seq<int>)
    ensures Reversed(a + b) == Reversed(b) + Reversed(a)
  {
  }

  /** The scan of `getItemByHashValue` over one bucket. */
  method FindFirstWithHash(s: seq<int>, h: nat) returns (r: Option<int>)
    ensures r == FindByHash(s, h)
  {
    var k := 0;
    while k < |s|
      invariant 0 <= k <= |s| && FindByHash(s[k..], h) == FindByHash(s, h)
    {
      if Hash(s[k]) == h {
        return Some(s[k]);
      }
      assert s[k..][1..] == s[k + 1..];
      k := k + 1;
    }
    return None;
  }

  lemma {:induction false} ReversedSnoc(s: seq<int>, y: int)
    ensures Reversed(s + [y]) == [y] + Reversed(s)
  {
    assert (s + [y])[..|s|] == s;
  }

  /** With the intended lookup every held item is found by its own hash. */
  lemma {:induction false} LookupFindsHeldItem(buckets: seq<seq<int>>, x: int)
    requires Routed(buckets) && |buckets| > 0 && x in Flatten(buckets)
    ensures FindByHash(buckets[Hash(x) % |buckets|], Hash(x)).Some?
  {
    RoutedMembership(buckets, x);
  }

  /** The lookup as written misses item 13 of a 10-bucket list: 13 is in
      bucket 3, but the scan looks for hash 3 there. */
  lemma LookupAsWrittenMisses()
    ensures Bucket(13, 10) == 3
    ensures FindByHash([13], 13 % 10) == None
    ensures FindByHash([13], 13) == Some(13)
  {
  }
}

=== FILE: listspec.dfy ===
/** What the list operations of `VDList` do to the sequence of items read from
    `pFirst` along the `pNext` chain.  Items are compared with `<`, `==` and
    `>` only, as the list's `IVDSortable` element types are; `int` stands for
    them (a `VDPointer` compares its address, a `VDList` its `id`). */
module ListSpec {

  /** Non-decreasing. */
  predicate Sorted(s: seq<int>)
  {
    forall i, j :: 0 <= i < j < |s| ==> s[i] <= s[j]
  }

  /** Strictly increasing, hence free of duplicates. */
  predicate StrictlySorted(s: seq<int>)
  {
    forall i, j :: 0 <= i < j < |s| ==> s[i] < s[j]
  }

  /** The set of items. */
  function Elems(s: seq<int>): set<int>
  {
    set y | y in s
  }

  lemma StrictlySortedDistinct(s: seq<int>, i: int, j: int)
    requires StrictlySorted(s) && 0 <= i < |s| && 0 <= j < |s| && s[i] == s[j]
    ensures i == j
  {
  }

  // ---- insertSorted ----

  /** `insertSorted`: the item becomes the head when it is smaller than the
      head; otherwise the walk passes every following element smaller than
      the item and links the item in after the last node it reached. */
  function InsertSorted(s: seq<int>, x: int): (r: seq<int>)
    ensures |r| == |s| + 1
  {
    if |s| == 0 || x < s[0] then [x] + s else [s[0]] + InsertAfterSmaller(s[1..], x)
  }

  /** The walk of `insertSorted` after the head: skip the elements `< x`. */
  function InsertAfterSmaller(t: seq<int>, x: int): (r: seq<int>)
    ensures |r| == |t| + 1
  {
    if |t| == 0 || !(t[0] < x) then [x] + t else [t[0]] + InsertAfterSmaller(t[1..], x)
  }

  /** Every element is at least `lo`. */
  predicate AtLeast(s: seq<int>, lo: int)
  {
    forall i :: 0 <= i < |s| ==> lo <= s[i]
  }

  /** Every element is greater than `lo`. */
  predicate Above(s: seq<int>, lo: int)
  {
    forall i :: 0 <= i < |s| ==> lo < s[i]
  }

  lemma {:induction false} InsertAfterSmallerProps(t: seq<int>, x: int, lo: int)
    requires Sorted(t) && AtLeast(t, lo) && lo <= x
    ensures Sorted(InsertAfterSmaller(t, x)) && AtLeast(InsertAfterSmaller(t, x), lo)
    decreases |t|
  {
    if |t| == 0 || !(t[0] < x) {
      SortedFrom(t, x);
      PrependSorted(x, t, lo);
    } else {
      SortedFrom(t, t[0]);
      var t1 := t[1..];
      assert Sorted(t1) && AtLeast(t1, t[0]);
      InsertAfterSmallerProps(t1, x, t[0]);
      PrependSorted(t[0], InsertAfterSmaller(t1, x), lo);
    }
  }

  /** A sorted sequence is at least any bound of its head, and so is its tail,
      which is sorted too. */
  lemma SortedFrom(t: seq<int>, b: int)
    requires Sorted(t) && (|t| > 0 ==> b <= t[0])
    ensures AtLeast(t, b) && (|t| > 0 ==> Sorted(t[1..]) && AtLeast(t[1..], b))
  {
    if |t| > 0 {
      assert forall i :: 0 <= i < |t| ==> t[0] <= t[i];
    }
  }

  /** `insertSorted` adds the item and nothing else, and keeps a
      non-decreasing list non-decreasing. */
  lemma {:induction false} InsertSortedProps(s: seq<int>, x: int)
    ensures multiset(InsertSorted(s, x)) == multiset(s) + multiset{x}
    ensures Sorted(s) ==> Sorted(InsertSorted(s, x))
  {
    if |s| == 0 || x < s[0] {
      if Sorted(s) {
        SortedFrom(s, x);
        PrependSorted(x, s, x);
      }
    } else {
      var w := InsertAfterSmaller(s[1..], x);
      assert s == [s[0]] + s[1..];
      InsertAfterSmallerMultiset(s[1..], x);
      if Sorted(s) {
        SortedFrom(s, s[0]);
        InsertAfterSmallerProps(s[1..], x, s[0]);
        PrependSorted(s[0], w, s[0]);
      }
    }
  }

  /** A first element no greater than the rest keeps a sorted list sorted,
      and at least any bound no greater than it. */
  lemma PrependSorted(x: int, s: seq<int>, lo: int)
    requires Sorted(s) && AtLeast(s, x) && lo <= x
    ensures Sorted([x] + s) && AtLeast([x] + s, lo)
  {
    var r := [x] + s;
    forall i, j | 0 <= i < j < |r| ensures r[i] <= r[j] {
      assert r[j] == s[j - 1];
      if i > 0 {
        assert r[i] == s[i - 1];
      }
    }
  }

  lemma {:induction false} InsertAfterSmallerMultiset(t: seq<int>, x: int)
    ensures multiset(InsertAfterSmaller(t, x)) == multiset(t) + multiset{x}
    decreases |t|
  {
    if |t| == 0 || !(t[0] < x) {
    } else {
      InsertAfterSmallerMultiset(t[1..], x);
      assert t == [t[0]] + t[1..];
    }
  }

  /** Where the walk of `insertSorted` stops: position `k` is the node the new
      one is linked after. */
  predicate WalkStopsAt(s: seq<int>, x: int, k: int)
  {
    0 <= k < |s| && !(x < s[0])
    && (forall j :: 1 <= j <= k ==> s[j] < x)
    && (k + 1 == |s| || !(s[k + 1] < x))
  }

  /** Linking the item in after the node where the walk stops is `InsertSorted`. */
  lemma {:induction false} InsertSortedAt(s: seq<int>, x: int, k: int)
    requires WalkStopsAt(s, x, k)
    ensures InsertSorted(s, x) == s[..k + 1] + [x] + s[k + 1..]
  {
    WalkTail(s, k, x);
    InsertAfterSmallerAt(s[1..], x, k);
    SpliceCons(s, k + 1, x);
  }

  lemma {:induction false} InsertAfterSmallerAt(t: seq<int>, x: int, k: nat)
    requires k <= |t| && (forall j :: 0 <= j < k ==> t[j] < x) && (k == |t| || !(t[k] < x))
    ensures InsertAfterSmaller(t, x) == t[..k] + [x] + t[k..]
    decreases k
  {
    if k == 0 {
      assert t[..0] == [] && t[0..] == t;
    } else {
      BelowTail(t, k, x);
      InsertAfterSmallerAt(t[1..], x, k - 1);
      SpliceCons(t, k, x);
    }
  }

  /** The tail of a sequence whose first `k` elements are below `x` has its
      first `k - 1` below `x`, and its element `k - 1` is element `k`. */
  lemma BelowTail(t: seq<int>, k: int, x: int)
    requires 0 < k <= |t| && forall j :: 0 <= j < k ==> t[j] < x
    ensures forall j :: 0 <= j < k - 1 ==> t[1..][j] < x
    ensures k < |t| ==> t[1..][k - 1] == t[k]
  {
  }

  /** Splicing `x` in at position `k - 1` of the tail and putting the head
      back is splicing it in at position `k`. */
  lemma SpliceCons(t: seq<int>, k: int, x: int)
    requires 0 < k <= |t|
    ensures [t[0]] + (t[1..][..k - 1] + [x] + t[1..][k - 1..]) == t[..k] + [x] + t[k..]
  {
    assert t[1..][..k - 1] == t[1..k];
    assert t[1..][k - 1..] == t[k..];
    assert t[..k] == [t[0]] + t[1..k];
  }

  // ---- insertSortedUnique ----

  /** The outcome of `insertSortedUnique`: whether a node was linked in
      (the returned pointer is non-null) and the resulting items. */
  datatype Insertion = Insertion(inserted: bool, list: seq<int>)

  /** `insertSortedUnique`: prepend when the item is smaller than the head,
      give up when it equals the head, otherwise walk past the elements
      smaller than it and link it in unless the next element equals it. */
  function InsertSortedUnique(s: seq<int>, x: int): (r: Insertion)
    ensures !r.inserted ==> r.list == s
    ensures |r.list| == if r.inserted then |s| + 1 else |s|
  {
    if |s| == 0 || x < s[0] then Insertion(true, [x] + s)
    else if x == s[0] then Insertion(false, s)
    else
      var w := InsertUniqueAfterSmaller(s[1..], x);
      Insertion(w.inserted, if w.inserted then [s[0]] + w.list else s)
  }

  /** The walk of `insertSortedUnique` after the head. */
  function InsertUniqueAfterSmaller(t: seq<int>, x: int): (r: Insertion)
    ensures !r.inserted ==> r.list == t
    ensures |r.list| == if r.inserted then |t| + 1 else |t|
  {
    if |t| == 0 || t[0] > x then Insertion(true, [x] + t)
    else if t[0] == x then Insertion(false, t)
    else
      var w := InsertUniqueAfterSmaller(t[1..], x);
      Insertion(w.inserted, if w.inserted then [t[0]] + w.list else t)
  }

  lemma {:induction false} InsertUniqueAfterSmallerProps(t: seq<int>, x: int, lo: int)
    requires StrictlySorted(t) && Above(t, lo) && lo < x
    ensures InsertUniqueAfterSmaller(t, x).inserted <==> x !in t
    ensures StrictlySorted(InsertUniqueAfterSmaller(t, x).list)
    ensures Above(InsertUniqueAfterSmaller(t, x).list, lo)
    decreases |t|
  {
    if |t| == 0 || t[0] > x {
      StrictAbove(t, x);
      PrependStrict(x, t, lo);
    } else if t[0] == x {
    } else {
      StrictFrom(t);
      InsertUniqueAfterSmallerProps(t[1..], x, t[0]);
      var w := InsertUniqueAfterSmaller(t[1..], x);
      if w.inserted {
        PrependStrict(t[0], w.list, lo);
      }
      assert t == [t[0]] + t[1..];
    }
  }

  /** A strictly sorted sequence whose head is above `x` is above `x`
      throughout, so `x` is not in it. */
  lemma StrictAbove(t: seq<int>, x: int)
    requires StrictlySorted(t) && (|t| > 0 ==> x < t[0])
    ensures Above(t, x) && x !in t
  {
    if |t| > 0 {
      assert forall i :: 0 <= i < |t| ==> t[0] <= t[i];
    }
  }

  lemma {:induction false} InsertUniqueAfterSmallerMultiset(t: seq<int>, x: int)
    ensures InsertUniqueAfterSmaller(t, x).inserted ==>
      multiset(InsertUniqueAfterSmaller(t, x).list) == multiset(t) + multiset{x}
    ensures !InsertUniqueAfterSmaller(t, x).inserted ==> x in t
    decreases |t|
  {
    if |t| == 0 || t[0] > x {
    } else if t[0] == x {
    } else {
      InsertUniqueAfterSmallerMultiset(t[1..], x);
      assert t == [t[0]] + t[1..];
    }
  }

  /** Whatever the list, `insertSortedUnique` either links in exactly the item
      or leaves the list alone because the item is already in it. */
  lemma {:induction false} InsertSortedUniqueMultiset(s: seq<int>, x: int)
    ensures InsertSortedUnique(s, x).inserted ==>
      multiset(InsertSortedUnique(s, x).list) == multiset(s) + multiset{x}
    ensures !InsertSortedUnique(s, x).inserted ==> x in s
  {
    if |s| == 0 || x < s[0] {
    } else if x == s[0] {
    } else {
      InsertUniqueAfterSmallerMultiset(s[1..], x);
      assert s == [s[0]] + s[1..];
    }
  }

  /** On a strictly increasing list, `insertSortedUnique` inserts exactly when
      the item is absent, keeps the list strictly increasing, and leaves the
      set of items equal to the old one plus the item. */
  lemma {:induction false} InsertSortedUniqueStrict(s: seq<int>, x: int)
    requires StrictlySorted(s)
    ensures InsertSortedUnique(s, x).inserted <==> x !in s
    ensures StrictlySorted(InsertSortedUnique(s, x).list)
    ensures Elems(InsertSortedUnique(s, x).list) == Elems(s) + {x}
  {
    var r := InsertSortedUnique(s, x);
    if |s| == 0 || x < s[0] {
      StrictAbove(s, x);
      PrependStrict(x, s, x - 1);
    } else if x == s[0] {
    } else {
      StrictFrom(s);
      InsertUniqueAfterSmallerProps(s[1..], x, s[0]);
      var w := InsertUniqueAfterSmaller(s[1..], x);
      if w.inserted {
        PrependStrict(s[0], w.list, s[0] - 1);
      }
      assert s == [s[0]] + s[1..];
    }
    InsertSortedUniqueMultiset(s, x);
    MultisetSet(s, r.list, x, r.inserted);
  }

  lemma MultisetSet(s: seq<int>, r: seq<int>, x: int, inserted: bool)
    requires inserted ==> multiset(r) == multiset(s) + multiset{x}
    requires !inserted ==> r == s && x in s
    ensures Elems(r) == Elems(s) + {x}
  {
    forall y | y in Elems(r) ensures y in Elems(s) || y == x {
      assert y in multiset(r);
    }
    forall y | y in Elems(s) + {x} ensures y in Elems(r) {
      assert y in multiset(s) + multiset{x};
      assert y in multiset(r);
    }
  }

  /** `insertSortedUnique` is idempotent on every list, sorted or not: right
      after it the walk reaches the item, so a second call links nothing. */
  lemma {:induction false} InsertSortedUniqueIdempotent(s: seq<int>, x: int)
    ensures InsertSortedUnique(InsertSortedUnique(s, x).list, x) == Insertion(false, InsertSortedUnique(s, x).list)
  {
    if |s| == 0 || x < s[0] {
    } else if x == s[0] {
    } else {
      var w := InsertUniqueAfterSmaller(s[1..], x);
      InsertUniqueAfterSmallerIdempotent(s[1..], x);
      if w.inserted {
        assert ([s[0]] + w.list)[1..] == w.list;
      }
    }
  }

  lemma {:induction false} InsertUniqueAfterSmallerIdempotent(t: seq<int>, x: int)
    ensures InsertUniqueAfterSmaller(InsertUniqueAfterSmaller(t, x).list, x) == Insertion(false, InsertUniqueAfterSmaller(t, x).list)
    decreases |t|
  {
    if |t| == 0 || t[0] > x {
    } else if t[0] == x {
    } else {
      var w := InsertUniqueAfterSmaller(t[1..], x);
      InsertUniqueAfterSmallerIdempotent(t[1..], x);
      if w.inserted {
        assert ([t[0]] + w.list)[1..] == w.list;
      }
    }
  }

  /** Where the walk of `insertSortedUnique` stops (the head is smaller than
      the item, every node up to `k` after it is smaller too, the next is not). */
  predicate UniqueWalkStopsAt(s: seq<int>, x: int, k: int)
  {
    0 <= k < |s| && s[0] < x
    && (forall j :: 1 <= j <= k ==> s[j] < x)
    && (k + 1 == |s| || !(s[k + 1] < x))
  }

  /** After the walk: the node is linked in when the next element is missing
      or greater, and nothing happens when it is equal. */
  lemma {:induction false} InsertSortedUniqueAt(s: seq<int>, x: int, k: int)
    requires UniqueWalkStopsAt(s, x, k)
    ensures (k + 1 == |s| || s[k + 1] > x) ==> InsertSortedUnique(s, x) == Insertion(true, s[..k + 1] + [x] + s[k + 1..])
    ensures !(k + 1 == |s| || s[k + 1] > x) ==> InsertSortedUnique(s, x) == Insertion(false, s)
  {
    WalkTail(s, k, x);
    InsertUniqueAfterSmallerAt(s[1..], x, k);
    SpliceCons(s, k + 1, x);
  }

  /** The tail seen by the walk after the head: its first `k` elements are
      the ones the walk passed, and its element `k` is where it stopped. */
  lemma WalkTail(s: seq<int>, k: int, x: int)
    requires 0 <= k < |s| && forall j :: 1 <= j <= k ==> s[j] < x
    ensures forall j :: 0 <= j < k ==> s[1..][j] < x
    ensures k + 1 < |s| ==> s[1..][k] == s[k + 1]
  {
  }

  lemma {:induction false} InsertUniqueAfterSmallerAt(t: seq<int>, x: int, k: nat)
    requires k <= |t| && (forall j :: 0 <= j < k ==> t[j] < x) && (k == |t| || !(t[k] < x))
    ensures (k == |t| || t[k] > x) ==> InsertUniqueAfterSmaller(t, x) == Insertion(true, t[..k] + [x] + t[k..])
    ensures !(k == |t| || t[k] > x) ==> InsertUniqueAfterSmaller(t, x) == Insertion(false, t)
    decreases k
  {
    if k == 0 {
      assert t[..0] == [] && t[0..] == t;
    } else {
      BelowTail(t, k, x);
      InsertUniqueAfterSmallerAt(t[1..], x, k - 1);
      SpliceCons(t, k, x);
    }
  }

  // ---- remove / removeSorted ----

  /** Position of the first element equal to `x`. */
  function FirstIndex(s: seq<int>, x: int): (i: nat)
    requires x in s
    ensures i < |s| && s[i] == x && x !in s[..i]
  {
    if s[0] == x then 0 else 1 + FirstIndex(s[1..], x)
  }

  /** `remove`: unlink the first node equal to the item, if any. */
  function RemoveFirst(s: seq<int>, x: int): (r: seq<int>)
    ensures x !in s ==> r == s
    ensures x in s ==> |r| == |s| - 1
  {
    if |s| == 0 then s
    else if s[0] == x then s[1..]
    else
      assert x in s ==> x in s[1..];
      [s[0]] + RemoveFirst(s[1..], x)
  }

  /** `remove` takes out exactly the first occurrence and keeps the order of
      the other elements. */
  lemma {:induction false} RemoveFirstAt(s: seq<int>, x: int)
    requires x in s
    ensures RemoveFirst(s, x) == s[..FirstIndex(s, x)] + s[FirstIndex(s, x) + 1..]
  {
    if s[0] == x {
    } else {
      RemoveFirstAt(s[1..], x);
      var i := FirstIndex(s[1..], x);
      assert s[1..][..i] == s[1..i + 1];
      assert s[1..][i + 1..] == s[i + 2..];
      assert s[..i + 1] == [s[0]] + s[1..i + 1];
    }
  }

  /** `removeSorted`: like `remove`, but the walk after the head gives up at
      the first element greater than the item. */
  function RemoveSorted(s: seq<int>, x: int): (r: seq<int>)
    ensures r == s || r == RemoveFirst(s, x)
  {
    if |s| == 0 then s
    else if s[0] == x then s[1..]
    else
      var w := RemoveSortedAfterHead(s[1..], x);
      if w == s[1..] then s else [s[0]] + w
  }

  function RemoveSortedAfterHead(t: seq<int>, x: int): (r: seq<int>)
    ensures r == t || r == RemoveFirst(t, x)
  {
    if |t| == 0 then t
    else if t[0] == x then t[1..]
    else if t[0] > x then t
    else
      var w := RemoveSortedAfterHead(t[1..], x);
      if w == t[1..] then t else [t[0]] + w
  }

  lemma {:induction false} RemoveSortedAfterHeadIsRemoveFirst(t: seq<int>, x: int)
    requires Sorted(t)
    ensures RemoveSortedAfterHead(t, x) == RemoveFirst(t, x)
    decreases |t|
  {
    if |t| == 0 || t[0] == x {
    } else if t[0] > x {
      assert forall k :: 0 <= k < |t| ==> t[0] <= t[k];
    } else {
      RemoveSortedAfterHeadIsRemoveFirst(t[1..], x);
    }
  }

  /** On a sorted list the early exit of `removeSorted` loses nothing: it
      removes exactly the first occurrence, as `remove` does. */
  lemma {:induction false} RemoveSortedIsRemoveFirst(s: seq<int>, x: int)
    requires Sorted(s)
    ensures RemoveSorted(s, x) == RemoveFirst(s, x)
  {
    if |s| == 0 || s[0] == x {
    } else {
      RemoveSortedAfterHeadIsRemoveFirst(s[1..], x);
    }
  }

  lemma {:induction false} RemoveFirstProps(s: seq<int>, x: int, lo: int)
    requires Sorted(s) && AtLeast(s, lo)
    ensures Sorted(RemoveFirst(s, x)) && AtLeast(RemoveFirst(s, x), lo)
    decreases |s|
  {
    if |s| == 0 || s[0] == x {
    } else {
      SortedFrom(s, s[0]);
      RemoveFirstProps(s[1..], x, s[0]);
      PrependSorted(s[0], RemoveFirst(s[1..], x), lo);
    }
  }

  lemma {:induction false} RemoveFirstStrict(s: seq<int>, x: int, lo: int)
    requires StrictlySorted(s) && Above(s, lo)
    ensures StrictlySorted(RemoveFirst(s, x)) && Above(RemoveFirst(s, x), lo)
    ensures x !in RemoveFirst(s, x)
    decreases |s|
  {
    if |s| == 0 {
    } else if s[0] == x {
      assert forall i :: 1 <= i < |s| ==> s[i] != x;
    } else if s[0] > x {
      assert forall i :: 0 <= i < |s| ==> s[i] != x;
      assert RemoveFirst(s, x) == s;
    } else {
      StrictFrom(s);
      RemoveFirstStrict(s[1..], x, s[0]);
      PrependStrict(s[0], RemoveFirst(s[1..], x), lo);
    }
  }

  lemma StrictFrom(s: seq<int>)
    requires StrictlySorted(s) && |s| > 0
    ensures StrictlySorted(s[1..]) && Above(s[1..], s[0])
  {
  }

  /** A first element below the rest keeps a strictly sorted list strictly
      sorted, and above any bound below it. */
  lemma PrependStrict(x: int, w: seq<int>, lo: int)
    requires StrictlySorted(w) && Above(w, x) && lo < x
    ensures StrictlySorted([x] + w) && Above([x] + w, lo)
  {
    var r := [x] + w;
    assert forall i :: 1 <= i < |r| ==> r[i] == w[i - 1];
  }

  lemma {:induction false} RemoveFirstMultiset(s: seq<int>, x: int)
    ensures multiset(RemoveFirst(s, x)) == multiset(s) - multiset{x}
    decreases |s|
  {
    if |s| == 0 {
    } else if s[0] == x {
      assert s == [s[0]] + s[1..];
    } else if x in s[1..] {
      RemoveFirstMultiset(s[1..], x);
      assert s == [s[0]] + s[1..];
    } else {
      assert x !in multiset(s);
    }
  }

  /** Removing an element takes exactly one copy of it out of the multiset
      and keeps a (strictly) sorted list (strictly) sorted. */
  lemma RemoveFirstKeepsOrder(s: seq<int>, x: int)
    ensures multiset(RemoveFirst(s, x)) == multiset(s) - multiset{x}
    ensures Sorted(s) ==> Sorted(RemoveFirst(s, x))
    ensures StrictlySorted(s) ==> StrictlySorted(RemoveFirst(s, x))
  {
    RemoveFirstMultiset(s, x);
    if Sorted(s) && |s| > 0 {
      RemoveFirstProps(s, x, s[0]);
    }
    if StrictlySorted(s) && |s| > 0 {
      RemoveFirstStrict(s, x, s[0] - 1);
    }
  }

  /** On a strictly sorted list, `removeSorted` leaves exactly the old set
      minus the item. */
  lemma RemoveSortedStrictSet(s: seq<int>, x: int)
    requires StrictlySorted(s)
    ensures StrictlySorted(RemoveSorted(s, x))
    ensures Elems(RemoveSorted(s, x)) == Elems(s) - {x}
  {
    assert Sorted(s);
    RemoveSortedIsRemoveFirst(s, x);
    RemoveFirstMultiset(s, x);
    if |s| > 0 {
      RemoveFirstStrict(s, x, s[0] - 1);
    }
    RemovedSet(s, RemoveFirst(s, x), x);
  }

  lemma RemovedSet(s: seq<int>, r: seq<int>, x: int)
    requires multiset(r) == multiset(s) - multiset{x} && x !in r
    ensures Elems(r) == Elems(s) - {x}
  {
    forall y ensures y in Elems(r) <==> y in Elems(s) - {x} {
      if y != x {
        assert y in r <==> y in multiset(r);
        assert y in s <==> y in multiset(s);
      }
    }
  }
}

=== FILE: math.dfy ===
/** Scalar helpers and 3-vectors of the physics core.
    Floats are modelled as exact reals and C++ `int` as unbounded integers;
    where C++ truncates (integer division, float-to-int casts) the truncation
    is written out. */
module VectorMath {

  /** A float 3-vector. */
  datatype Vec3 = Vec3(x: real, y: real, z: real)

  /** An integer 3-vector (`int` components). */
  datatype Vec3i = Vec3i(x: int, y: int, z: int)

  /** The three coordinate axes. */
  datatype Axis = X | Y | Z

  function Component(v: Vec3, a: Axis): real
  {
    match a
    case X => v.x
    case Y => v.y
    case Z => v.z
  }

  function Zero(): Vec3 { Vec3(0.0, 0.0, 0.0) }
  function One(): Vec3 { Vec3(1.0, 1.0, 1.0) }
  function Half(): Vec3 { Vec3(0.5, 0.5, 0.5) }
  function Uniform(s: real): Vec3 { Vec3(s, s, s) }

  function Add(a: Vec3, b: Vec3): Vec3 { Vec3(a.x + b.x, a.y + b.y, a.z + b.z) }
  function Sub(a: Vec3, b: Vec3): Vec3 { Vec3(a.x - b.x, a.y - b.y, a.z - b.z) }
  function Scale(v: Vec3, s: real): Vec3 { Vec3(v.x * s, v.y * s, v.z * s) }
  /** Componentwise product (`operator*(const VDVector3&)`). */
  function Mul(a: Vec3, b: Vec3): Vec3 { Vec3(a.x * b.x, a.y * b.y, a.z * b.z) }
  function Neg(v: Vec3): Vec3 { Scale(v, -1.0) }

  /** Componentwise `<=`. */
  predicate LessEq(a: Vec3, b: Vec3) { a.x <= b.x && a.y <= b.y && a.z <= b.z }

  function Abs(f: real): (r: real)
    ensures r >= 0.0 && (r == f || r == -f)
  {
    if f < 0.0 then f * -1.0 else f
  }

  /** -1, 0 or 1 with the sign of `f`. */
  function Sign(f: real): (r: real)
    ensures r == -1.0 || r == 0.0 || r == 1.0
    ensures r * f == Abs(f)
    ensures (r == 0.0) == (f == 0.0)
  {
    if f < 0.0 then -1.0 else if f == 0.0 then 0.0 else 1.0
  }

  /** 0 when the signs of `f1` and `f2` differ, otherwise their common sign. */
  function And(f1: real, f2: real): (r: real)
    ensures Sign(f1) != Sign(f2) ==> r == 0.0
    ensures Sign(f1) == Sign(f2) ==> r == Sign(f1) && r == Sign(f2)
  {
    if Sign(f1) != Sign(f2) then 0.0 else Sign(f1 + f2)
  }

  function AbsV(v: Vec3): Vec3 { Vec3(Abs(v.x), Abs(v.y), Abs(v.z)) }
  function SignV(v: Vec3): Vec3 { Vec3(Sign(v.x), Sign(v.y), Sign(v.z)) }
  function AndV(a: Vec3, b: Vec3): Vec3 { Vec3(And(a.x, b.x), And(a.y, b.y), And(a.z, b.z)) }

  function Max(f1: real, f2: real): (r: real)
    ensures (r == f1 || r == f2) && r >= f1 && r >= f2
  {
    if f1 > f2 then f1 else f2
  }

  function Min(f1: real, f2: real): (r: real)
    ensures (r == f1 || r == f2) && r <= f1 && r <= f2
  {
    if f1 < f2 then f1 else f2
  }

  /** `VDMax(int, int)`; the `VDuint` overload computes the same value on naturals. */
  function MaxI(i1: int, i2: int): (r: int)
    ensures (r == i1 || r == i2) && r >= i1 && r >= i2
  {
    if i1 > i2 then i1 else i2
  }

  /** `VDMin(int, int)`; the `VDuint` overload computes the same value on naturals. */
  function MinI(i1: int, i2: int): (r: int)
    ensures (r == i1 || r == i2) && r <= i1 && r <= i2
  {
    if i1 < i2 then i1 else i2
  }

  function MaxV(a: Vec3, b: Vec3): (r: Vec3)
    ensures LessEq(a, r) && LessEq(b, r)
    ensures (r.x == a.x || r.x == b.x) && (r.y == a.y || r.y == b.y) && (r.z == a.z || r.z == b.z)
  {
    Vec3(Max(a.x, b.x), Max(a.y, b.y), Max(a.z, b.z))
  }

  function MinV(a: Vec3, b: Vec3): (r: Vec3)
    ensures LessEq(r, a) && LessEq(r, b)
    ensures (r.x == a.x || r.x == b.x) && (r.y == a.y || r.y == b.y) && (r.z == a.z || r.z == b.z)
  {
    Vec3(Min(a.x, b.x), Min(a.y, b.y), Min(a.z, b.z))
  }

  function MaxVi(a: Vec3i, b: Vec3i): (r: Vec3i)
    ensures r.x >= a.x && r.x >= b.x && r.y >= a.y && r.y >= b.y && r.z >= a.z && r.z >= b.z
    ensures (r.x == a.x || r.x == b.x) && (r.y == a.y || r.y == b.y) && (r.z == a.z || r.z == b.z)
  {
    Vec3i(MaxI(a.x, b.x), MaxI(a.y, b.y), MaxI(a.z, b.z))
  }

  function MinVi(a: Vec3i, b: Vec3i): (r: Vec3i)
    ensures r.x <= a.x && r.x <= b.x && r.y <= a.y && r.y <= b.y && r.z <= a.z && r.z <= b.z
    ensures (r.x == a.x || r.x == b.x) && (r.y == a.y || r.y == b.y) && (r.z == a.z || r.z == b.z)
  {
    Vec3i(MinI(a.x, b.x), MinI(a.y, b.y), MinI(a.z, b.z))
  }

  function Dot(a: Vec3, b: Vec3): real { a.x * b.x + a.y * b.y + a.z * b.z }

  function Cross(a: Vec3, b: Vec3): Vec3
  {
    Vec3(a.y * b.z - a.z * b.y, a.z * b.x - a.x * b.z, a.x * b.y - a.y * b.x)
  }

  /** The part of `v` along `n` (`n` scaled by `v . n`). */
  function NormalComponent(v: Vec3, n: Vec3): Vec3 { Scale(n, Dot(v, n)) }

  /** What is left of `v` once its part along `n` is removed. */
  function TangentialComponent(v: Vec3, n: Vec3): Vec3 { Sub(v, NormalComponent(v, n)) }

  /** The tangential and the normal component add back up to the vector. */
  lemma ComponentsRecompose(v: Vec3, n: Vec3)
    ensures Add(TangentialComponent(v, n), NormalComponent(v, n)) == v
  {
  }

  /** For a unit normal the tangential component is orthogonal to it and the
      normal component keeps the vector's projection. */
  lemma {:induction false} TangentialOrthogonal(v: Vec3, n: Vec3)
    requires Dot(n, n) == 1.0
    ensures Dot(TangentialComponent(v, n), n) == 0.0
    ensures Dot(NormalComponent(v, n), n) == Dot(v, n)
  {
    var d := Dot(v, n);
    calc {
      Dot(NormalComponent(v, n), n);
      (n.x * d) * n.x + (n.y * d) * n.y + (n.z * d) * n.z;
      d * (n.x * n.x + n.y * n.y + n.z * n.z);
      d * Dot(n, n);
      d;
    }
  }

  /** Scaling twice is scaling by the product. */
  lemma ScaleScale(v: Vec3, p: real, q: real)
    ensures Scale(Scale(v, p), q) == Scale(v, p * q)
  {
    assert v.x * p * q == v.x * (p * q);
    assert v.y * p * q == v.y * (p * q);
    assert v.z * p * q == v.z * (p * q);
  }

  lemma DotSymmetric(v: Vec3, w: Vec3)
    ensures Dot(v, w) == Dot(w, v)
  {
  }

  /** A factor comes out of a dot product. */
  lemma DotScale(v: Vec3, t: real, w: Vec3)
    ensures Dot(Scale(v, t), w) == t * Dot(v, w)
  {
    assert v.x * t * w.x == t * (v.x * w.x);
    assert v.y * t * w.y == t * (v.y * w.y);
    assert v.z * t * w.z == t * (v.z * w.z);
  }

  /** The cross product is orthogonal to both of its arguments. */
  lemma CrossOrthogonal(a: Vec3, b: Vec3)
    ensures Dot(Cross(a, b), a) == 0.0
    ensures Dot(Cross(a, b), b) == 0.0
  {
  }

  // ---- integer vectors ----

  function AddI(a: Vec3i, b: Vec3i): Vec3i { Vec3i(a.x + b.x, a.y + b.y, a.z + b.z) }
  function SubI(a: Vec3i, b: Vec3i): Vec3i { Vec3i(a.x - b.x, a.y - b.y, a.z - b.z) }
  function ScaleI(a: Vec3i, i: int): Vec3i { Vec3i(a.x * i, a.y * i, a.z * i) }

  /** Scaling distributes over the sum of integer vectors. */
  lemma ScaleAddI(a: Vec3i, b: Vec3i, i: int)
    ensures ScaleI(AddI(a, b), i) == AddI(ScaleI(a, i), ScaleI(b, i))
  {
    assert (a.x + b.x) * i == a.x * i + b.x * i;
    assert (a.y + b.y) * i == a.y * i + b.y * i;
    assert (a.z + b.z) * i == a.z * i + b.z * i;
  }

  /** C++ integer division: the quotient is truncated toward zero, so the
      remainder has the sign of the dividend and is smaller than the divisor. */
  function TruncDiv(a: int, b: int): (q: int)
    requires b != 0
    ensures a >= 0 ==> 0 <= a - q * b < (if b > 0 then b else -b)
    ensures a < 0 ==> 0 <= q * b - a < (if b > 0 then b else -b)
  {
    if a >= 0 then (if b > 0 then a / b else -(a / -b))
    else (if b > 0 then -((-a) / b) else (-a) / (-b))
  }

  function DivI(a: Vec3i, i: int): Vec3i
    requires i != 0
  {
    Vec3i(TruncDiv(a.x, i), TruncDiv(a.y, i), TruncDiv(a.z, i))
  }

  /** The `(int)` cast of a float: truncation toward zero. */
  function TruncToInt(f: real): (i: int)
    ensures f >= 0.0 ==> i as real <= f < i as real + 1.0
    ensures f < 0.0 ==> i as real - 1.0 < f <= i as real
  {
    if f >= 0.0 then f.Floor else -((-f).Floor)
  }

  /** `VDVector3i(const VDVector3&)`. */
  function ToVec3i(v: Vec3): Vec3i { Vec3i(TruncToInt(v.x), TruncToInt(v.y), TruncToInt(v.z)) }

  /** `VDVector3(const VDVector3i&)`. */
  function ToVec3(v: Vec3i): Vec3 { Vec3(v.x as real, v.y as real, v.z as real) }

  /** Truncation toward zero then back to a float never moves a value away
      from zero, and moves it by less than one. */
  lemma {:induction false} TruncToIntBounds(f: real)
    ensures Abs(TruncToInt(f) as real) <= Abs(f)
    ensures Abs(f - TruncToInt(f) as real) < 1.0
  {
  }

  /** `VDVector3i` division truncates each component as C++ does; for instance
      `-7 / 2` is `-3`, whereas Dafny's Euclidean division gives `-4`. */
  lemma TruncDivNegative()
    ensures TruncDiv(-7, 2) == -3 && -7 / 2 == -4
    ensures DivI(Vec3i(7, -7, 6), 2) == Vec3i(3, -3, 3)
  {
  }
}

=== FILE: serializer.dfy ===
/** The chunk text format of the samples: `serializeChunk` writes the grid
    size, the anchor and one "y z row" line per (y, z) row holding an
    occupied voxel, the row a string of '1' and '0' indexed by x;
    `deserializeChunk` reads such a file back into a fresh `VDGrid`.  A file
    is its sequence of lines without their terminators, and a file that
    cannot be opened is `None`. */
module Serializer {
  import opened VectorMath
  import opened Lattice
  import opened Grids
  import opened Wrappers

  // ---- characters and numbers ----

  /** `std::isspace` in the "C" locale: space, tab, newline, vertical tab,
      form feed and carriage return. */
  predicate IsSpace(c: char)
  {
    c == ' ' || 9 <= c as int <= 13
  }

  predicate IsDigit(c: char)
  {
    '0' <= c <= '9'
  }

  predicate AllDigits(s: string)
  {
    forall i :: 0 <= i < |s| ==> IsDigit(s[i])
  }

  function DigitChar(d: nat): char
    requires d < 10
  {
    ('0' as int + d) as char
  }

  /** The value of a string of decimal digits. */
  function DigitsValue(s: string): nat
    requires AllDigits(s)
  {
    if |s| == 0 then 0 else DigitsValue(s[..|s| - 1]) * 10 + (s[|s| - 1] as int - '0' as int)
  }

  /** `operator<<` on an unsigned value: its decimal digits, most
      significant first, with no leading zero. */
  function Decimal(n: nat): (s: string)
    ensures |s| > 0 && AllDigits(s)
    ensures n >= 10 ==> s[0] != '0'
  {
    if n < 10 then [DigitChar(n)] else Decimal(n / 10) + [DigitChar(n % 10)]
  }

  /** The digits of `n` are worth `n`. */
  lemma {:induction false} DecimalValue(n: nat)
    ensures DigitsValue(Decimal(n)) == n
  {
    if n >= 10 {
      var s := Decimal(n);
      assert s[..|s| - 1] == Decimal(n / 10);
      DecimalValue(n / 10);
    }
  }

  /** How many characters at the front of `s` are white space. */
  function LeadingSpaces(s: string): (k: nat)
    ensures k <= |s| && (k < |s| ==> !IsSpace(s[k]))
    ensures forall i :: 0 <= i < k ==> IsSpace(s[i])
  {
    if |s| == 0 || !IsSpace(s[0]) then 0 else 1 + LeadingSpaces(s[1..])
  }

  /** How many characters at the front of `s` are digits. */
  function LeadingDigits(s: string): (k: nat)
    ensures k <= |s| && (k < |s| ==> !IsDigit(s[k]))
    ensures AllDigits(s[..k])
  {
    if |s| == 0 || !IsDigit(s[0]) then 0
    else
      var k := 1 + LeadingDigits(s[1..]);
      assert forall i :: 1 <= i < k ==> s[..k][i] == s[1..][..k - 1][i - 1];
      k
  }

  /** 2^64: `unsigned long` is 64 bits wide. */
  const ULongModulus: nat := 0x1_0000_0000_0000_0000

  /** `std::stoul(s)` in base 10: leading white space is skipped, then an
      optional sign, then the longest run of digits, and whatever follows
      is ignored.  No digit at all is `invalid_argument` and a magnitude
      beyond `unsigned long` is `out_of_range` (both `None`); a minus sign
      negates modulo 2^64. */
  function ParseUnsigned(s: string): (r: Option<nat>)
    ensures r.Some? ==> r.value < ULongModulus
  {
    var t := s[LeadingSpaces(s)..];
    var signed := |t| > 0 && (t[0] == '+' || t[0] == '-');
    var u := if signed then t[1..] else t;
    var k := LeadingDigits(u);
    if k == 0 then None
    else
      var m := DigitsValue(u[..k]);
      if m >= ULongModulus then None
      else if signed && t[0] == '-' then Some((ULongModulus - m) % ULongModulus)
      else Some(m)
  }

  /** What `operator<<` writes, `stoul` reads back. */
  lemma ParseDecimal(n: nat)
    requires n < ULongModulus
    ensures ParseUnsigned(Decimal(n)) == Some(n)
  {
    var s := Decimal(n);
    assert LeadingSpaces(s) == 0;
    assert s[0..] == s;
    assert LeadingDigits(s) == |s|;
    assert s[..|s|] == s;
    DecimalValue(n);
  }

  // ---- split ----

  predicate NoSpace(w: string)
  {
    forall i :: 0 <= i < |w| ==> !IsSpace(w[i])
  }

  /** A word `operator>>` can read: not empty, no white space. */
  predicate Token(w: string)
  {
    |w| > 0 && NoSpace(w)
  }

  /** How many characters at the front of `s` are not white space. */
  function LeadingWord(s: string): (k: nat)
    ensures k <= |s| && (k < |s| ==> IsSpace(s[k]))
    ensures forall i :: 0 <= i < k ==> !IsSpace(s[i])
  {
    if |s| == 0 || IsSpace(s[0]) then 0 else 1 + LeadingWord(s[1..])
  }

  /** The words of `s` in order: what `split` collects. */
  function Tokens(s: string): seq<string>
    decreases |s|
  {
    if |s| == 0 then []
    else if IsSpace(s[0]) then Tokens(s[1..])
    else
      var w := LeadingWord(s);
      [s[..w]] + Tokens(s[w..])
  }

  /** Every token is a word: none is empty and none holds white space. */
  lemma {:induction false} TokensAreWords(s: string)
    ensures forall k :: 0 <= k < |Tokens(s)| ==> Token(Tokens(s)[k])
    decreases |s|
  {
    if |s| > 0 {
      if IsSpace(s[0]) {
        TokensAreWords(s[1..]);
      } else {
        var w := LeadingWord(s);
        TokensAreWords(s[w..]);
        assert Token(s[..w]);
      }
    }
  }

  /** The words joined by single spaces. */
  function Unwords(ts: seq<string>): string
  {
    if |ts| == 0 then ""
    else if |ts| == 1 then ts[0]
    else ts[0] + " " + Unwords(ts[1..])
  }

  /** A word followed by white space or by nothing is read whole. */
  lemma {:induction false} WordLength(w: string, rest: string)
    requires Token(w) && (|rest| == 0 || IsSpace(rest[0]))
    ensures LeadingWord(w + rest) == |w|
    decreases |w|
  {
    var s := w + rest;
    if |w| == 1 {
      assert s[1..] == rest;
    } else {
      assert s[1..] == w[1..] + rest;
      WordLength(w[1..], rest);
    }
  }

  /** A word followed by white space or by nothing is the first token. */
  lemma TokensPrefix(w: string, rest: string)
    requires Token(w) && (|rest| == 0 || IsSpace(rest[0]))
    ensures Tokens(w + rest) == [w] + Tokens(rest)
  {
    var s := w + rest;
    assert !IsSpace(s[0]);
    WordLength(w, rest);
    var k := LeadingWord(s);
    assert s[..k] == w && s[k..] == rest;
  }

  /** Leading white space is skipped. */
  lemma TokensSpace(c: char, rest: string)
    requires IsSpace(c)
    ensures Tokens([c] + rest) == Tokens(rest)
  {
    assert ([c] + rest)[1..] == rest;
  }

  /** A word, a space, then more text. */
  lemma TokensWordSpace(w: string, u: string)
    requires Token(w)
    ensures Tokens(w + (" " + u)) == [w] + Tokens(u)
  {
    TokensSpace(' ', u);
    TokensPrefix(w, " " + u);
  }

  /** Splitting the words joined by spaces gives the words back. */
  lemma {:induction false} TokensUnwords(ts: seq<string>)
    requires forall k :: 0 <= k < |ts| ==> Token(ts[k])
    ensures Tokens(Unwords(ts)) == ts
  {
    if |ts| == 1 {
      TokensPrefix(ts[0], "");
      assert ts[0] + "" == ts[0];
    } else if |ts| > 1 {
      var u := Unwords(ts[1..]);
      assert Unwords(ts) == ts[0] + (" " + u);
      TokensUnwords(ts[1..]);
      TokensWordSpace(ts[0], u);
      assert [ts[0]] + ts[1..] == ts;
    }
  }

  /** Three words on a line, the way `serializeChunk` writes them. */
  lemma TokensOfThree(a: string, b: string, c: string)
    requires Token(a) && Token(b) && Token(c)
    ensures Tokens(a + " " + b + " " + c) == [a, b, c]
  {
    TokensUnwords([a, b, c]);
    assert [a, b, c][1..] == [b, c] && [b, c][1..] == [c];
    assert Unwords([c]) == c;
    assert Unwords([b, c]) == b + " " + c;
    assert Unwords([a, b, c]) == a + " " + (b + " " + c);
    assert a + " " + b + " " + c == a + " " + (b + " " + c);
  }

  /** White space in the scan `split` makes ends the word being read,
      which joins the words so far... */
  lemma ScanWordEnd(tokens: seq<string>, word: string, rest: string)
    requires Token(word) && |rest| > 0 && IsSpace(rest[0])
    ensures tokens + Tokens(word + rest) == (tokens + [word]) + Tokens("" + rest[1..])
  {
    TokensPrefix(word, rest);
    assert Tokens(rest) == Tokens(rest[1..]);
    assert "" + rest[1..] == rest[1..];
    assert tokens + ([word] + Tokens(rest[1..])) == (tokens + [word]) + Tokens(rest[1..]);
  }

  /** ... and is skipped when no word is being read. */
  lemma ScanSkip(tokens: seq<string>, rest: string)
    requires |rest| > 0 && IsSpace(rest[0])
    ensures tokens + Tokens("" + rest) == tokens + Tokens("" + rest[1..])
  {
    assert "" + rest == rest && "" + rest[1..] == rest[1..];
    assert Tokens(rest) == Tokens(rest[1..]);
  }

  /** Any other character extends it. */
  lemma ScanWord(tokens: seq<string>, word: string, rest: string)
    requires NoSpace(word) && |rest| > 0 && !IsSpace(rest[0])
    ensures tokens + Tokens(word + rest) == tokens + Tokens((word + [rest[0]]) + rest[1..])
    ensures NoSpace(word + [rest[0]])
  {
    assert word + rest == (word + [rest[0]]) + rest[1..];
  }

  /** `split`: the words of `str` in order, read one `operator>>` at a
      time. */
  method Split(str: string) returns (tokens: seq<string>)
    ensures tokens == Tokens(str)
  {
    tokens := [];
    var word := "";
    var i := 0;
    assert word + str[i..] == str;
    while i < |str|
      invariant 0 <= i <= |str| && NoSpace(word)
      invariant tokens + Tokens(word + str[i..]) == Tokens(str)
    {
      assert str[i..][1..] == str[i + 1..];
      if IsSpace(str[i]) {
        if |word| > 0 {
          ScanWordEnd(tokens, word, str[i..]);
          tokens := tokens + [word];
        } else {
          ScanSkip(tokens, str[i..]);
        }
        word := "";
      } else {
        ScanWord(tokens, word, str[i..]);
        word := word + [str[i]];
      }
      i := i + 1;
    }
    assert word + str[i..] == word;
    if |word| > 0 {
      TokensPrefix(word, "");
      assert word + "" == word;
      tokens := tokens + [word];
    }
  }

  // ---- the text of a chunk ----

  /** The indices of the voxels on the grid's `occupiedVoxels` list. */
  ghost function Cells(chunk: Grid): set<nat>
    reads chunk
  {
    set i | i in chunk.occupiedVoxels
  }

  /** The index of voxel (0, y, z), where row (y, z) starts. */
  function RowStart(n: nat, y: nat, z: nat): nat
  {
    y * n + z * (n * n)
  }

  /** The text of row (y, z): '1' at x exactly where voxel (x, y, z) is
      occupied, '0' elsewhere. */
  function RowText(n: nat, cells: set<nat>, y: nat, z: nat): string
  {
    seq(n, x => if x + RowStart(n, y, z) in cells then '1' else '0')
  }

  /** The line of row (y, z): "y z row". */
  function RowLine(n: nat, cells: set<nat>, y: nat, z: nat): string
  {
    Decimal(y) + " " + Decimal(z) + " " + RowText(n, cells, y, z)
  }

  /** The lines of the rows before row (y, z), z outer and y inner, a row
      with no occupied voxel left out. */
  function Emitted(n: nat, cells: set<nat>, z: nat, y: nat): seq<string>
    requires y <= n
    decreases z, y
  {
    if y > 0 then
      Emitted(n, cells, z, y - 1)
      + (if '1' in RowText(n, cells, y - 1, z) then [RowLine(n, cells, y - 1, z)] else [])
    else if z > 0 then Emitted(n, cells, z - 1, n)
    else []
  }

  /** The whole file: the size, the anchor's three coordinates as `show`
      writes them, then the lines of all rows. */
  function Encoded(n: nat, low: Vec3, cells: set<nat>, show: real -> string): seq<string>
  {
    [Decimal(n), show(low.x) + " " + show(low.y) + " " + show(low.z)] + Emitted(n, cells, n, 0)
  }

  /** Voxel (x, y, z) of the grid is occupied exactly when its index is
      among the occupied ones. */
  lemma OccupiedInRow(chunk: Grid, x: nat, y: nat, z: nat)
    requires chunk.Valid() && x < chunk.gridSize && y < chunk.gridSize && z < chunk.gridSize
    ensures chunk.GetOccupiedAt(Vec3i(x, y, z)) <==> x + RowStart(chunk.gridSize, y, z) in Cells(chunk)
  {
    var c := Vec3i(x, y, z);
    assert chunk.ValidateCoords(c) && CellIndex(c, chunk.gridSize, chunk.gridSize) == x + RowStart(chunk.gridSize, y, z);
  }

  /** The text of row (y, z) of the grid, with whether it has no '1'. */
  method RowOf(chunk: Grid, y: nat, z: nat) returns (row: string, rowEmpty: bool)
    requires chunk.Valid() && y < chunk.gridSize && z < chunk.gridSize
    ensures row == RowText(chunk.gridSize, Cells(chunk), y, z)
    ensures rowEmpty <==> '1' !in row
  {
    var n := chunk.gridSize;
    row, rowEmpty := "", true;
    var x := 0;
    while x < n
      invariant 0 <= x <= n && |row| == x
      invariant forall i :: 0 <= i < x ==> row[i] == RowText(n, Cells(chunk), y, z)[i]
      invariant rowEmpty <==> '1' !in row
    {
      OccupiedInRow(chunk, x, y, z);
      if chunk.GetOccupiedAt(Vec3i(x, y, z)) {
        row := row + "1";
        rowEmpty := false;
      } else {
        row := row + "0";
      }
      x := x + 1;
    }
  }

  /** `serializeChunk`: the file `Encoded` describes, or no file when it
      cannot be opened for writing. */
  method Serialize(chunk: Grid, show: real -> string, canOpen: bool) returns (file: Option<seq<string>>)
    requires chunk.Valid()
    ensures file == if canOpen then Some(Encoded(chunk.gridSize, chunk.low, Cells(chunk), show)) else None
  {
    if !canOpen {
      return None;
    }
    var n := chunk.gridSize;
    ghost var cells := Cells(chunk);
    var lines := [Decimal(n), show(chunk.low.x) + " " + show(chunk.low.y) + " " + show(chunk.low.z)];
    ghost var header := lines;
    var z := 0;
    while z < n
      invariant 0 <= z <= n
      invariant lines == header + Emitted(n, cells, z, 0)
    {
      var y := 0;
      while y < n
        invariant 0 <= y <= n
        invariant lines == header + Emitted(n, cells, z, y)
      {
        var row, rowEmpty := RowOf(chunk, y, z);
        if !rowEmpty {
          lines := lines + [Decimal(y) + " " + Decimal(z) + " " + row];
        }
        y := y + 1;
      }
      z := z + 1;
    }
    return Some(lines);
  }

  // ---- reading it back ----

  /** What a file describes: the grid size, the anchor and the indices of
      the occupied voxels. */
  datatype Decoded = Decoded(size: nat, anchor: Vec3, cells: set<nat>)

  /** `getIndex(x, y, z)` in `VDuint` arithmetic, which wraps at 2^32. */
  function WrappedIndex(x: nat, y: nat, z: nat, n: nat): nat
  {
    (x + RowStart(n, y, z)) % Modulus
  }

  /** The voxels the first `x` characters of a row mark: `setOccupied`
      ignores an index off the grid. */
  function RowCells(n: nat, y: nat, z: nat, row: string, x: nat): set<nat>
    requires x <= |row|
  {
    set i | 0 <= i < x && row[i] != '0' && WrappedIndex(i, y, z, n) < n * n * n :: WrappedIndex(i, y, z, n)
  }

  /** The body of the reading loop on one line: two coordinates, then
      (on a grid of positive size) a row of at least `n` digits, each read
      by `stoul`, so a digit other than '0' marks its voxel.  A missing
      token, a short row or a character that is not a digit throws (or
      reads past the string) and nothing is returned. */
  function DecodeRow(n: nat, line: string): Result<set<nat>>
  {
    var ts := Tokens(line);
    if |ts| < 2 then Err("a row needs its coordinates")
    else
      var y, z := ParseUnsigned(ts[0]), ParseUnsigned(ts[1]);
      if y.None? || z.None? then Err("a coordinate is not a number")
      else if n == 0 then Ok({})
      else if |ts| < 3 || |ts[2]| < n then Err("a row is shorter than the grid")
      else if exists i :: 0 <= i < n && !IsDigit(ts[2][i]) then Err("a row holds a character that is not a digit")
      else Ok(RowCells(n, y.value % Modulus, z.value % Modulus, ts[2], n))
  }

  /** The rows in order; the first that fails ends the reading. */
  function DecodeRows(n: nat, rows: seq<string>): Result<set<nat>>
  {
    if |rows| == 0 then Ok({})
    else match DecodeRows(n, rows[..|rows| - 1])
      case Err(e) => Err(e)
      case Ok(before) =>
        match DecodeRow(n, rows[|rows| - 1])
        case Err(e) => Err(e)
        case Ok(more) => Ok(before + more)
  }

  /** The line `getline` leaves: the `k`th, or empty past the end. */
  function LineAt(lines: seq<string>, k: nat): string
  {
    if k < |lines| then lines[k] else ""
  }

  /** The lines after the size and the anchor. */
  function RowsOf(lines: seq<string>): seq<string>
  {
    if |lines| > 2 then lines[2..] else []
  }

  /** `deserializeChunk` on a file, with `read` standing for `stof`: a file
      that cannot be opened gives a grid of size 0 at the origin; otherwise
      the size is the first line read by `stoul` and cut to 32 bits, the
      anchor the first three words of the second line, and the occupied
      voxels those the remaining lines mark.  A size whose voxel count does
      not fit in a `VDuint` is refused. */
  function Decode(file: Option<seq<string>>, read: string -> real): Result<Decoded>
  {
    match file
    case None => Ok(Decoded(0, Zero(), {}))
    case Some(lines) =>
      match ParseUnsigned(LineAt(lines, 0))
      case None => Err("the size is not a number")
      case Some(m) =>
        var n := m % Modulus;
        var a := Tokens(LineAt(lines, 1));
        if |a| < 3 then Err("the anchor needs three numbers")
        else if n * n * n > InvalidIndex then Err("the grid is too large")
        else
          match DecodeRows(n, RowsOf(lines))
          case Err(e) => Err(e)
          case Ok(cells) => Ok(Decoded(n, Vec3(read(a[0]), read(a[1]), read(a[2])), cells))
  }

  /** One failing row fails the whole file. */
  lemma {:induction false} ErrSticks(n: nat, rows: seq<string>, k: nat)
    requires k <= |rows| && DecodeRows(n, rows[..k]).Err?
    ensures DecodeRows(n, rows).Err?
    decreases |rows| - k
  {
    if k < |rows| {
      assert rows[..k + 1][..k] == rows[..k];
      ErrSticks(n, rows, k + 1);
    } else {
      assert rows[..k] == rows;
    }
  }

  /** `setOccupied(index)` adds the index to the occupied voxels when it is
      on the grid. */
  method Mark(chunk: Grid, index: nat)
    requires chunk.Valid()
    modifies chunk, chunk.voxels
    ensures chunk.Valid()
    ensures Cells(chunk) == old(Cells(chunk)) + (if index < chunk.indexCount then {index} else {})
  {
    chunk.SetOccupied(index);
    if index < chunk.indexCount {
      assert index in chunk.occupiedVoxels;
      assert forall i :: i in chunk.occupiedVoxels ==> i == index || i in old(chunk.occupiedVoxels);
    }
  }

  /** Reading character `x` of a row. */
  lemma RowCellsStep(n: nat, y: nat, z: nat, row: string, x: nat)
    requires x < |row|
    ensures RowCells(n, y, z, row, x + 1)
         == RowCells(n, y, z, row, x)
            + (if row[x] != '0' && WrappedIndex(x, y, z, n) < n * n * n then {WrappedIndex(x, y, z, n)} else {})
  {
  }

  /** The reading loop over the characters of one row: `Cells(chunk)`
      grows by the voxels the row marks, or the row fails. */
  method ReadRow(chunk: Grid, y: nat, z: nat, row: string) returns (ok: bool)
    requires chunk.Valid()
    modifies chunk, chunk.voxels
    ensures chunk.Valid()
    ensures ok <==> |row| >= chunk.gridSize && forall i :: 0 <= i < chunk.gridSize ==> IsDigit(row[i])
    ensures ok ==> Cells(chunk) == old(Cells(chunk)) + RowCells(chunk.gridSize, y, z, row, chunk.gridSize)
  {
    var n := chunk.gridSize;
    ghost var start := Cells(chunk);
    var x := 0;
    while x < n
      invariant 0 <= x <= n && x <= |row| && chunk.Valid() && chunk.gridSize == n
      invariant forall i :: 0 <= i < x ==> IsDigit(row[i])
      invariant Cells(chunk) == start + RowCells(n, y, z, row, x)
    {
      if x >= |row| || !IsDigit(row[x]) {
        return false;
      }
      var index := WrappedIndex(x, y, z, n);
      RowCellsStep(n, y, z, row, x);
      if row[x] != '0' {
        Mark(chunk, index);
      }
      x := x + 1;
    }
    return true;
  }

  /** One line of the reading loop: `split`, the two coordinates, then the
      row. */
  method ReadLine(chunk: Grid, line: string) returns (ok: bool)
    requires chunk.Valid()
    modifies chunk, chunk.voxels
    ensures chunk.Valid()
    ensures ok <==> DecodeRow(chunk.gridSize, line).Ok?
    ensures ok ==> Cells(chunk) == old(Cells(chunk)) + DecodeRow(chunk.gridSize, line).value
  {
    var n := chunk.gridSize;
    var ts := Split(line);
    if |ts| < 2 {
      return false;
    }
    var y, z := ParseUnsigned(ts[0]), ParseUnsigned(ts[1]);
    if y.None? || z.None? {
      return false;
    }
    if n == 0 {
      return true;
    }
    if |ts| < 3 {
      return false;
    }
    ok := ReadRow(chunk, y.value % Modulus, z.value % Modulus, ts[2]);
  }

  /** `deserializeChunk`: a fresh grid holding what `Decode` reads, or an
      error where `Decode` gives one. */
  method Deserialize(file: Option<seq<string>>, read: string -> real) returns (r: Result<Grid>)
    ensures r.Err? <==> Decode(file, read).Err?
    ensures r.Ok? ==>
      fresh(r.value) && r.value.Valid()
      && Decode(file, read).value == Decoded(r.value.gridSize, r.value.low, Cells(r.value))
  {
    if file.None? {
      var empty := new Grid(0, Zero(), 0);
      assert Cells(empty) == {};
      return Ok(empty);
    }
    var lines := file.value;
    var size := ParseUnsigned(LineAt(lines, 0));
    if size.None? {
      return Err("the size is not a number");
    }
    var n := size.value % Modulus;
    var a := Split(LineAt(lines, 1));
    if |a| < 3 {
      return Err("the anchor needs three numbers");
    }
    if n * n * n > InvalidIndex {
      return Err("the grid is too large");
    }
    var anchor := Vec3(read(a[0]), read(a[1]), read(a[2]));
    var chunk := new Grid(n, anchor, 0);
    assert Cells(chunk) == {};
    var ok := ReadRows(chunk, RowsOf(lines));
    if !ok {
      return Err("a row is malformed");
    }
    return Ok(chunk);
  }

  /** The reading loop of `deserializeChunk` over the lines after the
      anchor. */
  method ReadRows(chunk: Grid, rows: seq<string>) returns (ok: bool)
    requires chunk.Valid()
    modifies chunk, chunk.voxels
    ensures chunk.Valid()
    ensures ok <==> DecodeRows(chunk.gridSize, rows).Ok?
    ensures ok ==> Cells(chunk) == old(Cells(chunk)) + DecodeRows(chunk.gridSize, rows).value
  {
    var n := chunk.gridSize;
    var k := 0;
    while k < |rows|
      invariant 0 <= k <= |rows|
      invariant chunk.Valid()
      invariant DecodeRows(n, rows[..k]).Ok?
      invariant Cells(chunk) == old(Cells(chunk)) + DecodeRows(n, rows[..k]).value
    {
      assert rows[..k + 1][..k] == rows[..k];
      var lineOk := ReadLine(chunk, rows[k]);
      if !lineOk {
        ErrSticks(n, rows, k + 1);
        return false;
      }
      k := k + 1;
    }
    assert rows[..k] == rows;
    return true;
  }

  // ---- the round trip ----

  /** The voxels of `cells` below index `bound`. */
  function CellsBelow(cells: set<nat>, bound: nat): set<nat>
  {
    set i | i in cells && i < bound
  }

  /** The voxels of `cells` from index `b` to `b + n - 1`. */
  function Slice(cells: set<nat>, b: nat, n: nat): set<nat>
  {
    set i | i in cells && b <= i < b + n
  }

  /** Row (y, z) of an `n`-wide grid lies on the grid. */
  lemma RowFits(n: nat, y: nat, z: nat)
    requires y < n && z < n
    ensures RowStart(n, y, z) + n <= n * n * n
  {
    MulMonotone(y + 1, n, n);
    MulMonotone(z + 1, n, n * n);
    assert (y + 1) * n == y * n + n;
    assert (z + 1) * (n * n) == z * (n * n) + n * n;
    assert n * (n * n) == n * n * n;
  }

  /** A side of a grid whose voxel count fits in a `VDuint` is below 2^32. */
  lemma SideFits(n: nat)
    requires n * n * n <= InvalidIndex
    ensures n < Modulus
  {
    if n > 0 {
      MulMonotone(1, n, n);
      MulMonotone(1, n * n, n);
    }
  }

  /** The indices of row (y, z) wrap to themselves. */
  lemma RowUnwrapped(n: nat, y: nat, z: nat)
    requires y < n && z < n && n * n * n <= InvalidIndex
    ensures forall x :: 0 <= x < n ==> WrappedIndex(x, y, z, n) == x + RowStart(n, y, z)
  {
    RowFits(n, y, z);
  }

  /** The coordinates of row (y, z) read back. */
  lemma RowTokens(n: nat, cells: set<nat>, y: nat, z: nat)
    requires 0 < n && y < n && z < n && n * n * n <= InvalidIndex
    ensures Tokens(RowLine(n, cells, y, z)) == [Decimal(y), Decimal(z), RowText(n, cells, y, z)]
    ensures ParseUnsigned(Decimal(y)) == Some(y) && ParseUnsigned(Decimal(z)) == Some(z)
    ensures y % Modulus == y && z % Modulus == z
  {
    var row := RowText(n, cells, y, z);
    RowTextIsWord(n, cells, y, z);
    DecimalIsWord(y);
    DecimalIsWord(z);
    TokensOfThree(Decimal(y), Decimal(z), row);
    SideFits(n);
    SmallMod(y);
    SmallMod(z);
    ParseDecimal(y);
    ParseDecimal(z);
  }

  /** Cutting a value below 2^32 to 32 bits keeps it. */
  lemma SmallMod(v: nat)
    requires v < Modulus
    ensures v % Modulus == v
  {
  }

  /** Digits are a word. */
  lemma DecimalIsWord(n: nat)
    ensures Token(Decimal(n))
  {
    var s := Decimal(n);
    forall i | 0 <= i < |s|
      ensures !IsSpace(s[i])
    {
      assert IsDigit(s[i]);
    }
  }

  /** A row of a grid of positive size is a word. */
  lemma RowTextIsWord(n: nat, cells: set<nat>, y: nat, z: nat)
    requires n > 0
    ensures Token(RowText(n, cells, y, z))
  {
  }

  /** Reading the line of row (y, z) marks exactly the voxels of that row. */
  lemma DecodeRowLine(n: nat, cells: set<nat>, y: nat, z: nat)
    requires 0 < n && y < n && z < n && n * n * n <= InvalidIndex
    ensures DecodeRow(n, RowLine(n, cells, y, z))
         == Ok(Slice(cells, RowStart(n, y, z), n))
  {
    var b := RowStart(n, y, z);
    var row := RowText(n, cells, y, z);
    RowTokens(n, cells, y, z);
    RowUnwrapped(n, y, z);
    RowFits(n, y, z);
    var got := RowCells(n, y, z, row, n);
    var want := Slice(cells, b, n);
    forall i | i in want
      ensures i in got
    {
      var x := i - b;
      assert row[x] == '1' && WrappedIndex(x, y, z, n) == i;
    }
    assert got == want;
  }

  /** A row whose text has no '1' holds no occupied voxel. */
  lemma EmptyRow(n: nat, cells: set<nat>, y: nat, z: nat)
    requires '1' !in RowText(n, cells, y, z)
    ensures Slice(cells, RowStart(n, y, z), n) == {}
  {
    var b := RowStart(n, y, z);
    forall i | b <= i < b + n
      ensures i !in cells
    {
      assert RowText(n, cells, y, z)[i - b] == (if i in cells then '1' else '0');
    }
  }

  /** Reading one more line after rows that read well. */
  lemma DecodeSnoc(n: nat, e: seq<string>, line: string)
    requires DecodeRows(n, e).Ok? && DecodeRow(n, line).Ok?
    ensures DecodeRows(n, e + [line]) == Ok(DecodeRows(n, e).value + DecodeRow(n, line).value)
  {
    var f := e + [line];
    assert f[..|f| - 1] == e;
  }

  /** The voxels below the end of a row are those below its start and those
      in it. */
  lemma CellsBelowSplit(cells: set<nat>, b: nat, n: nat)
    ensures CellsBelow(cells, b + n) == CellsBelow(cells, b) + Slice(cells, b, n)
  {
  }

  /** One row further along a z-layer. */
  lemma DecodeEmittedStep(n: nat, cells: set<nat>, z: nat, y: nat)
    requires 0 < n && y < n && z < n && n * n * n <= InvalidIndex
    requires DecodeRows(n, Emitted(n, cells, z, y)) == Ok(CellsBelow(cells, RowStart(n, y, z)))
    ensures DecodeRows(n, Emitted(n, cells, z, y + 1)) == Ok(CellsBelow(cells, RowStart(n, y + 1, z)))
  {
    var b := RowStart(n, y, z);
    var e := Emitted(n, cells, z, y);
    RowNext(n, y, z);
    CellsBelowSplit(cells, b, n);
    if '1' in RowText(n, cells, y, z) {
      assert Emitted(n, cells, z, y + 1) == e + [RowLine(n, cells, y, z)];
      DecodeRowLine(n, cells, y, z);
      DecodeSnoc(n, e, RowLine(n, cells, y, z));
      assert DecodeRows(n, e + [RowLine(n, cells, y, z)]) == Ok(CellsBelow(cells, b) + Slice(cells, b, n));
      assert CellsBelow(cells, b) + Slice(cells, b, n) == CellsBelow(cells, b + n);
    } else {
      assert Emitted(n, cells, z, y + 1) == e + [] == e;
      EmptyRow(n, cells, y, z);
      assert CellsBelow(cells, b) == CellsBelow(cells, b + n);
    }
  }

  /** From the end of one z-layer to the start of the next. */
  lemma DecodeLayerStep(n: nat, cells: set<nat>, z: nat)
    requires DecodeRows(n, Emitted(n, cells, z, n)) == Ok(CellsBelow(cells, RowStart(n, n, z)))
    ensures DecodeRows(n, Emitted(n, cells, z + 1, 0)) == Ok(CellsBelow(cells, RowStart(n, 0, z + 1)))
  {
    assert Emitted(n, cells, z + 1, 0) == Emitted(n, cells, z, n);
    LayerEnd(n, z);
  }

  /** The next row along a z-layer starts `n` further on. */
  lemma RowNext(n: nat, y: nat, z: nat)
    ensures RowStart(n, y + 1, z) == RowStart(n, y, z) + n
  {
    assert (y + 1) * n == y * n + n;
  }

  /** The end of a z-layer is the start of the next. */
  lemma LayerEnd(n: nat, z: nat)
    ensures RowStart(n, n, z) == RowStart(n, 0, z + 1)
  {
    assert (z + 1) * (n * n) == z * (n * n) + n * n;
  }

  /** Reading the lines of the rows before row (y, z) marks the occupied
      voxels below that row's start. */
  lemma {:induction false} DecodeEmitted(n: nat, cells: set<nat>, z: nat, y: nat)
    requires 0 < n && y <= n && z <= n && (z == n ==> y == 0) && n * n * n <= InvalidIndex
    ensures DecodeRows(n, Emitted(n, cells, z, y)) == Ok(CellsBelow(cells, RowStart(n, y, z)))
    decreases z, y
  {
    if y > 0 {
      DecodeEmitted(n, cells, z, y - 1);
      DecodeEmittedStep(n, cells, z, y - 1);
    } else if z > 0 {
      var w := z - 1;
      DecodeEmitted(n, cells, w, n);
      DecodeLayerStep(n, cells, w);
    } else {
      assert CellsBelow(cells, 0) == {};
    }
  }

  /** Occupancy and size round-trip: reading what `serializeChunk` writes
      gives back the grid size, the occupied voxels, and an anchor whose
      coordinates are `stof` of what `operator<<` wrote. */
  lemma RoundTrip(n: nat, low: Vec3, cells: set<nat>, show: real -> string, read: string -> real)
    requires n * n * n <= InvalidIndex
    requires forall i :: i in cells ==> i < n * n * n
    requires Token(show(low.x)) && Token(show(low.y)) && Token(show(low.z))
    ensures Decode(Some(Encoded(n, low, cells, show)), read)
         == Ok(Decoded(n, Vec3(read(show(low.x)), read(show(low.y)), read(show(low.z))), cells))
  {
    var lines := Encoded(n, low, cells, show);
    SideFits(n);
    ParseDecimal(n);
    assert LineAt(lines, 0) == Decimal(n);
    assert n % Modulus == n;
    var anchorLine := show(low.x) + " " + show(low.y) + " " + show(low.z);
    assert LineAt(lines, 1) == anchorLine;
    TokensOfThree(show(low.x), show(low.y), show(low.z));
    assert RowsOf(lines) == Emitted(n, cells, n, 0);
    RowsRead(n, cells);
  }

  /** The rows of a whole grid read back as its occupied voxels. */
  lemma RowsRead(n: nat, cells: set<nat>)
    requires n * n * n <= InvalidIndex
    requires forall i :: i in cells ==> i < n * n * n
    ensures DecodeRows(n, Emitted(n, cells, n, 0)) == Ok(cells)
  {
    if n > 0 {
      DecodeEmitted(n, cells, n, 0);
      assert RowStart(n, 0, n) == n * n * n;
      assert CellsBelow(cells, n * n * n) == cells;
    } else {
      assert cells == {};
    }
  }

  /** Saving a grid and reading the file back yields a grid of the same
      size with the same occupied voxels. */
  lemma GridRoundTrip(chunk: Grid, show: real -> string, read: string -> real)
    requires chunk.Valid()
    requires Token(show(chunk.low.x)) && Token(show(chunk.low.y)) && Token(show(chunk.low.z))
    ensures Decode(Some(Encoded(chunk.gridSize, chunk.low, Cells(chunk), show)), read).Ok?
    ensures Decode(Some(Encoded(chunk.gridSize, chunk.low, Cells(chunk), show)), read).value.size == chunk.gridSize
    ensures Decode(Some(Encoded(chunk.gridSize, chunk.low, Cells(chunk), show)), read).value.cells == Cells(chunk)
  {
    RoundTrip(chunk.gridSize, chunk.low, Cells(chunk), show, read);
  }

  /** A file that cannot be opened reads as an empty grid of size 0. */
  lemma UnopenableIsEmpty(read: string -> real)
    ensures Decode(None, read) == Ok(Decoded(0, Zero(), {}))
  {
  }
}

=== FILE: simulation.dfy ===
/** `VDSimulation`: the space, the bodies and the agents, and the step that
    moves them.  A step runs every agent, then every body: each is
    integrated, then pushed out of the boxes and the voxels it overlaps.
    Square roots (`length`, `normalize`) are supplied by the caller as two
    functions; nothing below depends on what they compute. */
module Dynamics {
  import opened VectorMath
  import opened Collider
  import opened Collision
  import opened Lattice
  import opened Wrappers
  import opened Grids
  import opened Bodies
  import opened Spaces
  import opened ListSpec

  /** `VDContactPoint`: the collider to push, the one it touches, where,
      along which unit normal and how far. */
  datatype ContactPoint = ContactPoint(contact: int, otherContact: int, position: Vec3, normal: Vec3,
                                       penetrationDistance: real)

  /** Which half of a step ran, with the time step it was given. */
  datatype Phase = AgentPhase(dt: real) | BodyPhase(dt: real)

  /** `(VDDirection)i`. */
  function DirectionOf(i: nat): (d: Direction)
    requires i < 6
    ensures Index(d) == i
  {
    if i == 0 then Right else if i == 1 then Up else if i == 2 then Forward
    else if i == 3 then Left else if i == 4 then Down else Back
  }

  /** Distinct entries of the field push along distinct normals. */
  lemma NormalsDistinct(i: nat, j: nat)
    requires i < 6 && j < 6 && i != j
    ensures ToVector(DirectionOf(i)) != ToVector(DirectionOf(j))
  {
    VectorToDirectionInverse(DirectionOf(i));
    VectorToDirectionInverse(DirectionOf(j));
  }

  /** The contact made from entry `i` of a penetration field with maxima
      `m` and voxels `pv`, for the box `self` at `position`. */
  function FieldContact(m: seq<real>, pv: seq<int>, self: int, position: Vec3, i: nat): ContactPoint
    requires i < 6 && |m| == 6 && |pv| == 6
  {
    ContactPoint(self, pv[i], position, ToVector(DirectionOf(i)), m[i])
  }

  /** The closing loop of `multiVoxelContactResolution` over entries
      0 .. n - 1 of the field: each positive entry gives one contact,
      prepended. */
  function FieldContacts(m: seq<real>, pv: seq<int>, self: int, position: Vec3, n: nat): seq<ContactPoint>
    requires n <= 6 && |m| == 6 && |pv| == 6
  {
    if n == 0 then []
    else
      var rest := FieldContacts(m, pv, self, position, n - 1);
      if m[n - 1] > 0.0 then [FieldContact(m, pv, self, position, n - 1)] + rest else rest
  }

  /** The positive entries below `n`, from the highest down: the entries
      `FieldContacts` makes contacts of, in its order. */
  function PositiveEntries(m: seq<real>, n: nat): seq<nat>
    requires n <= |m|
  {
    if n == 0 then []
    else (if m[n - 1] > 0.0 then [n - 1] else []) + PositiveEntries(m, n - 1)
  }

  /** Exactly the positive entries below `n` are listed, each once, from
      the highest down. */
  lemma PositiveEntriesExact(m: seq<real>, n: nat)
    requires n <= |m|
    ensures var e := PositiveEntries(m, n);
      (forall k :: 0 <= k < |e| ==> e[k] < n && m[e[k]] > 0.0)
      && (forall i :: 0 <= i < n ==> (m[i] > 0.0 <==> i in e))
      && (forall k, l :: 0 <= k < l < |e| ==> e[k] > e[l])
  {
    EntriesBelow(m, n);
    EntriesMembership(m, n);
    EntriesDescending(m, n);
  }

  /** One step of `PositiveEntries`: entry `n - 1`, when positive, goes in
      front of the earlier ones. */
  lemma EntriesStep(m: seq<real>, n: nat)
    requires 0 < n <= |m|
    ensures m[n - 1] > 0.0 ==> PositiveEntries(m, n) == [n - 1] + PositiveEntries(m, n - 1)
    ensures !(m[n - 1] > 0.0) ==> PositiveEntries(m, n) == PositiveEntries(m, n - 1)
  {
    if !(m[n - 1] > 0.0) {
      assert [] + PositiveEntries(m, n - 1) == PositiveEntries(m, n - 1);
    }
  }

  lemma {:induction false} EntriesBelow(m: seq<real>, n: nat)
    requires n <= |m|
    ensures forall k :: 0 <= k < |PositiveEntries(m, n)| ==> PositiveEntries(m, n)[k] < n && m[PositiveEntries(m, n)[k]] > 0.0
  {
    if n > 0 {
      EntriesBelow(m, n - 1);
      EntriesStep(m, n);
    }
  }

  lemma {:induction false} EntriesMembership(m: seq<real>, n: nat)
    requires n <= |m|
    ensures forall i :: 0 <= i < n ==> (m[i] > 0.0 <==> i in PositiveEntries(m, n))
  {
    if n > 0 {
      EntriesMembership(m, n - 1);
      EntriesBelow(m, n - 1);
      EntriesStep(m, n);
      assert n - 1 !in PositiveEntries(m, n - 1);
    }
  }

  lemma {:induction false} EntriesDescending(m: seq<real>, n: nat)
    requires n <= |m|
    ensures forall k, l :: 0 <= k < l < |PositiveEntries(m, n)| ==> PositiveEntries(m, n)[k] > PositiveEntries(m, n)[l]
  {
    if n > 0 {
      EntriesDescending(m, n - 1);
      EntriesBelow(m, n - 1);
      EntriesStep(m, n);
    }
  }

  /** The contacts are those of the positive entries, in that order. */
  lemma {:induction false} FieldContactsEntries(m: seq<real>, pv: seq<int>, self: int, position: Vec3, n: nat)
    requires n <= 6 && |m| == 6 && |pv| == 6
    ensures var r := FieldContacts(m, pv, self, position, n);
      var e := PositiveEntries(m, n);
      |r| == |e| && forall k :: 0 <= k < |r| ==> e[k] < 6 && r[k] == FieldContact(m, pv, self, position, e[k])
  {
    if n > 0 {
      FieldContactsEntries(m, pv, self, position, n - 1);
      PositiveEntriesExact(m, n - 1);
    }
  }

  /** `voxelContact` followed by `setPenetrations`: the contact of the box
      with voxel `v`, its escape directions in order. */
  method ContactWithVoxel(v: Voxel, id: int, box: AABB, self: int) returns (c: AABBContact)
    ensures fresh(c) && fresh(c.minDirections) && c.Valid()
    ensures c.intersectionRegion == box.IntersectionRegion(v.ToAABB()).1
    ensures c.minDirections[..] == EscapeOrder(c.intersectionRegion.halfExtents, SignV(Sub(box.position, v.MidPoint())))
  {
    c := VoxelContact(v, id, box, self);
    c.SetPenetrations();
    MinDirectionsUnique(c.minDirections[..], EscapeOrder(c.intersectionRegion.halfExtents, c.quadrantDir),
                        c.intersectionRegion.halfExtents, c.quadrantDir);
  }

  /** The closing loop of `multiVoxelContactResolution`: one contact per
      positive entry of the field, prepended in entry order. */
  method CollectContacts(field: PenetrationField, self: int, position: Vec3) returns (contacts: seq<ContactPoint>)
    requires field.Valid()
    ensures contacts == FieldContacts(field.maxPenetrations[..], field.voxels[..], self, position, 6)
  {
    contacts := [];
    var i := 0;
    while i < 6
      invariant 0 <= i <= 6
      invariant contacts == FieldContacts(field.maxPenetrations[..], field.voxels[..], self, position, i)
    {
      if field.maxPenetrations[i] > 0.0 {
        contacts := [ContactPoint(self, field.voxels[i], position, ToVector(DirectionOf(i)),
                                  field.maxPenetrations[i])] + contacts;
      }
      i := i + 1;
    }
  }

  /** Some contact pushes up: the box stands on a voxel. */
  predicate Landed(contacts: seq<ContactPoint>)
  {
    exists k :: 0 <= k < |contacts| && contacts[k].normal == ToVector(Up)
  }

  /** Exactly the positive entries give a contact. */
  lemma {:induction false} FieldContactsComplete(m: seq<real>, pv: seq<int>, self: int, position: Vec3)
    requires |m| == 6 && |pv| == 6
    ensures var r := FieldContacts(m, pv, self, position, 6);
      forall i :: 0 <= i < 6 ==> (m[i] > 0.0 <==> FieldContact(m, pv, self, position, i) in r)
  {
    var r := FieldContacts(m, pv, self, position, 6);
    var e := PositiveEntries(m, 6);
    FieldContactsEntries(m, pv, self, position, 6);
    PositiveEntriesExact(m, 6);
    forall i | 0 <= i < 6
      ensures m[i] > 0.0 <==> FieldContact(m, pv, self, position, i) in r
    {
      var ci := FieldContact(m, pv, self, position, i);
      if m[i] > 0.0 {
        var k :| 0 <= k < |e| && e[k] == i;
        assert r[k] == ci;
      }
      if ci in r {
        var k :| 0 <= k < |r| && r[k] == ci;
        if e[k] != i {
          NormalsDistinct(e[k], i);
        }
      }
    }
  }

  /** The contacts push along distinct normals, each by a positive
      distance. */
  lemma {:induction false} FieldContactsDistinct(m: seq<real>, pv: seq<int>, self: int, position: Vec3)
    requires |m| == 6 && |pv| == 6
    ensures var r := FieldContacts(m, pv, self, position, 6);
      (forall k :: 0 <= k < |r| ==> r[k].penetrationDistance > 0.0)
      && (forall k, l :: 0 <= k < l < |r| ==> r[k].normal != r[l].normal)
  {
    var r := FieldContacts(m, pv, self, position, 6);
    var e := PositiveEntries(m, 6);
    FieldContactsEntries(m, pv, self, position, 6);
    PositiveEntriesExact(m, 6);
    forall k, l | 0 <= k < l < |r|
      ensures r[k].normal != r[l].normal
    {
      NormalsDistinct(e[k], e[l]);
    }
  }

  /** Some contact pushes up exactly when the upward entry is positive. */
  lemma {:induction false} FieldContactsLanded(m: seq<real>, pv: seq<int>, self: int, position: Vec3)
    requires |m| == 6 && |pv| == 6
    ensures Landed(FieldContacts(m, pv, self, position, 6)) <==> m[Index(Up)] > 0.0
  {
    var r := FieldContacts(m, pv, self, position, 6);
    var e := PositiveEntries(m, 6);
    FieldContactsEntries(m, pv, self, position, 6);
    PositiveEntriesExact(m, 6);
    if Landed(r) {
      var k :| 0 <= k < |r| && r[k].normal == ToVector(Up);
      if e[k] != 1 {
        NormalsDistinct(e[k], 1);
      }
    }
    if m[Index(Up)] > 0.0 {
      var k :| 0 <= k < |e| && e[k] == 1;
      assert r[k].normal == ToVector(Up);
    }
  }

  /** The six maxima a penetration field holds after the insertions `ins`. */
  function Maxima(ins: seq<(Direction, real)>): seq<real>
  {
    seq(6, i requires 0 <= i < 6 => MaxMagnitude(ins, i))
  }

  /** The contacts of a field are as deep as they are positive, push
      along distinct normals, and include an upward one exactly when the
      field's upward entry is positive. */
  lemma MaximaContacts(ins: seq<(Direction, real)>, pv: seq<int>, self: int, position: Vec3)
    requires |pv| == 6
    ensures var r := FieldContacts(Maxima(ins), pv, self, position, 6);
      (forall k :: 0 <= k < |r| ==> r[k].penetrationDistance > 0.0)
      && (forall k, l :: 0 <= k < l < |r| ==> r[k].normal != r[l].normal)
      && (Landed(r) <==> MaxMagnitude(ins, Index(Up)) > 0.0)
  {
    FieldContactsDistinct(Maxima(ins), pv, self, position);
    FieldContactsLanded(Maxima(ins), pv, self, position);
  }

  /** A valid field holds the maxima of what was inserted into it. */
  lemma MaximaOfField(field: PenetrationField)
    requires field.Valid()
    ensures field.maxPenetrations[..] == Maxima(field.Inserted)
  {
    assert forall i :: 0 <= i < 6 ==> field.maxPenetrations[..][i] == Maxima(field.Inserted)[i];
  }

  /** The contacts the closing loop reads off a valid field are those of
      the maxima of its insertions; the upward entry is positive exactly
      when one of them pushes up. */
  lemma FieldOfContributions(field: PenetrationField, self: int, position: Vec3, contacts: seq<ContactPoint>)
    requires field.Valid() && contacts == FieldContacts(field.maxPenetrations[..], field.voxels[..], self, position, 6)
    ensures contacts == FieldContacts(Maxima(field.Inserted), field.voxels[..], self, position, 6)
    ensures (field.maxPenetrations[Index(Up)] > 0.0) == Landed(contacts)
    ensures forall k :: 0 <= k < |contacts| ==> contacts[k].penetrationDistance > 0.0
    ensures forall k, l :: 0 <= k < l < |contacts| ==> contacts[k].normal != contacts[l].normal
  {
    MaximaOfField(field);
    MaximaContacts(field.Inserted, field.voxels[..], self, position);
  }

  /** The displacement each contact asks for: normal times penetration. */
  function Pushes(contacts: seq<ContactPoint>): (q: seq<Vec3>)
    ensures |q| == |contacts|
  {
    if |contacts| == 0 then []
    else
      var last := contacts[|contacts| - 1];
      Pushes(contacts[..|contacts| - 1]) + [Scale(last.normal, last.penetrationDistance)]
  }

  /** Two translations are one translation by their sum. */
  lemma TranslateTwice(b: AABB, s: Vec3, t: Vec3)
    ensures b.Translate(s).Translate(t) == b.Translate(Add(s, t))
  {
    assert Add(Add(b.position, s), t) == Add(b.position, Add(s, t));
  }

  /** A translation by nothing leaves a consistent box as it is. */
  lemma TranslateZero(b: AABB)
    requires b.Consistent()
    ensures b.Translate(Zero()) == b
  {
  }

  /** Translating by each push in turn is translating by their sum. */
  lemma {:induction false} PushesStep(b: AABB, contacts: seq<ContactPoint>, k: nat)
    requires k < |contacts|
    ensures b.Translate(Sum(Pushes(contacts[..k]))).Translate(Scale(contacts[k].normal, contacts[k].penetrationDistance))
            == b.Translate(Sum(Pushes(contacts[..k + 1])))
  {
    assert contacts[..k + 1][..k] == contacts[..k];
    TranslateTwice(b, Sum(Pushes(contacts[..k])), Scale(contacts[k].normal, contacts[k].penetrationDistance));
  }

  // ---- voxels and their neighbours ----

  /** Voxel `r` exists: its slot holds a chunk and its index is on it. */
  ghost predicate VoxelOf(space: Space, r: VoxelRef)
    reads space, space.grids, space.Repr
    requires space.Valid()
  {
    r.chunk < space.grids.Length && space.grids[r.chunk].occupied && r.index < space.Chunk(r.chunk).voxels.Length
  }

  /** The voxel `r` names. */
  function VoxelAt(space: Space, r: VoxelRef): Voxel
    reads space, space.grids, space.Repr
    requires space.Valid() && VoxelOf(space, r)
  {
    space.Chunk(r.chunk).voxels[r.index]
  }

  /** The address of a voxel, which the penetration field keeps: one
      number per (chunk, index) pair. */
  function Address(r: VoxelRef): int
  {
    r.chunk * Modulus + r.index
  }

  /** The voxel one step from voxel `r` in direction `d`, on the far face
      of the neighbouring chunk when the step leaves its chunk (the
      corrected `moveIndex`); `None` when the step leaves the space or
      lands in an empty slot. */
  function Neighbour(space: Space, r: VoxelRef, d: Direction): (n: Option<VoxelRef>)
    reads space, space.grids, space.Repr
    requires space.Valid() && space.gridSize > 0 && VoxelOf(space, r)
    ensures n.Some? ==> VoxelOf(space, n.value)
  {
    var from := space.GetCoordinates(r.chunk);
    match space.MoveIndex(r.index, from, d)
    case None => None
    case Some((v, c)) =>
      var j := space.GetIndex(c);
      if space.ValidateChunkCoord(c) && space.grids[j].occupied && space.Chunk(j).ValidateCoords(v) then
        Some(VoxelRef(j, space.Chunk(j).GetIndex(v)))
      else None
  }

  /** The step from voxel `r` in direction `d` lands on an occupied voxel:
      the box cannot escape that way. */
  function Blocked(space: Space, r: VoxelRef, d: Direction): bool
    reads space, space.grids, space.Repr
    requires space.Valid() && space.gridSize > 0 && VoxelOf(space, r)
  {
    match Neighbour(space, r, d)
    case None => false
    case Some(n) => VoxelAt(space, n).occupied
  }

  /** The `!valid` inversion of `multiVoxelContactResolution`, isolated on
      the corrected `moveIndex` started from the voxel's own chunk
      coordinate: the step is taken as blocked only when it is NOT valid,
      and the occupancy is read in the voxel's own chunk through the
      position overload of `getIndex`, which is the one a `VDVector3i`
      argument converts to. */
  function BlockedAsWritten(space: Space, r: VoxelRef, d: Direction): (b: bool)
    reads space, space.grids, space.Repr
    requires space.Valid() && space.gridSize > 0 && VoxelOf(space, r)
  {
    var from := space.GetCoordinates(r.chunk);
    match space.MoveIndex(r.index, from, d)
    case None => false
    case Some((v, c)) =>
      var g := space.Chunk(r.chunk);
      var valid := space.ValidateChunkCoord(c) && g.ValidateCoords(v);
      var i := PositionIndexAsWritten(g.gridSize, g.low, ToVec3(v));
      !valid && g.GetOccupied(i)
  }

  /** As written, a neighbour that really is occupied never blocks: the box
      is pushed into the voxel next door. */
  lemma BlockedAsWrittenMissesNeighbours(space: Space, r: VoxelRef, d: Direction)
    requires space.Valid() && space.gridSize > 0 && VoxelOf(space, r)
    requires Blocked(space, r, d)
    ensures !BlockedAsWritten(space, r, d)
  {
  }

  /** The first occupancy test of `multiVoxelContactResolution` exactly as
      written, for voxel `r` stepping in direction `d` from its own chunk
      coordinate: `moveIndex` with its guard as written, `valid`, then
      `getIndex(newVoxCoord)`, whose `VDVector3i` argument converts to a
      position so that the chunk's low corner is subtracted, and
      `getOccupied` as written.  `None` is undefined behaviour. */
  function OccupiedAsWritten(space: Space, r: VoxelRef, d: Direction): (b: Option<bool>)
    reads space, space.grids, space.Repr
    requires space.Valid() && space.gridSize > 0 && VoxelOf(space, r)
  {
    var coords := space.GetCoordinates(r.chunk);
    match space.MoveIndexAsWritten(r.index, coords, d)
    case None => None
    case Some(v) =>
      var g := space.Chunk(r.chunk);
      var valid := space.ValidateChunkCoord(coords) && g.ValidateCoords(v);
      if valid then Some(false)
      else g.GetOccupiedAsWritten(PositionIndexAsWritten(g.gridSize, g.low, ToVec3(v)))
  }

  /** As written, the test does not depend on the voxel or the direction:
      every voxel of a chunk reads the one voxel that the sentinel
      (-1, -1, -1) names once the chunk's low corner is subtracted. */
  lemma OccupiedAsWrittenIgnoresVoxel(space: Space, r: VoxelRef, d: Direction)
    requires space.Valid() && space.gridSize > 0 && VoxelOf(space, r)
    requires space.horizontalGrids * space.horizontalGrids * space.verticalGrids <= InvalidIndex
    ensures OccupiedAsWritten(space, r, d) ==
      space.Chunk(r.chunk).GetOccupiedAsWritten(
        PositionIndexAsWritten(space.gridSize, space.Chunk(r.chunk).low, ToVec3(Vec3i(-1, -1, -1))))
  {
    var coords := space.GetCoordinates(r.chunk);
    space.MoveIndexAsWrittenNeverMoves(r.index, coords, d);
  }

  /** In the shipped scene (chunks of 20 voxels, anchor (-20, -20, -20)),
      every voxel of chunk 0 tests voxel 7999, the far corner
      (19, 19, 19): when that one voxel is occupied, no voxel of the chunk
      contributes its first escape direction. */
  lemma SampleSceneTestsFarCorner(space: Space, r: VoxelRef, d: Direction)
    requires space.Valid() && space.gridSize == 20 && space.anchor == Vec3i(-20, -20, -20)
    requires space.horizontalGrids * space.horizontalGrids * space.verticalGrids <= InvalidIndex
    requires r.chunk == 0 && VoxelOf(space, r)
    ensures space.Chunk(0).voxels.Length == 8000
    ensures OccupiedAsWritten(space, r, d) == Some(space.Chunk(0).voxels[7999].occupied)
    ensures Coordinates(7999, 20, 20) == Vec3i(19, 19, 19)
  {
    OccupiedAsWrittenIgnoresVoxel(space, r, d);
    var g := space.Chunk(0);
    assert space.ChunkOk(0);
    var origin := Vec3i(0, 0, 0);
    assert CellIndex(origin, space.horizontalGrids, space.verticalGrids) == 0;
    CoordinatesOfIndex(origin, space.horizontalGrids, space.verticalGrids);
    assert space.GetChunkLow(Vec3i(0, 0, 0)) == Vec3i(-20, -20, -20);
    assert g.low == Vec3(-20.0, -20.0, -20.0);
    SentinelReadsFarCorner();
  }

  /** Where voxel `r` lies in the space's global voxel grid: its chunk's
      coordinates scaled by the chunk size, plus its coordinates in the
      chunk. */
  ghost function GlobalCell(space: Space, r: VoxelRef): Vec3i
    reads space, space.grids, space.Repr
    requires space.Valid() && space.gridSize > 0 && VoxelOf(space, r)
  {
    var n := space.gridSize;
    AddI(ScaleI(space.GetCoordinates(r.chunk), n), Coordinates(r.index, n, n))
  }

  /** The neighbour is the voxel one step away in the global voxel grid,
      whether or not the step leaves the chunk. */
  lemma {:induction false} NeighbourIsAdjacent(space: Space, r: VoxelRef, d: Direction)
    requires space.Valid() && space.gridSize > 0 && VoxelOf(space, r)
    requires space.horizontalGrids * space.horizontalGrids * space.verticalGrids <= InvalidIndex
    ensures var m := Neighbour(space, r, d);
      m.Some? ==> GlobalCell(space, m.value) == AddI(GlobalCell(space, r), Step(d))
  {
    var n := space.gridSize;
    var from := space.GetCoordinates(r.chunk);
    assert space.GetIndex(from) == r.chunk;
    space.MoveIndexSteps(r.index, from, d);
    var (v, c) := space.MoveIndex(r.index, from, d).value;
    var j := space.GetIndex(c);
    if space.ValidateChunkCoord(c) && space.grids[j].occupied && space.Chunk(j).ValidateCoords(v) {
      space.ChunkCoordRoundTrip(c);
      var k := space.Chunk(j).GetIndex(v);
      assert Coordinates(k, n, n) == v;
      assert Neighbour(space, r, d) == Some(VoxelRef(j, k));
    }
  }

  /** A later `moveIndex` of `multiVoxelContactResolution` as written: the
      chunk coordinate is passed by reference and reset only when the
      chunk index changes, so the second direction of voxel `r`
      (`next == r.index`), and every later voxel `next` of the same chunk,
      moves from where the step in direction `d0` left it.  Shown on the
      corrected `moveIndex`: as written its guard returns before the
      coordinate moves, so the drift is latent until that guard is
      corrected. */
  function MoveFromDriftedAsWritten(space: Space, r: VoxelRef, d0: Direction, next: nat, d1: Direction): Option<(Vec3i, Vec3i)>
    reads space, space.grids, space.Repr
    requires space.Valid() && space.gridSize > 0 && VoxelOf(space, r)
  {
    var from := space.GetCoordinates(r.chunk);
    match space.MoveIndex(r.index, from, d0)
    case None => None
    case Some((_, moved)) => space.MoveIndex(next, moved, d1)
  }

  /** Once a step of voxel `r` has crossed into a neighbouring occupied
      chunk, the next step taken as written lands a whole chunk away, in
      the first step's direction, from the voxel next door in the global
      voxel grid. */
  lemma {:induction false} MoveFromDriftedAsWrittenIsAChunkOff(space: Space, r: VoxelRef, d0: Direction, next: nat, d1: Direction)
    requires space.Valid() && space.gridSize > 0 && VoxelOf(space, r)
    requires space.horizontalGrids * space.horizontalGrids * space.verticalGrids <= InvalidIndex
    requires next < space.gridSize * space.gridSize * space.gridSize
    requires !InBox(AddI(Coordinates(r.index, space.gridSize, space.gridSize), Step(d0)), space.gridSize, space.gridSize, space.gridSize)
    requires var moved := AddI(space.GetCoordinates(r.chunk), Step(d0));
      space.ValidateChunkCoord(moved) && space.grids[space.GetIndex(moved)].occupied
    ensures MoveFromDriftedAsWritten(space, r, d0, next, d1).Some?
    ensures var (v, c) := MoveFromDriftedAsWritten(space, r, d0, next, d1).value;
      var n := space.gridSize;
      var here := GlobalCell(space, VoxelRef(r.chunk, next));
      AddI(ScaleI(c, n), v) == AddI(AddI(here, Step(d1)), ScaleI(Step(d0), n))
      && AddI(ScaleI(c, n), v) != AddI(here, Step(d1))
  {
    var n := space.gridSize;
    var from := space.GetCoordinates(r.chunk);
    assert space.GetIndex(from) == r.chunk;
    space.MoveIndexSteps(r.index, from, d0);
    var (v0, c0) := space.MoveIndex(r.index, from, d0).value;
    if c0 == from {
      assert false;
    }
    var s0 := Step(d0);
    var moved := AddI(from, s0);
    assert c0 == moved;
    space.MoveIndexSteps(next, moved, d1);
    ScaleAddI(from, s0, n);
  }

  /** The escape directions of the box from voxel `r`, by increasing
      overlap: what `setPenetrations` leaves in `minDirections`. */
  function Escape(space: Space, box: AABB, r: VoxelRef): (md: seq<Direction>)
    reads space, space.grids, space.Repr
    requires space.Valid() && VoxelOf(space, r)
    ensures |md| == 3
  {
    var v := VoxelAt(space, r);
    EscapeOrder(box.IntersectionRegion(v.ToAABB()).1.halfExtents, SignV(Sub(box.position, v.MidPoint())))
  }

  /** The overlap width of the box and voxel `r` along the direction's axis:
      `getPenetrationByDirection`. */
  function Overlap(space: Space, box: AABB, r: VoxelRef, d: Direction): real
    reads space, space.grids, space.Repr
    requires space.Valid() && VoxelOf(space, r)
  {
    2.0 * Component(box.IntersectionRegion(VoxelAt(space, r).ToAABB()).1.halfExtents, AxisOf(d))
  }

  /** What voxel `r` puts in the penetration field for the box: the first
      of its two cheapest escape directions that is not blocked, with the
      overlap along it, or nothing when both are blocked.  The box is never
      pushed towards an occupied neighbour, and the second direction is
      used only when the first is blocked. */
  function Contribution(space: Space, box: AABB, r: VoxelRef): (e: Option<(Direction, real)>)
    reads space, space.grids, space.Repr
    requires space.Valid() && space.gridSize > 0 && VoxelOf(space, r)
    ensures e.Some? ==> !Blocked(space, r, e.value.0) && e.value.1 == Overlap(space, box, r, e.value.0)
    ensures e.Some? ==> e.value.0 == Escape(space, box, r)[0]
                        || (e.value.0 == Escape(space, box, r)[1] && Blocked(space, r, Escape(space, box, r)[0]))
    ensures e.None? <==> Blocked(space, r, Escape(space, box, r)[0]) && Blocked(space, r, Escape(space, box, r)[1])
  {
    var md := Escape(space, box, r);
    if !Blocked(space, r, md[0]) then Some((md[0], Overlap(space, box, r, md[0])))
    else if !Blocked(space, r, md[1]) then Some((md[1], Overlap(space, box, r, md[1])))
    else None
  }

  /** The insertions the walk of `multiVoxelContactResolution` makes into
      the field, in list order. */
  ghost function Contributions(space: Space, box: AABB, rs: seq<VoxelRef>): seq<(Direction, real)>
    reads space, space.grids, space.Repr
    requires space.Valid() && space.gridSize > 0 && forall k :: 0 <= k < |rs| ==> VoxelOf(space, rs[k])
  {
    if |rs| == 0 then [] else Contributions(space, box, rs[..|rs| - 1]) + Contributed(space, box, rs[|rs| - 1])
  }

  /** `contacts` are what the closing loop of `multiVoxelContactResolution`
      reads off a field that received the contributions of the voxels `rs`
      against the box, `sources` being the field's voxel entries. */
  ghost predicate ContactsOf(space: Space, box: AABB, rs: seq<VoxelRef>, self: int, sources: seq<int>,
                             contacts: seq<ContactPoint>)
    reads space, space.grids, space.Repr
    requires space.Valid() && space.gridSize > 0
  {
    (forall k :: 0 <= k < |rs| ==> VoxelOf(space, rs[k]))
    && |sources| == 6
    && contacts == FieldContacts(Maxima(Contributions(space, box, rs)), sources, self, box.position, 6)
  }

  /** One more voxel adds its contribution at the end. */
  lemma ContributionsSnoc(space: Space, box: AABB, rs: seq<VoxelRef>, k: nat)
    requires space.Valid() && space.gridSize > 0 && forall j :: 0 <= j < |rs| ==> VoxelOf(space, rs[j])
    requires k < |rs|
    ensures Contributions(space, box, rs[..k + 1]) == Contributions(space, box, rs[..k]) + Contributed(space, box, rs[k])
  {
    TakeTake(rs, k);
  }

  lemma TakeSnoc<T>(s: seq<T>, k: nat)
    requires k < |s|
    ensures s[..k + 1] == s[..k] + [s[k]]
  {
  }

  lemma TakeTake<T>(s: seq<T>, k: nat)
    requires k < |s|
    ensures s[..k + 1][..k] == s[..k]
  {
  }

  lemma DropNone<T>(s: seq<T>)
    ensures s[..|s| - 0] == s
  {
  }

  lemma TakeAll<T>(s: seq<T>)
    ensures s[..|s|] == s
  {
  }

  lemma AppendAssoc<T>(a: seq<T>, b: seq<T>, c: seq<T>)
    ensures (a + b) + c == a + (b + c)
  {
  }

  /** The contribution of voxel `r` as a list of zero or one insertions. */
  function Contributed(space: Space, box: AABB, r: VoxelRef): seq<(Direction, real)>
    reads space, space.grids, space.Repr
    requires space.Valid() && space.gridSize > 0 && VoxelOf(space, r)
  {
    match Contribution(space, box, r)
    case None => []
    case Some(e) => [e]
  }

  /** The contributions of the voxels, in list order, each with the
      address of the voxel it comes from.  The contact of the box with
      each voxel is a value in `multiVoxelContactResolution`; its ordered
      escape directions and overlaps are read off `Escape` and `Overlap`,
      which `ContactWithVoxel` shows `voxelContact` and `setPenetrations`
      produce. */
  method GatherContributions(space: Space, box: AABB, voxels: seq<VoxelRef>)
    returns (entries: seq<(Direction, real)>, sources: seq<int>)
    requires space.Valid() && space.gridSize > 0
    requires forall k :: 0 <= k < |voxels| ==> VoxelOf(space, voxels[k])
    ensures entries == Contributions(space, box, voxels) && |sources| == |entries|
  {
    entries, sources := [], [];
    var k := 0;
    while k < |voxels|
      invariant 0 <= k <= |voxels|
      invariant entries == Contributions(space, box, voxels[..k]) && |sources| == |entries|
    {
      var added := Contributed(space, box, voxels[k]);
      ContributionsSnoc(space, box, voxels, k);
      entries := entries + added;
      if |added| > 0 {
        sources := sources + [Address(voxels[k])];
      }
      k := k + 1;
    }
    TakeAll(voxels);
  }

  // ---- integration ----

  /** The velocity `simulate(dt)` gives an awake body: impulses over the
      mass, then forces times `dt` over the mass. */
  function Integrated(v: Vec3, impulses: seq<Vec3>, forces: seq<Vec3>, mass: real, dt: real): Vec3
    requires mass != 0.0
  {
    Add(Add(v, Scale(Sum(impulses), 1.0 / mass)), Scale(Sum(forces), dt / mass))
  }

  /** Queuing gravity times the mass accelerates a body by gravity, whatever
      its mass: the velocity gains gravity times `dt`. */
  lemma {:induction false} QueuedGravity(v: Vec3, impulses: seq<Vec3>, forces: seq<Vec3>, g: Vec3, m: real, dt: real)
    requires m != 0.0
    ensures Integrated(v, impulses, [Scale(g, m)] + forces, m, dt) == Add(Integrated(v, impulses, forces, m, dt), Scale(g, dt))
  {
    var c := dt / m;
    SumPrepend(Scale(g, m), forces);
    ScaleAdd(Scale(g, m), Sum(forces), c);
    assert m * c == dt;
    ScaleScale(g, m, c);
    var p := Add(v, Scale(Sum(impulses), 1.0 / m));
    assert Integrated(v, impulses, [Scale(g, m)] + forces, m, dt) == Add(p, Add(Scale(g, dt), Scale(Sum(forces), c)));
  }

  // ---- impulses ----

  /** The normal impulse of a static contact: the velocity's component
      along the normal, reversed, times mass and restitution. */
  function NormalImpulse(v: Vec3, n: Vec3, mass: real, restitution: real): Vec3
  {
    Scale(Scale(Scale(Scale(n, Dot(n, v)), -1.0), mass), restitution)
  }

  /** Against a face of the voxel grid, the normal impulse is along the
      face's normal and, once taken into the velocity, leaves
      (1 - restitution) of the speed along the normal: with restitution 1
      the body stops approaching, with 0 nothing changes. */
  lemma {:induction false} NormalImpulseDamps(v: Vec3, d: Direction, mass: real, restitution: real)
    requires mass != 0.0
    ensures var n := ToVector(d);
      var i := NormalImpulse(v, n, mass, restitution);
      TangentialComponent(i, n) == Zero()
      && Dot(Add(v, Scale(i, 1.0 / mass)), n) == (1.0 - restitution) * Dot(v, n)
  {
    ToVectorOpposite(d);
    UnitNormalImpulse(v, ToVector(d), mass, restitution);
  }

  lemma {:induction false} UnitNormalImpulse(v: Vec3, n: Vec3, mass: real, restitution: real)
    requires mass != 0.0 && Dot(n, n) == 1.0
    ensures var i := NormalImpulse(v, n, mass, restitution);
      TangentialComponent(i, n) == Zero()
      && Dot(Add(v, Scale(i, 1.0 / mass)), n) == (1.0 - restitution) * Dot(v, n)
  {
    var a := Dot(n, v);
    var t := a * -1.0 * mass * restitution;
    ImpulseAlongNormal(v, n, mass, restitution);
    CancelMass(a, mass, restitution);
    DotSymmetric(n, v);
    DampsAlong(v, n, NormalImpulse(v, n, mass, restitution), t, 1.0 / mass, a, restitution);
  }

  /** The same, for any vector `i` along the unit normal whose length over
      the mass is the reversed projection times `r`. */
  lemma DampsAlong(v: Vec3, n: Vec3, i: Vec3, t: real, w: real, a: real, r: real)
    requires Dot(n, n) == 1.0 && i == Scale(n, t) && t * w == -a * r && a == Dot(v, n)
    ensures TangentialComponent(i, n) == Zero()
    ensures Dot(Add(v, Scale(i, w)), n) == (1.0 - r) * Dot(v, n)
  {
    AlongNormal(v, n, t, w);
    Damp(Dot(Add(v, Scale(i, w)), n), Dot(v, n), t * w, a, r);
  }

  lemma ImpulseAlongNormal(v: Vec3, n: Vec3, mass: real, restitution: real)
    ensures NormalImpulse(v, n, mass, restitution) == Scale(n, Dot(n, v) * -1.0 * mass * restitution)
  {
    var a := Dot(n, v);
    Assoc4(n.x, a, mass, restitution);
    Assoc4(n.y, a, mass, restitution);
    Assoc4(n.z, a, mass, restitution);
  }

  lemma Assoc4(x: real, a: real, m: real, r: real)
    ensures x * a * -1.0 * m * r == x * (a * -1.0 * m * r)
  {
  }

  lemma Damp(l: real, p: real, u: real, a: real, r: real)
    requires l == p + u && u == -a * r && a == p
    ensures l == (1.0 - r) * p
  {
  }

  lemma CancelMass(a: real, mass: real, restitution: real)
    requires mass != 0.0
    ensures a * -1.0 * mass * restitution * (1.0 / mass) == -a * restitution
  {
    var w := 1.0 / mass;
    assert mass * w == 1.0;
    assert a * -1.0 * mass * restitution * w == (a * -1.0 * restitution) * (mass * w);
  }

  /** A vector along a unit normal has no tangential part, and adding it
      times `w` moves the projection by its length times `w`. */
  lemma AlongNormal(v: Vec3, n: Vec3, t: real, w: real)
    requires Dot(n, n) == 1.0
    ensures TangentialComponent(Scale(n, t), n) == Zero()
    ensures Dot(Add(v, Scale(Scale(n, t), w)), n) == Dot(v, n) + t * w
  {
    DotScale(n, t, n);
    ScaleScale(n, t, w);
    DotScale(n, t * w, n);
  }

  /** The impulse pair of a dynamic contact is equal and opposite entry by
      entry, so together they change no momentum. */
  lemma {:induction false} PairImpulsesCancel(a: seq<Vec3>, b: seq<Vec3>)
    requires |a| == |b| && forall k :: 0 <= k < |a| ==> b[k] == Neg(a[k])
    ensures Add(Sum(a), Sum(b)) == Zero()
    decreases |a|
  {
    if |a| > 0 {
      PairImpulsesCancel(a[..|a| - 1], b[..|b| - 1]);
    }
  }

  /** The two halves of a dynamic contact's correction are equal and
      opposite, and they part the bodies by the whole penetration. */
  lemma HalvesCancel(n: Vec3, p: real)
    ensures Add(Scale(Scale(n, p), 0.5), Scale(Scale(n, -p), 0.5)) == Zero()
    ensures Sub(Scale(Scale(n, p), 0.5), Scale(Scale(n, -p), 0.5)) == Scale(n, p)
  {
  }

  /** The push `collisionAABB` and `resolveAABBContact` give a box that
      overlaps another: along the first escape direction of their overlap
      region, by the region's width along it; none without an overlap.  The
      push never points into the other box's half of space and is never
      negative. */
  function AgentPush(box: AABB, other: AABB): (p: Option<(Direction, real)>)
    ensures p.Some? <==> box.IntersectionRegion(other).0
    ensures p.Some? ==> p.value.1 >= 0.0
    ensures p.Some? ==> OnQuadrantSide(p.value.0, SignV(Sub(box.position, other.position)))
  {
    var (hit, region) := box.IntersectionRegion(other);
    if !hit then None
    else
      var d := EscapeOrder(region.halfExtents, SignV(Sub(box.position, other.position)))[0];
      HitPenetrationNonNegative(box, other, d);
      Some((d, 2.0 * Component(region.halfExtents, AxisOf(d))))
  }

  lemma AgentPushIs(box: AABB, other: AABB, d: Direction, depth: real)
    requires box.IntersectionRegion(other).0
    requires d == EscapeOrder(box.IntersectionRegion(other).1.halfExtents, SignV(Sub(box.position, other.position)))[0]
    requires depth == 2.0 * Component(box.IntersectionRegion(other).1.halfExtents, AxisOf(d))
    ensures AgentPush(box, other) == Some((d, depth))
  {
  }

  /** The bodies with identities, searched for `id`. */
  function Find(bs: seq<Body>, id: int): (r: Option<Body>)
    ensures r.Some? ==> r.value in bs && r.value.id == id
    ensures r.None? ==> forall b :: b in bs ==> b.id != id
  {
    if |bs| == 0 then None
    else if bs[0].id == id then Some(bs[0])
    else Find(bs[1..], id)
  }

  /** `VDSimulation`.  `bodies` is `pBodies`, the bodies in the order the
      step visits them (the most recently created first); the objects
      themselves stand for `aabbBodies`. */
  class Simulation {
    const space: Space
    var bodies: seq<Body>
    var agents: seq<Agent>
    const gravity: Vec3
    const dtCap: real
    const frictionFactor: real
    /** `VDVector3::length` and `normalize`, which take a square root. */
    const length: Vec3 -> real
    const normalize: Vec3 -> Vec3
    /** The identity the next body or agent gets: a fresh address. */
    var nextId: int
    /** The halves of the steps run so far, in order. */
    ghost var phases: seq<Phase>

    ghost function AgentBodies(): set<Body>
      reads this
    {
      set a | a in agents :: a.body
    }

    /** The space is usable, every body is registered through lists the
        space can walk and has an identity of its own, and no agent shares
        its body with a body of the space. */
    ghost predicate Valid()
      reads this, space, space.grids, space.Repr, bodies, agents, AgentBodies()
    {
      this !in space.Repr && space.Valid() && space.gridSize > 0 && BodiesOk(bodies, nextId) && AgentsOk(agents, bodies)
    }

    /** Every body of `bs` is usable, lies outside the space, is registered
        through lists the space can walk and has an identity below `n`, of
        its own. */
    ghost predicate BodiesOk(bs: seq<Body>, n: int)
      reads space, space.grids, bs
    {
      (forall b :: b in bs ==> b.Valid() && b !in space.Repr && space.Listed(b.occupiedChunks) && b.id < n)
      && (forall k, l :: 0 <= k < l < |bs| ==> bs[k].id != bs[l].id)
    }

    /** Every agent of `ags` is usable, and neither it nor its body is in
        the space; its body is not one of `bs`. */
    ghost predicate AgentsOk(ags: seq<Agent>, bs: seq<Body>)
      reads space, ags, set a | a in ags :: a.body
    {
      forall a :: a in ags ==> a.Valid() && a !in space.Repr && a.body !in space.Repr && a.body !in bs
    }

    /** A new body with the next identity keeps the bodies apart. */
    lemma BodiesOkCons(body: Body, bs: seq<Body>, n: int)
      requires BodiesOk(bs, n)
      requires body.Valid() && body !in space.Repr && space.Listed(body.occupiedChunks) && body.id == n
      ensures BodiesOk([body] + bs, n + 1)
    {
      forall k, l | 0 <= k < l < |[body] + bs|
        ensures ([body] + bs)[k].id != ([body] + bs)[l].id
      {
        if k > 0 {
          assert ([body] + bs)[k] == bs[k - 1];
        }
        assert ([body] + bs)[l] == bs[l - 1];
      }
    }

    /** A body that belongs to no agent can join the bodies. */
    lemma AgentsOkCons(ags: seq<Agent>, body: Body, bs: seq<Body>)
      requires AgentsOk(ags, bs) && forall a :: a in ags ==> a.body != body
      ensures AgentsOk(ags, [body] + bs)
    {
    }

    /** `VDSimulation(gridSize, anchor, horizontalGrids, verticalGrids)`:
        an empty space, no bodies, no agents, gravity 9.81 downwards and
        steps of at most 1/60. */
    constructor (gridSize: nat, anchor: Vec3i, horizontalGrids: nat, verticalGrids: nat,
                 length: Vec3 -> real, normalize: Vec3 -> Vec3)
      requires gridSize > 0 && gridSize * gridSize * gridSize <= InvalidIndex
      ensures Valid() && fresh(space) && bodies == [] && agents == [] && phases == []
      ensures space.gridSize == gridSize && space.anchor == anchor
      ensures space.horizontalGrids == horizontalGrids && space.verticalGrids == verticalGrids
      ensures forall j :: 0 <= j < space.grids.Length ==> !space.grids[j].occupied
      ensures gravity == Vec3(0.0, -9.81, 0.0) && dtCap == 1.0 / 60.0 && frictionFactor == 0.15
    {
      space := new Space(gridSize, anchor, horizontalGrids, verticalGrids);
      bodies := [];
      agents := [];
      gravity := Vec3(0.0, -9.81, 0.0);
      dtCap := 1.0 / 60.0;
      frictionFactor := 0.15;
      this.length := length;
      this.normalize := normalize;
      nextId := 0;
      phases := [];
    }

    /** `createAABBBody`: a new body on the box, registered in the voxels
        of its region, at the head of the bodies. */
    method CreateAABBBody(aabb: AABB, mass: real) returns (body: Body)
      requires Valid() && mass != 0.0
      modifies this, space.VoxelArrays()
      ensures Valid() && fresh(body) && bodies == [body] + old(bodies) && agents == old(agents)
      ensures body.box == FromMidPointAndHalfExtents(aabb.halfExtents, aabb.position) && body.mass == mass
      ensures body.velocity == Zero() && body.deltaMomentums == [] && body.forces == []
      ensures !body.sleeping && body.useGravity
      ensures space.Memberships(body.occupiedChunks, space.SampledChunks(body.box), body.box)
    {
      body := RegisteredBody(aabb, mass);
      label Registered:
      bodies, nextId := [body] + bodies, nextId + 1;
      BodyPrepended(body);
      RegistrationKept@Registered(body);
    }

    /** Putting a new registered body at the head of the bodies leaves the
        simulation valid. */
    twostate lemma BodyPrepended(new body: Body)
      requires old(Valid()) && fresh(body)
      requires space.Valid() && body.Valid() && body !in space.Repr && space.Listed(body.occupiedChunks)
      requires body.id == old(nextId) && nextId == old(nextId) + 1
      requires bodies == [body] + old(bodies) && agents == old(agents)
      requires unchanged(space, space.grids) && unchanged(old(bodies))
      requires forall a :: a in agents ==> unchanged(a, a.body)
      ensures Valid()
    {
      BodiesOkCons(body, old(bodies), old(nextId));
      AgentsOkCons(agents, body, old(bodies));
    }

    /** What a body is registered in does not change while the space and
        the body stay as they are. */
    twostate lemma RegistrationKept(body: Body)
      requires old(space.gridSize > 0 && space.Memberships(body.occupiedChunks, space.SampledChunks(body.box), body.box))
      requires unchanged(space, space.grids, body)
      ensures space.Memberships(body.occupiedChunks, space.SampledChunks(body.box), body.box)
    {
    }

    /** The first two lines of `createAABBBody`: a new body, registered in
        the space. */
    method RegisteredBody(aabb: AABB, mass: real) returns (body: Body)
      requires space.Valid() && space.gridSize > 0 && mass != 0.0
      modifies space.VoxelArrays()
      ensures space.Valid() && fresh(body) && body.Valid() && body !in space.Repr && body.id == nextId
      ensures body.box == FromMidPointAndHalfExtents(aabb.halfExtents, aabb.position) && body.mass == mass
      ensures body.velocity == Zero() && body.deltaMomentums == [] && body.forces == []
      ensures !body.sleeping && body.useGravity
      ensures space.Memberships(body.occupiedChunks, space.SampledChunks(body.box), body.box)
      ensures space.Listed(body.occupiedChunks)
    {
      body := new Body(aabb.position, aabb.halfExtents, mass, nextId);
      space.InsertCollider(body);
      DropNone(body.occupiedChunks);
      space.MembershipsListed(body.occupiedChunks, space.SampledChunks(body.box), body.box);
    }

    /** `createAgentController`: a new agent at the head of the agents; it
        is not registered in the space. */
    method CreateAgentController(position: Vec3, halfExtents: Vec3, speed: real) returns (agent: Agent)
      requires Valid()
      modifies this
      ensures Valid() && fresh(agent) && fresh(agent.body)
      ensures agents == [agent] + old(agents) && bodies == old(bodies)
      ensures agent.speed == speed && !agent.isGrounded
      ensures agent.body.box == FromMidPointAndHalfExtents(halfExtents, position)
      ensures agent.body.velocity == Zero() && agent.body.deltaMomentums == [] && agent.body.forces == []
    {
      agent := new Agent(position, halfExtents, speed, nextId);
      nextId := nextId + 1;
      agents := [agent] + agents;
    }

    /** The body a collider identity names, unless it is `self`: the
        `pThis != pAABBCollider` test, so a body is never resolved against
        itself. */
    function Partner(self: Body, id: int): (r: Option<Body>)
      reads this
      ensures r.Some? ==> r.value in bodies && r.value.id == id && r.value != self
      ensures r.None? ==> id == self.id || forall b :: b in bodies ==> b.id != id
    {
      if id == self.id then None else Find(bodies, id)
    }

    // ---- voxel contacts ----

    /** `multiVoxelContactResolution`: each voxel, in list order, adds its
        contribution to the field; then each direction whose maximum is
        positive gives one contact along it, as deep as that maximum. */
    method MultiVoxelContactResolution(box: AABB, self: int, voxels: seq<VoxelRef>, field: PenetrationField)
      returns (contacts: seq<ContactPoint>)
      requires space.Valid() && space.gridSize > 0 && field.Valid()
      requires field !in space.Repr && field.maxPenetrations !in space.Repr && field.voxels !in space.Repr
      requires forall k :: 0 <= k < |voxels| ==> VoxelOf(space, voxels[k])
      modifies field, field.maxPenetrations, field.voxels
      ensures field.Valid() && field.Inserted == old(field.Inserted) + old(Contributions(space, box, voxels))
      ensures contacts == FieldContacts(field.maxPenetrations[..], field.voxels[..], self, box.position, 6)
    {
      InsertContributions(box, self, voxels, field);
      contacts := CollectContacts(field, self, box.position);
    }

    /** The first loop of `multiVoxelContactResolution`. */
    method InsertContributions(box: AABB, self: int, voxels: seq<VoxelRef>, field: PenetrationField)
      requires space.Valid() && space.gridSize > 0 && field.Valid()
      requires forall k :: 0 <= k < |voxels| ==> VoxelOf(space, voxels[k])
      modifies field, field.maxPenetrations, field.voxels
      ensures field.Valid() && field.Inserted == old(field.Inserted) + old(Contributions(space, box, voxels))
    {
      var entries, sources := GatherContributions(space, box, voxels);
      var k := 0;
      while k < |entries|
        invariant 0 <= k <= |entries|
        invariant field.Valid() && field.Inserted == old(field.Inserted) + entries[..k]
      {
        TakeSnoc(entries, k);
        field.InsertPenetration(entries[k].0, entries[k].1, sources[k]);
        AppendAssoc(old(field.Inserted), entries[..k], [entries[k]]);
        k := k + 1;
      }
      TakeAll(entries);
    }

    // ---- agents ----

    /** `simulateAgents`: `updateAgent` for every agent in list order. */
    method SimulateAgents(dt: real)
      requires Valid()
      modifies this, agents, AgentBodies()
      ensures Valid() && bodies == old(bodies) && agents == old(agents) && nextId == old(nextId)
      ensures phases == old(phases) + [AgentPhase(dt)]
    {
      var k := 0;
      while k < |agents|
        invariant 0 <= k <= |agents| && Valid()
        invariant bodies == old(bodies) && agents == old(agents) && nextId == old(nextId) && phases == old(phases)
      {
        var _, _, _, _, _ := UpdateAgent(agents[k], dt);
        k := k + 1;
      }
      phases := phases + [AgentPhase(dt)];
    }

    /** `updateAgent`: gravity is queued and the agent integrated; it is
        pushed out of every box it overlaps and then out of the voxels.
        It lands, with its vertical velocity zeroed, when a box pushes it
        up (`boxLanding`) or a voxel contact pushes it up; otherwise its
        grounded flag is left as it was.  `sampled` and `unique` are what
        the region of the integrated box holds; the box pushes run through
        `unique` in order and the voxel contacts come from the field of the
        contributions of `sampled`, at the box the pushes left. */
    method UpdateAgent(agent: Agent, dt: real)
      returns (boxLanding: bool, contacts: seq<ContactPoint>,
               sampled: seq<VoxelRef>, unique: seq<int>, ghost sources: seq<int>)
      requires Valid() && agent in agents
      modifies agent, agent.body
      ensures Valid()
      ensures var stepped := if old(agent.body.sleeping) then old(agent.body.velocity)
                             else Integrated(old(agent.body.velocity), old(agent.body.deltaMomentums),
                                             [gravity] + old(agent.body.forces), 1.0, dt);
        var landed := boxLanding || Landed(contacts);
        agent.isGrounded == (old(agent.isGrounded) || landed)
        && agent.body.velocity == (if landed then stepped.(y := 0.0) else stepped)
      ensures space.Valid()
      ensures var box := IntegratedBox(old(agent.body.box), old(agent.body.sleeping), old(agent.body.velocity),
                                       old(agent.body.deltaMomentums), old(agent.body.forces), dt);
        space.VoxelsOf(box, sampled) && StrictlySorted(unique) && space.CollidersOf(box, unique)
        && boxLanding == LandsOn(box, unique)
        && var pushed := PushedThrough(box, unique);
           ContactsOf(space, pushed, sampled, agent.body.id, sources, contacts)
           && agent.body.box == pushed.Translate(Sum(Pushes(contacts)))
      ensures old(agent.body.sleeping) ==> agent.body.forces == [gravity] + old(agent.body.forces)
      ensures !old(agent.body.sleeping) ==> agent.body.forces == [] && agent.body.deltaMomentums == []
      ensures agent.body.sleeping == old(agent.body.sleeping)
      ensures forall k :: 0 <= k < |contacts| ==> contacts[k].penetrationDistance > 0.0
      ensures forall k, l :: 0 <= k < l < |contacts| ==> contacts[k].normal != contacts[l].normal
    {
      boxLanding, contacts, sampled, unique, sources := StepAgent(agent, dt);
      AgentMoved(agent);
    }

    /** `updateAgent` short of the simulation's own invariant: the agent is
        integrated, the region of its box sampled, and the agent pushed out
        of the boxes of `unique` in order, then out of the voxels of
        `sampled`. */
    method StepAgent(agent: Agent, dt: real)
      returns (boxLanding: bool, contacts: seq<ContactPoint>,
               sampled: seq<VoxelRef>, unique: seq<int>, ghost sources: seq<int>)
      requires space.Valid() && space.gridSize > 0 && agent.body.Valid() && agent.body.mass == 1.0
      requires agent.body !in bodies && agent !in space.Repr && agent.body !in space.Repr
      modifies agent, agent.body
      ensures agent.body.Valid() && agent.body.occupiedChunks == old(agent.body.occupiedChunks)
      ensures var stepped := if old(agent.body.sleeping) then old(agent.body.velocity)
                             else Integrated(old(agent.body.velocity), old(agent.body.deltaMomentums),
                                             [gravity] + old(agent.body.forces), 1.0, dt);
        var landed := boxLanding || Landed(contacts);
        agent.isGrounded == (old(agent.isGrounded) || landed)
        && agent.body.velocity == (if landed then stepped.(y := 0.0) else stepped)
      ensures space.Valid()
      ensures var box := IntegratedBox(old(agent.body.box), old(agent.body.sleeping), old(agent.body.velocity),
                                       old(agent.body.deltaMomentums), old(agent.body.forces), dt);
        space.VoxelsOf(box, sampled) && StrictlySorted(unique) && space.CollidersOf(box, unique)
        && boxLanding == LandsOn(box, unique)
        && var pushed := PushedThrough(box, unique);
           ContactsOf(space, pushed, sampled, agent.body.id, sources, contacts)
           && agent.body.box == pushed.Translate(Sum(Pushes(contacts)))
      ensures old(agent.body.sleeping) ==> agent.body.forces == [gravity] + old(agent.body.forces)
      ensures !old(agent.body.sleeping) ==> agent.body.forces == [] && agent.body.deltaMomentums == []
      ensures agent.body.sleeping == old(agent.body.sleeping)
      ensures forall k :: 0 <= k < |contacts| ==> contacts[k].penetrationDistance > 0.0
      ensures forall k, l :: 0 <= k < l < |contacts| ==> contacts[k].normal != contacts[l].normal
    {
      ghost var box := IntegratedBox(agent.body.box, agent.body.sleeping, agent.body.velocity,
                                     agent.body.deltaMomentums, agent.body.forces, dt);
      IntegrateAgent(agent.body, dt);
      assert agent.body.box == box;
      boxLanding, contacts, sampled, unique, sources := ResolveAgent(agent);
    }

    /** The rest of `updateAgent`, after the integration: sample the
        region of the agent's box, push the agent out of the boxes of
        `unique` in order, then out of the voxels of `sampled`. */
    method ResolveAgent(agent: Agent)
      returns (boxLanding: bool, contacts: seq<ContactPoint>,
               sampled: seq<VoxelRef>, unique: seq<int>, ghost sources: seq<int>)
      requires space.Valid() && space.gridSize > 0 && agent.body.Valid() && agent.body !in bodies
      requires agent !in space.Repr && agent.body !in space.Repr
      modifies agent, agent.body
      ensures agent.body.Valid() && agent.body.occupiedChunks == old(agent.body.occupiedChunks)
      ensures space.Valid()
      ensures var box := old(agent.body.box);
        space.VoxelsOf(box, sampled) && StrictlySorted(unique) && space.CollidersOf(box, unique)
        && boxLanding == LandsOn(box, unique)
        && var pushed := PushedThrough(box, unique);
           ContactsOf(space, pushed, sampled, agent.body.id, sources, contacts)
           && agent.body.box == pushed.Translate(Sum(Pushes(contacts)))
      ensures var landed := boxLanding || Landed(contacts);
        agent.isGrounded == (old(agent.isGrounded) || landed)
        && agent.body.velocity == (if landed then old(agent.body.velocity).(y := 0.0) else old(agent.body.velocity))
      ensures agent.body.deltaMomentums == old(agent.body.deltaMomentums) && agent.body.forces == old(agent.body.forces)
      ensures agent.body.sleeping == old(agent.body.sleeping)
      ensures forall k :: 0 <= k < |contacts| ==> contacts[k].penetrationDistance > 0.0
      ensures forall k, l :: 0 <= k < l < |contacts| ==> contacts[k].normal != contacts[l].normal
    {
      var body := agent.body;
      sampled, unique := SampleRegion(body.box);
      boxLanding, contacts, sources := PushAgent(agent, sampled, unique);
    }

    /** `sampleOccupiedRegion` of the box from two empty lists. */
    method SampleRegion(box: AABB) returns (sampled: seq<VoxelRef>, unique: seq<int>)
      requires space.Valid() && space.gridSize > 0
      ensures space.VoxelsOf(box, sampled) && StrictlySorted(unique) && space.CollidersOf(box, unique)
      ensures forall k :: 0 <= k < |sampled| ==> VoxelOf(space, sampled[k])
    {
      var none: seq<int> := [];
      assert StrictlySorted(none);
      sampled, unique := space.SampleOccupiedRegion(box, [], none);
      DropNone(sampled);
      SampledExist(box, sampled);
    }

    /** The last two steps of `updateAgent`: the agent is pushed out of the
        boxes of `unique` in order, then out of the voxels of `sampled`. */
    method PushAgent(agent: Agent, sampled: seq<VoxelRef>, unique: seq<int>)
      returns (boxLanding: bool, contacts: seq<ContactPoint>, ghost sources: seq<int>)
      requires space.Valid() && space.gridSize > 0 && agent.body.Valid() && agent.body !in bodies
      requires agent !in space.Repr && agent.body !in space.Repr
      requires forall k :: 0 <= k < |sampled| ==> VoxelOf(space, sampled[k])
      modifies agent, agent.body
      ensures agent.body.Valid() && agent.body.occupiedChunks == old(agent.body.occupiedChunks)
      ensures space.Valid() && boxLanding == LandsOn(old(agent.body.box), unique)
      ensures var pushed := PushedThrough(old(agent.body.box), unique);
        ContactsOf(space, pushed, sampled, agent.body.id, sources, contacts)
        && agent.body.box == pushed.Translate(Sum(Pushes(contacts)))
      ensures var landed := boxLanding || Landed(contacts);
        agent.isGrounded == (old(agent.isGrounded) || landed)
        && agent.body.velocity == (if landed then old(agent.body.velocity).(y := 0.0) else old(agent.body.velocity))
      ensures agent.body.deltaMomentums == old(agent.body.deltaMomentums) && agent.body.forces == old(agent.body.forces)
      ensures agent.body.sleeping == old(agent.body.sleeping)
      ensures forall k :: 0 <= k < |contacts| ==> contacts[k].penetrationDistance > 0.0
      ensures forall k, l :: 0 <= k < l < |contacts| ==> contacts[k].normal != contacts[l].normal
    {
      var body := agent.body;
      ghost var pushed := PushedThrough(body.box, unique);
      boxLanding := ResolveAgentColliders(agent, unique);
      assert body.box == pushed;
      contacts, sources := ResolveAgentVoxels(agent, sampled);
      assert boxLanding == LandsOn(old(body.box), unique);
    }

    /** The agent's box after the first two lines of `updateAgent`: moved
        by the integrated velocity times `dt`, unless it sleeps. */
    ghost function IntegratedBox(box: AABB, sleeping: bool, velocity: Vec3, deltaMomentums: seq<Vec3>, forces: seq<Vec3>,
                                 dt: real): AABB
    {
      if sleeping then box
      else box.Translate(Scale(Integrated(velocity, deltaMomentums, [gravity] + forces, 1.0, dt), dt))
    }

    /** The first two lines of `updateAgent`: gravity is queued and the
        agent simulated. */
    method IntegrateAgent(body: Body, dt: real)
      requires body.Valid() && body.mass == 1.0
      modifies body
      ensures body.Valid() && body.sleeping == old(body.sleeping) && body.occupiedChunks == old(body.occupiedChunks)
      ensures old(body.sleeping) ==>
        body.forces == [gravity] + old(body.forces) && body.velocity == old(body.velocity)
        && body.box == old(body.box) && body.deltaMomentums == old(body.deltaMomentums)
      ensures !old(body.sleeping) ==>
        body.velocity == Integrated(old(body.velocity), old(body.deltaMomentums), [gravity] + old(body.forces), 1.0, dt)
        && body.box == old(body.box).Translate(Scale(body.velocity, dt))
        && body.forces == [] && body.deltaMomentums == []
    {
      body.forces := [gravity] + body.forces;
      body.Simulate(dt);
    }

    /** Moving one agent leaves the simulation valid: nothing else changed
        and the agent's body is still usable. */
    twostate lemma AgentMoved(agent: Agent)
      requires old(Valid()) && old(agent in agents) && agent.body.Valid()
      requires unchanged(this, space, space.grids) && unchanged(space.Repr) && unchanged(bodies)
      requires forall a :: a in agents && a != agent ==> unchanged(a)
      requires forall a :: a in agents && a.body != agent.body ==> unchanged(a.body)
      ensures Valid()
    {
    }

    /** The voxel part of `updateAgent`: the agent is pushed out of the
        sampled voxels by the contacts `multiVoxelContactResolution`
        reports, in list order, and lands, with its vertical velocity
        zeroed, when one of them pushes it up. */
    method ResolveAgentVoxels(agent: Agent, sampled: seq<VoxelRef>) returns (contacts: seq<ContactPoint>, ghost sources: seq<int>)
      requires space.Valid() && space.gridSize > 0 && agent.body.Valid()
      requires agent !in space.Repr && agent.body !in space.Repr
      requires forall k :: 0 <= k < |sampled| ==> VoxelOf(space, sampled[k])
      modifies agent, agent.body
      ensures space.Valid() && ContactsOf(space, old(agent.body.box), sampled, agent.body.id, sources, contacts)
      ensures agent.body.Valid() && agent.body.box == old(agent.body.box).Translate(Sum(Pushes(contacts)))
      ensures agent.body.occupiedChunks == old(agent.body.occupiedChunks)
      ensures agent.isGrounded == (old(agent.isGrounded) || Landed(contacts))
      ensures agent.body.velocity == if Landed(contacts) then old(agent.body.velocity).(y := 0.0) else old(agent.body.velocity)
      ensures agent.body.deltaMomentums == old(agent.body.deltaMomentums) && agent.body.forces == old(agent.body.forces)
      ensures agent.body.sleeping == old(agent.body.sleeping)
      ensures forall k :: 0 <= k < |contacts| ==> contacts[k].penetrationDistance > 0.0
      ensures forall k, l :: 0 <= k < l < |contacts| ==> contacts[k].normal != contacts[l].normal
    {
      var body := agent.body;
      var up;
      contacts, up, sources := VoxelContacts(body.box, body.id, sampled);
      LandAgent(agent, contacts, up);
      ContactsOfFrame(old(body.box), sampled, body.id, sources, contacts);
    }

    /** The close of the voxel part of `updateAgent`: the contacts move the
        agent's box, and an upward push grounds it with its vertical
        velocity zeroed. */
    method LandAgent(agent: Agent, contacts: seq<ContactPoint>, up: bool)
      requires agent.body.Valid()
      modifies agent, agent.body
      ensures agent.body.Valid() && agent.body.box == old(agent.body.box).Translate(Sum(Pushes(contacts)))
      ensures agent.body.occupiedChunks == old(agent.body.occupiedChunks)
      ensures agent.isGrounded == (old(agent.isGrounded) || up)
      ensures agent.body.velocity == if up then old(agent.body.velocity).(y := 0.0) else old(agent.body.velocity)
      ensures agent.body.deltaMomentums == old(agent.body.deltaMomentums) && agent.body.forces == old(agent.body.forces)
      ensures agent.body.sleeping == old(agent.body.sleeping)
    {
      var body := agent.body;
      ApplyContacts(body, contacts);
      if up {
        body.velocity := body.velocity.(y := 0.0);
        agent.isGrounded := true;
      }
    }

    /** What the voxel contacts are depends only on the space's own objects. */
    twostate lemma ContactsOfFrame(new box: AABB, new rs: seq<VoxelRef>, self: int, new sources: seq<int>,
                                   new contacts: seq<ContactPoint>)
      requires old(space.Valid() && space.gridSize > 0) && old(ContactsOf(space, box, rs, self, sources, contacts))
      requires unchanged(space) && unchanged(space.Repr)
      ensures space.Valid() && ContactsOf(space, box, rs, self, sources, contacts)
    {
    }

    /** `multiVoxelContactResolution` into a fresh field, as `updateAgent`
        and `simulateBodies` call it, with the test of the field's upward
        entry: the contacts are as deep as they are positive, no two push
        along the same normal, and the upward entry is positive exactly
        when one of them pushes up. */
    method VoxelContacts(box: AABB, self: int, sampled: seq<VoxelRef>)
      returns (contacts: seq<ContactPoint>, up: bool, ghost sources: seq<int>)
      requires space.Valid() && space.gridSize > 0
      requires forall k :: 0 <= k < |sampled| ==> VoxelOf(space, sampled[k])
      ensures |sources| == 6
      ensures contacts == FieldContacts(Maxima(old(Contributions(space, box, sampled))), sources, self, box.position, 6)
      ensures forall k :: 0 <= k < |contacts| ==> contacts[k].penetrationDistance > 0.0
      ensures forall k, l :: 0 <= k < l < |contacts| ==> contacts[k].normal != contacts[l].normal
      ensures up == Landed(contacts)
    {
      var field := new PenetrationField();
      contacts := MultiVoxelContactResolution(box, self, sampled, field);
      assert field.Inserted == old(Contributions(space, box, sampled));
      sources := field.voxels[..];
      up := field.maxPenetrations[Index(Up)] > 0.0;
      FieldOfContributions(field, self, box.position, contacts);
    }

    /** The sampled voxels all exist. */
    lemma SampledExist(box: AABB, sampled: seq<VoxelRef>)
      requires space.Valid() && space.gridSize > 0
      requires forall v :: v in sampled <==> space.Found(v, space.SampledChunks(box), box)
      ensures forall k :: 0 <= k < |sampled| ==> VoxelOf(space, sampled[k])
    {
      DropNone(sampled);
      forall k | 0 <= k < |sampled|
        ensures VoxelOf(space, sampled[k])
      {
        var v := sampled[k];
        assert space.Found(v, space.SampledChunks(box), box);
        var g := space.Chunk(v.chunk);
        assert v.index in g.RegionVoxels(box);
        assert g.voxels.Length == g.indexCount;
      }
    }

    /** The agent's box after the collider `id` has pushed it: unchanged
        when `id` names no body or the boxes do not overlap. */
    ghost function PushedBy(box: AABB, id: int): AABB
      reads this, bodies
    {
      match Find(bodies, id)
      case None => box
      case Some(b) =>
        match AgentPush(box, b.box)
        case None => box
        case Some((d, p)) => box.Translate(Scale(ToVector(d), p))
    }

    /** The collider `id` pushes the box up: the test that grounds an agent. */
    ghost predicate PushesUp(box: AABB, id: int)
      reads this, bodies
    {
      Find(bodies, id).Some? && AgentPush(box, Find(bodies, id).value.box).Some?
      && AgentPush(box, Find(bodies, id).value.box).value.0 == Up
    }

    /** The box after the colliders `ids` have pushed it, in list order. */
    ghost function PushedThrough(box: AABB, ids: seq<int>): AABB
      reads this, bodies
      decreases |ids|
    {
      if |ids| == 0 then box else PushedThrough(PushedBy(box, ids[0]), ids[1..])
    }

    /** Some collider of `ids` pushes the box up, at the box it has reached
        when its turn comes. */
    ghost predicate LandsOn(box: AABB, ids: seq<int>)
      reads this, bodies
      decreases |ids|
    {
      |ids| > 0 && (PushesUp(box, ids[0]) || LandsOn(PushedBy(box, ids[0]), ids[1..]))
    }

    /** Pushing through one more collider is one more push at the end. */
    lemma {:induction false} PushedThroughSnoc(box: AABB, ids: seq<int>, id: int)
      ensures PushedThrough(box, ids + [id]) == PushedBy(PushedThrough(box, ids), id)
      ensures LandsOn(box, ids + [id]) <==> LandsOn(box, ids) || PushesUp(PushedThrough(box, ids), id)
      decreases |ids|
    {
      if |ids| > 0 {
        assert (ids + [id])[1..] == ids[1..] + [id];
        PushedThroughSnoc(PushedBy(box, ids[0]), ids[1..], id);
      }
    }

    /** The agent lands on the colliders exactly when one of them, at the
        box the earlier ones have pushed it to, pushes it up. */
    lemma {:induction false} LandsOnSomePush(box: AABB, ids: seq<int>)
      ensures LandsOn(box, ids) <==> exists k :: 0 <= k < |ids| && PushesUp(PushedThrough(box, ids[..k]), ids[k])
      decreases |ids|
    {
      if |ids| > 0 {
        var n := |ids| - 1;
        assert ids == ids[..n] + [ids[n]];
        PushedThroughSnoc(box, ids[..n], ids[n]);
        LandsOnSomePush(box, ids[..n]);
        forall k | 0 <= k < n
          ensures ids[..n][..k] == ids[..k] && ids[..n][k] == ids[k]
        {
        }
      }
    }

    /** The loop of `updateAgent` over the colliders registered in its
        region: every body the agent's box overlaps pushes it out along the
        first escape direction, and a push up lands it. */
    method ResolveAgentColliders(agent: Agent, unique: seq<int>) returns (landed: bool)
      requires agent.body.Valid() && agent.body !in bodies
      modifies agent, agent.body
      ensures agent.body.Valid() && agent.body.occupiedChunks == old(agent.body.occupiedChunks)
      ensures agent.body.box == PushedThrough(old(agent.body.box), unique)
      ensures landed == LandsOn(old(agent.body.box), unique)
      ensures agent.isGrounded == (old(agent.isGrounded) || landed)
      ensures agent.body.velocity == if landed then old(agent.body.velocity).(y := 0.0) else old(agent.body.velocity)
      ensures agent.body.deltaMomentums == old(agent.body.deltaMomentums) && agent.body.forces == old(agent.body.forces)
      ensures agent.body.sleeping == old(agent.body.sleeping)
    {
      landed := false;
      var body := agent.body;
      ghost var target, lands := PushedThrough(body.box, unique), LandsOn(body.box, unique);
      var k := 0;
      while k < |unique|
        invariant 0 <= k <= |unique| && body.Valid()
        invariant PushedThrough(body.box, unique[k..]) == target
        invariant (landed || LandsOn(body.box, unique[k..])) == lands
        invariant agent.isGrounded == (old(agent.isGrounded) || landed)
        invariant body.velocity == if landed then old(body.velocity).(y := 0.0) else old(body.velocity)
        invariant body.deltaMomentums == old(body.deltaMomentums) && body.forces == old(body.forces)
        invariant body.sleeping == old(body.sleeping) && body.occupiedChunks == old(body.occupiedChunks)
      {
        assert unique[k..][1..] == unique[k + 1..];
        var up := ColliderTurn(agent, unique[k]);
        landed := landed || up;
        k := k + 1;
      }
    }

    /** One turn of the loop of `updateAgent` over the colliders: the
        collider `id`, when it names a body, pushes the agent, and a push up
        lands it with its vertical velocity zeroed. */
    method ColliderTurn(agent: Agent, id: int) returns (up: bool)
      requires agent.body.Valid() && agent.body !in bodies
      modifies agent, agent.body
      ensures agent.body.Valid() && agent.body.occupiedChunks == old(agent.body.occupiedChunks)
      ensures agent.body.box == PushedBy(old(agent.body.box), id)
      ensures up == PushesUp(old(agent.body.box), id)
      ensures agent.isGrounded == (old(agent.isGrounded) || up)
      ensures agent.body.velocity == if up then old(agent.body.velocity).(y := 0.0) else old(agent.body.velocity)
      ensures agent.body.deltaMomentums == old(agent.body.deltaMomentums) && agent.body.forces == old(agent.body.forces)
      ensures agent.body.sleeping == old(agent.body.sleeping)
    {
      up := false;
      var body := agent.body;
      match Find(bodies, id) {
        case None =>
        case Some(other) =>
          up := AgentContact(body, other);
          if up {
            body.velocity := body.velocity.(y := 0.0);
            agent.isGrounded := true;
          }
      }
    }

    /** One turn of the loop of `updateAgent` over the colliders: when the
        agent's box overlaps the other body's, `collisionAABB` and
        `resolveAABBContact` push it by `AgentPush`; `up` says whether the
        push was upwards.  Nothing but the box moves. */
    method AgentContact(body: Body, other: Body) returns (up: bool)
      requires body.Valid() && other != body
      modifies body
      ensures body.Valid()
      ensures body.box == match AgentPush(old(body.box), other.box)
                          case None => old(body.box)
                          case Some((d, p)) => old(body.box).Translate(Scale(ToVector(d), p))
      ensures up <==> AgentPush(old(body.box), other.box).Some? && AgentPush(old(body.box), other.box).value.0 == Up
      ensures body.velocity == old(body.velocity) && body.sleeping == old(body.sleeping)
      ensures body.deltaMomentums == old(body.deltaMomentums) && body.forces == old(body.forces)
      ensures body.occupiedChunks == old(body.occupiedChunks) && body.useGravity == old(body.useGravity)
    {
      var contact := new AABBContact();
      var hit := CollisionAABB(body.box, body.id, other.box, other.id, contact);
      up := false;
      if hit {
        var region := body.box.IntersectionRegion(other.box).1;
        var q := SignV(Sub(body.box.position, other.box.position));
        MinDirectionsUnique(contact.minDirections[..], EscapeOrder(region.halfExtents, q), region.halfExtents, q);
        var d := contact.minDirections[0];
        var depth := contact.GetPenetrationByDirection(d);
        AgentPushIs(body.box, other.box, d, depth);
        body.Translate(Scale(ToVector(d), depth));
        up := d == Up;
      }
    }

    /** The loop of `updateAgent` over its voxel contacts: a translation by
        each contact's normal times its penetration, in list order. */
    method ApplyContacts(body: Body, contacts: seq<ContactPoint>)
      requires body.Valid()
      modifies body
      ensures body.Valid() && body.box == old(body.box).Translate(Sum(Pushes(contacts)))
      ensures body.velocity == old(body.velocity) && body.sleeping == old(body.sleeping)
      ensures body.deltaMomentums == old(body.deltaMomentums) && body.forces == old(body.forces)
      ensures body.occupiedChunks == old(body.occupiedChunks) && body.useGravity == old(body.useGravity)
    {
      TranslateZero(body.box);
      assert contacts[..0] == [];
      var k := 0;
      while k < |contacts|
        invariant 0 <= k <= |contacts| && body.Valid()
        invariant body.box == old(body.box).Translate(Sum(Pushes(contacts[..k])))
        invariant body.velocity == old(body.velocity) && body.sleeping == old(body.sleeping)
        invariant body.deltaMomentums == old(body.deltaMomentums) && body.forces == old(body.forces)
        invariant body.occupiedChunks == old(body.occupiedChunks) && body.useGravity == old(body.useGravity)
      {
        PushesStep(old(body.box), contacts, k);
        body.Translate(Scale(contacts[k].normal, contacts[k].penetrationDistance));
        k := k + 1;
      }
      TakeAll(contacts);
    }

    // ---- bodies ----

    /** `simulateBodies`: one turn for every body in list order. */
    method SimulateBodies(dt: real)
      requires Valid()
      modifies this, bodies, space.VoxelArrays()
      ensures Valid() && bodies == old(bodies) && agents == old(agents) && nextId == old(nextId)
      ensures phases == old(phases) + [BodyPhase(dt)]
    {
      var k := 0;
      while k < |bodies|
        invariant 0 <= k <= |bodies| && Valid()
        invariant bodies == old(bodies) && agents == old(agents) && nextId == old(nextId) && phases == old(phases)
      {
        ghost var moved := StepBody(bodies[k], dt);
        k := k + 1;
      }
      phases := phases + [BodyPhase(dt)];
    }

    /** One turn of the loop of `simulateBodies`: integrate the body, move
        its registration to the box it now has (`moved`), push it and the
        bodies it overlaps apart, then push it out of the voxels.  The
        registration is not moved again after the pushes. */
    method StepBody(body: Body, dt: real) returns (ghost moved: AABB)
      requires Valid() && body in bodies
      modifies bodies, space.VoxelArrays()
      ensures Valid() && body.useGravity == old(body.useGravity)
      ensures old(body.sleeping) ==> moved == old(body.box) && body.velocity == old(body.velocity)
      ensures !old(body.sleeping) ==>
        var free := Integrated(old(body.velocity), old(body.deltaMomentums), old(body.forces), body.mass, dt);
        body.velocity == (if body.useGravity then Add(free, Scale(gravity, dt)) else free)
        && moved == old(body.box).Translate(Scale(body.velocity, dt))
      ensures space.Memberships(body.occupiedChunks, space.SampledChunks(moved), moved)
    {
      moved := MoveBody(body, dt);
      ResolveBody(body, dt);
    }

    /** The first half of a turn of `simulateBodies`: integrate the body
        and move its registration to its new box. */
    method MoveBody(body: Body, dt: real) returns (ghost moved: AABB)
      requires Valid() && body in bodies
      modifies body, space.VoxelArrays()
      ensures Valid() && moved == body.box
      ensures body.sleeping == old(body.sleeping) && body.useGravity == old(body.useGravity)
      ensures old(body.sleeping) ==> body.Motion() == old(body.Motion())
      ensures !old(body.sleeping) ==>
        var free := Integrated(old(body.velocity), old(body.deltaMomentums), old(body.forces), body.mass, dt);
        body.velocity == (if body.useGravity then Add(free, Scale(gravity, dt)) else free)
        && moved == old(body.box).Translate(Scale(body.velocity, dt))
        && body.deltaMomentums == [] && body.forces == []
      ensures space.Memberships(body.occupiedChunks, space.SampledChunks(moved), moved)
    {
      IntegrateBody(body, dt);
      space.UpdateCollider(body);
      moved := body.box;
      space.MembershipsListed(body.occupiedChunks, space.SampledChunks(moved), moved);
      BodiesMoved();
    }

    /** The second half of a turn of `simulateBodies`: push the body and
        the bodies it overlaps apart, then push it out of the voxels.  No
        registration changes. */
    method ResolveBody(body: Body, dt: real)
      requires Valid() && body in bodies
      modifies bodies
      ensures Valid() && body.occupiedChunks == old(body.occupiedChunks)
      ensures forall b :: b in bodies ==> b.velocity == old(b.velocity) && b.useGravity == old(b.useGravity)
    {
      var sampled, unique := space.SampleOccupiedRegion(body.box, [], []);
      DropNone(sampled);
      SampledExist(body.box, sampled);
      ResolveBodyPairs(body, unique, dt);
      var contacts, _, _ := VoxelContacts(body.box, body.id, sampled);
      ResolveStaticContacts(body, contacts, dt);
      BodiesMoved();
    }

    /** Moving bodies, and their registrations in a space that stays valid,
        leaves the simulation valid when every body is still usable and
        walkable. */
    twostate lemma BodiesMoved()
      requires old(Valid()) && unchanged(this, space, space.grids) && space.Valid()
      requires forall a :: a in agents ==> unchanged(a, a.body)
      requires forall b :: b in bodies ==> b.Valid() && space.Listed(b.occupiedChunks)
      ensures Valid()
    {
    }

    /** The first lines of the loop of `simulateBodies`: gravity times the
        mass is queued only for an awake body under gravity, then
        `simulate`.  Gravity thus adds exactly gravity times `dt` to the
        velocity, whatever the mass. */
    method IntegrateBody(body: Body, dt: real)
      requires body.Valid()
      modifies body
      ensures body.Valid() && body.occupiedChunks == old(body.occupiedChunks)
      ensures body.sleeping == old(body.sleeping) && body.useGravity == old(body.useGravity)
      ensures old(body.sleeping) ==> body.Motion() == old(body.Motion())
      ensures !old(body.sleeping) ==>
        var free := Integrated(old(body.velocity), old(body.deltaMomentums), old(body.forces), body.mass, dt);
        body.velocity == (if body.useGravity then Add(free, Scale(gravity, dt)) else free)
        && body.box == old(body.box).Translate(Scale(body.velocity, dt))
        && body.deltaMomentums == [] && body.forces == []
    {
      if body.useGravity && !body.sleeping {
        body.forces := [Scale(gravity, body.mass)] + body.forces;
      }
      body.Simulate(dt);
      if !old(body.sleeping) && body.useGravity {
        QueuedGravity(old(body.velocity), old(body.deltaMomentums), old(body.forces), gravity, body.mass, dt);
      }
    }

    /** The loop of `simulateBodies` over the colliders registered in the
        body's region: each other body it overlaps is resolved against it
        along the first escape direction of their overlap. */
    method ResolveBodyPairs(body: Body, unique: seq<int>, dt: real)
      requires body in bodies && forall b :: b in bodies ==> b.Valid()
      modifies bodies
      ensures forall b :: b in bodies ==> b.Valid() && b.occupiedChunks == old(b.occupiedChunks)
      ensures forall b :: b in bodies ==> b.velocity == old(b.velocity) && b.useGravity == old(b.useGravity)
    {
      var k := 0;
      while k < |unique|
        invariant 0 <= k <= |unique|
        invariant forall b :: b in bodies ==> b.Valid() && b.occupiedChunks == old(b.occupiedChunks)
        invariant forall b :: b in bodies ==> b.velocity == old(b.velocity) && b.useGravity == old(b.useGravity)
      {
        match Partner(body, unique[k]) {
          case None =>
          case Some(other) =>
            PairContact(body, other, dt);
        }
        k := k + 1;
      }
    }

    /** One turn of the loop of `simulateBodies` over the colliders: when
        the two boxes overlap, the contact point along the first escape
        direction of the overlap, as deep as the overlap is wide along it,
        is resolved by `resolveAABBDynamicBodyContact`, which moves each box
        half of the depth apart; otherwise nothing changes. */
    method PairContact(body: Body, other: Body, dt: real)
      requires body.Valid() && other.Valid() && body != other
      modifies body, other
      ensures body.Valid() && other.Valid()
      ensures body.occupiedChunks == old(body.occupiedChunks) && other.occupiedChunks == old(other.occupiedChunks)
      ensures body.useGravity == old(body.useGravity) && other.useGravity == old(other.useGravity)
      ensures body.velocity == old(body.velocity) && other.velocity == old(other.velocity)
      ensures AgentPush(old(body.box), old(other.box)).None? ==>
        body.Motion() == old(body.Motion()) && other.Motion() == old(other.Motion())
      ensures AgentPush(old(body.box), old(other.box)).Some? ==>
        var (d, p) := AgentPush(old(body.box), old(other.box)).value;
        body.box == old(body.box).Translate(Scale(Scale(ToVector(d), p), 0.5))
        && other.box == old(other.box).Translate(Scale(Scale(ToVector(d), -p), 0.5))
      ensures AgentPush(old(body.box), old(other.box)).Some? ==>
        var n := ToVector(AgentPush(old(body.box), old(other.box)).value.0);
        var vRel := Sub(old(other.velocity), old(body.velocity));
        var settles := n.y > 0.0;
        length(vRel) < 0.5 ==>
          other.sleeping == old(other.sleeping) && other.deltaMomentums == old(other.deltaMomentums)
          && other.forces == old(other.forces)
          && body.sleeping == (old(body.sleeping) || settles)
          && (settles ==> body.deltaMomentums == [] && body.forces == [])
          && (!settles ==> body.deltaMomentums == old(body.deltaMomentums) && body.forces == old(body.forces))
      ensures AgentPush(old(body.box), old(other.box)).Some? ==>
        var n := ToVector(AgentPush(old(body.box), old(other.box)).value.0);
        var vRel := Sub(old(other.velocity), old(body.velocity));
        length(vRel) >= 0.5 ==>
          !other.sleeping && body.sleeping == old(body.sleeping)
          && body.forces == old(body.forces) && other.forces == old(other.forces)
          && body.deltaMomentums == BodyImpulses(vRel, n, body.mass, body.restitution, body.friction) + old(body.deltaMomentums)
          && other.deltaMomentums == OtherImpulses(vRel, n, body.mass, body.restitution, body.friction) + old(other.deltaMomentums)
    {
      var (hit, region) := body.box.IntersectionRegion(other.box);
      if hit {
        var contact := new AABBContact();
        var q := SignV(Sub(body.box.position, other.box.position));
        contact.SetParameters(body.id, other.id, region, q);
        contact.SetPenetrations();
        MinDirectionsUnique(contact.minDirections[..], EscapeOrder(region.halfExtents, q), region.halfExtents, q);
        var d := contact.minDirections[0];
        var depth := contact.GetPenetrationByDirection(d);
        AgentPushIs(body.box, other.box, d, depth);
        var cp := ContactPoint(body.id, other.id, region.position, ToVector(d), depth);
        ResolveDynamic(body, other, cp, dt);
      }
    }

    /** The impulses a dynamic contact queues on the first body, latest
        first: friction along the tangential relative velocity when that
        has a length, then the normal part of the relative velocity, both
        scaled by the first body's mass. */
    function BodyImpulses(vRel: Vec3, n: Vec3, mass: real, restitution: real, friction: real): seq<Vec3>
    {
      var vn := Scale(n, Dot(n, vRel));
      var frictionDir := normalize(TangentialComponent(vRel, n));
      (if length(frictionDir) > 0.0
       then [Scale(Scale(Scale(Scale(frictionDir, length(vn)), mass), friction), frictionFactor)] else [])
      + [Scale(Scale(vn, mass), restitution)]
    }

    /** The impulses the same contact queues on the other body, written
        with the signs turned round. */
    function OtherImpulses(vRel: Vec3, n: Vec3, mass: real, restitution: real, friction: real): seq<Vec3>
    {
      var vn := Scale(n, Dot(n, vRel));
      var frictionDir := normalize(TangentialComponent(vRel, n));
      (if length(frictionDir) > 0.0
       then [Scale(Scale(Scale(Scale(frictionDir, length(vn)), -mass), friction), frictionFactor)] else [])
      + [Scale(Scale(vn, mass), -restitution)]
    }

    /** The impulses of a dynamic contact are equal and opposite, one by
        one, and so add up to nothing. */
    lemma {:induction false} DynamicImpulsesCancel(vRel: Vec3, n: Vec3, mass: real, restitution: real, friction: real)
      ensures var a := BodyImpulses(vRel, n, mass, restitution, friction);
        var b := OtherImpulses(vRel, n, mass, restitution, friction);
        |a| == |b| && (forall k :: 0 <= k < |a| ==> b[k] == Neg(a[k])) && Add(Sum(a), Sum(b)) == Zero()
    {
      var a := BodyImpulses(vRel, n, mass, restitution, friction);
      var b := OtherImpulses(vRel, n, mass, restitution, friction);
      var vn := Scale(n, Dot(n, vRel));
      var fd := normalize(TangentialComponent(vRel, n));
      var s := length(vn);
      assert Scale(Scale(vn, mass), -restitution) == Neg(Scale(Scale(vn, mass), restitution)) by {
        assert vn.x * mass * -restitution == vn.x * mass * restitution * -1.0;
        assert vn.y * mass * -restitution == vn.y * mass * restitution * -1.0;
        assert vn.z * mass * -restitution == vn.z * mass * restitution * -1.0;
      }
      assert Scale(Scale(Scale(Scale(fd, s), -mass), friction), frictionFactor)
             == Neg(Scale(Scale(Scale(Scale(fd, s), mass), friction), frictionFactor)) by {
        assert fd.x * s * -mass * friction * frictionFactor == fd.x * s * mass * friction * frictionFactor * -1.0;
        assert fd.y * s * -mass * friction * frictionFactor == fd.y * s * mass * friction * frictionFactor * -1.0;
        assert fd.z * s * -mass * friction * frictionFactor == fd.z * s * mass * friction * frictionFactor * -1.0;
      }
      PairImpulsesCancel(a, b);
    }

    /** `resolveAABBDynamicBodyContact`: the two bodies move apart by equal
        and opposite halves of the penetration.  When they meet slowly (a
        relative speed under 0.5) the first body falls asleep if the normal
        points up, and no impulse is queued; otherwise the other body wakes
        and the two queue the impulses of `BodyImpulses` and
        `OtherImpulses`. */
    method ResolveDynamic(body: Body, other: Body, cp: ContactPoint, dt: real)
      requires body.Valid() && other.Valid() && body != other
      modifies body, other
      ensures body.Valid() && other.Valid()
      ensures body.occupiedChunks == old(body.occupiedChunks) && other.occupiedChunks == old(other.occupiedChunks)
      ensures body.useGravity == old(body.useGravity) && other.useGravity == old(other.useGravity)
      ensures body.velocity == old(body.velocity) && other.velocity == old(other.velocity)
      ensures body.box == old(body.box).Translate(Scale(Scale(cp.normal, cp.penetrationDistance), 0.5))
      ensures other.box == old(other.box).Translate(Scale(Scale(cp.normal, -cp.penetrationDistance), 0.5))
      ensures var vRel := Sub(old(other.velocity), old(body.velocity));
        var settles := cp.normal.y > 0.0;
        length(vRel) < 0.5 ==>
          other.sleeping == old(other.sleeping) && other.deltaMomentums == old(other.deltaMomentums)
          && other.forces == old(other.forces)
          && body.sleeping == (old(body.sleeping) || settles)
          && (settles ==> body.deltaMomentums == [] && body.forces == [])
          && (!settles ==> body.deltaMomentums == old(body.deltaMomentums) && body.forces == old(body.forces))
      ensures var vRel := Sub(old(other.velocity), old(body.velocity));
        length(vRel) >= 0.5 ==>
          !other.sleeping && body.sleeping == old(body.sleeping)
          && body.forces == old(body.forces) && other.forces == old(other.forces)
          && body.deltaMomentums
             == BodyImpulses(vRel, cp.normal, body.mass, body.restitution, body.friction) + old(body.deltaMomentums)
          && other.deltaMomentums
             == OtherImpulses(vRel, cp.normal, body.mass, body.restitution, body.friction) + old(other.deltaMomentums)
    {
      body.Translate(Scale(Scale(cp.normal, cp.penetrationDistance), 0.5));
      other.Translate(Scale(Scale(cp.normal, -cp.penetrationDistance), 0.5));
      var vRel := Sub(other.velocity, body.velocity);
      var vn := Scale(cp.normal, Dot(cp.normal, vRel));
      var vMag := length(vRel);
      var vnMag := length(vn);
      if vMag < 0.5 {
        if cp.normal.y > 0.0 {
          body.SetSleeping(true);
        }
      } else {
        QueueDynamicImpulses(body, other, vRel, cp.normal);
      }
    }

    /** The impulses of a fast dynamic contact: the other body wakes, then
        each body queues the normal part of the relative velocity and, when
        the sliding direction has a length, the friction along it. */
    method QueueDynamicImpulses(body: Body, other: Body, vRel: Vec3, n: Vec3)
      requires body.Valid() && other.Valid() && body != other
      modifies body, other
      ensures body.Valid() && other.Valid() && !other.sleeping
      ensures body.box == old(body.box) && body.velocity == old(body.velocity) && body.forces == old(body.forces)
      ensures body.sleeping == old(body.sleeping) && body.useGravity == old(body.useGravity)
      ensures body.occupiedChunks == old(body.occupiedChunks) && other.occupiedChunks == old(other.occupiedChunks)
      ensures other.box == old(other.box) && other.velocity == old(other.velocity)
      ensures other.forces == old(other.forces) && other.useGravity == old(other.useGravity)
      ensures body.deltaMomentums == BodyImpulses(vRel, n, body.mass, body.restitution, body.friction) + old(body.deltaMomentums)
      ensures other.deltaMomentums == OtherImpulses(vRel, n, body.mass, body.restitution, body.friction) + old(other.deltaMomentums)
    {
      if other.sleeping {
        other.SetSleeping(false);
      }
      var vn := Scale(n, Dot(n, vRel));
      var vnMag := length(vn);
      var bounce := Scale(Scale(vn, body.mass), body.restitution);
      var counter := Scale(Scale(vn, body.mass), -body.restitution);
      body.deltaMomentums := [bounce] + body.deltaMomentums;
      other.deltaMomentums := [counter] + other.deltaMomentums;
      var frictionDir := normalize(TangentialComponent(vRel, n));
      if length(frictionDir) > 0.0 {
        var drag := Scale(Scale(Scale(Scale(frictionDir, vnMag), body.mass), body.friction), frictionFactor);
        var counterDrag := Scale(Scale(Scale(Scale(frictionDir, vnMag), -body.mass), body.friction), frictionFactor);
        body.deltaMomentums := [drag] + body.deltaMomentums;
        other.deltaMomentums := [counterDrag] + other.deltaMomentums;
        ConsAssoc(drag, [bounce], old(body.deltaMomentums));
        ConsAssoc(counterDrag, [counter], old(other.deltaMomentums));
      }
    }

    /** The loop of `simulateBodies` over the voxel contacts: each resolved
        in list order.  Together they move the body by the sum of the
        contacts' pushes. */
    method ResolveStaticContacts(body: Body, contacts: seq<ContactPoint>, dt: real)
      requires body.Valid()
      modifies body
      ensures body.Valid() && body.occupiedChunks == old(body.occupiedChunks)
      ensures body.box == old(body.box).Translate(Sum(Pushes(contacts)))
      ensures body.velocity == old(body.velocity) && body.useGravity == old(body.useGravity)
    {
      TranslateZero(body.box);
      assert contacts[..0] == [];
      var k := 0;
      while k < |contacts|
        invariant 0 <= k <= |contacts| && body.Valid()
        invariant body.box == old(body.box).Translate(Sum(Pushes(contacts[..k])))
        invariant body.velocity == old(body.velocity) && body.useGravity == old(body.useGravity)
        invariant body.occupiedChunks == old(body.occupiedChunks)
      {
        PushesStep(old(body.box), contacts, k);
        ResolveStatic(body, contacts[k], dt);
        k := k + 1;
      }
      TakeAll(contacts);
    }

    /** The friction impulse of a static contact, when the sliding
        direction has a length: against the sliding, as large as the speed
        times mass, friction and `frictionFactor`. */
    function StaticFriction(v: Vec3, n: Vec3, mass: real, friction: real): seq<Vec3>
    {
      var frictionDir := Scale(normalize(Sub(v, NormalComponent(v, n))), -1.0);
      if length(frictionDir) > 0.0
      then [Scale(Scale(Scale(Scale(frictionDir, length(v)), mass), friction), frictionFactor)]
      else []
    }

    /** `resolveAABBStaticBodyContact`: the body moves by normal times
        penetration and queues the normal impulse, then the friction
        impulse; a slow body (speed under 0.5) on an upward normal falls
        asleep instead, which empties its queues. */
    method ResolveStatic(body: Body, cp: ContactPoint, dt: real)
      requires body.Valid()
      modifies body
      ensures body.Valid() && body.occupiedChunks == old(body.occupiedChunks) && body.useGravity == old(body.useGravity)
      ensures body.box == old(body.box).Translate(Scale(cp.normal, cp.penetrationDistance))
      ensures body.velocity == old(body.velocity)
      ensures var v := old(body.velocity);
        var settles := length(v) < 0.5 && cp.normal.y > 0.0;
        body.sleeping == (old(body.sleeping) || settles)
        && (settles ==> body.deltaMomentums == [] && body.forces == [])
        && (!settles ==>
              body.forces == old(body.forces)
              && body.deltaMomentums == StaticFriction(v, cp.normal, body.mass, body.friction)
                                        + [NormalImpulse(v, cp.normal, body.mass, body.restitution)]
                                        + old(body.deltaMomentums))
    {
      body.Translate(Scale(cp.normal, cp.penetrationDistance));
      var vn := Scale(Scale(cp.normal, Dot(cp.normal, body.velocity)), -1.0);
      body.deltaMomentums := [Scale(Scale(vn, body.mass), body.restitution)] + body.deltaMomentums;
      var normalVelocity := NormalComponent(body.velocity, cp.normal);
      var frictionDir := Scale(normalize(Sub(body.velocity, normalVelocity)), -1.0);
      var vMag := length(body.velocity);
      if length(frictionDir) > 0.0 {
        body.deltaMomentums :=
          [Scale(Scale(Scale(Scale(frictionDir, vMag), body.mass), body.friction), frictionFactor)] + body.deltaMomentums;
      }
      if vMag < 0.5 && cp.normal.y > 0.0 {
        body.SetSleeping(true);
      }
    }

    // ---- the step ----

    /** `simulate(dt)`: the step is `dt`, capped at `dtCap`; every agent is
        updated before any body. */
    method Simulate(dt: real) returns (step: real)
      requires Valid()
      modifies this, agents, AgentBodies(), bodies, space.VoxelArrays()
      ensures Valid() && bodies == old(bodies) && agents == old(agents)
      ensures step == Min(dt, dtCap)
      ensures phases == old(phases) + [AgentPhase(step), BodyPhase(step)]
    {
      step := dt;
      if step > dtCap {
        step := dtCap;
      }
      SimulateAgents(step);
      SimulateBodies(step);
    }
  }
}

=== FILE: space.dfy ===
/** `VDSpace`: a box of `horizontalGrids` by `verticalGrids` by
    `horizontalGrids` chunk slots, each holding a `VDGrid` once it is marked
    occupied.  Slot (x, y, z) has index x + y*H + z*H*V and its chunk's low
    corner is `anchor + (x, y, z) * gridSize`.  A collider is registered in
    the chunks its box overlaps; it keeps one `ChunkMembership` per chunk. */
module Spaces {
  import opened VectorMath
  import opened Collider
  import opened Lattice
  import opened ListSpec
  import opened Wrappers
  import opened Grids
  import opened Bodies

  /** `VDChunkOccupation`: whether the slot holds a chunk, and the chunk. */
  datatype ChunkOccupation = ChunkOccupation(occupied: bool, chunk: Grid?)

  /** The chunk ids of the membership lists. */
  function Ids(ms: seq<ChunkMembership>): set<nat>
  {
    if |ms| == 0 then {} else {ms[0].id} + Ids(ms[1..])
  }

  lemma {:induction false} IdsHas(ms: seq<ChunkMembership>, k: nat)
    requires k < |ms|
    ensures ms[k].id in Ids(ms)
    decreases k
  {
    if k > 0 {
      IdsHas(ms[1..], k - 1);
    }
  }

  /** A voxel after `updateCollider`: the collider leaves it if it was on
      the collider's lists, then joins it if it lies in the new region. */
  function Updated(v: Voxel, id: int, listed: bool, inRegion: bool): Voxel
  {
    var w := if listed then WithoutCollider(v, id) else v;
    if inRegion then WithCollider(w, id) else w
  }

  /** After `updateCollider` a voxel holds the collider exactly when it
      lies in the new region, or already held it without being on the
      collider's lists; every other collider is left where it was. */
  lemma UpdatedColliders(v: Voxel, id: int, listed: bool, inRegion: bool)
    requires StrictlySorted(v.colliders)
    ensures StrictlySorted(Updated(v, id, listed, inRegion).colliders)
    ensures id in Updated(v, id, listed, inRegion).colliders <==> inRegion || (!listed && id in v.colliders)
    ensures forall c :: c != id ==> (c in Updated(v, id, listed, inRegion).colliders <==> c in v.colliders)
  {
    var w := if listed then WithoutCollider(v, id) else v;
    var u := Updated(v, id, listed, inRegion);
    if listed {
      RemoveSortedStrictSet(v.colliders, id);
    }
    assert StrictlySorted(w.colliders);
    assert Elems(w.colliders) == if listed then Elems(v.colliders) - {id} else Elems(v.colliders);
    if inRegion {
      InsertSortedUniqueStrict(w.colliders, id);
    }
    assert Elems(u.colliders) == if inRegion then Elems(w.colliders) + {id} else Elems(w.colliders);
    forall c
      ensures c in u.colliders <==> c in Elems(u.colliders)
      ensures c in v.colliders <==> c in Elems(v.colliders)
    {
    }
  }

  /** One axis of the wrap in `moveIndex`: below zero goes to the far face
      of the previous chunk, past the last cell to the near face of the
      next. */
  function Wrap(v: int, c: int, n: int): (int, int)
  {
    var (v1, c1) := if v < 0 then (n - 1, c - 1) else (v, c);
    if v1 >= n then (0, c1 + 1) else (v1, c1)
  }

  /** A one-cell step `s` from cell `b` of a chunk `n` cells wide lands in
      the chunk or its neighbour in the direction of the step, at the same
      global cell. */
  lemma {:induction false} WrapAxis(b: int, s: int, c: int, n: int)
    requires n > 0 && 0 <= b < n && -1 <= s <= 1
    ensures var (v, c') := Wrap(b + s, c, n);
      0 <= v < n && c' * n + v == c * n + b + s && (c' == c || c' == c + s)
  {
    if b + s < 0 {
      assert (c - 1) * n == c * n - n;
    } else if b + s >= n {
      assert (c + 1) * n == c * n + n;
    }
  }

  lemma ConsAssoc<T>(x: T, a: seq<T>, b: seq<T>)
    ensures [x] + (a + b) == ([x] + a) + b
  {
  }

  lemma SlotCount(h: nat, v: nat)
    ensures h * v * h == h * h * v
  {
  }

  class Space {
    const grids: array<ChunkOccupation>
    const gridSize: nat
    const anchor: Vec3i
    const horizontalGrids: nat
    const verticalGrids: nat
    ghost var Repr: set<object>

    /** The slot array has one entry per chunk coordinate. */
    predicate Shaped()
    {
      grids.Length == horizontalGrids * horizontalGrids * verticalGrids
      && (grids.Length > 0 ==> horizontalGrids > 0 && verticalGrids > 0)
    }

    /** Slot `j` is empty, or holds a valid chunk of the space's size whose
        index is `j` and whose corner is the slot's low corner. */
    ghost predicate ChunkOk(j: int)
      reads this, grids, Repr
      requires 0 <= j < grids.Length && Shaped()
    {
      var o := grids[j];
      (o.occupied <==> o.chunk != null)
      && (o.occupied ==>
            o.chunk in Repr && o.chunk.voxels in Repr && o.chunk.Valid()
            && o.chunk.gridSize == gridSize && o.chunk.chunkIndex == j
            && o.chunk.low == ToVec3(GetChunkLow(Coordinates(j, horizontalGrids, verticalGrids))))
    }

    ghost predicate Valid()
      reads this, grids, Repr
    {
      this in Repr && grids in Repr && Shaped()
      && gridSize * gridSize * gridSize <= InvalidIndex
      && (forall j :: 0 <= j < grids.Length ==> ChunkOk(j))
      && (forall j, k ::
            (0 <= j < grids.Length && 0 <= k < grids.Length && j != k && grids[j].chunk != null && grids[k].chunk != null)
            ==> grids[j].chunk.voxels != grids[k].chunk.voxels)
    }

    /** The chunk in slot `j`. */
    function Chunk(j: nat): Grid
      reads this, grids, Repr
      requires Valid() && j < grids.Length && grids[j].occupied
      ensures Chunk(j) in Repr && Chunk(j).voxels in Repr && Chunk(j).Valid()
      ensures Chunk(j).gridSize == gridSize && Chunk(j).chunkIndex == j
    {
      assert ChunkOk(j);
      grids[j].chunk
    }

    /** `VDSpace(chunkSize, anchor, horizontalChunks, verticalChunks)`:
        every slot empty.  The chunk size is such that a chunk's voxel
        count fits in a `VDuint`. */
    constructor (chunkSize: nat, anchor: Vec3i, horizontalChunks: nat, verticalChunks: nat)
      requires chunkSize * chunkSize * chunkSize <= InvalidIndex
      ensures Valid() && fresh(grids)
      ensures gridSize == chunkSize && this.anchor == anchor
      ensures horizontalGrids == horizontalChunks && verticalGrids == verticalChunks
      ensures forall j :: 0 <= j < grids.Length ==> !grids[j].occupied
    {
      gridSize := chunkSize;
      this.anchor := anchor;
      horizontalGrids := horizontalChunks;
      verticalGrids := verticalChunks;
      var n := horizontalChunks * horizontalChunks * verticalChunks;
      grids := new ChunkOccupation[n](_ => ChunkOccupation(false, null));
      new;
      Repr := {this, grids};
      if horizontalChunks == 0 || verticalChunks == 0 {
        assert grids.Length == 0;
      }
    }

    /** `validateChunkCoord`. */
    predicate ValidateChunkCoord(c: Vec3i)
    {
      0 <= c.x < horizontalGrids && 0 <= c.y < verticalGrids && 0 <= c.z < horizontalGrids
    }

    /** `getIndex(chunkCoord)`: a valid coordinate has an index on the slot
        array that leads back to it. */
    function GetIndex(c: Vec3i): (i: int)
      ensures ValidateChunkCoord(c) ==>
        0 <= i < horizontalGrids * horizontalGrids * verticalGrids
        && Coordinates(i, horizontalGrids, verticalGrids) == c
    {
      var h, v := horizontalGrids, verticalGrids;
      if ValidateChunkCoord(c) then
        CoordinatesOfIndex(c, h, v);
        IndexBounds(c, h, v, h);
        SlotCount(h, v);
        CellIndex(c, h, v)
      else CellIndex(c, h, v)
    }

    /** `getCoordinates(index)`: an index on the slot array has a valid
        coordinate that leads back to it. */
    function GetCoordinates(i: int): (c: Vec3i)
      requires horizontalGrids > 0 && verticalGrids > 0
      ensures 0 <= i < horizontalGrids * horizontalGrids * verticalGrids ==>
        ValidateChunkCoord(c) && GetIndex(c) == i
    {
      var h, v := horizontalGrids, verticalGrids;
      if 0 <= i < h * h * v then
        SlotCount(h, v);
        CoordinatesInBox(i, h, v, h);
        IndexOfCoordinates(i, h, v);
        Coordinates(i, h, v)
      else Coordinates(i, h, v)
    }

    /** The coordinates that pass `validateChunkCoord` are exactly those that
        survive the trip through a slot index. */
    lemma {:induction false} ChunkCoordRoundTrip(c: Vec3i)
      requires horizontalGrids > 0 && verticalGrids > 0
      ensures ValidateChunkCoord(c) <==>
        (0 <= GetIndex(c) < horizontalGrids * horizontalGrids * verticalGrids
         && GetCoordinates(GetIndex(c)) == c)
    {
    }

    /** `getChunkLow`. */
    function GetChunkLow(c: Vec3i): Vec3i
    {
      AddI(anchor, ScaleI(c, gridSize))
    }

    /** `setChunkOccupied`: a valid coordinate gets a fresh empty chunk
        (replacing any chunk it had); any other coordinate changes nothing. */
    method SetChunkOccupied(c: Vec3i)
      requires Valid()
      modifies this, grids
      ensures Valid() && old(Repr) <= Repr
      ensures ValidateChunkCoord(c) ==>
        var g := grids[GetIndex(c)].chunk;
        grids[GetIndex(c)].occupied && g != null && fresh(g) && fresh(g.voxels) && g.occupiedVoxels == []
        && (forall i :: 0 <= i < g.voxels.Length ==> !g.voxels[i].occupied && g.voxels[i].colliders == [])
      ensures forall j :: 0 <= j < grids.Length && !(ValidateChunkCoord(c) && j == GetIndex(c)) ==> grids[j] == old(grids[j])
      ensures !ValidateChunkCoord(c) ==> Repr == old(Repr)
    {
      if ValidateChunkCoord(c) {
        var index := GetIndex(c);
        var g := new Grid(gridSize, ToVec3(GetChunkLow(c)), index);
        grids[index] := ChunkOccupation(true, g);
        Repr := Repr + {g, g.voxels};
        forall j | 0 <= j < grids.Length && j != index
          ensures ChunkOk(j) && grids[j] == old(grids[j])
        {
          assert old(ChunkOk(j));
        }
        assert ChunkOk(index);
      }
    }

    // ---- sampling ----

    /** The early returns of `sampleChunks`: the box starts beyond the far
        faces of the space or ends before its near faces. */
    predicate ChunksOutside(box: AABB)
    {
      var l := Sub(box.low, ToVec3(anchor));
      var h := Sub(box.high, ToVec3(anchor));
      l.x > (gridSize * horizontalGrids) as real || l.y > (gridSize * verticalGrids) as real
      || l.z > (gridSize * horizontalGrids) as real
      || h.x < 0.0 || h.y < 0.0 || h.z < 0.0
    }

    /** The chunk coordinates of the box's corners: truncated, then divided
        by the chunk size as C++ divides integers. */
    function ChunkRegionLow(box: AABB): Vec3i
      requires gridSize > 0
    {
      DivI(ToVec3i(Sub(box.low, ToVec3(anchor))), gridSize)
    }

    function ChunkRegionHigh(box: AABB): Vec3i
      requires gridSize > 0
    {
      DivI(ToVec3i(Sub(box.high, ToVec3(anchor))), gridSize)
    }

    /** Slot `j` is on the array and its coordinates lie between `lo` and `hi`. */
    predicate ChunkInRegion(j: int, lo: Vec3i, hi: Vec3i)
    {
      horizontalGrids > 0 && verticalGrids > 0 && 0 <= j < grids.Length
      && Between(lo, Coordinates(j, horizontalGrids, verticalGrids), hi)
    }

    /** The occupied slots `sampleChunks` returns for the box, as a set. */
    ghost function SampledChunks(box: AABB): set<nat>
      reads grids
      requires gridSize > 0
    {
      if ChunksOutside(box) then {}
      else (set j: nat | j < grids.Length && ChunkInRegion(j, ChunkRegionLow(box), ChunkRegionHigh(box))
                         && grids[j].occupied)
    }

    /** What the walk of `sampleChunks` has collected on reaching slot
        (x, y, z): each occupied slot of the region visited so far, once. */
    ghost predicate ChunksCollected(r: seq<nat>, lo: Vec3i, hi: Vec3i, x: int, y: int, z: int)
      reads grids
    {
      (forall j :: j in r <==> (ChunkInRegion(j, lo, hi) && grids[j].occupied
          && Visited(Coordinates(j, horizontalGrids, verticalGrids), x, y, z)))
      && (forall k :: 0 <= k < |r| ==> r[k] < grids.Length)
      && (forall k, l :: 0 <= k < l < |r| ==> r[k] != r[l])
    }

    lemma {:induction false} ChunksCollectedShift(r: seq<nat>, lo: Vec3i, hi: Vec3i,
                                                  x: int, y: int, z: int, x': int, y': int, z': int)
      requires ChunksCollected(r, lo, hi, x, y, z)
      requires forall c :: Between(lo, c, hi) ==> (Visited(c, x, y, z) <==> Visited(c, x', y', z'))
      ensures ChunksCollected(r, lo, hi, x', y', z')
    {
    }

    /** `sampleChunks`: the occupied chunks whose coordinates lie between
        the chunk coordinates of the box's corners, each once; nothing when
        the box misses the space.  A chunk is named by its slot index. */
    method SampleChunks(box: AABB) returns (r: seq<nat>)
      requires Shaped() && gridSize > 0
      ensures forall j :: j in r <==> j in SampledChunks(box)
      ensures forall k :: 0 <= k < |r| ==> r[k] < grids.Length && grids[r[k]].occupied
      ensures forall k, l :: 0 <= k < l < |r| ==> r[k] != r[l]
    {
      var low := Sub(box.low, ToVec3(anchor));
      if low.x > (gridSize * horizontalGrids) as real || low.y > (gridSize * verticalGrids) as real
         || low.z > (gridSize * horizontalGrids) as real {
        return [];
      }
      var high := Sub(box.high, ToVec3(anchor));
      if high.x < 0.0 || high.y < 0.0 || high.z < 0.0 {
        return [];
      }
      var lo := DivI(ToVec3i(low), gridSize);
      var hi := DivI(ToVec3i(high), gridSize);
      r := [];
      var x := lo.x;
      while x <= hi.x
        invariant lo.x <= x && (x <= hi.x + 1 || x == lo.x)
        invariant ChunksCollected(r, lo, hi, x, lo.y, lo.z)
      {
        var y := lo.y;
        while y <= hi.y
          invariant lo.y <= y && (y <= hi.y + 1 || y == lo.y)
          invariant ChunksCollected(r, lo, hi, x, y, lo.z)
        {
          r := SampleChunkRow(lo, hi, x, y, r);
          y := y + 1;
        }
        ChunksCollectedShift(r, lo, hi, x, y, lo.z, x + 1, lo.y, lo.z);
        x := x + 1;
      }
      ChunksCollectedShift(r, lo, hi, x, lo.y, lo.z, hi.x + 1, lo.y, lo.z);
    }

    /** The inner loop of `sampleChunks`. */
    method SampleChunkRow(lo: Vec3i, hi: Vec3i, x: int, y: int, r0: seq<nat>) returns (r: seq<nat>)
      requires Shaped() && lo.x <= x <= hi.x && lo.y <= y <= hi.y
      requires ChunksCollected(r0, lo, hi, x, y, lo.z)
      ensures ChunksCollected(r, lo, hi, x, y + 1, lo.z)
    {
      r := r0;
      var z := lo.z;
      while z <= hi.z
        invariant lo.z <= z && (z <= hi.z + 1 || z == lo.z)
        invariant ChunksCollected(r, lo, hi, x, y, z)
      {
        r := SampleChunkStep(lo, hi, x, y, z, r);
        z := z + 1;
      }
      ChunksCollectedShift(r, lo, hi, x, y, z, x, y + 1, lo.z);
    }

    /** The body of the inner loop: slot (x, y, z), when it is valid and
        occupied. */
    method SampleChunkStep(lo: Vec3i, hi: Vec3i, x: int, y: int, z: int, r0: seq<nat>) returns (r: seq<nat>)
      requires Shaped() && lo.x <= x <= hi.x && lo.y <= y <= hi.y && lo.z <= z <= hi.z
      requires ChunksCollected(r0, lo, hi, x, y, z)
      ensures ChunksCollected(r, lo, hi, x, y, z + 1)
    {
      r := r0;
      var c := Vec3i(x, y, z);
      var taken := false;
      var index := 0;
      if ValidateChunkCoord(c) {
        index := GetIndex(c);
        forall j | ChunkInRegion(j, lo, hi) && Coordinates(j, horizontalGrids, verticalGrids) == c
          ensures j == index
        {
          IndexOfCoordinates(j, horizontalGrids, verticalGrids);
        }
        if grids[index].occupied {
          r := [index] + r;
          taken := true;
        }
      } else {
        forall j | ChunkInRegion(j, lo, hi)
          ensures Coordinates(j, horizontalGrids, verticalGrids) != c
        {
          SlotCount(horizontalGrids, verticalGrids);
          CoordinatesInBox(j, horizontalGrids, verticalGrids, horizontalGrids);
        }
      }
      ChunksCollectedStep(lo, hi, x, y, z, r0, r, index, taken);
    }

    lemma {:induction false} ChunksCollectedStep(lo: Vec3i, hi: Vec3i, x: int, y: int, z: int,
                                                 r0: seq<nat>, r: seq<nat>, index: int, taken: bool)
      requires ChunksCollected(r0, lo, hi, x, y, z)
      requires forall j :: ChunkInRegion(j, lo, hi) && Coordinates(j, horizontalGrids, verticalGrids) == Vec3i(x, y, z) ==>
        j == index
      requires taken ==> (ChunkInRegion(index, lo, hi)
        && Coordinates(index, horizontalGrids, verticalGrids) == Vec3i(x, y, z) && grids[index].occupied)
      requires !taken ==> forall j :: ChunkInRegion(j, lo, hi) && Coordinates(j, horizontalGrids, verticalGrids) == Vec3i(x, y, z) ==>
        !grids[j].occupied
      requires r == if taken then [index] + r0 else r0
      ensures ChunksCollected(r, lo, hi, x, y, z + 1)
    {
      forall j
        ensures j in r <==> (ChunkInRegion(j, lo, hi) && grids[j].occupied
          && Visited(Coordinates(j, horizontalGrids, verticalGrids), x, y, z + 1))
      {
        if ChunkInRegion(j, lo, hi) {
          var c := Coordinates(j, horizontalGrids, verticalGrids);
          assert Visited(c, x, y, z + 1) <==> Visited(c, x, y, z) || c == Vec3i(x, y, z);
        }
      }
    }

    /** Voxel `v` is an occupied voxel of the box's region in one of the
        chunks `js`. */
    ghost predicate Found(v: VoxelRef, js: set<nat>, box: AABB)
      reads this, grids, Repr
      requires Valid() && forall j :: j in js ==> j < grids.Length && grids[j].occupied
    {
      v.chunk in js && v.index in Chunk(v.chunk).RegionVoxels(box) && Chunk(v.chunk).voxels[v.index].occupied
    }

    /** Collider `c` is registered in a voxel of the box's region in chunk `j`. */
    ghost predicate RegionHolds(j: nat, box: AABB, c: int)
      reads this, grids, Repr
      requires Valid() && j < grids.Length && grids[j].occupied
    {
      exists i :: i in Chunk(j).RegionVoxels(box) && c in Chunk(j).voxels[i].colliders
    }

    /** `sampled` holds exactly the occupied voxels of the box's region. */
    ghost predicate VoxelsOf(box: AABB, sampled: seq<VoxelRef>)
      reads this, grids, Repr
      requires Valid() && gridSize > 0
    {
      forall v :: v in sampled <==> Found(v, SampledChunks(box), box)
    }

    /** `unique` holds exactly the colliders registered in the box's region. */
    ghost predicate CollidersOf(box: AABB, unique: seq<int>)
      reads this, grids, Repr
      requires Valid() && gridSize > 0
    {
      forall c :: c in unique <==> exists j :: j in SampledChunks(box) && RegionHolds(j, box, c)
    }

    /** `sampleOccupiedRegion`: the three-argument walk of every sampled
        chunk in turn.  The new entries of `sampled` are exactly the occupied
        voxels of the box's region over all its chunks, and a strictly
        increasing `unique` gains exactly the colliders registered there. */
    method SampleOccupiedRegion(box: AABB, sampled: seq<VoxelRef>, unique: seq<int>)
      returns (sampled': seq<VoxelRef>, unique': seq<int>)
      requires Valid() && gridSize > 0
      ensures |sampled'| >= |sampled| && sampled'[|sampled'| - |sampled|..] == sampled
      ensures forall v :: v in sampled'[..|sampled'| - |sampled|] <==> Found(v, SampledChunks(box), box)
      ensures StrictlySorted(unique) ==> (StrictlySorted(unique')
        && forall c :: c in unique' <==> (c in unique || exists j :: j in SampledChunks(box) && RegionHolds(j, box, c)))
    {
      var chunks := SampleChunks(box);
      sampled', unique' := sampled, unique;
      ghost var done: set<nat> := {};
      assert sampled'[..|sampled'| - |sampled|] == [];
      assert SampledSoFar(box, done, sampled, unique, sampled', unique');
      var k := 0;
      while k < |chunks|
        invariant 0 <= k <= |chunks|
        invariant done == Elems(chunks[..k]) && done <= SampledChunks(box)
        invariant SampledSoFar(box, done, sampled, unique, sampled', unique')
      {
        var j := chunks[k];
        assert chunks[..k + 1] == chunks[..k] + [j];
        sampled', unique' := SampleOneChunk(box, j, done, sampled, unique, sampled', unique');
        done := done + {j};
        k := k + 1;
      }
      assert chunks[..k] == chunks;
      assert done == SampledChunks(box);
    }

    /** What the walk of `sampleOccupiedRegion` has produced once the chunks
        `done` are walked. */
    ghost predicate SampledSoFar(box: AABB, done: set<nat>, sampled: seq<VoxelRef>, unique: seq<int>,
                                 sampled': seq<VoxelRef>, unique': seq<int>)
      reads this, grids, Repr
      requires Valid() && forall j :: j in done ==> j < grids.Length && grids[j].occupied
    {
      |sampled'| >= |sampled| && sampled'[|sampled'| - |sampled|..] == sampled
      && (forall v :: v in sampled'[..|sampled'| - |sampled|] <==> Found(v, done, box))
      && (StrictlySorted(unique) ==> (StrictlySorted(unique')
            && forall c :: c in unique' <==> (c in unique || exists j :: j in done && RegionHolds(j, box, c))))
    }

    /** One step of `sampleOccupiedRegion`: the walk of chunk `j`. */
    method SampleOneChunk(box: AABB, j: nat, ghost done: set<nat>, sampled: seq<VoxelRef>, unique: seq<int>,
                          s: seq<VoxelRef>, u: seq<int>)
      returns (s': seq<VoxelRef>, u': seq<int>)
      requires Valid() && j < grids.Length && grids[j].occupied
      requires forall j' :: j' in done ==> j' < grids.Length && grids[j'].occupied
      requires SampledSoFar(box, done, sampled, unique, s, u)
      ensures SampledSoFar(box, done + {j}, sampled, unique, s', u')
    {
      var g := Chunk(j);
      s', u' := g.SampleWithColliders(box, s, u);
      assert s'[..|s'| - |sampled|] == s'[..|s'| - |s|] + s[..|s| - |sampled|];
      assert s'[|s'| - |sampled|..] == s'[|s'| - |s|..][|s| - |sampled|..];
      forall v
        ensures v in s'[..|s'| - |sampled|] <==> Found(v, done + {j}, box)
      {
        assert v in s'[..|s'| - |s|] <==> Found(v, {j}, box);
        assert v in s[..|s| - |sampled|] <==> Found(v, done, box);
        assert Found(v, done + {j}, box) <==> Found(v, done, box) || Found(v, {j}, box);
      }
      if StrictlySorted(unique) {
        forall c
          ensures c in u' <==> (c in unique || exists j' :: j' in done + {j} && RegionHolds(j', box, c))
        {
          assert (exists i :: i in g.RegionVoxels(box) && c in g.voxels[i].colliders) <==> RegionHolds(j, box, c);
        }
      }
    }

    // ---- colliders ----

    /** The voxel arrays of the space's chunks: what registering a collider
        writes to. */
    ghost function VoxelArrays(): set<object>
      reads this, grids
    {
      set j | 0 <= j < grids.Length && grids[j].chunk != null :: grids[j].chunk.voxels
    }

    /** The membership lists `ms` name each chunk of `js` once and no other
        chunk, and list for each its voxels of the box's region, increasing. */
    ghost predicate Memberships(ms: seq<ChunkMembership>, js: set<nat>, box: AABB)
      reads this, grids
    {
      Ids(ms) == js
      && (forall k :: 0 <= k < |ms| ==>
            ms[k].id < grids.Length && grids[ms[k].id].chunk != null
            && StrictlySorted(ms[k].voxels) && Elems(ms[k].voxels) == grids[ms[k].id].chunk.RegionVoxels(box))
      && (forall k, l :: 0 <= k < l < |ms| ==> ms[k].id != ms[l].id)
    }

    /** The contents of every chunk's voxel array, by slot. */
    ghost function Snapshot(): map<nat, seq<Voxel>>
      reads this, grids, VoxelArrays()
    {
      map j: nat | j < grids.Length && grids[j].chunk != null :: grids[j].chunk.voxels[..]
    }

    /** Every voxel is as in `snap`, except that the voxels of the box's
        region in the chunks `done` hold collider `id` as well. */
    ghost predicate RegisteredIn(snap: map<nat, seq<Voxel>>, done: set<nat>, box: AABB, id: int)
      reads this, grids, VoxelArrays()
    {
      (forall j: nat :: j < grids.Length && grids[j].chunk != null ==>
         j in snap && |snap[j]| == grids[j].chunk.voxels.Length)
      && (forall j: nat, i :: j < grids.Length && grids[j].chunk != null && 0 <= i < grids[j].chunk.voxels.Length ==>
            grids[j].chunk.voxels[i] == if j in done && i in grids[j].chunk.RegionVoxels(box)
              then WithCollider(snap[j][i], id) else snap[j][i])
    }

    /** `insertCollider`: for every sampled chunk, a new membership list at
        the head of the collider's `occupiedChunks`, whose id is the chunk's
        index, filled by the chunk's `insertCollider`.  The collider joins
        every voxel of its region in every sampled chunk and no other. */
    method InsertCollider(body: Body)
      requires Valid() && gridSize > 0 && body !in Repr
      modifies body, VoxelArrays()
      ensures Valid() && body.Motion() == old(body.Motion())
      ensures |body.occupiedChunks| >= |old(body.occupiedChunks)|
      ensures body.occupiedChunks[|body.occupiedChunks| - |old(body.occupiedChunks)|..] == old(body.occupiedChunks)
      ensures Memberships(body.occupiedChunks[..|body.occupiedChunks| - |old(body.occupiedChunks)|],
                          SampledChunks(body.box), body.box)
      ensures forall j, i :: 0 <= j < grids.Length && grids[j].chunk != null && 0 <= i < grids[j].chunk.voxels.Length ==>
        grids[j].chunk.voxels[i] == if j in SampledChunks(body.box) && i in grids[j].chunk.RegionVoxels(body.box)
          then WithCollider(old(grids[j].chunk.voxels[i]), body.id) else old(grids[j].chunk.voxels[i])
    {
      var chunks := SampleChunks(body.box);
      ghost var snap: map<nat, seq<Voxel>> := Snapshot();
      ghost var added := RegisterAll(body, chunks, snap);
      assert Elems(chunks) == SampledChunks(body.box);
      assert body.occupiedChunks[..|body.occupiedChunks| - |old(body.occupiedChunks)|] == added;
      assert body.occupiedChunks[|body.occupiedChunks| - |old(body.occupiedChunks)|..] == old(body.occupiedChunks);
      forall j, i | 0 <= j < grids.Length && grids[j].chunk != null && 0 <= i < grids[j].chunk.voxels.Length
        ensures old(grids[j].chunk.voxels[i]) == snap[j][i]
      {
      }
    }

    /** The loop of `insertCollider` over the sampled chunks. */
    method RegisterAll(body: Body, chunks: seq<nat>, ghost snap: map<nat, seq<Voxel>>)
      returns (ghost added: seq<ChunkMembership>)
      requires Valid() && body !in Repr
      requires forall k :: 0 <= k < |chunks| ==> chunks[k] < grids.Length && grids[chunks[k]].occupied
      requires forall k, l :: 0 <= k < l < |chunks| ==> chunks[k] != chunks[l]
      requires RegisteredIn(snap, {}, body.box, body.id)
      modifies body, VoxelArrays()
      ensures Valid() && body.Motion() == old(body.Motion())
      ensures body.occupiedChunks == added + old(body.occupiedChunks)
      ensures Memberships(added, Elems(chunks), body.box)
      ensures RegisteredIn(snap, Elems(chunks), body.box, body.id)
    {
      added := [];
      ghost var done: set<nat> := {};
      var k := 0;
      while k < |chunks|
        invariant 0 <= k <= |chunks| && Valid() && body.Motion() == old(body.Motion())
        invariant done == Elems(chunks[..k])
        invariant body.occupiedChunks == added + old(body.occupiedChunks)
        invariant Memberships(added, done, body.box)
        invariant RegisteredIn(snap, done, body.box, body.id)
      {
        var j := chunks[k];
        assert chunks[..k + 1] == chunks[..k] + [j];
        assert j !in done;
        var m := RegisterStep(body, j, added, done, snap);
        ConsAssoc(m, added, old(body.occupiedChunks));
        added := [m] + added;
        done := done + {j};
        k := k + 1;
      }
      assert chunks[..k] == chunks;
    }

    /** One step of the loop of `insertCollider`, in terms of the loop's
        invariants: membership list `m` for chunk `j` joins the head. */
    method RegisterStep(body: Body, j: nat, ghost added: seq<ChunkMembership>, ghost done: set<nat>,
                        ghost snap: map<nat, seq<Voxel>>)
      returns (m: ChunkMembership)
      requires Valid() && body !in Repr && j < grids.Length && grids[j].occupied && j !in done
      requires Memberships(added, done, body.box)
      requires RegisteredIn(snap, done, body.box, body.id)
      modifies body, Chunk(j).voxels
      ensures Valid() && body.Motion() == old(body.Motion())
      ensures body.occupiedChunks == [m] + old(body.occupiedChunks)
      ensures Memberships([m] + added, done + {j}, body.box)
      ensures RegisteredIn(snap, done + {j}, body.box, body.id)
    {
      var r := RegisterInChunk(body.id, body.box, j, done, snap);
      m := ChunkMembership(j, r);
      label Mid:
      body.occupiedChunks := [m] + body.occupiedChunks;
      assert Valid() by { assert old@Mid(Valid()); }
      assert RegisteredIn(snap, done + {j}, body.box, body.id) by { assert old@Mid(RegisteredIn(snap, done + {j}, body.box, body.id)); }
      MembershipsCons(m, added, done, body.box);
    }

    /** The body of the loop of `insertCollider`: chunk `j` registers the
        collider in the voxels of its region and lists them in `r`. */
    method RegisterInChunk(id: int, box: AABB, j: nat, ghost done: set<nat>, ghost snap: map<nat, seq<Voxel>>)
      returns (r: seq<int>)
      requires Valid() && j < grids.Length && grids[j].occupied && j !in done
      requires RegisteredIn(snap, done, box, id)
      modifies Chunk(j).voxels
      ensures Valid()
      ensures StrictlySorted(r) && Elems(r) == Chunk(j).RegionVoxels(box)
      ensures RegisteredIn(snap, done + {j}, box, id)
    {
      var g := Chunk(j);
      r := g.InsertCollider(id, box, []);
      forall j' | 0 <= j' < grids.Length && j' != j
        ensures ChunkOk(j')
      {
        assert old(ChunkOk(j'));
      }
      assert old(ChunkOk(j));
      assert grids[j] == old(grids[j]) && Repr == old(Repr);
      assert g.Valid() && g in Repr && g.voxels in Repr;
      assert ChunkOk(j);
      forall j': nat, i: int | j' < grids.Length && grids[j'].chunk != null && 0 <= i < grids[j'].chunk.voxels.Length
        ensures grids[j'].chunk.voxels[i] == if j' in done + {j} && i in grids[j'].chunk.RegionVoxels(box)
          then WithCollider(snap[j'][i], id) else snap[j'][i]
      {
        assert old(grids[j'].chunk.voxels[i]) == if j' in done && i in grids[j'].chunk.RegionVoxels(box)
          then WithCollider(snap[j'][i], id) else snap[j'][i];
        if j' != j {
          assert old(grids[j'].chunk.voxels) != old(grids[j].chunk.voxels);
        }
      }
      assert RegisteredIn(snap, done + {j}, box, id);
    }

    lemma {:induction false} MembershipsCons(m: ChunkMembership, ms: seq<ChunkMembership>, js: set<nat>, box: AABB)
      requires Memberships(ms, js, box) && m.id !in js
      requires m.id < grids.Length && grids[m.id].chunk != null
      requires StrictlySorted(m.voxels) && Elems(m.voxels) == grids[m.id].chunk.RegionVoxels(box)
      ensures Memberships([m] + ms, js + {m.id}, box)
    {
      var ms' := [m] + ms;
      assert ms'[1..] == ms;
      forall k | 0 < k < |ms'|
        ensures ms'[k] == ms[k - 1]
      {
      }
      forall k, l | 0 <= k < l < |ms'|
        ensures ms'[k].id != ms'[l].id
      {
        if k == 0 {
          IdsHas(ms, l - 1);
        } else {
          assert ms[k - 1].id != ms[l - 1].id;
        }
      }
    }

    /** Every membership list names an occupied slot and voxels of its
        chunk: what `removeCollider` looks up without checking. */
    ghost predicate Listed(ms: seq<ChunkMembership>)
      reads this, grids
    {
      forall k :: 0 <= k < |ms| ==>
        ms[k].id < grids.Length && grids[ms[k].id].chunk != null
        && forall l :: 0 <= l < |ms[k].voxels| ==> 0 <= ms[k].voxels[l] < grids[ms[k].id].chunk.voxels.Length
    }

    /** Lists that describe a registration name only voxels that exist, so
        `removeCollider` can later walk them. */
    lemma {:induction false} MembershipsListed(ms: seq<ChunkMembership>, js: set<nat>, box: AABB)
      requires Valid() && Memberships(ms, js, box)
      ensures Listed(ms)
    {
      forall k, l | 0 <= k < |ms| && 0 <= l < |ms[k].voxels|
        ensures 0 <= ms[k].voxels[l] < grids[ms[k].id].chunk.voxels.Length
      {
        assert ChunkOk(ms[k].id);
        assert ms[k].voxels[l] in Elems(ms[k].voxels);
      }
    }

    /** Voxel `i` of chunk `j` is on one of the membership lists. */
    ghost predicate ListedAt(ms: seq<ChunkMembership>, j: int, i: int)
    {
      |ms| > 0 && ((ms[|ms| - 1].id == j && i in ms[|ms| - 1].voxels) || ListedAt(ms[..|ms| - 1], j, i))
    }

    /** Every voxel is as in `snap`, except that the voxels on the lists
        `ms` no longer hold collider `id`. */
    ghost predicate RemovedIn(snap: map<nat, seq<Voxel>>, ms: seq<ChunkMembership>, id: int)
      reads this, grids, VoxelArrays()
    {
      (forall j: nat :: j < grids.Length && grids[j].chunk != null ==>
         j in snap && |snap[j]| == grids[j].chunk.voxels.Length)
      && (forall j: nat, i :: j < grids.Length && grids[j].chunk != null && 0 <= i < grids[j].chunk.voxels.Length ==>
            StrictlySorted(snap[j][i].colliders)
            && grids[j].chunk.voxels[i] == if ListedAt(ms, j, i) then WithoutCollider(snap[j][i], id) else snap[j][i])
    }

    /** `removeCollider`: the collider leaves every voxel on its membership
        lists, through each chunk's `removeCollider`, and the lists are
        freed. */
    method RemoveCollider(body: Body)
      requires Valid() && body !in Repr && Listed(body.occupiedChunks)
      modifies body, VoxelArrays()
      ensures Valid() && body.Motion() == old(body.Motion()) && body.occupiedChunks == []
      ensures forall j, i :: 0 <= j < grids.Length && grids[j].chunk != null && 0 <= i < grids[j].chunk.voxels.Length ==>
        grids[j].chunk.voxels[i] == if ListedAt(old(body.occupiedChunks), j, i)
          then WithoutCollider(old(grids[j].chunk.voxels[i]), body.id) else old(grids[j].chunk.voxels[i])
    {
      ghost var snap: map<nat, seq<Voxel>> := Snapshot();
      NothingRemovedYet(body.id);
      UnregisterAll(body.id, body.occupiedChunks, snap);
      body.occupiedChunks := [];
      forall j, i | 0 <= j < grids.Length && grids[j].chunk != null && 0 <= i < grids[j].chunk.voxels.Length
        ensures old(grids[j].chunk.voxels[i]) == snap[j][i]
      {
      }
    }

    lemma NothingRemovedYet(id: int)
      requires Valid()
      ensures RemovedIn(Snapshot(), [], id)
    {
      var snap: map<nat, seq<Voxel>> := Snapshot();
      forall j: nat, i: int | j < grids.Length && grids[j].chunk != null && 0 <= i < grids[j].chunk.voxels.Length
        ensures StrictlySorted(snap[j][i].colliders)
      {
        assert ChunkOk(j) && grids[j].chunk.Placed(i);
      }
    }

    /** The loop of `removeCollider` over the membership lists. */
    method UnregisterAll(id: int, ms: seq<ChunkMembership>, ghost snap: map<nat, seq<Voxel>>)
      requires Valid() && Listed(ms) && RemovedIn(snap, [], id)
      modifies VoxelArrays()
      ensures Valid() && RemovedIn(snap, ms, id)
    {
      assert ms[..0] == [];
      var k := 0;
      while k < |ms|
        invariant 0 <= k <= |ms| && Valid()
        invariant RemovedIn(snap, ms[..k], id)
      {
        UnregisterStep(id, ms, k, snap);
        k := k + 1;
      }
      assert ms[..k] == ms;
    }

    /** One step of the loop of `removeCollider`: list `k`. */
    method UnregisterStep(id: int, ms: seq<ChunkMembership>, k: nat, ghost snap: map<nat, seq<Voxel>>)
      requires Valid() && Listed(ms) && k < |ms|
      requires RemovedIn(snap, ms[..k], id)
      modifies VoxelArrays()
      ensures Valid() && RemovedIn(snap, ms[..k + 1], id)
    {
      var m := ms[k];
      var j := m.id;
      assert ChunkOk(j);
      UnregisterInChunk(id, j, m.voxels);
      forall j': nat, i: int | j' < grids.Length && grids[j'].chunk != null && 0 <= i < grids[j'].chunk.voxels.Length
        ensures grids[j'].chunk.voxels[i] == if ListedAt(ms[..k + 1], j', i)
          then WithoutCollider(snap[j'][i], id) else snap[j'][i]
      {
        assert ms[..k + 1][..k] == ms[..k];
        if j' == j && i in m.voxels {
          RemoveSortedTwice(snap[j'][i].colliders, id);
        } else if j' != j {
          assert old(grids[j'].chunk.voxels) != old(grids[j].chunk.voxels);
        }
      }
      assert RemovedIn(snap, ms[..k + 1], id);
    }

    /** The body of the loop of `removeCollider`: chunk `j` drops the
        collider from the listed voxels. */
    method UnregisterInChunk(id: int, j: nat, occ: seq<int>)
      requires Valid() && j < grids.Length && grids[j].occupied
      requires forall l :: 0 <= l < |occ| ==> 0 <= occ[l] < Chunk(j).voxels.Length
      modifies Chunk(j).voxels
      ensures Valid()
      ensures forall i :: 0 <= i < Chunk(j).voxels.Length ==>
        Chunk(j).voxels[i] == if i in occ then WithoutCollider(old(Chunk(j).voxels[i]), id) else old(Chunk(j).voxels[i])
    {
      var g := Chunk(j);
      var _ := g.RemoveCollider(id, occ);
      forall j' | 0 <= j' < grids.Length && j' != j
        ensures ChunkOk(j')
      {
        assert old(ChunkOk(j'));
      }
      assert old(ChunkOk(j));
      assert grids[j] == old(grids[j]) && Repr == old(Repr);
      assert g.Valid() && g in Repr && g.voxels in Repr;
      assert ChunkOk(j);
    }

    /** `updateCollider`: remove, then insert.  The collider's lists end up
        naming exactly the chunks and voxels of its new region, and every
        voxel is updated as `Updated` says. */
    method UpdateCollider(body: Body)
      requires Valid() && gridSize > 0 && body !in Repr && Listed(body.occupiedChunks)
      modifies body, VoxelArrays()
      ensures Valid() && body.Motion() == old(body.Motion())
      ensures Memberships(body.occupiedChunks, SampledChunks(body.box), body.box)
      ensures forall j, i :: 0 <= j < grids.Length && grids[j].chunk != null && 0 <= i < grids[j].chunk.voxels.Length ==>
        grids[j].chunk.voxels[i] == Updated(old(grids[j].chunk.voxels[i]), body.id, ListedAt(old(body.occupiedChunks), j, i),
                                            j in SampledChunks(body.box) && i in grids[j].chunk.RegionVoxels(body.box))
    {
      RemoveCollider(body);
      InsertCollider(body);
      assert body.occupiedChunks[..|body.occupiedChunks| - 0] == body.occupiedChunks;
    }

    // ---- stepping across chunk boundaries ----

    /** `moveIndex` as written: its first guard, `chunkIndex < chunkMax`,
        returns the sentinel (-1, -1, -1) for every slot on the array, and
        a slot index past the guard is read out of bounds (`None`). */
    function MoveIndexAsWritten(index: nat, chunkCoord: Vec3i, d: Direction): (r: Option<Vec3i>)
      ensures r.Some? ==> r.value == Vec3i(-1, -1, -1)
    {
      var chunkIndex := GetIndex(chunkCoord) % Modulus;
      var chunkMax := (horizontalGrids * horizontalGrids * verticalGrids) % Modulus;
      if chunkIndex < chunkMax then Some(Vec3i(-1, -1, -1))
      else None
    }

    /** The guard as written never lets a chunk through: every valid
        chunk coordinate gets the sentinel. */
    lemma MoveIndexAsWrittenNeverMoves(index: nat, chunkCoord: Vec3i, d: Direction)
      requires horizontalGrids * horizontalGrids * verticalGrids <= InvalidIndex
      requires ValidateChunkCoord(chunkCoord)
      ensures MoveIndexAsWritten(index, chunkCoord, d) == Some(Vec3i(-1, -1, -1))
    {
    }

    /** `moveIndex` with the guard inverted to `chunkIndex >= chunkMax`:
        a slot index off the array or an empty slot gives the sentinel
        (`None`); otherwise the voxel's coordinates in its chunk take one
        step and, on leaving the chunk, wrap to the opposite face of the
        neighbouring chunk.  The result is the new voxel coordinates and
        the new chunk coordinates. */
    function MoveIndex(index: nat, chunkCoord: Vec3i, d: Direction): (r: Option<(Vec3i, Vec3i)>)
      reads grids
      requires Shaped() && gridSize > 0
    {
      var chunkIndex := GetIndex(chunkCoord) % Modulus;
      var chunkMax := horizontalGrids * horizontalGrids * verticalGrids;
      if chunkIndex >= chunkMax then None
      else if !grids[chunkIndex].occupied then None
      else
        var v := AddI(Coordinates(index, gridSize, gridSize), Step(d));
        var (x, cx) := Wrap(v.x, chunkCoord.x, gridSize);
        var (y, cy) := Wrap(v.y, chunkCoord.y, gridSize);
        var (z, cz) := Wrap(v.z, chunkCoord.z, gridSize);
        Some((Vec3i(x, y, z), Vec3i(cx, cy, cz)))
    }

    /** The corrected `moveIndex` moves from every occupied slot: a voxel
        of a chunk ends on a voxel of the same or the neighbouring chunk in
        the direction of the step, one step further along in the space's
        global voxel grid. */
    lemma {:induction false} MoveIndexSteps(index: nat, chunkCoord: Vec3i, d: Direction)
      requires Shaped() && gridSize > 0 && index < gridSize * gridSize * gridSize
      requires horizontalGrids * horizontalGrids * verticalGrids <= InvalidIndex
      requires 0 <= GetIndex(chunkCoord) < horizontalGrids * horizontalGrids * verticalGrids
      requires grids[GetIndex(chunkCoord)].occupied
      ensures MoveIndex(index, chunkCoord, d).Some?
      ensures var (v, c) := MoveIndex(index, chunkCoord, d).value;
        InBox(v, gridSize, gridSize, gridSize)
        && AddI(ScaleI(c, gridSize), v)
           == AddI(AddI(ScaleI(chunkCoord, gridSize), Coordinates(index, gridSize, gridSize)), Step(d))
        && (c == chunkCoord || c == AddI(chunkCoord, Step(d)))
    {
      var n := gridSize;
      assert GetIndex(chunkCoord) % Modulus == GetIndex(chunkCoord);
      CoordinatesInBox(index, n, n, n);
      var o := Coordinates(index, n, n);
      var s := Step(d);
      var v := AddI(o, s);
      WrapAxis(o.x, s.x, chunkCoord.x, n);
      WrapAxis(o.y, s.y, chunkCoord.y, n);
      WrapAxis(o.z, s.z, chunkCoord.z, n);
      var (x, cx) := Wrap(v.x, chunkCoord.x, n);
      var (y, cy) := Wrap(v.y, chunkCoord.y, n);
      var (z, cz) := Wrap(v.z, chunkCoord.z, n);
      assert MoveIndex(index, chunkCoord, d) == Some((Vec3i(x, y, z), Vec3i(cx, cy, cz)));
    }
  }
}

=== FILE: wrappers.dfy ===
/** Optional values and results with an error message. */
module Wrappers {

  datatype Option<T> = None | Some(value: T)

  datatype Result<T> = Ok(value: T) | Err(msg: string)
}
